=== FILE: README.md ===
# CompanySearch scripts: a Dafny model of the pure core

CompanySearch is a set of Node scripts. They collect French company identifiers (SIRENs) from two company
registries: the Pappers API and the public `recherche-entreprises` search. They then enrich each company with
its directors and write semicolon-separated CSV files, usually keeping only directors born before a cutoff.
The scripts are near-duplicates of each other. Each variant is modelled as written, so two scripts that
differ in one detail give two definitions.

This project models the logic between the HTTP calls:

- date parsing, comparison and age;
- CSV escaping, rows and whole documents, including a reader that recovers cell texts;
- the SIREN-list loaders;
- command-line and environment parsing with JavaScript's coercions (`parseInt`, `Number`, truthiness);
- the company and director filters and the row each script writes;
- the hospitality keyword classifier of `fetch_idf_interim.js`;
- the page-number and cursor walks of the search loops, with their error exits;
- the volume aggregation of `estimate_idf_advanced.js`.

Everything the scripts receive from outside becomes a parameter:

- the registry's answer to each company lookup is a `map` from SIREN to JSON value, where a missing key is a
  failed request;
- the replies of a paginated search are a sequence of replies: a body, a 429, or a failure;
- the content of the input file is a string;
- the current date and year, and the formatting of amounts, are parameters too.

A run's outcome is a datatype: the file written (name and content), a crash, a help exit, or `Incomplete`,
which means the given replies ran out before the loop ended.

Modules:

| module | what it holds |
|---|---|
| `Wrappers` | `Option` and `Result` |
| `Text` | digits, `String(n)`, `trim`, `toLowerCase`, `split` and `join`, line splitting |
| `Seqs` | the insertion-ordered `Set` (`Insert`, `InsertAll`, `Dedupe`), `Chunks`, `Flatten`, `Sum` |
| `Js` | the JSON value (`Null`, `Bool`, `Num`, `Str`, `Arr`, `Obj`), truthiness, `a \|\| b`, `String(v)` |
| `Cli` | `--key=value` parsing, `parseInt`, `Number`, `parseInt(x) \|\| d`, `v.split(',')` |
| `Csv` | `csvEscape`, `toCsvRow`, documents, and a reader of the `;`-separated dialect |
| `Dates` | the `parseFlexibleDate` variants, `extractYear`, `parseBirthYear`, `parseYear`, `cmpDates`, `calcAgeAt` |
| `SirenInput` | the list file the fetchers write and the five loaders that read it |
| `Records` | the registry, common director columns, the generic walk over `representants` |
| `Search` | search replies, the two cursor walks, the SIREN a hit yields |

There is one module per script: `BuildPappers`, `FromList`, `IdfAll`, `CompaniesOnly`, `FilterByDob`,
`PappersFromCsv`, `PappersAdvanced`, `SeniorsSimple`, `SeniorsEco`, `IdfAdvanced`, `SirensGouv`,
`Estimate` and `Interim`.

Where the scripts' own comments or help text promise something the code does not do, the model follows the
code:

- `enrich_pappers_advanced.js` treats a `--date` that does not parse as no cutoff at all; the run goes on.
- The same script keeps a natural person whose birth date does not parse, even under a cutoff.
- Its `--ville` entries are lower-cased but not trimmed.
- `fetch_idf_interim.js` has no guard against a cursor that repeats; `build_pappers.js` has one.
- `filter_dirigeants_by_dob.js` and `enrich_pappers_from_csv.js` compare the parsed dates with `cmpDates`. A
  year-only birth date therefore counts as 1 January of that year, not as "year before the cutoff's year".

## Model

| member | source | states |
|---|---|---|
| Text.NatToString | scripts/enrich_seniors_eco.js:261 | `String(n)` of a natural number is its shortest decimal spelling, and reading those digits back gives `n` |
| Text.IntToString | scripts/build_pappers.js:34 | `String(n)` of any integer is digits with a leading `-` exactly for negatives, and reads back as `n` |
| Text.StripNonDigits | scripts/enrich_pappers_from_csv.js:96 | `replace(/\D/g,'')` keeps only digits, never lengthens, and leaves an all-digit string unchanged |
| Text.StripNonDigitsAppend | scripts/enrich_pappers_advanced.js:18 | removing non-digits distributes over concatenation |
| Text.Trim | scripts/enrich_from_list.js:30 | `trim()` is the slice left after removing leading and trailing whitespace; the result neither starts nor ends with whitespace |
| Text.TrimIdentity | scripts/enrich_from_list.js:30 | a string with no surrounding whitespace is its own trim |
| Text.Lower | scripts/enrich_pappers_advanced.js:31 | `toLowerCase` keeps the length, leaves no capital, and changes exactly the capitals |
| Text.LowerIdempotent | scripts/fetch_idf_interim.js:79 | lower-casing twice is lower-casing once |
| Text.SplitAny | scripts/enrich_seniors_eco.js:86 | `split` on a one-character class gives at least one piece, pieces hold no separator, and the first piece is a prefix ending at a separator or the end |
| Text.JoinSplit | scripts/fetch_idf_advanced.js:22 | joining the pieces of `split(c)` with `c` gives back the string |
| Text.SplitJoin | scripts/fetch_idf_advanced.js:22 | splitting a join of separator-free parts gives back the parts |
| Text.SplitLines | scripts/enrich_from_list.js:28 | `split(/\r?\n/)` is `split('\n')` with a final carriage return dropped from every piece but the last |
| Text.SplitLinesJoin | scripts/fetch_sirens_gouv.js:45 | lines without line feeds, none but the last ending in `\r`, survive a join and a line split |
| Seqs.Insert | scripts/fetch_sirens_gouv.js:37 | `set.add(x)` keeps the set duplicate-free, extends it, and its members are the old ones plus `x` |
| Seqs.InsertAll | scripts/fetch_idf_advanced.js:167-168 | adding many keeps the set duplicate-free and its members are the old ones plus the new |
| Seqs.Dedupe | scripts/enrich_pappers_from_csv.js:99 | `Array.from(new Set(xs))` has no duplicates and the same members as `xs` |
| Seqs.DedupeOrder | scripts/enrich_pappers_from_csv.js:99 | the set lists elements in the order of their first occurrence |
| Seqs.DedupeOfNoDup | scripts/enrich_pappers_advanced.js:112 | de-duplicating a list without repeats changes nothing |
| Seqs.InsertAllAppend | scripts/fetch_idf_interim.js:157 | adding `a` then `b` to a set is adding `a + b` |
| Seqs.DedupeRepeat | scripts/enrich_seniors_simple.js:64 | example: a repeated element is kept once |
| Seqs.Chunks | scripts/enrich_pappers_advanced.js:327-336 | the slices taken every `k` elements are non-empty and at most `k` long |
| Seqs.FlattenChunks | scripts/enrich_pappers_advanced.js:327-336 | the slices put back together are the original list: nothing lost, repeated or reordered |
| Js.FirstTruthyPicks | scripts/enrich_companies_only.js:85 | `a \|\| b \|\| d` is the first truthy alternative, or the default when none is truthy |
| Js.NumStrIsPlain | scripts/build_pappers.js:32-37 | `String(n)` of a number never holds `;`, `"` or a line feed, so it is never quoted |
| Cli.ParseArg | scripts/filter_dirigeants_by_dob.js:16-19 | an argument matching `^--([^=]+)=(.*)$` gives key and value; otherwise the whole argument less a leading `--` is set to `true` |
| Cli.KeyValueRoundTrip | scripts/filter_dirigeants_by_dob.js:16-19 | `--key=value` reads back as that key and value, however many `=` the value holds |
| Cli.FlagRoundTrip | scripts/filter_dirigeants_by_dob.js:16-19 | a bare `--flag` reads back as `flag` set to `true` |
| Cli.MultilineValueIsFlag | scripts/filter_dirigeants_by_dob.js:17-18 | a value with a line break does not match, so the whole argument becomes a flag |
| Cli.FromEntries | scripts/filter_dirigeants_by_dob.js:15-20 | `Object.fromEntries` holds exactly the keys given, each with the value of its last entry |
| Cli.LastOptionWins | scripts/filter_dirigeants_by_dob.js:15-20 | for a repeated option, the last occurrence on the command line wins |
| Cli.Opt | scripts/filter_dirigeants_by_dob.js:22 | `args.k` is `undefined` exactly when the option is absent, else a string or `true` |
| Cli.ParseIntText | scripts/enrich_pappers_advanced.js:26 | `parseInt` is `NaN` exactly when no digit follows the whitespace, sign and `0x` prefix |
| Cli.ParseIntRoundTrip | scripts/enrich_pappers_advanced.js:26 | `parseInt(String(n))` gives `n` back |
| Cli.ParseIntNull | scripts/fetch_idf_advanced.js:26 | `parseInt` of a missing option is `NaN` |
| Cli.ParseIntSkipsSpace | scripts/enrich_pappers_advanced.js:26 | `parseInt` ignores leading whitespace |
| Cli.IntOr | scripts/enrich_pappers_advanced.js:26-33 | `parseInt(v) \|\| d` is the parsed value unless it is `NaN` or 0, which give the default |
| Cli.NumberText | scripts/enrich_seniors_eco.js:18 | `Number(s)` ignores surrounding whitespace: blank text is 0, a digit run is its decimal value, and a number is read only from text that is one optional sign followed by digits |
| Cli.ToNumber | scripts/enrich_seniors_eco.js:18 | `Number` of a number is itself, of a boolean 0 or 1, of `undefined` `NaN` |
| Cli.NumberRoundTrip | scripts/enrich_seniors_eco.js:18 | `Number(String(n))` gives `n` back, with or without surrounding whitespace |
| Cli.SplitOpt | scripts/fetch_idf_advanced.js:22-23 | `v ? v.split(',') : d` throws exactly for a bare flag, gives the default for a missing option, and pieces that join back to the text |
| Csv.EscapeText | scripts/build_pappers.js:32-38 | `csvEscape` leaves text without `;`, `"` or a line feed as it is, and otherwise quotes it |
| Csv.Escape | scripts/build_pappers.js:32-38 | `null` and `undefined` become the empty cell; any other value is its `String` form escaped |
| Csv.EscapeRoundTrip | scripts/build_pappers.js:32-38 | reading an escaped field gives back the original text, whatever follows it |
| Csv.ReadEncodedRow | scripts/build_pappers.js:39 | a row read back from `toCsvRow` yields each cell's text in order |
| Csv.ReadLinesDoc | scripts/enrich_seniors_simple.js:40-42 | a document of rows that each end in a line feed reads back as the rows' texts |
| Csv.ReadJoinedDoc | scripts/build_pappers.js:156 | rows joined by line feeds read back as the rows' texts, unless the last row encodes to nothing |
| Csv.EncodeRowNonEmpty | scripts/build_pappers.js:39 | a row of two or more cells always encodes to a non-empty line |
| Dates.FindFrom | scripts/enrich_seniors_eco.js:61 | `s.match(p)` finds the leftmost position where the pattern matches, and none before it |
| Dates.FirstYear | scripts/build_pappers.js:44 | a year is captured exactly when the pattern matches somewhere, and it is the leftmost match's year |
| Dates.ParseText4 | scripts/enrich_pappers_advanced.js:62-79 | the four whole-string forms: a result only for ISO, day-first with `-` or `/`, or a bare year; a bare year is 1 January |
| Dates.ParseFlexibleDate4 | scripts/enrich_pappers_advanced.js:62-79 | a falsy input gives `null`; anything else is stringified, trimmed and matched |
| Dates.ParseText6 | scripts/filter_dirigeants_by_dob.js:40-69 | `full` holds exactly for the three full forms; `MM/YYYY` is the first of that month and `YYYY` is 1 January; any other text is 1 January of its leftmost standalone `19xx`/`20xx`, and `null` exactly when it has none |
| Dates.ParseFlexibleDate6 | scripts/enrich_pappers_from_csv.js:41-63 | a falsy input gives `null`; anything else is stringified, trimmed and matched |
| Dates.ExtractYear | scripts/build_pappers.js:42-46 | the first standalone `19xx` or `20xx` of `String(val)`, between 1900 and 2099; `null` for falsy input |
| Dates.ParseBirthYear | scripts/enrich_seniors_eco.js:57-65 | the first standalone `19xx`, `200x` or `201x`, kept exactly when it is at most the current year |
| Dates.YearInRange | scripts/enrich_seniors_simple.js:79-83 | one pattern's year is used only when it lies in 1900..2010 |
| Dates.ParseYearText | scripts/enrich_seniors_simple.js:72-86 | the first of the three patterns whose match is in range; `null` exactly when none is |
| Dates.ParseYear | scripts/enrich_seniors_simple.js:68-87 | falsy input gives `null`, a truthy non-string throws (`match` is missing), and any year lies in 1900..2010 |
| Dates.CmpDates | scripts/enrich_pappers_advanced.js:81-85 | `cmpDates` is negative, zero or positive exactly as the date keys compare |
| Dates.AgeAt | scripts/enrich_pappers_advanced.js:87-91 | the age is the difference of years, one less exactly when the anniversary is not yet reached |
| Dates.CalcAgeFromYear | scripts/enrich_seniors_eco.js:68-71 | `''` exactly for a missing or zero year, else the current year minus it |
| Dates.SameDigitsSameDate | scripts/filter_dirigeants_by_dob.js:45-54 | the same digits written ISO or day-first parse to the same date in every parser |
| Dates.DecemberThirtyFirst | scripts/filter_dirigeants_by_dob.js:13 | the help text's examples `1962-12-31` and `31-12-1962` parse to 31 December 1962 |
| Dates.NoRangeCheck | scripts/enrich_pappers_advanced.js:66-67 | a thirteenth month and a forty-fifth day are accepted as written |
| Dates.BareYear | scripts/filter_dirigeants_by_dob.js:61-62 | a bare year is 1 January of that year in both parsers, and not full |
| Dates.MonthYear | scripts/filter_dirigeants_by_dob.js:57-58 | `MM/YYYY` and `MM-YYYY` are the first of that month, and not full |
| Dates.KeyIsLexicographic | scripts/enrich_pappers_advanced.js:81-85 | with month and day in 1..99 the key orders dates by year, month, then day, and equal keys mean equal dates |
| Dates.AgeNonNegative | scripts/enrich_pappers_from_csv.js:70-73 | a birth date strictly before the reference date gives a non-negative age |
| Dates.AgeCountsAnniversaries | scripts/enrich_pappers_advanced.js:87-91 | the age is the number of anniversaries on or before the reference date |
| SirenInput.SirenFile | scripts/fetch_sirens_gouv.js:45 | the list file starts with the `siren` header; it is that header alone exactly for an empty list, and otherwise a line feed follows it |
| SirenInput.KeepSirens | scripts/enrich_from_list.js:30 | the filter keeps exactly the nine-digit candidates, in order |
| SirenInput.Collect | scripts/enrich_pappers_advanced.js:106-112 | the data lines give exactly the SIRENs among their candidates, fewer than the lines |
| SirenInput.SniffSep | scripts/enrich_pappers_advanced.js:103 | the separator is `;` if the header holds one, else `,`, else a tab, else `;` |
| SirenInput.SirenColumn | scripts/enrich_pappers_advanced.js:104-105 | the column is the first header cell equal to `siren`, else column 0 |
| SirenInput.LoadAdvanced | scripts/enrich_pappers_advanced.js:98-114 | the loader returns distinct SIRENs: exactly those found in the selected column |
| SirenInput.SniffDelim | scripts/enrich_pappers_from_csv.js:90 | the delimiter is `;`, else `,`, else a whitespace run, else `;` |
| SirenInput.LoadFromCsv | scripts/enrich_pappers_from_csv.js:86-100 | distinct SIRENs: exactly those among the first fields, digits kept |
| SirenInput.LoadEco | scripts/enrich_seniors_eco.js:74-93 | distinct SIRENs: exactly those among the first fields split at `;`, `,` or a tab |
| SirenInput.LoadSimple | scripts/enrich_seniors_simple.js:45-65 | distinct SIRENs: exactly those among the trimmed lines, digits kept |
| SirenInput.ReadSirenList | scripts/enrich_from_list.js:28-30 | the plain reader keeps exactly the trimmed lines that are SIRENs, repeats included |
| SirenInput.SirenFileLines | scripts/fetch_sirens_gouv.js:45 | a list file splits back into its header and identifiers |
| SirenInput.LoadAdvancedRoundTrip | scripts/enrich_pappers_advanced.js:98-114 | a list file read by the advanced loader gives the list back, de-duplicated |
| SirenInput.LoadFromCsvRoundTrip | scripts/enrich_pappers_from_csv.js:86-100 | the same for the loader of `enrich_pappers_from_csv.js` |
| SirenInput.LoadEcoRoundTrip | scripts/enrich_seniors_eco.js:74-93 | the same for the loader of `enrich_seniors_eco.js` |
| SirenInput.LoadSimpleRoundTrip | scripts/enrich_seniors_simple.js:45-65 | the same for the loader of `enrich_seniors_simple.js` |
| SirenInput.ReadSirenListRoundTrip | scripts/enrich_idf_all.js:26-28 | the plain reader gives the list back exactly, repeats included |
| SirenInput.RepeatedIdentifier | scripts/enrich_seniors_simple.js:64 | the de-duplicating loaders drop a repeated identifier, the plain reader keeps it |
| SirenInput.SirenColumnFollowsHeader | scripts/enrich_pappers_advanced.js:104-109 | with header `name;siren` the advanced loader reads the second field |
| Records.Fetch | scripts/enrich_from_list.js:41-43 | a lookup answers exactly for the SIRENs the registry holds |
| Records.OuiNon | scripts/enrich_idf_all.js:49 | the status cell is `oui` exactly when `entreprise_cessee` is truthy, else `non` |
| Records.YearRow | scripts/build_pappers.js:137-148 | the ten cells of a year-filtered row: SIREN first, birth date and age last |
| Records.Reached | scripts/enrich_idf_all.js:52 | the loop reaches the representatives before the first one it throws on |
| Records.Emit | scripts/enrich_idf_all.js:52-66 | a company contributes at most one row per representative reached |
| Records.EmitMembers | scripts/enrich_from_list.js:50-60 | a row is emitted exactly for an accepted representative the loop reached |
| Records.EmitEvery | scripts/enrich_idf_all.js:52-66 | without a filter, one row per representative reached, in order |
| Records.ReadJoinedSheet | scripts/enrich_idf_all.js:74 | a sheet written as `[header, ...rows].join('\n')` reads back as the header names and each row's cell texts |
| Records.ReadLinesSheet | scripts/enrich_seniors_simple.js:121-202 | the same for a sheet whose lines each end in a line feed |
| Search.GuardedWalk | scripts/build_pappers.js:50-71 | the walk starts at the given cursor, follows each truthy next cursor, and stops when it is missing or repeats the last |
| Search.UnguardedWalk | scripts/fetch_idf_interim.js:96-112 | the walk follows each truthy next cursor, even one it was just given |
| Search.EchoedCursor | scripts/fetch_idf_interim.js:108-110 | a server echoing the cursor ends the guarded walk at once, while the unguarded walk asks again |
| Search.PickSiren | scripts/build_pappers.js:108 | `it?.siren`, else the digits of `siren_formate`; it throws exactly for a `siren_formate` that is neither missing nor a string |
| Search.PickSirenOrUnit | scripts/fetch_sirens_gouv.js:36 | the further fallback to `unite_legale.siren`, throwing exactly when the shorter pick does |
| Search.HitSiren | scripts/fetch_sirens_gouv.js:36-37 | a hit adds `String(siren)` exactly when it is truthy and nine digits |
| Search.Picked | scripts/fetch_idf_advanced.js:82-89 | every SIREN picked from hits is nine digits |
| Search.PickedMembers | scripts/fetch_sirens_gouv.js:35-38 | hits that do not throw yield exactly their valid SIRENs |
| BuildPappers.HitSiren | scripts/build_pappers.js:108-109 | a hit yields its identifier exactly when the pick is a string whose JavaScript length, in UTF-16 code units, is nine; a hit throws exactly when the pick throws |
| BuildPappers.AstralCharSkipped | scripts/build_pappers.js:108-109 | eight digits followed by a character beyond U+FFFF are nine characters but ten code units, so the hit is skipped |
| BuildPappers.Candidates | scripts/build_pappers.js:107-109 | the hits' identifiers in order, repeats included, each nine UTF-16 code units long; an error exactly when some hit throws |
| BuildPappers.CandidatesFromHits | scripts/build_pappers.js:107-109 | an identifier is listed exactly when some hit yields it |
| BuildPappers.Listed | scripts/build_pappers.js:104-114 | the `seen` set keeps each identifier once, with exactly the candidates as members |
| BuildPappers.ListedFirstSeen | scripts/build_pappers.js:104-114 | no repeats, every identifier from a hit, in order of first sighting |
| BuildPappers.CompanyRows | scripts/build_pappers.js:123-150 | a failed lookup or null body adds nothing; a representative that throws is fatal |
| BuildPappers.RowIffBornBy1961 | scripts/build_pappers.js:132-149 | a row is written exactly for a representative whose extracted year is at most 1961 |
| BuildPappers.DataRows | scripts/build_pappers.js:119-154 | all companies' rows in list order, or the first company's exception |
| BuildPappers.Run | scripts/build_pappers.js:86-163 | a file is written only when the search walk finished and every hit was readable; a throwing search crashes the run |
| BuildPappers.WrittenReadsBack | scripts/build_pappers.js:103-156 | a written file reads back as the header and the cell texts of the rows of the companies the search found, in first-found order |
| BuildPappers.WalkFromStar | scripts/build_pappers.js:51-67 | the walk starts at `*` and never asks for the same cursor twice in a row |
| FromList.CompanyRows | scripts/enrich_from_list.js:40-64 | a failed lookup, null body or unusable `representants` adds nothing; rows all have the header's width |
| FromList.RowIffBornBy1962 | scripts/enrich_from_list.js:50-60 | a row is written exactly for a reached representative whose year is at most 1962 |
| FromList.OutputReadsBack | scripts/enrich_from_list.js:67 | the file reads back as the header and the rows' cell texts |
| IdfAll.RepRow | scripts/enrich_idf_all.js:53-65 | eleven cells: SIREN, company fields with the `oui`/`non` status, the director's fields |
| IdfAll.CompanyRows | scripts/enrich_idf_all.js:41-71 | a failed lookup, null body or unusable `representants` adds nothing |
| IdfAll.OneRowPerRepresentative | scripts/enrich_idf_all.js:52-66 | exactly one row per representative before the first null one, in order |
| IdfAll.TotalCountsRepresentatives | scripts/enrich_idf_all.js:41-76 | the reported total is the number of representatives reached over all listed companies: those before the first null one of each company that answered |
| IdfAll.OutputReadsBack | scripts/enrich_idf_all.js:74 | the file reads back as the header and eleven cell texts per row |
| CompaniesOnly.CompanyRow | scripts/enrich_companies_only.js:69-108 | twenty-four cells, SIREN first |
| CompaniesOnly.CompanyRowNames | scripts/enrich_companies_only.js:85-94 | the `denomination` and `date_creation` columns fall back in the source's order; the `entreprise_cessee` column says `oui` exactly for a closed company |
| CompaniesOnly.CompanyRowAccounts | scripts/enrich_companies_only.js:70-75 | the `chiffre_affaires` and `resultat` columns come from the first financial year only; the `convention_collective` column is the first agreement's name |
| CompaniesOnly.RevenueFromFirstYear | scripts/enrich_companies_only.js:70-71 | with a list of financial years, revenue is the first year's |
| CompaniesOnly.DataRows | scripts/enrich_companies_only.js:59-114 | one row per fetched company, each for a listed SIREN |
| CompaniesOnly.TotalIsFetched | scripts/enrich_companies_only.js:118 | the reported total is the number of fetched companies |
| CompaniesOnly.OutputReadsBack | scripts/enrich_companies_only.js:116 | the file reads back as the header and twenty-four cell texts per row |
| FilterByDob.Cutoff | scripts/filter_dirigeants_by_dob.js:22-30 | a missing `--date` exits; a bare `--date` crashes when the default name is built; otherwise the date must parse |
| FilterByDob.TrueIsNoDate | scripts/filter_dirigeants_by_dob.js:78-79 | `parseFlexibleDate(true)` is `null` |
| FilterByDob.Comparison | scripts/filter_dirigeants_by_dob.js:123 | the last column says full date exactly for a full parse |
| FilterByDob.RepRow | scripts/filter_dirigeants_by_dob.js:120-124 | ten cells, the raw birth value and the comparison last |
| FilterByDob.CompanyRows | scripts/filter_dirigeants_by_dob.js:102-131 | a failed lookup, null body or unusable `representants` adds nothing |
| FilterByDob.RowIffStrictlyBefore | scripts/filter_dirigeants_by_dob.js:112-126 | a row is written exactly for a reached representative whose date parses and sorts strictly before the cutoff |
| FilterByDob.Run | scripts/filter_dirigeants_by_dob.js:7-79 | no key exits, then a missing `--date` exits; a bare `--in` or `--out` crashes in `path.resolve`, as does a bare `--date` without `--out`; otherwise the run writes exactly when the cutoff parses |
| FilterByDob.RunReadsBack | scripts/filter_dirigeants_by_dob.js:135 | a written file reads back as the header and ten cell texts per row |
| PappersFromCsv.Cutoff | scripts/enrich_pappers_from_csv.js:22-28 | a missing `--date` exits, a bare one crashes on `trim`; otherwise the date must parse |
| PappersFromCsv.ParseTrimmed | scripts/enrich_pappers_from_csv.js:28 | trimming before parsing changes nothing |
| PappersFromCsv.BlankParsesToNull | scripts/enrich_pappers_from_csv.js:75-76 | a blank date does not parse |
| PappersFromCsv.AgeCell | scripts/enrich_pappers_from_csv.js:134-138 | the age at the cutoff for a parsed date with a non-zero year, else `''` |
| PappersFromCsv.RepRow | scripts/enrich_pappers_from_csv.js:139-143 | eleven cells with the head office's city and the age at the cutoff |
| PappersFromCsv.CompanyRows | scripts/enrich_pappers_from_csv.js:116-150 | a failed lookup, null body or unusable `representants` adds nothing |
| PappersFromCsv.RowIffStrictlyBefore | scripts/enrich_pappers_from_csv.js:127-145 | a row is written exactly for a reached representative whose date sorts strictly before the cutoff |
| PappersFromCsv.KeptAgeNonNegative | scripts/enrich_pappers_from_csv.js:132-138 | a kept row's age at the cutoff is not negative |
| PappersFromCsv.ParsedFieldsBounded | scripts/enrich_pappers_from_csv.js:41-63 | parsed months and days have at most two digits |
| PappersFromCsv.Run | scripts/enrich_pappers_from_csv.js:8-76 | no key exits, then a missing `--date` exits; a bare `--in`, `--date` or `--out` crashes; otherwise the run writes exactly when the cutoff parses |
| PappersFromCsv.RunReadsBack | scripts/enrich_pappers_from_csv.js:153 | a written file reads back as the header and eleven cell texts per row |
| PappersAdvanced.CutoffOf | scripts/enrich_pappers_advanced.js:24 | trimming the option first gives the same cutoff as parsing it directly |
| PappersAdvanced.BlankIsNoDate | scripts/enrich_pappers_advanced.js:24 | a blank `--date` gives no cutoff |
| PappersAdvanced.Configure | scripts/enrich_pappers_advanced.js:23-40 | a bare `--in`, `--ville` or `--out` throws; the batch and concurrency sizes default when `NaN` or 0; the city list is the lower-cased option split at commas |
| PappersAdvanced.City | scripts/enrich_pappers_advanced.js:166 | reading the city throws exactly for a truthy non-string |
| PappersAdvanced.Admit | scripts/enrich_pappers_advanced.js:156-167 | a company is admitted exactly when it passes the status, revenue, headcount and city tests in order |
| PappersAdvanced.BoundsInclusive | scripts/enrich_pappers_advanced.js:159-160 | numeric bounds are inclusive, and a bound of 0 or less is no bound |
| PappersAdvanced.UnparseableDobKept | scripts/enrich_pappers_advanced.js:185-191 | a natural person whose birth date does not parse is kept, even under a cutoff |
| PappersAdvanced.LegalPersonSkipped | scripts/enrich_pappers_advanced.js:93-96 | a representative with a `siren` or `denomination` is never kept |
| PappersAdvanced.CutoffIsStrict | scripts/enrich_pappers_advanced.js:191 | under a cutoff a parsed date is kept exactly when it sorts strictly before it |
| PappersAdvanced.RepValuesPlaces | scripts/enrich_pappers_advanced.js:199-218 | revenue, headcount, the raw birth date and today's age sit under the keys `chiffre_affaires`, `effectif`, `dir_date_naissance` and `dir_age_actuel` |
| PappersAdvanced.RepRecord | scripts/enrich_pappers_advanced.js:199-218 | the record's keys are the eighteen column names in order |
| PappersAdvanced.CompanyRecords | scripts/enrich_pappers_advanced.js:149-225 | a failed lookup, null body or company not admitted gives no record |
| PappersAdvanced.RecordIffKept | scripts/enrich_pappers_advanced.js:181-219 | a record is produced exactly for a kept representative of an admitted company |
| PappersAdvanced.ProcessAppend | scripts/enrich_pappers_advanced.js:231-235 | processing two lists one after the other concatenates their records |
| PappersAdvanced.BatchingKeepsOrder | scripts/enrich_pappers_advanced.js:327-345 | batches and sub-batches of any positive size give the records of the companies in list order |
| PappersAdvanced.LookupDistinct | scripts/enrich_pappers_advanced.js:288-291 | with distinct keys, `row[h]` is the value stored under `h` |
| PappersAdvanced.CellsOfOwnKeys | scripts/enrich_pappers_advanced.js:288-291 | looking a record's own distinct keys up with `row[h]` gives back its values in order |
| PappersAdvanced.ExportCsv | scripts/enrich_pappers_advanced.js:281-295 | no records give the empty-result text |
| PappersAdvanced.ExportRowsAreValues | scripts/enrich_pappers_advanced.js:286-292 | with the record keys as headers, each line holds exactly the record's values |
| PappersAdvanced.NoResultReadsBack | scripts/enrich_pappers_advanced.js:282-284 | the empty-result text reads back as one single-field record |
| PappersAdvanced.ExportReadsBack | scripts/enrich_pappers_advanced.js:281-295 | a non-empty export reads back as the eighteen keys, then each record's value texts in order |
| PappersAdvanced.Run | scripts/enrich_pappers_advanced.js:298-354 | a CSV is written only for a valid configuration and a non-empty list; with positive sizes the CSV is the export of every company's records |
| SeniorsSimple.SeniorRowCells | scripts/enrich_seniors_simple.js:189-202 | the formatted amounts, the year and the age sit under their own column headers |
| SeniorsSimple.CompanyRows | scripts/enrich_seniors_simple.js:152-224 | a failed lookup, null body or unusable `representants` adds nothing |
| SeniorsSimple.RowIffSenior | scripts/enrich_seniors_simple.js:173-206 | a row is written exactly for a reached natural person whose parsed year is before 1962 |
| SeniorsSimple.RowYearAndAge | scripts/enrich_seniors_simple.js:173-202 | every written row carries a year from 1900 to 1961 and the current year minus it |
| SeniorsSimple.OutOfRangeFallsThrough | scripts/enrich_seniors_simple.js:78-84 | example: an out-of-range match falls through to the next pattern |
| SeniorsSimple.OutputReadsBack | scripts/enrich_seniors_simple.js:121-228 | the file reads back as the header and twelve cell texts per row |
| SeniorsEco.CutoffYear | scripts/enrich_seniors_eco.js:18 | the cutoff year is 1962 unless the option is given |
| SeniorsEco.MaxDateParses | scripts/enrich_seniors_eco.js:139 | the date asked for is 31 December of the year before the cutoff |
| SeniorsEco.CompanyInfo | scripts/enrich_seniors_eco.js:96-134 | a failed lookup or no first result gives empty name, SIRET and city; a truthy `siret` is the SIRET; otherwise a non-string `siret_formate` throws into the empty answer, and a string one gives its digits |
| SeniorsEco.NameFallbacks | scripts/enrich_seniors_eco.js:110-114 | the name is the first truthy of the source's fallbacks |
| SeniorsEco.CeilPages | scripts/enrich_seniors_eco.js:163 | `Math.ceil(t / 50)` is the least number of pages of fifty holding `t` |
| SeniorsEco.PageWalk | scripts/enrich_seniors_eco.js:150-179 | each page asked for follows from the previous reply, and the walk ends only on the stated conditions |
| SeniorsEco.TooManyRetries | scripts/enrich_seniors_eco.js:172-174 | a 429 asks for the same page again and changes nothing else |
| SeniorsEco.PagesClimb | scripts/enrich_seniors_eco.js:161-169 | pages never go down and rise at most one per request |
| SeniorsEco.Visit | scripts/enrich_seniors_eco.js:245-281 | one company's rows have distinct keys not seen before, all pass the year filter, and every qualifying director's key is covered |
| SeniorsEco.Gather | scripts/enrich_seniors_eco.js:229-295 | over all companies: distinct new keys, each for a listed company, and the seen set grows by exactly those keys |
| SeniorsEco.HitRow | scripts/enrich_seniors_eco.js:266-277 | ten cells with the looked-up company fields, the year and the age |
| SeniorsEco.Run | scripts/enrich_seniors_eco.js:15-333 | no key or a bare `--in` exits, a bare `--out` crashes in `path.dirname`; otherwise the run writes exactly when every listed company's replies settle |
| SeniorsEco.RunRows | scripts/enrich_seniors_eco.js:258-263 | at most one row per key, each for a qualifying director of a listed company |
| SeniorsEco.EveryQualifyingKeySeen | scripts/enrich_seniors_eco.js:258-263 | the seen set holds the key of every qualifying director |
| SeniorsEco.KeyCollision | scripts/enrich_seniors_eco.js:261 | a `\|` in a name lets two different directors share a key, so only the first gets a row |
| IdfAdvanced.Configure | scripts/fetch_idf_advanced.js:14-26 | a bare `--deps` or `--naf` throws; defaults for missing lists; lists join back to the option text; batch 0 means no limit |
| IdfAdvanced.ConfigureLists | scripts/fetch_idf_advanced.js:14-26 | two list options and no `--batch` give exactly those lists and no limit |
| IdfAdvanced.StripDots | scripts/fetch_idf_advanced.js:30 | removing dots keeps every other character |
| IdfAdvanced.NafPartSplits | scripts/fetch_idf_advanced.js:30 | for one or more codes without `_`, the file-name NAF part holds no dot and splits back at `_` into the codes with their dots removed |
| IdfAdvanced.DefaultFileName | scripts/fetch_idf_advanced.js:29-32 | example: with no options the file is `sirens_7820Z_idf.csv` |
| IdfAdvanced.DefaultSettings | scripts/fetch_idf_advanced.js:22-26 | with no options: the eight departments, `78.20Z`, CSV, `output`, no limit |
| IdfAdvanced.AddHits | scripts/fetch_idf_advanced.js:82-96 | adding hits keeps the set duplicate-free; it stops exactly at the limit or on a hit that throws |
| IdfAdvanced.FetchPages | scripts/fetch_idf_advanced.js:62-108 | pages are asked for in order; every page but the last led on; the limit is respected |
| IdfAdvanced.FetchMembers | scripts/fetch_idf_advanced.js:62-108 | every SIREN comes from the pages asked for, and every page that ran to its end is taken whole |
| IdfAdvanced.Queries | scripts/fetch_idf_advanced.js:162-163 | the queries are exactly the department and NAF code pairs |
| IdfAdvanced.Merge | scripts/fetch_idf_advanced.js:167-175 | merging keeps the set duplicate-free, within the limit, and takes all unless the limit was reached |
| IdfAdvanced.Collect | scripts/fetch_idf_advanced.js:159-180 | the main loop's set is duplicate-free and within the limit; it is missing exactly when some query's replies ran out |
| IdfAdvanced.CollectMembers | scripts/fetch_idf_advanced.js:159-180 | every SIREN kept was found by some query, and under the limit everything found is kept |
| IdfAdvanced.Export | scripts/fetch_idf_advanced.js:183-196 | the export writes the collected SIRENs under the computed name; JSON and XLSX are the other formats |
| IdfAdvanced.Run | scripts/fetch_idf_advanced.js:144-150 | the settings first, then `--help`, then a bare `--out` crashes in `mkdirSync` |
| IdfAdvanced.RunReadsBack | scripts/fetch_idf_advanced.js:110-113 | the written list reads back, with any loader, as the SIRENs collected, within the limit |
| IdfAdvanced.UnlimitedIsUnion | scripts/fetch_idf_advanced.js:159-180 | without a limit a SIREN is written exactly when some query found it |
| SirensGouv.TotalPages | scripts/fetch_sirens_gouv.js:33 | `total_pages`, else `totalPages`, else the current page |
| SirensGouv.PageLoop | scripts/fetch_sirens_gouv.js:21-43 | pages 1, 2, … are asked for while the next page is within the total; any failure throws out of the loop |
| SirensGouv.PageLoopGathers | scripts/fetch_sirens_gouv.js:21-43 | a finished loop holds the SIRENs of every page asked for, each once, in order of first appearance |
| SirensGouv.Run | scripts/fetch_sirens_gouv.js:17-48 | the run crashes exactly when the loop throws, and otherwise writes the gathered list |
| SirensGouv.RunReadsBack | scripts/fetch_sirens_gouv.js:45-46 | the written file reads back as every valid SIREN of the pages asked for, de-duplicated |
| SirensGouv.PageSirens | scripts/fetch_sirens_gouv.js:35-38 | a SIREN is gathered from a page exactly when one of its hits yields it |
| Estimate.Lists | scripts/estimate_idf_advanced.js:15-16 | the lists are those of the collecting script, and a bare option throws in both |
| Estimate.Volume | scripts/estimate_idf_advanced.js:18-34 | a failed query or a falsy total counts 0; a non-zero count is the reply's numeric `total_results` |
| Estimate.Tally | scripts/estimate_idf_advanced.js:47-60 | one entry per query, in order |
| Estimate.Positive | scripts/estimate_idf_advanced.js:56-59 | `details` holds exactly the entries with a positive count |
| Estimate.PositiveSum | scripts/estimate_idf_advanced.js:56-59 | leaving out non-positive counts never lowers the sum, and keeps it when none is negative |
| Estimate.DeptTotalFromTally | scripts/estimate_idf_advanced.js:47-65 | over distinct departments, each department total is the sum of that department's counts in the full tally of queries |
| Estimate.GrandIsSumOfDepts | scripts/estimate_idf_advanced.js:43-65 | the grand total is the sum of the department totals |
| Estimate.Only | scripts/estimate_idf_advanced.js:87-88 | the filter keeps exactly the details with one of the codes |
| Estimate.NafTotalsSum | scripts/estimate_idf_advanced.js:84-94 | over distinct codes the per-code totals add up to the details' sum, which is the grand total when no count is negative |
| Estimate.SortDesc | scripts/estimate_idf_advanced.js:73-74 | the sort is descending and a permutation |
| Estimate.Top5Largest | scripts/estimate_idf_advanced.js:73-75 | the top five are at most five details, descending, and none left out counts more than the last kept |
| Estimate.SinglePairSameCommand | scripts/estimate_idf_advanced.js:123-127 | with one department and one code the two branches print the same command |
| Estimate.ListOptionRoundTrip | scripts/estimate_idf_advanced.js:126 | one suggested option reads back as the list it was built from |
| Estimate.SuggestionRoundTrip | scripts/estimate_idf_advanced.js:121-132 | run as suggested, the collecting script reads back the same lists, with no limit |
| Estimate.SuggestedParses | scripts/estimate_idf_advanced.js:126 | the suggested options parse as exactly the two joined lists |
| Estimate.Summarise | scripts/estimate_idf_advanced.js:43-132 | the warning above 10000 and the limited command above 1000; the details are the positive counts; each department total sums that department's counts and they add up to the grand total; each NAF total sums its code's details; the top five are the five largest details, descending |
| Estimate.Run | scripts/estimate_idf_advanced.js:1-133 | the run crashes exactly on a bare option; with numeric totals the report is the summary of the two lists' counts |
| Interim.Norm | scripts/fetch_idf_interim.js:78-83 | `norm` gives a normal string: lower case, no diacritics, single spaces, trimmed |
| Interim.NormFixes | scripts/fetch_idf_interim.js:78-83 | a normal string is left unchanged |
| Interim.NormIdempotent | scripts/fetch_idf_interim.js:78-83 | `norm` is idempotent |
| Interim.AnyIn | scripts/fetch_idf_interim.js:87 | true exactly when some normalised keyword occurs in the text |
| Interim.HasAnyMeans | scripts/fetch_idf_interim.js:85-93 | `hasAny` holds exactly when some keyword's normal form occurs in the text's normal form; `hasNone` is its negation; an empty list matches nothing; normalising the text first changes nothing |
| Interim.BlankKeywordMatchesAll | scripts/fetch_idf_interim.js:78-88 | a keyword made of whitespace and accents matches every text |
| Interim.EnvList | scripts/fetch_idf_interim.js:34-37 | the entries are exactly the non-empty trimmed comma-separated pieces |
| Interim.EnvListRoundTrip | scripts/fetch_idf_interim.js:34-37 | a comma-joined list of trimmed, comma-free entries reads back as the list |
| Interim.ParseDecimal | scripts/fetch_idf_interim.js:29-30 | `parseInt(s, 10)` is `parseInt` without the `0x` prefix |
| Interim.DecimalRoundTrip | scripts/fetch_idf_interim.js:29-30 | `parseInt(String(n), 10)` gives `n` back |
| Interim.Clamp | scripts/fetch_idf_interim.js:29 | the clamp lies in 1..1000, is the identity there, `NaN` stays `NaN` |
| Interim.Configure | scripts/fetch_idf_interim.js:27-75 | the page size is clamped, the brands are non-empty, the roles end with the fixed list, the two switches are on exactly for `1` |
| Interim.DefaultSettings | scripts/fetch_idf_interim.js:27-75 | with nothing set: `75,92`, 500, threshold 2, brand `adaptel`, the fixed roles, both switches off |
| Interim.Read | scripts/fetch_idf_interim.js:197-200 | reading a record throws exactly when `norm` cannot read its name or purpose |
| Interim.Points | scripts/fetch_idf_interim.js:203-217 | 0 to 6 points; 0 exactly with no signal; purpose and role give at least 4; documents count only when no brand, role or purpose matched, and then give 2 to 4 |
| Interim.Score | scripts/fetch_idf_interim.js:220 | a brand lifts the score to at least the threshold |
| Interim.KeepMeans | scripts/fetch_idf_interim.js:220-224 | a company is kept exactly when no excluded word occurs and either a brand matched or the points reach the threshold; a `NaN` threshold keeps nothing |
| Interim.BrandIsKept | scripts/fetch_idf_interim.js:220-224 | a brand with no excluded word is kept |
| Interim.ExclusionBeatsBrand | scripts/fetch_idf_interim.js:223-224 | an excluded word in the name vetoes even a brand |
| Interim.PurposeAloneSuffices | scripts/fetch_idf_interim.js:207-209 | under the default threshold a keyword in the purpose alone keeps a company |
| Interim.Classify | scripts/fetch_idf_interim.js:194-229 | a company is kept only for a readable record the classifier keeps |
| Interim.PickValues | scripts/fetch_idf_interim.js:104-107 | the hits' values: an error exactly when a hit throws, otherwise exactly the valid ones |
| Interim.SearchOnce | scripts/fetch_idf_interim.js:96-112 | a finished search holds distinct values, exactly those picked from the pages asked for |
| Interim.Queries | scripts/fetch_idf_interim.js:149-184 | every brand, then every keyword as purpose, then as free text |
| Interim.Gather | scripts/fetch_idf_interim.js:146-184 | the candidates are duplicate-free and are exactly the union of the searches' results |
| Interim.CandidatesAreUnion | scripts/fetch_idf_interim.js:146-184 | every candidate was found by some search, and every value found is a candidate |
| Interim.Validate | scripts/fetch_idf_interim.js:188-230 | the kept set is duplicate-free and holds exactly the candidates the classifier keeps |
| Interim.KeptMembers | scripts/fetch_idf_interim.js:146-230 | the kept values are exactly those some search found and the classifier kept, each a SIREN as text |
| Interim.Run | scripts/fetch_idf_interim.js:14-18 | the run exits exactly without a key, crashes exactly when a search throws, and otherwise writes the kept list |
| Interim.RunReadsBack | scripts/fetch_idf_interim.js:233-234 | the written file reads back as the kept values as text, in order |
| Interim.NumberAndTextBothKept | scripts/fetch_idf_interim.js:188-224 | a SIREN found once as a number and once as a string is kept twice |

## Left out

- HTTP, timeouts, `sleep` and the throttling delays: the replies are parameters, and time does not change any
  result.
- File-system calls (`existsSync`, `mkdirSync`, `readFileSync`, `writeFileSync`, write streams), `.env`
  loading, `path.resolve`, `path.join` and `path.basename`: file content is a string parameter, and a missing
  input file is not modelled. Output names are modelled only where they are computed from options
  (`fetch_idf_advanced.js`). That `path.resolve` and `path.dirname` throw on a bare `--in` or `--out`, and
  that `existsSync` is false for one, is modelled in `FilterByDob.Run`, `PappersFromCsv.Run`,
  `SeniorsEco.Run`, `PappersAdvanced.Configure` and `IdfAdvanced.Run`.
- The `PAPPERS_API_KEY` exit at the top of `build_pappers.js`, `enrich_companies_only.js`,
  `enrich_from_list.js`, `enrich_idf_all.js`, `enrich_pappers_advanced.js` and `enrich_seniors_simple.js`:
  those models start just after this exit, which depends on nothing else. It is modelled in `Interim.Run`,
  `FilterByDob.Run`, `PappersFromCsv.Run` and `SeniorsEco.Run`.
- `Promise.all` concurrency in `enrich_pappers_advanced.js`: the sub-batches are processed in order. The
  results are pushed in input order anyway, which `BatchingKeepsOrder` states.
- The JSON and XLSX exports of `enrich_pappers_advanced.js` and `fetch_idf_advanced.js`: these runs end in
  `OtherFormat`. Serialisation and the xlsx fallback belong to external libraries.
- Floating point: numbers are integers. `Number()` of fractional or exponent strings is `NaN` here.
- `Cli.NumberText`: `Number()` of a hexadecimal, binary or octal literal (`0x10`, `0b101`, `0o17`) is `NaN`
  here, where JavaScript gives its value, and `Infinity` is `NaN` here too because it is no integer. It is
  applied to `--cutoff-year`, to page counts in replies and to the numeric filters of
  `enrich_pappers_advanced.js`, whose text these spellings are not expected to reach.
- `Estimate.Volume`: a truthy `total_results` that is not a number is `None` here. The source keeps that
  value, and `+=` then concatenates text into the totals.
- `Estimate.Run`: such a total stops the run with `NotANumber`, where the source goes on printing a report
  built from concatenated text. No report is modelled for that case.
- `toLocaleString` and `formatMontant`: the latter is a parameter of `SeniorsSimple`.
- The time and cost estimates and the credit counters: console output only.
- Console output and progress messages.
- `new Date()`: the current date and year are parameters.
- `estimate_idf.js`: it is the simpler predecessor of `estimate_idf_advanced.js` and is not part of this
  model.
- Unicode: `toLowerCase` and NFD are modelled for ASCII and Latin-1 plus the combining marks. Other scripts'
  letters are left unchanged.
- `Interim.Points`: the document-search answer (`hasHcrDocs`) is a parameter, because the model holds no
  second reply map for `/recherche-documents`.
- `Interim.Run`: the environment values `PAR_CURSEUR` and `DEPARTEMENTS` only go into the request parameters,
  which the reply maps abstract away.
- `Interim.Classify`: a candidate the lookup map does not cover counts as a failed lookup.
- Every loop over replies: the replies are finite. A server that paginates forever gives `Incomplete`, not a
  non-terminating run.
- `PappersAdvanced.Run`: a negative batch or sub-batch size loops forever in the source; the model returns
  `Hangs` without following the loop.
- `BuildPappers.HitSiren`: a truthy `siren` that is not a string is skipped here. In the source an array of
  nine items, or an object whose `length` field is 9, passes `s.length !== 9` and is added to `seen` and
  `sirens`. The identifiers are modelled as strings, so `Candidates`, `CandidatesFromHits`, `Listed`, `Run`
  and `WrittenReadsBack` do not carry such a value either.
- `Interim.SearchOnce`: values are merged by structural equality, here and in `Interim.Gather`,
  `Interim.Validate` and `Interim.Kept`. A JavaScript `Set` compares arrays and objects by reference.
  Two hits whose `siren` is the array `["123456789"]` are two entries of `out`, `candidates` and `kept` in
  the source, and one entry here. Strings and numbers compare by value in both.
- `Estimate.SortDesc`: it states a descending permutation. Stability (equal counts keep their order) is not
  stated, though the implementation is stable.
- `SeniorsEco.PagesClimb`: it bounds the pages asked for; that a page rises by exactly one after a
  continuing reply is stated by `PageWalk` instead.

=== FILE: advanced.dfy ===
/**
 * `enrich_pappers_advanced.js`: the SIREN list read with the sniffed separator and the
 * `siren` column, companies filtered on status, revenue, headcount and head-office city,
 * natural-person representatives filtered on an optional birth cutoff, processed in
 * batches and sub-batches, and exported as `;`-separated lines each ending in `\n`.
 */
module PappersAdvanced {
  import opened Text
  import opened Wrappers
  import opened Js
  import opened Csv
  import opened Seqs
  import opened Dates
  import opened Records
  import opened Cli
  import SirenInput

  // ---------------------------------------------------------------------------
  // Settings
  // ---------------------------------------------------------------------------

  /** The settings read from the command line before anything else happens. */
  datatype Settings = Settings(
    cutoff: Option<Ymd>,
    batch: int, concurrent: int,
    caMin: int, caMax: int, effMin: int, effMax: int,
    villes: seq<string>, inactive: bool, format: Value)

  /**
   * `CUT = args.date ? String(args.date).trim() : null` and `cutoff = CUT ? parseFlexibleDate(CUT) : null`.
   * A date that does not parse leaves no cutoff at all; the run goes on.
   */
  function CutoffOf(v: Value): (r: Option<Ymd>)
    ensures r == ParseFlexibleDate4(v)
  {
    if !Truthy(v) then None
    else
      var cut := Trim(ToStr(v));
      if cut == "" then
        BlankIsNoDate(v);
        None
      else
        ParseTrimmed(v);
        ParseFlexibleDate4(Str(cut))
  }

  lemma BlankIsNoDate(v: Value)
    requires Trim(ToStr(v)) == ""
    ensures ParseFlexibleDate4(v).None?
  {
    assert ParseText4("").None?;
  }

  /** Trimming before parsing changes nothing: the parser trims its input itself. */
  lemma ParseTrimmed(v: Value)
    requires Truthy(v) && Trim(ToStr(v)) != ""
    ensures ParseFlexibleDate4(Str(Trim(ToStr(v)))) == ParseFlexibleDate4(v)
  {
    var cut := Trim(ToStr(v));
    TrimIdentity(cut);
    assert ToStr(Str(cut)) == cut;
  }

  /**
   * The module-level constants. `path.resolve(true)`, `true.toLowerCase()` and
   * `path.extname(true)` throw, so a bare `--in`, `--ville` or `--out` ends the run.
   */
  function Configure(args: Args): (r: Result<Settings, Fault>)
    ensures r.Err? <==> Opt(args, "in") == Bool(true) || Opt(args, "ville") == Bool(true) || Opt(args, "out") == Bool(true)
    ensures r.Ok? ==> r.value.cutoff == ParseFlexibleDate4(Opt(args, "date"))
    ensures r.Ok? ==> r.value.batch != 0 && r.value.concurrent != 0
    ensures r.Ok? ==> (ParseInt(Opt(args, "batch")) == Some(r.value.batch) || r.value.batch == 100)
    ensures r.Ok? ==> (r.value.inactive <==> Opt(args, "inactive") == Str("true"))
    ensures r.Ok? && !Truthy(Opt(args, "ville")) ==> r.value.villes == []
    ensures r.Ok? && Truthy(Opt(args, "ville")) ==> Join(r.value.villes, ",") == Lower(Opt(args, "ville").s)
  {
    var ville := Opt(args, "ville");
    if Opt(args, "in") == Bool(true) || (Truthy(ville) && !ville.Str?) || Opt(args, "out") == Bool(true) then
      Err(TypeError)
    else
      var villes := if Truthy(ville) then Split(Lower(ville.s), ',') else [];
      assert Truthy(ville) ==> Join(villes, ",") == Lower(ville.s) by {
        if Truthy(ville) {
          JoinSplit(Lower(ville.s), ',');
        }
      }
      Ok(Settings(
        CutoffOf(Opt(args, "date")),
        IntOr(Opt(args, "batch"), 100), IntOr(Opt(args, "concurrent"), 3),
        IntOr(Opt(args, "ca_min"), 0), IntOr(Opt(args, "ca_max"), 0),
        IntOr(Opt(args, "effectif_min"), 0), IntOr(Opt(args, "effectif_max"), 0),
        villes, Opt(args, "inactive") == Str("true"), Or(Opt(args, "format"), Str("csv"))))
  }

  // ---------------------------------------------------------------------------
  // The company filter
  // ---------------------------------------------------------------------------

  /** `v < n` for a number `n`: `v` converted with `Number`, and `NaN` compares false. */
  predicate Below(v: Value, n: int) {
    ToNumber(v).Some? && ToNumber(v).value < n
  }

  /** `v > n`. */
  predicate Above(v: Value, n: int) {
    ToNumber(v).Some? && ToNumber(v).value > n
  }

  /** Neither `min > 0 && v < min` nor `max > 0 && v > max`. */
  predicate InBounds(v: Value, min: int, max: int) {
    !(min > 0 && Below(v, min)) && !(max > 0 && Above(v, max))
  }

  /** `ent.chiffre_affaires || 0`. */
  function Revenue(ent: Value): Value {
    Or(Get(ent, "chiffre_affaires"), Num(0))
  }

  /** `ent.effectif || 0`. */
  function Headcount(ent: Value): Value {
    Or(Get(ent, "effectif"), Num(0))
  }

  /** `(ent?.siege?.ville || '').toLowerCase()`: a truthy city that is not a string throws. */
  function City(ent: Value): (r: Result<string, Fault>)
    ensures r.Err? <==> !Get(Get(ent, "siege"), "ville").Str? && Truthy(Get(Get(ent, "siege"), "ville"))
  {
    var v := Field(Get(ent, "siege"), "ville");
    if v.Str? then Ok(Lower(v.s)) else Err(TypeError)
  }

  /**
   * The tests of `processBatch` in their order: status, revenue, headcount, then the city,
   * which is lowercased whether or not a city list is given.
   */
  function Admit(cfg: Settings, ent: Value): (r: Result<bool, Fault>)
    ensures r == Ok(true) <==>
      (cfg.inactive || !Truthy(Get(ent, "entreprise_cessee"))) &&
      InBounds(Revenue(ent), cfg.caMin, cfg.caMax) && InBounds(Headcount(ent), cfg.effMin, cfg.effMax) &&
      City(ent).Ok? && (|cfg.villes| == 0 || City(ent).value in cfg.villes)
  {
    if !cfg.inactive && Truthy(Get(ent, "entreprise_cessee")) then Ok(false)
    else if cfg.caMin > 0 && Below(Revenue(ent), cfg.caMin) then Ok(false)
    else if cfg.caMax > 0 && Above(Revenue(ent), cfg.caMax) then Ok(false)
    else if cfg.effMin > 0 && Below(Headcount(ent), cfg.effMin) then Ok(false)
    else if cfg.effMax > 0 && Above(Headcount(ent), cfg.effMax) then Ok(false)
    else
      match City(ent)
      case Err(e) => Err(e)
      case Ok(c) => Ok(|cfg.villes| == 0 || c in cfg.villes)
  }

  /** For a numeric revenue the bounds are inclusive, and a bound of 0 (or less) is no bound. */
  lemma BoundsInclusive(n: int, min: int, max: int)
    ensures InBounds(Num(n), min, max) <==> (min <= 0 || min <= n) && (max <= 0 || n <= max)
  {
  }

  // ---------------------------------------------------------------------------
  // The director filter and the record
  // ---------------------------------------------------------------------------

  /** `isPhysical(rep)`: no `siren` or `denomination`, and some name or birth field. */
  predicate IsPhysical(rep: Value) {
    if Truthy(Get(rep, "siren")) || Truthy(Get(rep, "denomination")) then false
    else (Truthy(Get(rep, "nom")) || Truthy(Get(rep, "prenom")) ||
      Truthy(Get(rep, "date_de_naissance")) || Truthy(Get(rep, "date_naissance")))
  }

  /** The parsed `r.date_de_naissance || r.date_naissance || ''`. */
  function Dob(rep: Value): Option<Ymd> {
    ParseFlexibleDate4(BirthDate(rep))
  }

  /** A natural person not excluded by `cutoff && dob && cmpDates(dob, cutoff) >= 0`. */
  predicate Kept(cfg: Settings, rep: Value) {
    IsPhysical(rep) && !(cfg.cutoff.Some? && Dob(rep).Some? && CmpDates(Dob(rep).value, cfg.cutoff.value) >= 0)
  }

  /** A person whose birth date does not parse is kept, cutoff or not. */
  lemma UnparseableDobKept(cfg: Settings, rep: Value)
    requires IsPhysical(rep) && Dob(rep).None?
    ensures Kept(cfg, rep)
  {
  }

  /** A representative with a `siren` or a `denomination` is a legal person and never kept. */
  lemma LegalPersonSkipped(cfg: Settings, rep: Value)
    requires Truthy(Get(rep, "siren")) || Truthy(Get(rep, "denomination"))
    ensures !Kept(cfg, rep)
  {
  }

  /** Under a cutoff, a parsed birth date is kept exactly when it sorts strictly before it. */
  lemma CutoffIsStrict(cfg: Settings, rep: Value)
    requires IsPhysical(rep) && cfg.cutoff.Some? && Dob(rep).Some?
    ensures Kept(cfg, rep) <==> Key(Dob(rep).value) < Key(cfg.cutoff.value)
  {
  }

  /** An exported record: its keys in insertion order with their values. */
  type Record = seq<(string, Value)>

  const RecordKeys: seq<string> := [
    "siren", "denomination", "code_naf", "libelle_code_naf", "ville_siege", "code_postal",
    "entreprise_cessee", "date_creation", "forme_juridique", "tranche_ca", "tranche_effectif",
    "chiffre_affaires", "effectif", "dir_nom", "dir_prenom", "dir_qualite", "dir_date_naissance",
    "dir_age_actuel"
  ]

  function Keys(rec: Record): (r: seq<string>)
    ensures |r| == |rec| && forall i :: 0 <= i < |rec| ==> r[i] == rec[i].0
  {
    seq(|rec|, i requires 0 <= i < |rec| => rec[i].0)
  }

  function Values(rec: Record): (r: seq<Value>)
    ensures |r| == |rec| && forall i :: 0 <= i < |rec| ==> r[i] == rec[i].1
  {
    seq(|rec|, i requires 0 <= i < |rec| => rec[i].1)
  }

  /** `dob && dob.y ? calcAgeAt(dob, today) : ''`. */
  function AgeToday(dob: Option<Ymd>, today: Ymd): Value {
    if dob.Some? && dob.value.y != 0 then Num(AgeAt(dob.value, today)) else Str("")
  }

  /** The record with keys `keys` and values `vals`, pairwise. */
  function Entries(keys: seq<string>, vals: seq<Value>): (rec: Record)
    requires |keys| == |vals|
    ensures Keys(rec) == keys && Values(rec) == vals
  {
    seq(|keys|, i requires 0 <= i < |keys| => (keys[i], vals[i]))
  }

  /** The values `dirigeants.push({...})` stores for a kept representative, in key order. */
  function RepValues(siren: string, ent: Value, today: Ymd, rep: Value): (vals: seq<Value>)
    ensures |vals| == |RecordKeys| && vals[0] == Str(siren)
  {
    var siege := Get(ent, "siege");
    [Str(siren), Denomination(ent), Field(ent, "code_naf"), Field(ent, "libelle_code_naf"),
     Field(siege, "ville"), Field(siege, "code_postal"), OuiNon(Get(ent, "entreprise_cessee")),
     Field(ent, "date_creation"), Field(ent, "forme_juridique"),
     Field(ent, "tranche_chiffre_affaires"), Field(ent, "tranche_effectif"),
     Revenue(ent), Headcount(ent),
     Field(rep, "nom"), Field(rep, "prenom"), Qualite(rep), BirthDate(rep), AgeToday(Dob(rep), today)]
  }

  /** Revenue, headcount, the raw birth date and today's age sit under their own keys. */
  lemma RepValuesPlaces(siren: string, ent: Value, today: Ymd, rep: Value)
    ensures var vals := RepValues(siren, ent, today, rep);
      RecordKeys[11] == "chiffre_affaires" && vals[11] == Revenue(ent) &&
      RecordKeys[12] == "effectif" && vals[12] == Headcount(ent) &&
      RecordKeys[16] == "dir_date_naissance" && vals[16] == BirthDate(rep) &&
      RecordKeys[17] == "dir_age_actuel" && vals[17] == AgeToday(Dob(rep), today)
  {
  }

  /** The record `dirigeants.push({...})` builds for a kept representative. */
  function RepRecord(siren: string, ent: Value, today: Ymd, rep: Value): (rec: Record)
    ensures Keys(rec) == RecordKeys
  {
    Entries(RecordKeys, RepValues(siren, ent, today, rep))
  }

  /** `Array.isArray(ent.representants) ? ent.representants : []`: anything else counts as none. */
  function RepList(ent: Value): seq<Value> {
    var v := Get(ent, "representants");
    if v.Arr? then v.items else []
  }

  /** Never reached: the representative loop has nothing that throws. */
  predicate NeverStops(v: Value) {
    false
  }

  /**
   * The records one company contributes. A failed request, a null body (caught) or a
   * company the filter rejects or that throws in it contributes nothing.
   */
  function CompanyRecords(cfg: Settings, today: Ymd, siren: string, reply: Option<Value>): (rs: seq<Record>)
    ensures forall k :: 0 <= k < |rs| ==> Keys(rs[k]) == RecordKeys
    ensures reply.None? || reply.value.Null? || Admit(cfg, reply.value) != Ok(true) ==> rs == []
  {
    match reply
    case None => []
    case Some(ent) =>
      if ent.Null? || Admit(cfg, ent) != Ok(true) then []
      else
        var keep := (r: Value) => Kept(cfg, r);
        var row := (r: Value) => RepRecord(siren, ent, today, r);
        EmitShape(RepList(ent), NeverStops, keep, row, (x: Record) => Keys(x) == RecordKeys);
        Emit(RepList(ent), NeverStops, keep, row)
  }

  /** A record is produced exactly for a kept representative of an admitted company. */
  lemma RecordIffKept(cfg: Settings, today: Ymd, siren: string, ent: Value, x: Record)
    requires !ent.Null?
    ensures x in CompanyRecords(cfg, today, siren, Some(ent)) <==>
      Admit(cfg, ent) == Ok(true) &&
      exists i :: 0 <= i < |RepList(ent)| && Kept(cfg, RepList(ent)[i]) && x == RepRecord(siren, ent, today, RepList(ent)[i])
  {
    if Admit(cfg, ent) == Ok(true) {
      var reps := RepList(ent);
      EmitMembers(reps, NeverStops, (r: Value) => Kept(cfg, r), (r: Value) => RepRecord(siren, ent, today, r), x);
      assert Reached(reps, NeverStops) == |reps|;
    }
  }

  // ---------------------------------------------------------------------------
  // Batches
  // ---------------------------------------------------------------------------

  /** The records of companies `sirens`, one after another. */
  function Process(cfg: Settings, today: Ymd, reg: Registry, sirens: seq<string>): seq<Record> {
    FlatMap((s: string) => CompanyRecords(cfg, today, s, Fetch(reg, s)), sirens)
  }

  lemma ProcessAppend(cfg: Settings, today: Ymd, reg: Registry, a: seq<string>, b: seq<string>)
    ensures Process(cfg, today, reg, a + b) == Process(cfg, today, reg, a) + Process(cfg, today, reg, b)
  {
    FlatMapAppend((s: string) => CompanyRecords(cfg, today, s, Fetch(reg, s)), a, b);
  }

  /** Each group processed in turn (`await processBatch(...)` for each sub-batch). */
  function ProcessGroups(cfg: Settings, today: Ymd, reg: Registry, groups: seq<seq<string>>): seq<Record>
    decreases |groups|
  {
    if |groups| == 0 then []
    else ProcessGroups(cfg, today, reg, groups[..|groups| - 1]) + Process(cfg, today, reg, groups[|groups| - 1])
  }

  lemma {:induction false} ProcessGroupsFlatten(cfg: Settings, today: Ymd, reg: Registry, groups: seq<seq<string>>)
    ensures ProcessGroups(cfg, today, reg, groups) == Process(cfg, today, reg, Flatten(groups))
    decreases |groups|
  {
    if |groups| > 0 {
      ProcessGroupsFlatten(cfg, today, reg, groups[..|groups| - 1]);
      ProcessAppend(cfg, today, reg, Flatten(groups[..|groups| - 1]), groups[|groups| - 1]);
    }
  }

  /** Batches of `batch`, each split into sub-batches of `concurrent`, processed in order. */
  function Batched(cfg: Settings, today: Ymd, reg: Registry, batches: seq<seq<string>>, concurrent: nat): seq<Record>
    requires concurrent > 0
    decreases |batches|
  {
    if |batches| == 0 then []
    else
      Batched(cfg, today, reg, batches[..|batches| - 1], concurrent) +
        ProcessGroups(cfg, today, reg, Chunks(batches[|batches| - 1], concurrent))
  }

  /**
   * Batching changes nothing about the result: the records are those of the companies in
   * list order, whatever the batch and sub-batch sizes.
   */
  lemma {:induction false} BatchingKeepsOrder(cfg: Settings, today: Ymd, reg: Registry, sirens: seq<string>, batch: nat, concurrent: nat)
    requires batch > 0 && concurrent > 0
    ensures Batched(cfg, today, reg, Chunks(sirens, batch), concurrent) == Process(cfg, today, reg, sirens)
  {
    BatchesFlatten(cfg, today, reg, Chunks(sirens, batch), concurrent);
    FlattenChunks(sirens, batch);
  }

  lemma {:induction false} BatchesFlatten(cfg: Settings, today: Ymd, reg: Registry, batches: seq<seq<string>>, concurrent: nat)
    requires concurrent > 0
    ensures Batched(cfg, today, reg, batches, concurrent) == Process(cfg, today, reg, Flatten(batches))
    decreases |batches|
  {
    if |batches| > 0 {
      var last := batches[|batches| - 1];
      BatchesFlatten(cfg, today, reg, batches[..|batches| - 1], concurrent);
      ProcessGroupsFlatten(cfg, today, reg, Chunks(last, concurrent));
      FlattenChunks(last, concurrent);
      ProcessAppend(cfg, today, reg, Flatten(batches[..|batches| - 1]), last);
    }
  }

  // ---------------------------------------------------------------------------
  // Export
  // ---------------------------------------------------------------------------

  const NoResult: string := "Aucun résultat\n"

  /** `row[h]`: the value of the first entry with key `h`, `undefined` when there is none. */
  function Lookup(rec: Record, h: string): Value
    decreases |rec|
  {
    if |rec| == 0 then Null else if rec[0].0 == h then rec[0].1 else Lookup(rec[1..], h)
  }

  lemma {:induction false} LookupDistinct(rec: Record, j: nat)
    requires j < |rec| && NoDup(Keys(rec))
    ensures Lookup(rec, rec[j].0) == rec[j].1
    decreases |rec|
  {
    if j > 0 {
      assert Keys(rec)[0] != Keys(rec)[j];
      assert NoDup(Keys(rec[1..])) by {
        assert forall i :: 0 <= i < |rec| - 1 ==> Keys(rec[1..])[i] == Keys(rec)[i + 1];
      }
      LookupDistinct(rec[1..], j - 1);
    }
  }

  /** `headers.map(h => row[h])`. */
  function Cells(rec: Record, headers: seq<string>): (r: seq<Value>)
    ensures |r| == |headers| && forall j :: 0 <= j < |headers| ==> r[j] == Lookup(rec, headers[j])
  {
    seq(|headers|, j requires 0 <= j < |headers| => Lookup(rec, headers[j]))
  }

  /** Looking a record's own keys up, when they are distinct, gives back its values in order. */
  lemma CellsOfOwnKeys(rec: Record)
    requires NoDup(Keys(rec))
    ensures Cells(rec, Keys(rec)) == Values(rec)
  {
    forall j | 0 <= j < |rec| ensures Cells(rec, Keys(rec))[j] == Values(rec)[j] {
      LookupDistinct(rec, j);
    }
  }

  /** The data lines of an export: each record's values looked up in header order. */
  function ExportRows(results: seq<Record>, headers: seq<string>): (rows: seq<seq<Value>>)
    ensures |rows| == |results| && AllWidth(rows, |headers|)
    ensures forall i :: 0 <= i < |results| ==> rows[i] == Cells(results[i], headers)
  {
    seq(|results|, i requires 0 <= i < |results| => Cells(results[i], headers))
  }

  /** `exportCSV`: the keys of the first record as header, then each record's values in that order. */
  function ExportCsv(results: seq<Record>): (r: string)
    ensures |results| == 0 ==> r == NoResult
  {
    if |results| == 0 then NoResult
    else
      var headers := Keys(results[0]);
      LinesDoc([Strs(headers)] + ExportRows(results, headers))
  }

  lemma RecordKeysDistinct()
    ensures NoDup(RecordKeys)
  {
  }

  /** With the record keys as headers, each data line holds exactly the record's values. */
  lemma ExportRowsAreValues(results: seq<Record>)
    requires forall k :: 0 <= k < |results| ==> Keys(results[k]) == RecordKeys
    ensures forall i :: 0 <= i < |results| ==> ExportRows(results, RecordKeys)[i] == Values(results[i])
  {
    RecordKeysDistinct();
    forall i | 0 <= i < |results| ensures ExportRows(results, RecordKeys)[i] == Values(results[i]) {
      CellsOfOwnKeys(results[i]);
    }
  }

  /** The empty-result text reads back as a single one-field record. */
  lemma NoResultReadsBack()
    ensures ReadRecords(NoResult) == Some([["Aucun résultat"]])
  {
    var rows: seq<seq<Value>> := [[Str("Aucun résultat")]];
    NoResultIsOneRow();
    ReadLinesDoc(rows);
    assert RenderRows(rows) == [["Aucun résultat"]];
  }

  /** The empty-result text is the one-cell row `Aucun résultat` as a document. */
  lemma NoResultIsOneRow()
    ensures LinesDoc([[Str("Aucun résultat")]]) == NoResult
  {
    var t := "Aucun résultat";
    var row := [Str(t)];
    assert !NeedsQuotes(t);
    assert Escape(Str(t)) == t;
    assert EscapeAll(row) == [t] by {
      assert |row[1..]| == 0;
    }
    assert EncodeRow(row) == t;
    var rows: seq<seq<Value>> := [row];
    assert |rows[1..]| == 0;
  }

  /**
   * A non-empty export reads back as the eighteen record keys, then for each record, in
   * order, the texts of its values, one line per record; so it is never the empty-result text.
   */
  lemma ExportReadsBack(results: seq<Record>)
    requires |results| > 0 && forall k :: 0 <= k < |results| ==> Keys(results[k]) == RecordKeys
    ensures ReadRecords(ExportCsv(results)) ==
      Some([RecordKeys] + seq(|results|, i requires 0 <= i < |results| => RenderAll(Values(results[i]))))
    ensures ExportCsv(results) != NoResult
  {
    var rows := ExportRows(results, RecordKeys);
    ExportRowsAreValues(results);
    ReadLinesSheet(RecordKeys, rows);
    assert RenderRows(rows) == seq(|results|, i requires 0 <= i < |results| => RenderAll(Values(results[i])));
    NoResultReadsBack();
  }

  // ---------------------------------------------------------------------------
  // A run
  // ---------------------------------------------------------------------------

  /** How a run ends: the CSV text written, a format not modelled, the help, an error exit, or never. */
  datatype Outcome = Csv(file: string) | OtherFormat | Help | NoSirens | Crash | Hangs

  /**
   * A whole run. A negative batch size never lets `i` reach the end of the list, and a
   * negative sub-batch size never lets `j` reach the end of the first batch.
   */
  function Run(args: Args, content: string, reg: Registry, today: Ymd): (o: Outcome)
    ensures o.Csv? ==> Configure(args).Ok? && |SirenInput.LoadAdvanced(content)| > 0
    ensures (Configure(args).Ok? && Configure(args).value.batch > 0 && Configure(args).value.concurrent > 0 &&
      !Truthy(Opt(args, "help")) && |SirenInput.LoadAdvanced(content)| > 0 &&
      Configure(args).value.format != Str("json") && Configure(args).value.format != Str("xlsx")) ==>
      o == Csv(ExportCsv(Process(Configure(args).value, today, reg, SirenInput.LoadAdvanced(content))))
  {
    match Configure(args)
    case Err(_) => Crash
    case Ok(cfg) =>
      if Truthy(Opt(args, "help")) then Help
      else
        var sirens := SirenInput.LoadAdvanced(content);
        if |sirens| == 0 then NoSirens
        else if cfg.batch < 0 || cfg.concurrent < 0 then Hangs
        else if cfg.format == Str("json") || cfg.format == Str("xlsx") then OtherFormat
        else
          BatchingKeepsOrder(cfg, today, reg, sirens, cfg.batch, cfg.concurrent);
          Csv(ExportCsv(Batched(cfg, today, reg, Chunks(sirens, cfg.batch), cfg.concurrent)))
  }
}

=== FILE: buildpappers.dfy ===
/**
 * `build_pappers.js`: walk the registry's `/recherche` cursors from `'*'`, list each
 * hit's SIREN once in first-seen order, then fetch every company and write one
 * ten-column row per representative whose extracted year is 1961 or earlier.
 *
 * Unlike the other enrichment scripts, nothing inside `main` catches an exception: a
 * failed search request, a `siren_formate` without `replace`, a `representants` that
 * cannot be iterated or a null representative ends the run before the file is written.
 * Only a failed `/entreprise` request is caught (it yields `null`, and the company is skipped).
 */
module BuildPappers {
  import opened Wrappers
  import opened Js
  import opened Csv
  import opened Seqs
  import opened Dates
  import opened Records
  import opened Search
  import Text

  const Header: seq<string> := [
    "siren", "denomination", "code_naf", "libelle_code_naf", "entreprise_cessee",
    "dir_nom", "dir_prenom", "dir_qualite", "dir_date_naissance", "dir_age_estime"
  ]

  /** The first cursor of the walk. */
  const StartCursor: Value := Str("*")

  const YearMax := 1961

  /** What a run ends with: the file it writes, an exception that ends it, or replies that ran out. */
  datatype Outcome = Wrote(file: string) | Crashed | Incomplete

  /**
   * The identifier a search hit contributes: `s = r?.siren || r?.siren_formate?.replace(/\D/g, '')`,
   * skipped when `!s || s.length !== 9`, the length in UTF-16 code units. `None` is a
   * skipped hit, `Err` a hit that throws.
   */
  function HitSiren(it: Value): (r: Result<Option<string>, Fault>)
    ensures r.Err? <==> PickSiren(it).Err?
    ensures r.Ok? && r.value.Some? ==> Text.Utf16Length(r.value.value) == 9 && PickSiren(it) == Ok(Str(r.value.value))
    ensures r.Ok? && r.value.None? ==> !(PickSiren(it).value.Str? && Text.Utf16Length(PickSiren(it).value.s) == 9)
  {
    match PickSiren(it)
    case Err(e) => Err(e)
    case Ok(s) => if s.Str? && Text.Utf16Length(s.s) == 9 then Ok(Some(s.s)) else Ok(None)
  }

  /** Eight digits and an emoji are nine characters but ten UTF-16 units: the hit is skipped. */
  lemma AstralCharSkipped()
    ensures HitSiren(Obj(map["siren" := Str("12345678\U{1F600}")])) == Ok(None)
  {
    var s := "12345678\U{1F600}";
    assert Get(Obj(map["siren" := Str(s)]), "siren") == Str(s);
    assert Text.Utf16Length(s) == Text.Utf16Length(s[..8]) + 2;
    assert Text.Utf16Length(s[..8]) == 8;
  }

  /** The hits' identifiers in order, repeats included; `Err` when any hit throws. */
  function Candidates(items: seq<Value>): (r: Result<seq<string>, Fault>)
    ensures r.Err? <==> exists i :: 0 <= i < |items| && HitSiren(items[i]).Err?
    ensures r.Ok? ==> forall k :: 0 <= k < |r.value| ==> Text.Utf16Length(r.value[k]) == 9
    decreases |items|
  {
    if |items| == 0 then Ok([])
    else
      var init := items[..|items| - 1];
      var last := items[|items| - 1];
      assert forall i :: 0 <= i < |init| ==> init[i] == items[i];
      match Candidates(init)
      case Err(e) => Err(e)
      case Ok(cs) =>
        match HitSiren(last)
        case Err(e) => Err(e)
        case Ok(None) => Ok(cs)
        case Ok(Some(s)) => Ok(cs + [s])
  }

  /** A nine-character identifier is listed exactly when some hit yields it. */
  lemma {:induction false} CandidatesFromHits(items: seq<Value>, x: string)
    requires Candidates(items).Ok?
    ensures x in Candidates(items).value <==> exists i :: 0 <= i < |items| && HitSiren(items[i]) == Ok(Some(x))
    decreases |items|
  {
    if |items| > 0 {
      var init := items[..|items| - 1];
      assert forall i :: 0 <= i < |init| ==> init[i] == items[i];
      CandidatesFromHits(init, x);
      if exists i :: 0 <= i < |items| && HitSiren(items[i]) == Ok(Some(x)) {
        var i :| 0 <= i < |items| && HitSiren(items[i]) == Ok(Some(x));
        if i < |init| {
          assert HitSiren(init[i]) == Ok(Some(x));
        }
      }
    }
  }

  /** The SIREN list: `seen`/`sirens` keep each identifier once, at its first occurrence. */
  function Listed(items: seq<Value>): (r: Result<seq<string>, Fault>)
    ensures r.Err? <==> Candidates(items).Err?
    ensures r.Ok? ==> NoDup(r.value) && forall x :: x in r.value <==> x in Candidates(items).value
  {
    match Candidates(items)
    case Err(e) => Err(e)
    case Ok(cs) => Ok(Dedupe(cs))
  }

  /** The list has no repeats, every identifier was yielded by a hit, and first sightings keep their order. */
  lemma ListedFirstSeen(items: seq<Value>, x: string)
    requires Listed(items).Ok?
    ensures NoDup(Listed(items).value)
    ensures x in Listed(items).value <==> exists i :: 0 <= i < |items| && HitSiren(items[i]) == Ok(Some(x))
    ensures forall i, j :: 0 <= i < j < |Listed(items).value| ==>
      FirstIndex(Candidates(items).value, Listed(items).value[i]) < FirstIndex(Candidates(items).value, Listed(items).value[j])
  {
    CandidatesFromHits(items, x);
    DedupeOrder(Candidates(items).value);
  }

  /** `y && y <= 1961` with `y = extractYear(...)`: inclusive, unlike the other year filters. */
  predicate BornBy(rep: Value) {
    var y := ExtractYear(YearSource(rep));
    y.Some? && y.value != 0 && y.value <= YearMax
  }

  /**
   * The rows one company adds, or the exception that ends the run. A failed request or a
   * falsy body (`if (!ent) continue`) adds nothing; a `representants` that cannot be
   * iterated, or a null representative anywhere in it, throws.
   */
  function CompanyRows(siren: string, reply: Option<Value>): (r: Result<seq<seq<Value>>, Fault>)
    ensures r.Ok? ==> AllWidth(r.value, |Header|)
    ensures reply.None? || !Truthy(reply.value) ==> r == Ok([])
    ensures r.Err? <==> (reply.Some? && Truthy(reply.value) &&
      (Representants(reply.value).None? || Reached(Representants(reply.value).value, Nullish) < |Representants(reply.value).value|))
  {
    match reply
    case None => Ok([])
    case Some(ent) =>
      if !Truthy(ent) then Ok([])
      else
        match Representants(ent)
        case None => Err(TypeError)
        case Some(reps) =>
          if Reached(reps, Nullish) < |reps| then Err(TypeError)
          else
            var row := (r: Value) => YearRow(siren, ent, r);
            EmitShape(reps, Nullish, BornBy, row, (x: seq<Value>) => |x| == |Header|);
            Ok(Emit(reps, Nullish, BornBy, row))
  }

  /** A row is written exactly for a representative whose extracted year is at most 1961 (inclusive). */
  lemma RowIffBornBy1961(siren: string, ent: Value, x: seq<Value>)
    requires CompanyRows(siren, Some(ent)).Ok? && Truthy(ent)
    ensures x in CompanyRows(siren, Some(ent)).value <==>
      exists i :: 0 <= i < |Representants(ent).value| && x == YearRow(siren, ent, Representants(ent).value[i]) &&
        ExtractYear(YearSource(Representants(ent).value[i])).Some? &&
        ExtractYear(YearSource(Representants(ent).value[i])).value <= 1961
  {
    var reps := Representants(ent).value;
    EmitMembers(reps, Nullish, BornBy, (r: Value) => YearRow(siren, ent, r), x);
  }

  /** All companies' rows in list order, or the first company's exception. */
  function DataRows(sirens: seq<string>, reg: Registry): (r: Result<seq<seq<Value>>, Fault>)
    ensures r.Ok? ==> AllWidth(r.value, |Header|)
    ensures r.Err? <==> exists i :: 0 <= i < |sirens| && CompanyRows(sirens[i], Fetch(reg, sirens[i])).Err?
    decreases |sirens|
  {
    if |sirens| == 0 then Ok([])
    else
      var init := sirens[..|sirens| - 1];
      var last := sirens[|sirens| - 1];
      assert forall i :: 0 <= i < |init| ==> init[i] == sirens[i];
      match DataRows(init, reg)
      case Err(e) => Err(e)
      case Ok(rows) =>
        match CompanyRows(last, Fetch(reg, last))
        case Err(e) => Err(e)
        case Ok(more) => Ok(rows + more)
  }

  /**
   * A whole run over the search replies `replies` and the registry's answers `reg`. The
   * hits are handled as each page arrives, so a hit that throws ends the run however the
   * walk would have gone on.
   */
  function Run(replies: seq<Reply>, reg: Registry): (o: Outcome)
    ensures (o.Wrote? <==>
      GuardedWalk(replies, StartCursor).end == Finished && Listed(GuardedWalk(replies, StartCursor).items).Ok? &&
      DataRows(Listed(GuardedWalk(replies, StartCursor).items).value, reg).Ok?)
    ensures (o == Crashed <==>
      GuardedWalk(replies, StartCursor).end == Threw || Listed(GuardedWalk(replies, StartCursor).items).Err? ||
      (GuardedWalk(replies, StartCursor).end == Finished &&
       DataRows(Listed(GuardedWalk(replies, StartCursor).items).value, reg).Err?))
  {
    var w := GuardedWalk(replies, StartCursor);
    match Listed(w.items)
    case Err(_) => Crashed
    case Ok(sirens) =>
      match w.end
      case Threw => Crashed
      case Unanswered => Incomplete
      case Finished =>
        match DataRows(sirens, reg)
        case Err(_) => Crashed
        case Ok(rows) => Wrote(JoinedDoc([Strs(Header)] + rows))
  }

  /**
   * A file that is written reads back as the header and the ten cell texts of every row of
   * the listed companies, company after company in the order they were first found.
   */
  lemma WrittenReadsBack(replies: seq<Reply>, reg: Registry)
    requires Run(replies, reg).Wrote?
    ensures (ReadRecords(Run(replies, reg).file) ==
      Some([Header] + RenderRows(DataRows(Listed(GuardedWalk(replies, StartCursor).items).value, reg).value)))
  {
    var sirens := Listed(GuardedWalk(replies, StartCursor).items).value;
    var rows := DataRows(sirens, reg).value;
    ReadJoinedSheet(Header, rows);
  }

  /** The walk starts at `'*'`, and no cursor is asked for twice in a row. */
  lemma WalkFromStar(replies: seq<Reply>)
    requires |replies| > 0
    ensures GuardedWalk(replies, StartCursor).asked[0] == Str("*")
    ensures forall i :: 1 <= i < |GuardedWalk(replies, StartCursor).asked| ==>
      GuardedWalk(replies, StartCursor).asked[i] != GuardedWalk(replies, StartCursor).asked[i - 1]
  {
  }
}

=== FILE: cli.dfy ===
/**
 * The command line every script reads: `--key=value` and bare `--flag` options collected
 * with `Object.fromEntries`, and the conversions the scripts apply to option values
 * (`parseInt`, `Number`, `split(',')`).
 */
module Cli {
  import opened Text
  import opened Wrappers
  import opened Js

  /** An option's value: the text after the first `=`, or `true` for a bare option. */
  datatype Arg = Text(s: string) | Flag

  type Args = map<string, Arg>

  // ---------------------------------------------------------------------------
  // Parsing one argument: `a.match(/^--([^=]+)=(.*)$/)`, else `[a.replace(/^--/, ''), true]`
  // ---------------------------------------------------------------------------

  predicate NoLineTerminator(s: string) {
    forall i :: 0 <= i < |s| ==> !IsLineTerminator(s[i])
  }

  /** The text between the leading `--` and the first `=`. */
  function KeyPart(a: string): (k: string)
    requires |a| >= 2
    ensures '=' !in k && 2 + |k| <= |a| && k == a[2..2 + |k|]
    ensures 2 + |k| == |a| || a[2 + |k|] == '='
  {
    Split(a[2..], '=')[0]
  }

  /**
   * The regular expression matches: the argument starts with `--`, at least one character
   * precedes the first `=`, and nothing after that `=` is a line terminator (`.` does not
   * match one and `$` without the `m` flag anchors at the end of the input).
   */
  predicate IsKeyValue(a: string) {
    |a| >= 2 && a[..2] == "--" &&
    var k := KeyPart(a);
    |k| >= 1 && 2 + |k| < |a| && NoLineTerminator(a[3 + |k|..])
  }

  /** One entry of `Object.fromEntries(...)`. */
  function ParseArg(a: string): (r: (string, Arg))
    ensures IsKeyValue(a) ==> r.1.Text? && a == "--" + r.0 + "=" + r.1.s && '=' !in r.0
    ensures !IsKeyValue(a) ==> r.1 == Flag
    ensures !IsKeyValue(a) && |a| >= 2 && a[..2] == "--" ==> r.0 == a[2..]
    ensures !(|a| >= 2 && a[..2] == "--") ==> r.0 == a
  {
    if IsKeyValue(a) then
      var k := KeyPart(a);
      assert a == "--" + k + "=" + a[3 + |k|..] by {
        assert a == a[..2] + a[2..2 + |k|] + [a[2 + |k|]] + a[3 + |k|..];
      }
      (k, Text(a[3 + |k|..]))
    else if |a| >= 2 && a[..2] == "--" then (a[2..], Flag)
    else (a, Flag)
  }

  /** `--key=value` reads back as `key` and `value`, however many `=` the value holds. */
  lemma {:induction false} KeyValueRoundTrip(k: string, v: string)
    requires |k| >= 1 && '=' !in k && NoLineTerminator(v)
    ensures ParseArg("--" + k + "=" + v) == (k, Text(v))
  {
    var a := "--" + k + "=" + v;
    assert a[..2] == "--";
    assert a[2..] == k + "=" + v;
    SplitPrefix(k, v, '=');
    assert k + ['='] + v == a[2..];
    assert KeyPart(a) == k;
    assert a[3 + |k|..] == v;
  }

  /** A bare `--flag` reads back as `flag` set to `true`. */
  lemma {:induction false} FlagRoundTrip(k: string)
    requires '=' !in k
    ensures ParseArg("--" + k) == (k, Flag)
  {
    var a := "--" + k;
    assert a[..2] == "--" && a[2..] == k;
    SplitNoSep(k, '=');
    assert KeyPart(a) == k;
  }

  /** A value holding a line break does not match, so the whole argument becomes a flag. */
  lemma MultilineValueIsFlag(k: string, v: string)
    requires |k| >= 1 && '=' !in k && !NoLineTerminator(v)
    ensures ParseArg("--" + k + "=" + v) == (k + "=" + v, Flag)
  {
    var a := "--" + k + "=" + v;
    assert a[..2] == "--";
    assert a[2..] == k + "=" + v;
    SplitPrefix(k, v, '=');
    assert k + ['='] + v == a[2..];
    assert KeyPart(a) == k;
    assert a[3 + |k|..] == v;
  }

  /** Some entry has key `k`. */
  predicate HasKey<V>(es: seq<(string, V)>, k: string) {
    exists i :: 0 <= i < |es| && es[i].0 == k
  }

  /** `Object.fromEntries(es)`: a later entry for the same key replaces an earlier one. */
  function FromEntries<V>(es: seq<(string, V)>): (r: map<string, V>)
    ensures forall k :: k in r <==> HasKey(es, k)
    ensures forall i :: 0 <= i < |es| ==> es[i].0 in r
    ensures forall i :: 0 <= i < |es| && LastFor(es, i) ==> r[es[i].0] == es[i].1
    decreases |es|
  {
    if |es| == 0 then map[]
    else
      var n := |es| - 1;
      var init := FromEntries(es[..n]);
      var r := init[es[n].0 := es[n].1];
      HasKeySnoc(es);
      assert forall i :: 0 <= i < |es| ==> HasKey(es, es[i].0);
      forall i | 0 <= i < |es| && LastFor(es, i)
        ensures r[es[i].0] == es[i].1
      {
        if i < n {
          assert es[..n][i] == es[i];
          assert LastFor(es[..n], i);
        }
      }
      r
  }

  lemma HasKeySnoc<V>(es: seq<(string, V)>)
    requires |es| > 0
    ensures forall k :: HasKey(es, k) <==> HasKey(es[..|es| - 1], k) || es[|es| - 1].0 == k
  {
    var n := |es| - 1;
    forall k | HasKey(es, k) ensures HasKey(es[..n], k) || es[n].0 == k {
      var i :| 0 <= i < |es| && es[i].0 == k;
      if i < n {
        assert es[..n][i] == es[i];
      }
    }
    forall k | HasKey(es[..n], k) ensures HasKey(es, k) {
      var i :| 0 <= i < n && es[..n][i].0 == k;
      assert es[i] == es[..n][i];
    }
  }

  /** No later entry has the same key as entry `i`. */
  predicate LastFor<V>(es: seq<(string, V)>, i: nat)
    requires i < |es|
  {
    forall j :: i < j < |es| ==> es[j].0 != es[i].0
  }

  /** The options given on the command line (`process.argv.slice(2)`). */
  function ParseArgs(argv: seq<string>): Args {
    FromEntries(seq(|argv|, i requires 0 <= i < |argv| => ParseArg(argv[i])))
  }

  /** The last `--key=...` or `--key` on the command line decides the option's value. */
  lemma {:induction false} LastOptionWins(argv: seq<string>, i: nat)
    requires i < |argv|
    requires forall j :: i < j < |argv| ==> ParseArg(argv[j]).0 != ParseArg(argv[i]).0
    ensures ParseArg(argv[i]).0 in ParseArgs(argv)
    ensures ParseArgs(argv)[ParseArg(argv[i]).0] == ParseArg(argv[i]).1
  {
    var es := seq(|argv|, i requires 0 <= i < |argv| => ParseArg(argv[i]));
    assert LastFor(es, i);
  }

  /** `args.k` as a JavaScript value: a string, `true`, or `undefined`. */
  function Opt(args: Args, k: string): (v: Value)
    ensures k !in args <==> v.Null?
    ensures v.Null? || v.Str? || v == Bool(true)
  {
    if k !in args then Null
    else match args[k]
      case Text(s) => Str(s)
      case Flag => Bool(true)
  }

  /**
   * A path option that makes `path.resolve` or `path.dirname` throw: a bare `--k` is
   * `true`, and the `path` functions take strings only. An empty `--k=` is falsy, so the
   * scripts' `args.k ? … : default` picks the default instead.
   */
  predicate PathThrows(args: Args, k: string) {
    k in args && args[k] == Flag
  }

  /** `!process.env.PAPPERS_API_KEY` is false: the key is present and not empty. */
  predicate ApiKeySet(env: map<string, string>) {
    "PAPPERS_API_KEY" in env && env["PAPPERS_API_KEY"] != ""
  }

  // ---------------------------------------------------------------------------
  // `parseInt(v)` (no radix)
  // ---------------------------------------------------------------------------

  predicate IsHexDigit(c: char) {
    IsDigit(c) || 'a' <= c <= 'f' || 'A' <= c <= 'F'
  }

  function HexDigitValue(c: char): nat
    requires IsHexDigit(c)
  {
    if IsDigit(c) then DigitValue(c)
    else if 'a' <= c <= 'f' then c as int - 'a' as int + 10
    else c as int - 'A' as int + 10
  }

  /** The longest prefix of `s` whose characters all satisfy `IsDigit` (or `IsHexDigit`). */
  function DigitPrefix(s: string, hex: bool): (r: string)
    ensures r <= s
    ensures forall i :: 0 <= i < |r| ==> if hex then IsHexDigit(r[i]) else IsDigit(r[i])
    ensures |r| == |s| || !(if hex then IsHexDigit(s[|r|]) else IsDigit(s[|r|]))
  {
    if |s| > 0 && (if hex then IsHexDigit(s[0]) else IsDigit(s[0])) then
      [s[0]] + DigitPrefix(s[1..], hex)
    else ""
  }

  function HexValue(s: string): nat
    requires forall i :: 0 <= i < |s| ==> IsHexDigit(s[i])
  {
    if |s| == 0 then 0 else HexValue(s[..|s| - 1]) * 16 + HexDigitValue(s[|s| - 1])
  }

  /** The sign `parseInt` reads and the text after it. */
  function SignOf(t: string): (r: (int, string))
    ensures r.0 == 1 || r.0 == -1
    ensures r.1 == t || (|t| >= 1 && r.1 == t[1..] && (t[0] == '-' || t[0] == '+'))
  {
    if |t| > 0 && t[0] == '-' then (-1, t[1..])
    else if |t| > 0 && t[0] == '+' then (1, t[1..])
    else (1, t)
  }

  /**
   * `parseInt(s)`: skip leading whitespace, read an optional sign, then a `0x` hexadecimal
   * or a decimal digit run; `None` stands for `NaN` (no digit where one is needed).
   */
  function ParseIntText(s: string): (r: Option<int>)
    ensures r.None? <==> (
      var u := SignOf(TrimStart(s)).1;
      if |u| >= 2 && u[0] == '0' && (u[1] == 'x' || u[1] == 'X') then |DigitPrefix(u[2..], true)| == 0
      else |DigitPrefix(u, false)| == 0)
  {
    var (sign, u) := SignOf(TrimStart(s));
    if |u| >= 2 && u[0] == '0' && (u[1] == 'x' || u[1] == 'X') then
      var h := DigitPrefix(u[2..], true);
      if |h| == 0 then None else Some(sign * HexValue(h))
    else
      var d := DigitPrefix(u, false);
      if |d| == 0 then None else Some(sign * DigitsValue(d))
  }

  /** `parseInt(v)`: the value is first converted with `String(v)`; `undefined` and `true` give `NaN`. */
  function ParseInt(v: Value): Option<int> {
    ParseIntText(ToStr(v))
  }

  /** `parseInt(undefined)` is `NaN`: `"null"` has no leading digit. */
  lemma ParseIntNull()
    ensures ParseInt(Null).None?
  {
    var s := ToStr(Null);
    assert s == "null";
    TrimStartKeeps(s);
    assert SignOf(s) == (1, s);
    assert DigitPrefix(s, false) == "";
  }

  /** `parseInt(String(n))` gives `n` back. */
  lemma {:induction false} ParseIntRoundTrip(n: int)
    ensures ParseIntText(IntToString(n)) == Some(n)
  {
    var s := IntToString(n);
    assert !IsSpace(s[0]) by {
      assert IsDigit(s[0]) || s[0] == '-';
    }
    assert TrimStart(s) == s;
    var u := if n < 0 then s[1..] else s;
    assert AllDigits(u) && DigitsValue(u) == if n < 0 then -n else n;
    assert SignOf(s) == (if n < 0 then -1 else 1, u);
    assert |u| >= 2 ==> u[1] != 'x' && u[1] != 'X' by {
      assert |u| >= 2 ==> IsDigit(u[1]);
    }
    DigitPrefixOfDigits(u);
  }

  lemma {:induction false} DigitPrefixOfDigits(u: string)
    requires AllDigits(u)
    ensures DigitPrefix(u, false) == u
    decreases |u|
  {
    if |u| > 0 {
      DigitPrefixOfDigits(u[1..]);
      assert u == [u[0]] + u[1..];
    }
  }

  /** `parseInt` ignores leading whitespace. */
  lemma {:induction false} ParseIntSkipsSpace(w: string, s: string)
    requires forall i :: 0 <= i < |w| ==> IsSpace(w[i])
    ensures ParseIntText(w + s) == ParseIntText(s)
  {
    TrimStartSkips(w, s);
  }

  lemma {:induction false} TrimStartSkips(w: string, s: string)
    requires forall i :: 0 <= i < |w| ==> IsSpace(w[i])
    ensures TrimStart(w + s) == TrimStart(s)
    decreases |w|
  {
    if |w| > 0 {
      assert (w + s)[1..] == w[1..] + s;
      TrimStartSkips(w[1..], s);
    } else {
      assert w + s == s;
    }
  }

  /** `parseInt(v) || d`: `NaN` and `0` fall back to the default. */
  function IntOr(v: Value, d: int): (r: int)
    ensures r == d || (ParseInt(v) == Some(r) && r != 0)
    ensures (ParseInt(v).None? || ParseInt(v) == Some(0)) ==> r == d
  {
    match ParseInt(v)
    case Some(n) => if n != 0 then n else d
    case None => d
  }

  // ---------------------------------------------------------------------------
  // `Number(v)` and `split(',')` on option values
  // ---------------------------------------------------------------------------

  /**
   * `Number(s)` for a string: surrounding whitespace is ignored, the empty string is `0`,
   * an optionally signed decimal integer is its value; everything else is `NaN` here.
   */
  function NumberText(s: string): (r: Option<int>)
    ensures |Trim(s)| == 0 ==> r == Some(0)
    ensures |Trim(s)| > 0 && AllDigits(Trim(s)) ==> r == Some(DigitsValue(Trim(s)))
    ensures r.Some? && |Trim(s)| > 0 ==> IsDigit(Trim(s)[|Trim(s)| - 1])
    ensures r.Some? ==> forall i :: 0 < i < |Trim(s)| ==> IsDigit(Trim(s)[i])
    ensures r.Some? && |Trim(s)| > 0 ==> IsDigit(Trim(s)[0]) || Trim(s)[0] == '-' || Trim(s)[0] == '+'
  {
    var t := Trim(s);
    if |t| == 0 then Some(0)
    else
      var (sign, u) := SignOf(t);
      if |u| >= 1 && AllDigits(u) then Some(sign * DigitsValue(u)) else None
  }

  /** `Number(v)`; `None` is `NaN`. An array or object converts through its string form. */
  function ToNumber(v: Value): (r: Option<int>)
    ensures v.Num? ==> r == Some(v.n)
    ensures v.Bool? ==> r == Some(if v.b then 1 else 0)
    ensures v.Null? ==> r.None?
  {
    match v
    case Null => None
    case Bool(b) => Some(if b then 1 else 0)
    case Num(n) => Some(n)
    case Str(s) => NumberText(s)
    case _ => NumberText(ToStr(v))
  }

  /** `Number(String(n))` gives `n` back, with or without surrounding whitespace. */
  lemma {:induction false} NumberRoundTrip(n: int)
    ensures NumberText(IntToString(n)) == Some(n)
  {
    var s := IntToString(n);
    assert IsDigit(s[0]) || s[0] == '-';
    assert IsDigit(s[|s| - 1]) by {
      if n < 0 {
        assert s[|s| - 1] == s[1..][|s| - 2];
      }
    }
    TrimIdentity(s);
    var u := if n < 0 then s[1..] else s;
    assert SignOf(s) == (if n < 0 then -1 else 1, u);
  }

  /** `v ? v.split(',') : dflt`: a bare flag has no `split` and throws. */
  function SplitOpt(v: Value, dflt: seq<string>): (r: Result<seq<string>, Fault>)
    ensures r.Err? <==> Truthy(v) && !v.Str?
    ensures !Truthy(v) ==> r == Ok(dflt)
    ensures v.Str? && Truthy(v) ==> r.Ok? && |r.value| >= 1 && Join(r.value, ",") == v.s
  {
    if !Truthy(v) then Ok(dflt)
    else if v.Str? then
      JoinSplit(v.s, ',');
      Ok(Split(v.s, ','))
    else Err(TypeError)
  }
}

=== FILE: companiesonly.dfy ===
/**
 * `enrich_companies_only.js`: one 24-column row per company the registry returns,
 * with the nested fallbacks for the head office, the latest accounts and the main
 * collective agreement; rows joined by line feeds.
 */
module CompaniesOnly {
  import opened Wrappers
  import opened Js
  import opened Csv
  import opened Records
  import SirenInput

  const Header: seq<string> := [
    "siren", "denomination", "sigle", "forme_juridique", "code_naf", "libelle_code_naf",
    "effectif", "tranche_effectif", "date_creation", "date_cessation", "entreprise_cessee",
    "categorie_entreprise", "adresse_siege", "code_postal_siege", "ville_siege", "departement_siege",
    "chiffre_affaires", "resultat", "nb_etablissements", "nb_etablissements_actifs",
    "convention_collective", "site_web", "telephone", "email"
  ]

  /** `ent.siege || {}`. */
  function Siege(ent: Value): Value {
    Or(Get(ent, "siege"), Obj(map[]))
  }

  /** `(ent.finances || [])[0] || {}`: only the first financial year is ever read. */
  function LatestAccounts(ent: Value): Value {
    Or(First(Or(Get(ent, "finances"), Arr([]))), Obj(map[]))
  }

  /** `(ent.conventions_collectives || [])[0]?.nom || ''`. */
  function MainAgreement(ent: Value): Value {
    OrEmpty(Get(First(Or(Get(ent, "conventions_collectives"), Arr([]))), "nom"))
  }

  /** The row of company `ent`. */
  function CompanyRow(siren: string, ent: Value): (row: seq<Value>)
    ensures |row| == |Header| && row[0] == Str(siren)
  {
    var siege := Siege(ent);
    var accounts := LatestAccounts(ent);
    var creation := FirstTruthy(ent, ["date_creation", "date_creation_entreprise"], Str(""));
    [Str(siren), Denomination(ent), Field(ent, "sigle"), Field(ent, "forme_juridique"),
     Field(ent, "code_naf"), Field(ent, "libelle_code_naf"), Field(ent, "effectif"),
     Field(ent, "tranche_effectif"),
     creation, Field(ent, "date_cessation"), OuiNon(Get(ent, "entreprise_cessee")),
     Field(ent, "categorie_entreprise"), Field(siege, "adresse_ligne_1"), Field(siege, "code_postal"),
     Field(siege, "ville"), Field(siege, "departement"),
     Field(accounts, "chiffre_affaires"), Field(accounts, "resultat"),
     Field(ent, "nombre_etablissements"), Field(ent, "nombre_etablissements_ouverts"),
     MainAgreement(ent), Field(ent, "site_web"), Field(siege, "telephone"), Field(ent, "email")]
  }

  /**
   * The `denomination` column holds `denomination`, else `nom_entreprise`; the
   * `date_creation` column holds `date_creation`, else `date_creation_entreprise`; the
   * `entreprise_cessee` column says `oui` exactly for a ceased company.
   */
  lemma CompanyRowNames(siren: string, ent: Value)
    ensures Header[1] == "denomination" && Header[8] == "date_creation" && Header[10] == "entreprise_cessee"
    ensures CompanyRow(siren, ent)[1] == FirstTruthy(ent, ["denomination", "nom_entreprise"], Str(""))
    ensures CompanyRow(siren, ent)[8] == FirstTruthy(ent, ["date_creation", "date_creation_entreprise"], Str(""))
    ensures CompanyRow(siren, ent)[10] == Str("oui") <==> Truthy(Get(ent, "entreprise_cessee"))
  {
    RowName(siren, ent);
    RowCreation(siren, ent);
    RowCeased(siren, ent);
  }

  lemma RowName(siren: string, ent: Value)
    ensures CompanyRow(siren, ent)[1] == FirstTruthy(ent, ["denomination", "nom_entreprise"], Str(""))
  {
  }

  lemma RowCreation(siren: string, ent: Value)
    ensures CompanyRow(siren, ent)[8] == FirstTruthy(ent, ["date_creation", "date_creation_entreprise"], Str(""))
  {
  }

  lemma RowCeased(siren: string, ent: Value)
    ensures CompanyRow(siren, ent)[10] == OuiNon(Get(ent, "entreprise_cessee"))
  {
  }

  /**
   * The `chiffre_affaires` and `resultat` columns come only from the first financial year,
   * and the `convention_collective` column is the first agreement's `nom`.
   */
  lemma CompanyRowAccounts(siren: string, ent: Value)
    ensures Header[16] == "chiffre_affaires" && Header[17] == "resultat" && Header[20] == "convention_collective"
    ensures CompanyRow(siren, ent)[16] == Field(LatestAccounts(ent), "chiffre_affaires")
    ensures CompanyRow(siren, ent)[17] == Field(LatestAccounts(ent), "resultat")
    ensures CompanyRow(siren, ent)[20] == MainAgreement(ent)
  {
  }

  /** With a list of financial years, revenue is the first year's, or `''` when it has none. */
  lemma RevenueFromFirstYear(ent: Value, years: seq<Value>)
    requires Get(ent, "finances") == Arr(years) && |years| > 0 && years[0].Obj?
    ensures CompanyRow("", ent)[16] == Field(years[0], "chiffre_affaires")
  {
    CompanyRowAccounts("", ent);
  }

  /** A company is fetched when the registry answered with a non-null body (`ent.siege` throws on null). */
  predicate Fetched(reg: Registry, siren: string) {
    siren in reg && !reg[siren].Null?
  }

  /** The data rows: one per fetched company, in list order. */
  function DataRows(sirens: seq<string>, reg: Registry): (rows: seq<seq<Value>>)
    ensures AllWidth(rows, |Header|)
    ensures forall k :: 0 <= k < |rows| ==> rows[k][0].Str? && rows[k][0].s in sirens && Fetched(reg, rows[k][0].s)
    decreases |sirens|
  {
    if |sirens| == 0 then []
    else
      var init := sirens[..|sirens| - 1];
      var s := sirens[|sirens| - 1];
      assert forall x :: x in init ==> x in sirens;
      if Fetched(reg, s) then DataRows(init, reg) + [CompanyRow(s, reg[s])] else DataRows(init, reg)
  }

  /** How many listed companies were fetched. */
  function FetchedCount(sirens: seq<string>, reg: Registry): nat
    decreases |sirens|
  {
    if |sirens| == 0 then 0
    else FetchedCount(sirens[..|sirens| - 1], reg) + (if Fetched(reg, sirens[|sirens| - 1]) then 1 else 0)
  }

  /** The reported total `rows.length - 1` is the number of fetched companies. */
  lemma {:induction false} TotalIsFetched(sirens: seq<string>, reg: Registry)
    ensures |DataRows(sirens, reg)| == FetchedCount(sirens, reg)
    decreases |sirens|
  {
    if |sirens| > 0 {
      TotalIsFetched(sirens[..|sirens| - 1], reg);
    }
  }

  function Output(content: string, reg: Registry): string {
    JoinedDoc([Strs(Header)] + DataRows(SirenInput.ReadSirenList(content), reg))
  }

  /** The file reads back as the header and each company's 24 cell texts. */
  lemma OutputReadsBack(content: string, reg: Registry)
    ensures ReadRecords(Output(content, reg)) ==
      Some([Header] + RenderRows(DataRows(SirenInput.ReadSirenList(content), reg)))
  {
    ReadJoinedSheet(Header, DataRows(SirenInput.ReadSirenList(content), reg));
  }
}

=== FILE: csv.dfy ===
/**
 * The scripts' CSV writer (`csvEscape` and `toCsvRow`) and a reader for the dialect it
 * writes. The writer follows the quoting rule of section 2 of RFC 4180 (rules 6 and 7:
 * a field holding a special character is enclosed in double quotes and an inner quote is
 * written twice), with `;` as the delimiter and only `;`, `"` and line feed as special
 * characters: a `,` or a carriage return never triggers quoting.
 */
module Csv {
  import opened Text
  import opened Js
  import opened Wrappers

  /** `/[;"\n]/.test(s)`. */
  predicate NeedsQuotes(s: string) {
    ';' in s || '"' in s || '\n' in s
  }

  /** `s.replace(/"/g, '""')`. */
  function DoubleQuotes(s: string): string {
    if |s| == 0 then ""
    else (if s[0] == '"' then "\"\"" else [s[0]]) + DoubleQuotes(s[1..])
  }

  /** `csvEscape` applied to the text of a non-null value. */
  function EscapeText(s: string): (r: string)
    ensures !NeedsQuotes(s) ==> r == s
    ensures NeedsQuotes(s) ==> |r| >= 2 && r[0] == '"' && r[|r| - 1] == '"'
  {
    if NeedsQuotes(s) then "\"" + DoubleQuotes(s) + "\"" else s
  }

  /** The text a reader recovers for a cell: `null` and `undefined` become the empty field. */
  function Rendered(v: Value): string {
    if v.Null? then "" else ToStr(v)
  }

  /** `csvEscape(v)`. */
  function Escape(v: Value): (r: string)
    ensures v.Null? ==> r == ""
    ensures r == EscapeText(Rendered(v))
  {
    if v.Null? then "" else EscapeText(ToStr(v))
  }

  function EscapeAll(cells: seq<Value>): seq<string> {
    if |cells| == 0 then [] else [Escape(cells[0])] + EscapeAll(cells[1..])
  }

  function RenderAll(cells: seq<Value>): (r: seq<string>)
    ensures |r| == |cells|
    ensures forall i :: 0 <= i < |cells| ==> r[i] == Rendered(cells[i])
  {
    if |cells| == 0 then [] else [Rendered(cells[0])] + RenderAll(cells[1..])
  }

  /** `a.map(csvEscape).join(';')`: one record without its line terminator. */
  function EncodeRow(cells: seq<Value>): string {
    Join(EscapeAll(cells), ";")
  }

  /** Rows each written as `toCsvRow(a)` ending in `\n`, concatenated. */
  function LinesDoc(rows: seq<seq<Value>>): string {
    if |rows| == 0 then "" else EncodeRow(rows[0]) + "\n" + LinesDoc(rows[1..])
  }

  /** Rows written without a terminator and joined by `rows.join('\n')`. */
  function JoinedDoc(rows: seq<seq<Value>>): string {
    if |rows| == 0 then ""
    else if |rows| == 1 then EncodeRow(rows[0])
    else EncodeRow(rows[0]) + "\n" + JoinedDoc(rows[1..])
  }

  function RenderRows(rows: seq<seq<Value>>): (r: seq<seq<string>>)
    ensures |r| == |rows|
    ensures forall i :: 0 <= i < |rows| ==> r[i] == RenderAll(rows[i])
  {
    if |rows| == 0 then [] else [RenderAll(rows[0])] + RenderRows(rows[1..])
  }

  // ---------------------------------------------------------------------------
  // A reader for the written dialect
  // ---------------------------------------------------------------------------

  /** Text of an unquoted field: everything before the next `;` or line feed. */
  function ReadBare(s: string): (r: (string, string))
    ensures r.0 + r.1 == s
    ensures ';' !in r.0 && '\n' !in r.0
    ensures r.1 == "" || r.1[0] == ';' || r.1[0] == '\n'
  {
    if |s| == 0 || s[0] == ';' || s[0] == '\n' then ("", s)
    else
      var (f, rest) := ReadBare(s[1..]);
      assert s == [s[0]] + s[1..];
      ([s[0]] + f, rest)
  }

  /** Body of a quoted field, after its opening quote: `""` stands for `"`, a lone `"` closes it. */
  function ReadQuoted(s: string): (r: Option<(string, string)>)
    ensures r.Some? ==> |r.value.1| < |s|
  {
    if |s| == 0 then None
    else if s[0] == '"' then
      if |s| >= 2 && s[1] == '"' then
        match ReadQuoted(s[2..])
        case None => None
        case Some((f, rest)) => Some(("\"" + f, rest))
      else Some(("", s[1..]))
    else
      match ReadQuoted(s[1..])
      case None => None
      case Some((f, rest)) => Some(([s[0]] + f, rest))
  }

  /** One field: its text and what follows it. */
  function ReadField(s: string): (r: Option<(string, string)>)
    ensures r.Some? ==> |r.value.1| <= |s|
  {
    if |s| > 0 && s[0] == '"' then ReadQuoted(s[1..]) else Some(ReadBare(s))
  }

  /** One record: its fields and the text after its line feed (or after the end of input). */
  function ReadRecord(s: string): (r: Option<(seq<string>, string)>)
    ensures r.Some? ==> |r.value.0| >= 1 && (|r.value.1| < |s| || r.value.1 == s == "")
    decreases |s|
  {
    match ReadField(s)
    case None => None
    case Some((f, rest)) =>
      if |rest| == 0 then Some(([f], ""))
      else if rest[0] == '\n' then Some(([f], rest[1..]))
      else if rest[0] == ';' then
        match ReadRecord(rest[1..])
        case None => None
        case Some((fs, after)) => Some(([f] + fs, after))
      else None
  }

  /** A whole document: records until the input is used up. */
  function ReadRecords(s: string): Option<seq<seq<string>>>
    decreases |s|
  {
    if |s| == 0 then Some([])
    else
      match ReadRecord(s)
      case None => None
      case Some((fs, rest)) =>
        match ReadRecords(rest)
        case None => None
        case Some(more) => Some([fs] + more)
  }

  // ---------------------------------------------------------------------------
  // Round trips
  // ---------------------------------------------------------------------------

  predicate FieldEnd(rest: string) {
    rest == "" || rest[0] == ';' || rest[0] == '\n'
  }

  lemma {:induction false} ReadBarePlain(t: string, rest: string)
    requires ';' !in t && '\n' !in t
    requires FieldEnd(rest)
    ensures ReadBare(t + rest) == (t, rest)
    decreases |t|
  {
    if |t| == 0 {
      assert t + rest == rest;
    } else {
      assert (t + rest)[0] == t[0] && (t + rest)[1..] == t[1..] + rest;
      ReadBarePlain(t[1..], rest);
      assert t == [t[0]] + t[1..];
    }
  }

  lemma {:induction false} ReadQuotedDoubled(t: string, rest: string)
    requires FieldEnd(rest)
    ensures ReadQuoted(DoubleQuotes(t) + "\"" + rest) == Some((t, rest))
    decreases |t|
  {
    var s := DoubleQuotes(t) + "\"" + rest;
    if |t| == 0 {
      assert s == "\"" + rest;
      assert s[1..] == rest;
    } else {
      ReadQuotedDoubled(t[1..], rest);
      assert t == [t[0]] + t[1..];
      if t[0] == '"' {
        assert s == "\"\"" + (DoubleQuotes(t[1..]) + "\"" + rest);
        assert s[2..] == DoubleQuotes(t[1..]) + "\"" + rest;
      } else {
        assert s == [t[0]] + (DoubleQuotes(t[1..]) + "\"" + rest);
        assert s[1..] == DoubleQuotes(t[1..]) + "\"" + rest;
      }
    }
  }

  /** Unquoting what `csvEscape` wrote gives back the original text, whatever follows the field. */
  lemma EscapeRoundTrip(t: string, rest: string)
    requires FieldEnd(rest)
    ensures ReadField(EscapeText(t) + rest) == Some((t, rest))
  {
    if NeedsQuotes(t) {
      var s := EscapeText(t) + rest;
      assert s == "\"" + (DoubleQuotes(t) + "\"" + rest);
      assert s[1..] == DoubleQuotes(t) + "\"" + rest;
      ReadQuotedDoubled(t, rest);
    } else {
      ReadBarePlain(t, rest);
      if |t| > 0 {
        assert (t + rest)[0] == t[0];
      } else {
        assert t + rest == rest;
      }
    }
  }

  /** The terminator after a record: nothing, or a line feed that is consumed. */
  function AfterLine(tail: string): string
    requires tail == "" || tail[0] == '\n'
  {
    if tail == "" then "" else tail[1..]
  }

  lemma ReadLastField(t: string, tail: string)
    requires tail == "" || tail[0] == '\n'
    ensures ReadRecord(EscapeText(t) + tail) == Some(([t], AfterLine(tail)))
  {
    EscapeRoundTrip(t, tail);
  }

  lemma ReadNextField(t: string, more: string)
    ensures ReadRecord(EscapeText(t) + (";" + more)) ==
      match ReadRecord(more)
      case None => None
      case Some((fs, after)) => Some(([t] + fs, after))
  {
    EscapeRoundTrip(t, ";" + more);
    assert (";" + more)[1..] == more;
  }

  function EscapeTexts(ts: seq<string>): seq<string> {
    if |ts| == 0 then [] else [EscapeText(ts[0])] + EscapeTexts(ts[1..])
  }

  lemma {:induction false} EscapeAllTexts(cells: seq<Value>)
    ensures EscapeAll(cells) == EscapeTexts(RenderAll(cells))
    decreases |cells|
  {
    if |cells| > 0 {
      EscapeAllTexts(cells[1..]);
      assert RenderAll(cells)[1..] == RenderAll(cells[1..]);
    }
  }

  lemma {:induction false} ReadEscapedTexts(ts: seq<string>, tail: string)
    requires |ts| >= 1
    requires tail == "" || tail[0] == '\n'
    ensures ReadRecord(Join(EscapeTexts(ts), ";") + tail) == Some((ts, AfterLine(tail)))
    decreases |ts|
  {
    var e := EscapeText(ts[0]);
    var es := EscapeTexts(ts);
    assert es == [e] + EscapeTexts(ts[1..]);
    if |ts| == 1 {
      assert es == [e];
      assert ts == [ts[0]];
      ReadLastField(ts[0], tail);
    } else {
      var more := Join(EscapeTexts(ts[1..]), ";");
      assert es[1..] == EscapeTexts(ts[1..]);
      assert Join(es, ";") == e + ";" + more;
      assert Join(es, ";") + tail == e + (";" + (more + tail));
      ReadEscapedTexts(ts[1..], tail);
      ReadNextField(ts[0], more + tail);
      assert ts == [ts[0]] + ts[1..];
    }
  }

  /** A row read back from its encoding yields each cell's text, in order. */
  lemma ReadEncodedRow(cells: seq<Value>, tail: string)
    requires |cells| >= 1
    requires tail == "" || tail[0] == '\n'
    ensures ReadRecord(EncodeRow(cells) + tail) == Some((RenderAll(cells), AfterLine(tail)))
  {
    EscapeAllTexts(cells);
    ReadEscapedTexts(RenderAll(cells), tail);
  }

  /** One `\n`-terminated record in front of a document adds its texts in front of the result. */
  lemma ReadRecordsStep(cells: seq<Value>, rest: string)
    requires |cells| >= 1
    ensures ReadRecords(EncodeRow(cells) + "\n" + rest) ==
      match ReadRecords(rest)
      case None => None
      case Some(more) => Some([RenderAll(cells)] + more)
  {
    ReadEncodedRow(cells, "\n" + rest);
    assert ("\n" + rest)[1..] == rest;
    assert EncodeRow(cells) + "\n" + rest == EncodeRow(cells) + ("\n" + rest);
  }

  /** A document of `\n`-terminated rows reads back as the rows' texts. */
  lemma {:induction false} ReadLinesDoc(rows: seq<seq<Value>>)
    requires forall i :: 0 <= i < |rows| ==> |rows[i]| >= 1
    ensures ReadRecords(LinesDoc(rows)) == Some(RenderRows(rows))
    decreases |rows|
  {
    if |rows| > 0 {
      ReadLinesDoc(rows[1..]);
      ReadRecordsStep(rows[0], LinesDoc(rows[1..]));
      assert RenderRows(rows) == [RenderAll(rows[0])] + RenderRows(rows[1..]);
    }
  }

  /** A document of rows joined by `\n` reads back as the rows' texts, unless its last row encodes to nothing. */
  lemma {:induction false} ReadJoinedDoc(rows: seq<seq<Value>>)
    requires forall i :: 0 <= i < |rows| ==> |rows[i]| >= 1
    requires |rows| > 0 ==> EncodeRow(rows[|rows| - 1]) != ""
    ensures ReadRecords(JoinedDoc(rows)) == Some(RenderRows(rows))
    decreases |rows|
  {
    if |rows| == 1 {
      ReadEncodedRow(rows[0], "");
      assert EncodeRow(rows[0]) + "" == EncodeRow(rows[0]);
      assert RenderRows(rows) == [RenderAll(rows[0])];
    } else if |rows| > 1 {
      assert rows[1..][|rows[1..]| - 1] == rows[|rows| - 1];
      ReadJoinedDoc(rows[1..]);
      ReadRecordsStep(rows[0], JoinedDoc(rows[1..]));
      assert RenderRows(rows) == [RenderAll(rows[0])] + RenderRows(rows[1..]);
    }
  }

  /** A row of two or more cells always encodes to a non-empty line: it holds a `;`. */
  lemma EncodeRowNonEmpty(cells: seq<Value>)
    requires |cells| >= 2
    ensures EncodeRow(cells) != ""
  {
    assert EscapeAll(cells) == [Escape(cells[0])] + EscapeAll(cells[1..]);
    assert |EscapeAll(cells[1..])| >= 1 by {
      assert EscapeAll(cells[1..]) == [Escape(cells[1])] + EscapeAll(cells[2..]);
    }
  }
}

=== FILE: dates.dfy ===
/**
 * Birth dates as the scripts read them: the flexible date parsers, the year extractors,
 * the `cmpDates` ordering key and the age computations.
 *
 * The whole-string forms are the `full-date` shape of section 5.6 of RFC 3339
 * (`YYYY-MM-DD`) and its day-first variants, matched digit by digit: no parser checks
 * that a month lies in 1..12 or a day in 1..31.
 */
module Dates {
  import opened Text
  import opened Js
  import opened Wrappers

  /** A parsed date `{ y, m, d }`; each part is the number its digit group denotes. */
  datatype Ymd = Ymd(y: int, m: int, d: int)

  /** The six-format parsers' result: the date and whether day and month were both given. */
  datatype FlexDate = FlexDate(date: Ymd, full: bool)

  // ---------------------------------------------------------------------------
  // Digit groups
  // ---------------------------------------------------------------------------

  /** `\d{n}` at position `i`. */
  predicate DigitsAt(s: string, i: nat, n: nat) {
    i + n <= |s| && forall k :: i <= k < i + n ==> IsDigit(s[k])
  }

  /** The number the `\d{n}` group at `i` denotes. */
  function NumAt(s: string, i: nat, n: nat): (r: nat)
    requires DigitsAt(s, i, n)
    ensures r < Pow10(n)
  {
    DigitsValueBound(s[i..i + n]);
    DigitsValue(s[i..i + n])
  }

  // ---------------------------------------------------------------------------
  // Whole-string shapes (`^...$`)
  // ---------------------------------------------------------------------------

  /** `^(\d{4})-(\d{2})-(\d{2})$`. */
  predicate IsIsoDate(s: string) {
    |s| == 10 && DigitsAt(s, 0, 4) && s[4] == '-' && DigitsAt(s, 5, 2) && s[7] == '-' && DigitsAt(s, 8, 2)
  }

  /** `^(\d{2})<sep>(\d{2})<sep>(\d{4})$` with `-` or `/` as the separator. */
  predicate IsDayFirst(s: string, sep: char) {
    |s| == 10 && DigitsAt(s, 0, 2) && s[2] == sep && DigitsAt(s, 3, 2) && s[5] == sep && DigitsAt(s, 6, 4)
  }

  /** `^(\d{2})[\/-](\d{4})$`. */
  predicate IsMonthYear(s: string) {
    |s| == 7 && DigitsAt(s, 0, 2) && (s[2] == '/' || s[2] == '-') && DigitsAt(s, 3, 4)
  }

  /** `^(\d{4})$`. */
  predicate IsYearOnly(s: string) {
    |s| == 4 && DigitsAt(s, 0, 4)
  }

  // ---------------------------------------------------------------------------
  // Unanchored patterns: leftmost match
  // ---------------------------------------------------------------------------

  /**
   * The unanchored patterns the year extractors search for:
   * `(\d{4})-\d{2}-\d{2}`, `\d{2}[-\/]\d{2}[-\/](\d{4})`, `\b(19\d{2}|20\d{2})\b`, and
   * the narrower `\b(19\d{2}|20(?:0\d|1[0-9]))\b`.
   */
  datatype Pattern = IsoInside | DayFirstInside | StandaloneYear | StandaloneRecentYear

  function Width(p: Pattern): nat {
    match p
    case IsoInside => 10
    case DayFirstInside => 10
    case _ => 4
  }

  /** Offset of the four-digit year group inside a match. */
  function YearOffset(p: Pattern): nat {
    if p == DayFirstInside then 6 else 0
  }

  /** A `\b` boundary before position `i` and after position `j`, around word characters. */
  predicate Standalone(s: string, i: nat, j: nat)
    requires i <= j <= |s|
  {
    (i == 0 || !IsWordChar(s[i - 1])) && (j == |s| || !IsWordChar(s[j]))
  }

  /** `p` matches at position `i`. */
  predicate MatchAt(p: Pattern, s: string, i: nat) {
    i + Width(p) <= |s| &&
    match p
    case IsoInside =>
      DigitsAt(s, i, 4) && s[i + 4] == '-' && DigitsAt(s, i + 5, 2) && s[i + 7] == '-' && DigitsAt(s, i + 8, 2)
    case DayFirstInside =>
      DigitsAt(s, i, 2) && (s[i + 2] == '-' || s[i + 2] == '/') && DigitsAt(s, i + 3, 2) &&
      (s[i + 5] == '-' || s[i + 5] == '/') && DigitsAt(s, i + 6, 4)
    case StandaloneYear =>
      ((s[i] == '1' && s[i + 1] == '9') || (s[i] == '2' && s[i + 1] == '0')) && DigitsAt(s, i + 2, 2) &&
      Standalone(s, i, i + 4)
    case StandaloneRecentYear =>
      ((s[i] == '1' && s[i + 1] == '9' && IsDigit(s[i + 2])) ||
       (s[i] == '2' && s[i + 1] == '0' && (s[i + 2] == '0' || s[i + 2] == '1'))) &&
      IsDigit(s[i + 3]) && Standalone(s, i, i + 4)
  }

  /** A four-digit group denotes its digits' weighted sum. */
  lemma FourDigits(t: string)
    requires |t| == 4 && AllDigits(t)
    ensures DigitsValue(t) == 1000 * DigitValue(t[0]) + 100 * DigitValue(t[1]) + 10 * DigitValue(t[2]) + DigitValue(t[3])
  {
    var a, b, c := [t[0]], [t[0], t[1]], [t[0], t[1], t[2]];
    assert t[..3] == c && c[..2] == b && b[..1] == a && a[..0] == [];
    assert DigitsValue(a) == DigitValue(t[0]);
    assert DigitsValue(b) == 10 * DigitValue(t[0]) + DigitValue(t[1]);
    assert DigitsValue(c) == 100 * DigitValue(t[0]) + 10 * DigitValue(t[1]) + DigitValue(t[2]);
  }

  /** The year group of a match. */
  function YearOf(p: Pattern, s: string, i: nat): (y: nat)
    requires MatchAt(p, s, i)
    ensures y < 10000
    ensures p == StandaloneYear ==> 1900 <= y < 2100
    ensures p == StandaloneRecentYear ==> 1900 <= y < 2020
  {
    var k := i + YearOffset(p);
    var t := s[k..k + 4];
    assert t[0] == s[k] && t[1] == s[k + 1] && t[2] == s[k + 2] && t[3] == s[k + 3];
    FourDigits(t);
    NumAt(s, k, 4)
  }

  /** `s.match(p)` searching from position `from`: the position of the leftmost match. */
  function FindFrom(p: Pattern, s: string, from: nat): (r: Option<nat>)
    ensures r.Some? ==> from <= r.value && MatchAt(p, s, r.value)
    ensures r.Some? ==> forall j :: from <= j < r.value ==> !MatchAt(p, s, j)
    ensures r.None? ==> forall j :: from <= j ==> !MatchAt(p, s, j)
    decreases |s| - from
  {
    if from + Width(p) > |s| then None
    else if MatchAt(p, s, from) then Some(from)
    else FindFrom(p, s, from + 1)
  }

  /** The year `s.match(p)` captures, when `p` matches anywhere in `s`. */
  function FirstYear(p: Pattern, s: string): (r: Option<nat>)
    ensures r.Some? <==> exists i: nat :: MatchAt(p, s, i)
    ensures r.Some? ==> exists i: nat ::
      MatchAt(p, s, i) && YearOf(p, s, i) == r.value && (forall j :: 0 <= j < i ==> !MatchAt(p, s, j))
  {
    match FindFrom(p, s, 0)
    case None => None
    case Some(i) => Some(YearOf(p, s, i))
  }

  // ---------------------------------------------------------------------------
  // The four-format parser (enrich_pappers_advanced.js)
  // ---------------------------------------------------------------------------

  /** Matching a trimmed string against the four whole-string forms, in order. */
  function ParseText4(s: string): (r: Option<Ymd>)
    ensures r.Some? ==> IsIsoDate(s) || IsDayFirst(s, '-') || IsDayFirst(s, '/') || IsYearOnly(s)
    ensures r.Some? && IsYearOnly(s) ==> r.value.m == 1 && r.value.d == 1
  {
    if IsIsoDate(s) then Some(Ymd(NumAt(s, 0, 4), NumAt(s, 5, 2), NumAt(s, 8, 2)))
    else if IsDayFirst(s, '-') then Some(Ymd(NumAt(s, 6, 4), NumAt(s, 3, 2), NumAt(s, 0, 2)))
    else if IsDayFirst(s, '/') then Some(Ymd(NumAt(s, 6, 4), NumAt(s, 3, 2), NumAt(s, 0, 2)))
    else if IsYearOnly(s) then Some(Ymd(NumAt(s, 0, 4), 1, 1))
    else None
  }

  /** `parseFlexibleDate(str)`: falsy input gives `null`, anything else is stringified and trimmed. */
  function ParseFlexibleDate4(v: Value): (r: Option<Ymd>)
    ensures !Truthy(v) ==> r.None?
    ensures Truthy(v) ==> r == ParseText4(Trim(ToStr(v)))
  {
    if !Truthy(v) then None else ParseText4(Trim(ToStr(v)))
  }

  // ---------------------------------------------------------------------------
  // The six-format parser (enrich_pappers_from_csv.js, filter_dirigeants_by_dob.js)
  // ---------------------------------------------------------------------------

  function ParseText6(s: string): (r: Option<FlexDate>)
    ensures r.Some? && r.value.full <==> IsIsoDate(s) || IsDayFirst(s, '-') || IsDayFirst(s, '/')
    ensures r.None? <==> (!IsMonthYear(s) && !IsYearOnly(s) && !IsIsoDate(s) &&
      !IsDayFirst(s, '-') && !IsDayFirst(s, '/') && forall i: nat :: !MatchAt(StandaloneYear, s, i))
    ensures r.Some? && !r.value.full ==> r.value.date.d == 1
    ensures IsMonthYear(s) ==> r == Some(FlexDate(Ymd(NumAt(s, 3, 4), NumAt(s, 0, 2), 1), false))
    ensures IsYearOnly(s) ==> r == Some(FlexDate(Ymd(NumAt(s, 0, 4), 1, 1), false))
    ensures (!IsIsoDate(s) && !IsDayFirst(s, '-') && !IsDayFirst(s, '/') && !IsMonthYear(s) && !IsYearOnly(s) ==>
      (r.Some? <==> FirstYear(StandaloneYear, s).Some?) &&
      (r.Some? ==> r.value == FlexDate(Ymd(FirstYear(StandaloneYear, s).value, 1, 1), false)))
  {
    if IsIsoDate(s) then Some(FlexDate(Ymd(NumAt(s, 0, 4), NumAt(s, 5, 2), NumAt(s, 8, 2)), true))
    else if IsDayFirst(s, '-') then Some(FlexDate(Ymd(NumAt(s, 6, 4), NumAt(s, 3, 2), NumAt(s, 0, 2)), true))
    else if IsDayFirst(s, '/') then Some(FlexDate(Ymd(NumAt(s, 6, 4), NumAt(s, 3, 2), NumAt(s, 0, 2)), true))
    else if IsMonthYear(s) then Some(FlexDate(Ymd(NumAt(s, 3, 4), NumAt(s, 0, 2), 1), false))
    else if IsYearOnly(s) then Some(FlexDate(Ymd(NumAt(s, 0, 4), 1, 1), false))
    else
      match FirstYear(StandaloneYear, s)
      case Some(y) => Some(FlexDate(Ymd(y, 1, 1), false))
      case None => None
  }

  /** `parseFlexibleDate(str)` with the `full` flag and the free-text year fallback. */
  function ParseFlexibleDate6(v: Value): (r: Option<FlexDate>)
    ensures !Truthy(v) ==> r.None?
    ensures Truthy(v) ==> r == ParseText6(Trim(ToStr(v)))
  {
    if !Truthy(v) then None else ParseText6(Trim(ToStr(v)))
  }

  // ---------------------------------------------------------------------------
  // The year extractors
  // ---------------------------------------------------------------------------

  /**
   * `extractYear(val)` (build_pappers.js and enrich_from_list.js): the first standalone
   * `19xx`/`20xx` of `String(val)`; falsy input gives `null`.
   */
  function ExtractYear(v: Value): (r: Option<nat>)
    ensures r.Some? ==> Truthy(v) && 1900 <= r.value < 2100
    ensures Truthy(v) ==> r == FirstYear(StandaloneYear, ToStr(v))
  {
    if !Truthy(v) then None else FirstYear(StandaloneYear, ToStr(v))
  }

  /**
   * `parseBirthYear(dateStr)` (enrich_seniors_eco.js): the first standalone `19xx`,
   * `200x` or `201x`, kept only if it is at most the current year.
   */
  function ParseBirthYear(v: Value, currentYear: int): (r: Option<nat>)
    ensures r.Some? ==> Truthy(v) && 1900 <= r.value <= currentYear && r.value < 2020
    ensures r.Some? ==> FirstYear(StandaloneRecentYear, ToStr(v)) == Some(r.value)
    ensures (Truthy(v) && FirstYear(StandaloneRecentYear, ToStr(v)).Some? &&
      FirstYear(StandaloneRecentYear, ToStr(v)).value <= currentYear) ==> r.Some?
  {
    if !Truthy(v) then None
    else
      match FirstYear(StandaloneRecentYear, ToStr(v))
      case None => None
      case Some(y) => if 1900 <= y <= currentYear then Some(y) else None
  }

  /** One step of `parseYear`: the first match of a pattern, if its year lies in 1900..2010. */
  function YearInRange(p: Pattern, s: string): (r: Option<nat>)
    ensures r.Some? ==> 1900 <= r.value <= 2010 && FirstYear(p, s) == r
  {
    match FirstYear(p, s)
    case Some(y) => if 1900 <= y <= 2010 then Some(y) else None
    case None => None
  }

  /** `parseYear` on a string: three patterns in order; an out-of-range match falls through. */
  function ParseYearText(s: string): (r: Option<nat>)
    ensures r.Some? ==> 1900 <= r.value <= 2010
    ensures r.Some? ==> (r == YearInRange(IsoInside, s) || r == YearInRange(DayFirstInside, s) ||
      r == YearInRange(StandaloneYear, s))
    ensures r.None? <==> (YearInRange(IsoInside, s).None? && YearInRange(DayFirstInside, s).None? &&
      YearInRange(StandaloneYear, s).None?)
  {
    var a := YearInRange(IsoInside, s);
    if a.Some? then a
    else
      var b := YearInRange(DayFirstInside, s);
      if b.Some? then b else YearInRange(StandaloneYear, s)
  }

  /** `parseYear(dateStr)` (enrich_seniors_simple.js): falsy gives `null`; a non-string throws. */
  function ParseYear(v: Value): (r: Result<Option<nat>, Fault>)
    ensures r.Err? <==> Truthy(v) && !v.Str?
    ensures r.Ok? && r.value.Some? ==> 1900 <= r.value.value <= 2010
  {
    if !Truthy(v) then Ok(None)
    else if !v.Str? then Err(TypeError)
    else Ok(ParseYearText(v.s))
  }

  // ---------------------------------------------------------------------------
  // Ordering and ages
  // ---------------------------------------------------------------------------

  function OrOne(n: int): int {
    if n == 0 then 1 else n
  }

  /** `y*10000 + (m||1)*100 + (d||1)`. */
  function Key(a: Ymd): int {
    a.y * 10000 + OrOne(a.m) * 100 + OrOne(a.d)
  }

  /** `cmpDates(a, b)`: negative, zero or positive as `a` sorts before, with or after `b`. */
  function CmpDates(a: Ymd, b: Ymd): (r: int)
    ensures r < 0 <==> Key(a) < Key(b)
    ensures r == 0 <==> Key(a) == Key(b)
  {
    Key(a) - Key(b)
  }

  /** `calcAgeAt(dob, at)`: whole years from `dob` to `at`, one less before the anniversary. */
  function AgeAt(dob: Ymd, at: Ymd): (r: int)
    ensures r == at.y - dob.y || r == at.y - dob.y - 1
    ensures r == at.y - dob.y - 1 <==> at.m < dob.m || (at.m == dob.m && at.d < dob.d)
  {
    at.y - dob.y - (if at.m < dob.m || (at.m == dob.m && at.d < dob.d) then 1 else 0)
  }

  /** `calcAgeFromYear(year)` (enrich_seniors_eco.js): `''` for a falsy year, else the difference. */
  function CalcAgeFromYear(year: Option<int>, currentYear: int): (r: Value)
    ensures year.None? || year.value == 0 <==> r == Str("")
    ensures year.Some? && year.value != 0 ==> r == Num(currentYear - year.value)
  {
    if year.None? || year.value == 0 then Str("") else Num(currentYear - year.value)
  }

  // ---------------------------------------------------------------------------
  // Properties
  // ---------------------------------------------------------------------------

  lemma IsoShape(yyyy: string, mm: string, dd: string)
    requires |yyyy| == 4 && |mm| == 2 && |dd| == 2
    requires AllDigits(yyyy) && AllDigits(mm) && AllDigits(dd)
    ensures var s := yyyy + "-" + mm + "-" + dd;
      IsIsoDate(s) && s[0..4] == yyyy && s[5..7] == mm && s[8..10] == dd
  {
    var s := yyyy + "-" + mm + "-" + dd;
    assert s[0..4] == yyyy && s[5..7] == mm && s[8..10] == dd;
    assert forall k :: 0 <= k < 4 ==> s[k] == yyyy[k];
    assert forall k :: 5 <= k < 7 ==> s[k] == mm[k - 5];
    assert forall k :: 8 <= k < 10 ==> s[k] == dd[k - 8];
  }

  lemma DayFirstShape(dd: string, mm: string, yyyy: string, sep: char)
    requires |yyyy| == 4 && |mm| == 2 && |dd| == 2
    requires AllDigits(yyyy) && AllDigits(mm) && AllDigits(dd)
    requires sep == '-' || sep == '/'
    ensures var s := dd + [sep] + mm + [sep] + yyyy;
      !IsIsoDate(s) && IsDayFirst(s, sep) && s[0..2] == dd && s[3..5] == mm && s[6..10] == yyyy
  {
    var s := dd + [sep] + mm + [sep] + yyyy;
    assert s[0..2] == dd && s[3..5] == mm && s[6..10] == yyyy;
    assert forall k :: 0 <= k < 2 ==> s[k] == dd[k];
    assert forall k :: 3 <= k < 5 ==> s[k] == mm[k - 3];
    assert forall k :: 6 <= k < 10 ==> s[k] == yyyy[k - 6];
    assert s[4] == mm[1];
  }

  /** The same digits in the three full forms parse to the same date, in every parser. */
  lemma SameDigitsSameDate(yyyy: string, mm: string, dd: string)
    requires |yyyy| == 4 && |mm| == 2 && |dd| == 2
    requires AllDigits(yyyy) && AllDigits(mm) && AllDigits(dd)
    ensures var date := Ymd(DigitsValue(yyyy), DigitsValue(mm), DigitsValue(dd));
      ParseText4(yyyy + "-" + mm + "-" + dd) == Some(date) &&
      ParseText4(dd + "-" + mm + "-" + yyyy) == Some(date) &&
      ParseText4(dd + "/" + mm + "/" + yyyy) == Some(date) &&
      ParseText6(yyyy + "-" + mm + "-" + dd) == Some(FlexDate(date, true)) &&
      ParseText6(dd + "-" + mm + "-" + yyyy) == Some(FlexDate(date, true)) &&
      ParseText6(dd + "/" + mm + "/" + yyyy) == Some(FlexDate(date, true))
  {
    IsoShape(yyyy, mm, dd);
    DayFirstShape(dd, mm, yyyy, '-');
    DayFirstShape(dd, mm, yyyy, '/');
  }

  /** `"31-12-1962"`-style input: the example of the scripts' help text. */
  lemma DecemberThirtyFirst()
    ensures ParseText4("1962-12-31") == Some(Ymd(1962, 12, 31))
    ensures ParseText6("31-12-1962") == Some(FlexDate(Ymd(1962, 12, 31), true))
    ensures ParseText6("31/12/1962") == Some(FlexDate(Ymd(1962, 12, 31), true))
  {
    SameDigitsSameDate("1962", "12", "31");
    DecemberSpelled();
    Year1962();
    TwoDigitValue("12");
    TwoDigitValue("31");
  }

  lemma DecemberSpelled()
    ensures "1962" + "-" + "12" + "-" + "31" == "1962-12-31"
    ensures "31" + "-" + "12" + "-" + "1962" == "31-12-1962"
    ensures "31" + "/" + "12" + "/" + "1962" == "31/12/1962"
  {
  }

  lemma Year1962()
    ensures DigitsValue("1962") == 1962
  {
    assert "1962"[..3] == "196" && "196"[..2] == "19" && "19"[..1] == "1";
  }

  lemma TwoDigitValue(s: string)
    requires |s| == 2 && AllDigits(s)
    ensures DigitsValue(s) == 10 * DigitValue(s[0]) + DigitValue(s[1])
  {
    var h := s[..1];
    assert h[..0] == [] && h[0] == s[0];
    assert DigitsValue(h) == DigitValue(s[0]);
  }

  /** No range check: a thirteenth month and a forty-fifth day are accepted as they are. */
  lemma NoRangeCheck()
    ensures ParseText4("1962-13-45") == Some(Ymd(1962, 13, 45))
  {
    SameDigitsSameDate("1962", "13", "45");
    ThirteenSpelled();
    Year1962();
    TwoDigitValue("13");
    TwoDigitValue("45");
  }

  lemma ThirteenSpelled()
    ensures "1962" + "-" + "13" + "-" + "45" == "1962-13-45"
  {
  }

  /** A bare year is the first of January of that year, in both parsers. */
  lemma BareYear(yyyy: string)
    requires |yyyy| == 4 && AllDigits(yyyy)
    ensures ParseText4(yyyy) == Some(Ymd(DigitsValue(yyyy), 1, 1))
    ensures ParseText6(yyyy) == Some(FlexDate(Ymd(DigitsValue(yyyy), 1, 1), false))
  {
    assert yyyy[0..4] == yyyy;
  }

  /** `MM/YYYY` and `MM-YYYY` are the first day of that month, and not full. */
  lemma MonthYear(mm: string, sep: char, yyyy: string)
    requires |mm| == 2 && |yyyy| == 4 && AllDigits(mm) && AllDigits(yyyy)
    requires sep == '/' || sep == '-'
    ensures ParseText6(mm + [sep] + yyyy) == Some(FlexDate(Ymd(DigitsValue(yyyy), DigitsValue(mm), 1), false))
  {
    var s := mm + [sep] + yyyy;
    assert s[0..2] == mm && s[3..7] == yyyy;
  }

  /** Keys order dates lexicographically by year, month, day when month and day lie in 1..99. */
  lemma KeyIsLexicographic(a: Ymd, b: Ymd)
    requires 1 <= a.m <= 99 && 1 <= a.d <= 99 && 1 <= b.m <= 99 && 1 <= b.d <= 99
    ensures Key(a) < Key(b) <==> a.y < b.y || (a.y == b.y && (a.m < b.m || (a.m == b.m && a.d < b.d)))
    ensures Key(a) == Key(b) <==> a == b
  {
  }

  /** `cmpDates` is a total preorder: transitive, with equal keys comparing as zero. */
  lemma CmpTransitive(a: Ymd, b: Ymd, c: Ymd)
    requires CmpDates(a, b) < 0 && CmpDates(b, c) < 0
    ensures CmpDates(a, c) < 0
  {
  }

  /** A birth date strictly before the reference date gives a non-negative age. */
  lemma AgeNonNegative(dob: Ymd, at: Ymd)
    requires 1 <= dob.m <= 99 && 1 <= dob.d <= 99 && 1 <= at.m <= 99 && 1 <= at.d <= 99
    requires CmpDates(dob, at) < 0
    ensures AgeAt(dob, at) >= 0
  {
    KeyIsLexicographic(dob, at);
  }

  /**
   * The age is the number of anniversaries passed: the `k`-th anniversary `(dob.y + k, m, d)`
   * falls on or before `at` for `k = AgeAt(dob, at)` and after it for `k + 1`.
   */
  lemma AgeCountsAnniversaries(dob: Ymd, at: Ymd)
    requires 1 <= dob.m <= 99 && 1 <= dob.d <= 99 && 1 <= at.m <= 99 && 1 <= at.d <= 99
    ensures var k := AgeAt(dob, at);
      Key(Ymd(dob.y + k, dob.m, dob.d)) <= Key(at) && Key(at) < Key(Ymd(dob.y + k + 1, dob.m, dob.d))
  {
    var k := AgeAt(dob, at);
    KeyIsLexicographic(Ymd(dob.y + k, dob.m, dob.d), at);
    KeyIsLexicographic(at, Ymd(dob.y + k + 1, dob.m, dob.d));
  }
}

=== FILE: eco.dfy ===
/**
 * `enrich_seniors_eco.js`: for each SIREN of the list, the company's name, head-office
 * SIRET and city from the free public lookup, then the registry's paged
 * `/recherche-dirigeants` results, one ten-column row per director whose birth year is
 * before the cutoff year, at most once per `siren|nom|prenom|annee` key over the whole run.
 */
module SeniorsEco {
  import opened Text
  import opened Wrappers
  import opened Js
  import opened Csv
  import opened Seqs
  import opened Dates
  import opened Records
  import opened Cli
  import opened Search
  import SirenInput

  const Header: seq<string> := [
    "Société", "SIREN", "SIRET_siège", "Nom", "Prénom", "Fonction", "Date_naissance", "Année", "Âge", "Ville_siège"
  ]

  /** `par_page`. */
  const PerPage := 50

  // ---------------------------------------------------------------------------
  // Settings
  // ---------------------------------------------------------------------------

  /** `Number(args['cutoff-year'] || 1962)`; `None` is `NaN`. */
  function CutoffYear(args: Args): (r: Option<int>)
    ensures !Truthy(Opt(args, "cutoff-year")) ==> r == Some(1962)
  {
    ToNumber(Or(Opt(args, "cutoff-year"), Num(1962)))
  }

  /** `` `31-12-${cutoffYear - 1}` ``: the latest birth date the registry is asked for. */
  function MaxDate(cutoff: Option<int>): string {
    "31-12-" + (if cutoff.Some? then IntToString(cutoff.value - 1) else "NaN")
  }

  /**
   * For a four-digit year before the cutoff, the bound the registry is sent is that year's
   * 31 December, a full date in the day-first form.
   */
  lemma MaxDateParses(c: int)
    requires 1001 <= c <= 10000
    ensures ParseText6(MaxDate(Some(c))) == Some(FlexDate(Ymd(c - 1, 12, 31), true))
  {
    var t := IntToString(c - 1);
    FourDigitYear(c - 1);
    SameDigitsSameDate(t, "12", "31");
    assert "31" + "-" + "12" + "-" + t == MaxDate(Some(c));
    assert DigitsValue("12") == 12 by { assert "12"[..1] == "1"; }
    assert DigitsValue("31") == 31 by { assert "31"[..1] == "3"; }
  }

  /** A year of four digits is written with four digits. */
  lemma FourDigitYear(n: int)
    requires 1000 <= n <= 9999
    ensures |IntToString(n)| == 4 && AllDigits(IntToString(n)) && DigitsValue(IntToString(n)) == n
  {
    var a := n / 10;
    var b := a / 10;
    var c := b / 10;
    assert 100 <= a <= 999 && 10 <= b <= 99 && 1 <= c <= 9;
    assert |NatToString(c)| == 1;
    assert |NatToString(b)| == 2;
    assert |NatToString(a)| == 3;
    assert IntToString(n) == NatToString(n);
  }

  // ---------------------------------------------------------------------------
  // The free company lookup
  // ---------------------------------------------------------------------------

  /** What `getCompanyInfoFree` returns. */
  datatype Info = Info(nom: Value, siret: Value, ville: Value)

  const NoInfo := Info(Str(""), Str(""), Str(""))

  /** `data?.results?.[0] || data?.resultats?.[0]`. */
  function Lookup(data: Value): Value {
    Or(First(Get(data, "results")), First(Get(data, "resultats")))
  }

  /** `siret_formate?.replace(…)` throws: the field is there but is no string. */
  predicate FormattedThrows(res: Value) {
    var f := Get(res, "siret_formate");
    !f.Null? && !f.Str?
  }

  /**
   * `getCompanyInfoFree(siren)` given the lookup's response body, `None` for a failed
   * request. `siret_formate?.replace` is only reached when `siret` is falsy; there, a
   * `siret_formate` that is neither missing nor a string throws inside the `try`, which
   * also gives the empty answer.
   */
  function CompanyInfo(reply: Option<Value>): (r: Info)
    ensures reply.None? ==> r == NoInfo
    ensures reply.Some? && !Truthy(Lookup(reply.value)) ==> r == NoInfo
    ensures (reply.Some? && Truthy(Lookup(reply.value)) ==>
      var res := Lookup(reply.value);
      (Truthy(Get(res, "siret")) ==> r.siret == Get(res, "siret")) &&
      (!Truthy(Get(res, "siret")) && FormattedThrows(res) ==> r == NoInfo) &&
      (!Truthy(Get(res, "siret")) && Get(res, "siret_formate").Str? && StripNonDigits(Get(res, "siret_formate").s) != "" ==>
         r.siret == Str(StripNonDigits(Get(res, "siret_formate").s))))
  {
    match reply
    case None => NoInfo
    case Some(data) =>
      var res := Lookup(data);
      if !Truthy(res) then NoInfo
      else
        var formatted := Get(res, "siret_formate");
        if !Truthy(Get(res, "siret")) && FormattedThrows(res) then NoInfo
        else
          var stripped := if formatted.Str? then Str(StripNonDigits(formatted.s)) else Null;
          Info(
            FirstTruthy(res, ["nom_entreprise", "nom_complet", "denomination"], Field(Get(res, "unite_legale"), "denomination")),
            Or(Get(res, "siret"), Or(stripped, Or(Get(Get(res, "siege"), "siret"), Field(Get(res, "etablissement"), "siret")))),
            Or(Get(Get(res, "siege"), "ville"), Or(Get(res, "ville"), Field(Get(res, "etablissement"), "ville"))))
  }

  /**
   * The name is the first truthy of `nom_entreprise`, `nom_complet`, `denomination` and
   * `unite_legale.denomination`, else `''`.
   */
  lemma NameFallbacks(reply: Option<Value>, res: Value, k: nat)
    requires reply.Some? && res == Lookup(reply.value)
    requires Truthy(res) && (Truthy(Get(res, "siret")) || !FormattedThrows(res))
    requires k < 3 && Truthy(Get(res, ["nom_entreprise", "nom_complet", "denomination"][k]))
    requires forall j :: 0 <= j < k ==> !Truthy(Get(res, ["nom_entreprise", "nom_complet", "denomination"][j]))
    ensures CompanyInfo(reply).nom == Get(res, ["nom_entreprise", "nom_complet", "denomination"][k])
  {
    var keys := ["nom_entreprise", "nom_complet", "denomination"];
    FirstTruthyPicks(res, keys, Field(Get(res, "unite_legale"), "denomination"));
  }

  // ---------------------------------------------------------------------------
  // The page loop of `getSeniorDirectors`
  // ---------------------------------------------------------------------------

  /** `Math.ceil(t / 50)`. */
  function CeilPages(t: int): (r: int)
    ensures (r - 1) * PerPage < t <= r * PerPage
  {
    (t + PerPage - 1) / PerPage
  }

  /** `Math.ceil((data?.total || dirigeants.length) / 50)`; `None` is `NaN`. */
  function TotalPages(data: Value, count: nat): Option<int> {
    match ToNumber(Or(Get(data, "total"), Num(count)))
    case None => None
    case Some(t) => Some(CeilPages(t))
  }

  /** `currentPage >= totalPages` with `currentPage = data?.page || params.page`; a `NaN` side compares false. */
  predicate LastPage(data: Value, page: int, count: nat) {
    var cp := ToNumber(Or(Get(data, "page"), Num(page)));
    var tp := TotalPages(data, count);
    cp.Some? && tp.Some? && cp.value >= tp.value
  }

  /** The loop asks for the next page after a page with results that is not the last. */
  predicate GoesOn(data: Value, page: int)
    requires Resultats(data).Some?
  {
    var n := |Resultats(data).value|;
    n != 0 && !LastPage(data, page, n)
  }

  /** What the loop produced: the directors it yielded, the pages it asked for in order, how it ended. */
  datatype Pages = Pages(items: seq<Value>, asked: seq<int>, end: End)

  /** The page asked for after reply `r` to a request for `page`: the same after a 429, the next after a page that goes on. */
  predicate Advance(r: Reply, page: int, next: int) {
    (r == TooMany && next == page) || (Usable(r) && GoesOn(r.data, page) && next == page + 1)
  }

  /** How reply `r` to the last request for `page` ends the loop. */
  predicate Ends(r: Reply, page: int, end: End) {
    (end == Finished ==> Usable(r) && !GoesOn(r.data, page)) &&
    (end == Threw ==> r == Failed || (r.Body? && !Usable(r)))
  }

  /**
   * `getSeniorDirectors` from page `page`: yield the page's results; stop after an empty
   * page or the last one, else ask for the next. A 429 asks for the same page again; any
   * other failure, or results that cannot be iterated, throws out of the loop.
   */
  function PageWalk(replies: seq<Reply>, page: int): (w: Pages)
    ensures |w.asked| <= |replies|
    ensures |replies| > 0 ==> |w.asked| >= 1 && w.asked[0] == page
    ensures forall i :: 0 <= i < |w.asked| - 1 ==> Advance(replies[i], w.asked[i], w.asked[i + 1])
    ensures w.end != Unanswered ==> |w.asked| >= 1 && Ends(replies[|w.asked| - 1], w.asked[|w.asked| - 1], w.end)
    ensures w.end == Unanswered ==> |w.asked| == |replies|
    decreases |replies|
  {
    if |replies| == 0 then Pages([], [], Unanswered)
    else
      var rest := replies[1..];
      assert forall i :: 1 <= i < |replies| ==> rest[i - 1] == replies[i];
      match replies[0]
      case TooMany =>
        var w := PageWalk(rest, page);
        AdvanceCons(replies, w.asked, page);
        Pages(w.items, [page] + w.asked, w.end)
      case Failed => Pages([], [page], Threw)
      case Body(data) =>
        (match Resultats(data)
         case None => Pages([], [page], Threw)
         case Some(hits) =>
           if GoesOn(data, page) then
             var w := PageWalk(rest, page + 1);
             AdvanceCons(replies, w.asked, page);
             Pages(hits + w.items, [page] + w.asked, w.end)
           else Pages(hits, [page], Finished))
  }

  /** Putting the first request for `page` in front of the rest of the walk keeps each step an advance. */
  lemma AdvanceCons(replies: seq<Reply>, asked: seq<int>, page: int)
    requires 1 <= |replies| && |asked| < |replies|
    requires |asked| >= 1 ==> Advance(replies[0], page, asked[0])
    requires forall i :: 0 <= i < |asked| - 1 ==> Advance(replies[1..][i], asked[i], asked[i + 1])
    ensures forall i :: 0 <= i < |[page] + asked| - 1 ==> Advance(replies[i], ([page] + asked)[i], ([page] + asked)[i + 1])
  {
    forall i | 0 <= i < |[page] + asked| - 1
      ensures Advance(replies[i], ([page] + asked)[i], ([page] + asked)[i + 1])
    {
      if i > 0 {
        assert replies[i] == replies[1..][i - 1];
      }
    }
  }

  /** A 429 costs one reply and changes nothing else: the same page is asked for again. */
  lemma TooManyRetries(replies: seq<Reply>, page: int)
    requires |replies| >= 2 && replies[0] == TooMany
    ensures PageWalk(replies, page).asked == [page] + PageWalk(replies[1..], page).asked
    ensures PageWalk(replies, page).asked[1] == page
    ensures PageWalk(replies, page).items == PageWalk(replies[1..], page).items
    ensures PageWalk(replies, page).end == PageWalk(replies[1..], page).end
  {
  }

  /**
   * The pages asked for never go down and rise by exactly one at a time, starting from the
   * first page; a page is asked for again only after a 429.
   */
  lemma {:induction false} PagesClimb(replies: seq<Reply>, page: int, i: nat)
    requires i < |PageWalk(replies, page).asked|
    ensures page <= PageWalk(replies, page).asked[i] <= page + i
    decreases i
  {
    if i > 0 {
      PagesClimb(replies, page, i - 1);
    }
  }

  // ---------------------------------------------------------------------------
  // Directors and the `seen` keys
  // ---------------------------------------------------------------------------

  /** `d.nom || d.nom_dirigeant || ''`. */
  function Nom(rep: Value): Value {
    FirstTruthy(rep, ["nom", "nom_dirigeant"], Str(""))
  }

  /** `d.prenom || d.prenom_dirigeant || ''`. */
  function Prenom(rep: Value): Value {
    FirstTruthy(rep, ["prenom", "prenom_dirigeant"], Str(""))
  }

  /** `d.date_de_naissance || d.date_naissance || d.informations_naissance || ''`. */
  function RawDob(rep: Value): Value {
    FirstTruthy(rep, ["date_de_naissance", "date_naissance", "informations_naissance"], Str(""))
  }

  function Year(rep: Value, currentYear: int): Option<nat> {
    ParseBirthYear(RawDob(rep), currentYear)
  }

  /** Not skipped by `!annee || annee >= CUTOFF_YEAR`: with a `NaN` cutoff every parsed year passes. */
  predicate Qualifies(cutoff: Option<int>, currentYear: int, rep: Value) {
    Year(rep, currentYear).Some? && (cutoff.None? || Year(rep, currentYear).value < cutoff.value)
  }

  /** A director who gets a row, with the company and the year parsed for them. */
  datatype Hit = Hit(siren: string, rep: Value, year: int)

  /** `` `${siren}|${nom}|${prenom}|${annee}` ``. */
  function Key(h: Hit): string {
    h.siren + "|" + ToStr(Nom(h.rep)) + "|" + ToStr(Prenom(h.rep)) + "|" + IntToString(h.year)
  }

  function KeysOf(hs: seq<Hit>): (r: seq<string>)
    ensures |r| == |hs| && forall i :: 0 <= i < |hs| ==> r[i] == Key(hs[i])
  {
    seq(|hs|, i requires 0 <= i < |hs| => Key(hs[i]))
  }

  /** A hit for one of `reps` that passes the year filter, with its parsed year. */
  predicate Valid(h: Hit, siren: string, cutoff: Option<int>, currentYear: int, reps: seq<Value>) {
    h.siren == siren && h.rep in reps && Qualifies(cutoff, currentYear, h.rep) &&
    Year(h.rep, currentYear) == Some(h.year)
  }

  /** Every hit is a valid one of `siren` for `reps`. */
  predicate AllValid(hs: seq<Hit>, siren: string, cutoff: Option<int>, currentYear: int, reps: seq<Value>) {
    forall h :: h in hs ==> Valid(h, siren, cutoff, currentYear, reps)
  }

  /** `out` holds the key of every director of `reps` that passes the year filter. */
  predicate Recorded(out: set<string>, siren: string, cutoff: Option<int>, currentYear: int, reps: seq<Value>) {
    forall i :: 0 <= i < |reps| && Qualifies(cutoff, currentYear, reps[i]) ==>
      Key(Hit(siren, reps[i], Year(reps[i], currentYear).value)) in out
  }

  /** The hits carry distinct keys, none of them already in `seen`. */
  predicate FreshKeys(hs: seq<Hit>, seen: set<string>) {
    NoDup(KeysOf(hs)) && forall h :: h in hs ==> Key(h) !in seen
  }

  /** The final key set is `seen` plus the keys of the hits. */
  ghost predicate Covers(out: set<string>, seen: set<string>, hs: seq<Hit>) {
    forall k :: k in out <==> k in seen || k in KeysOf(hs)
  }

  /**
   * The loop body over the directors a company yields, with the keys `seen` so far: a
   * qualifying director whose key is new gets a row and adds the key.
   */
  function Visit(siren: string, cutoff: Option<int>, currentYear: int, seen: set<string>, reps: seq<Value>): (r: (set<string>, seq<Hit>))
    ensures FreshKeys(r.1, seen)
    ensures AllValid(r.1, siren, cutoff, currentYear, reps)
    ensures Covers(r.0, seen, r.1)
    ensures Recorded(r.0, siren, cutoff, currentYear, reps)
    decreases |reps|
  {
    if |reps| == 0 then (seen, [])
    else
      var rest := reps[1..];
      if Qualifies(cutoff, currentYear, reps[0]) then
        var h := Hit(siren, reps[0], Year(reps[0], currentYear).value);
        if Key(h) in seen then
          var r := Visit(siren, cutoff, currentYear, seen, rest);
          VisitSkip(siren, cutoff, currentYear, reps, r.0, r.1);
          r
        else
          var r := Visit(siren, cutoff, currentYear, seen + {Key(h)}, rest);
          VisitSkip(siren, cutoff, currentYear, reps, r.0, r.1);
          VisitAdd(seen, r.0, h, r.1);
          assert Valid(h, siren, cutoff, currentYear, reps);
          (r.0, [h] + r.1)
      else
        var r := Visit(siren, cutoff, currentYear, seen, rest);
        VisitSkip(siren, cutoff, currentYear, reps, r.0, r.1);
        r
  }

  /** What holds for the directors after the first carries over to all of them. */
  lemma VisitSkip(siren: string, cutoff: Option<int>, currentYear: int, reps: seq<Value>, out: set<string>, hs: seq<Hit>)
    requires |reps| > 0
    requires AllValid(hs, siren, cutoff, currentYear, reps[1..]) && Recorded(out, siren, cutoff, currentYear, reps[1..])
    requires Qualifies(cutoff, currentYear, reps[0]) ==> Key(Hit(siren, reps[0], Year(reps[0], currentYear).value)) in out
    ensures AllValid(hs, siren, cutoff, currentYear, reps) && Recorded(out, siren, cutoff, currentYear, reps)
  {
    var rest := reps[1..];
    assert forall x :: x in rest ==> x in reps;
    forall i | 0 <= i < |reps| && Qualifies(cutoff, currentYear, reps[i])
      ensures Key(Hit(siren, reps[i], Year(reps[i], currentYear).value)) in out
    {
      if i > 0 {
        assert reps[i] == rest[i - 1];
      }
    }
  }

  /** A new key in front: it is fresh, and `seen` plus it is covered as before. */
  lemma VisitAdd(seen: set<string>, out: set<string>, h: Hit, hs: seq<Hit>)
    requires Key(h) !in seen
    requires FreshKeys(hs, seen + {Key(h)}) && Covers(out, seen + {Key(h)}, hs)
    ensures FreshKeys([h] + hs, seen) && Covers(out, seen, [h] + hs)
  {
    KeysOfAppend([h], hs);
    assert KeysOf([h]) == [Key(h)];
    forall j | 0 <= j < |hs| ensures KeysOf(hs)[j] != Key(h) {
      assert hs[j] in hs;
    }
    NoDupAppend([Key(h)], KeysOf(hs));
    assert forall k :: k in KeysOf([h] + hs) <==> k == Key(h) || k in KeysOf(hs);
  }

  // ---------------------------------------------------------------------------
  // A run
  // ---------------------------------------------------------------------------

  /** The replies of one run: the free lookup's bodies and each company's director pages. */
  datatype Replies = Replies(lookup: Registry, pages: map<string, seq<Reply>>)

  function PagesFor(rs: Replies, siren: string): seq<Reply> {
    if siren in rs.pages then rs.pages[siren] else []
  }

  /** The directors one company yields before the loop body throws on a null one. */
  function Yielded(rs: Replies, siren: string): seq<Value> {
    var w := PageWalk(PagesFor(rs, siren), 1);
    w.items[..Reached(w.items, Nullish)]
  }

  /** A company whose outcome the replies decide: the loop ended, or the body threw first. */
  predicate Settled(rs: Replies, siren: string) {
    var w := PageWalk(PagesFor(rs, siren), 1);
    w.end != Unanswered || Reached(w.items, Nullish) < |w.items|
  }

  /** Every hit is for a listed company and is valid for the directors that company yields. */
  predicate Rooted(hs: seq<Hit>, sirens: seq<string>, rs: Replies, cutoff: Option<int>, currentYear: int) {
    forall h :: h in hs ==> h.siren in sirens && Valid(h, h.siren, cutoff, currentYear, Yielded(rs, h.siren))
  }

  /** All companies in order, threading the run-wide `seen` set. */
  function Gather(sirens: seq<string>, rs: Replies, cutoff: Option<int>, currentYear: int, seen: set<string>): (r: (set<string>, seq<Hit>))
    ensures FreshKeys(r.1, seen)
    ensures Rooted(r.1, sirens, rs, cutoff, currentYear)
    ensures Covers(r.0, seen, r.1)
    decreases |sirens|
  {
    if |sirens| == 0 then (seen, [])
    else
      var a := Visit(sirens[0], cutoff, currentYear, seen, Yielded(rs, sirens[0]));
      var b := Gather(sirens[1..], rs, cutoff, currentYear, a.0);
      RootedCons(sirens, rs, cutoff, currentYear, a.1, b.1);
      KeysCons(seen, a.0, b.0, a.1, b.1);
      (b.0, a.1 + b.1)
  }

  lemma RootedCons(sirens: seq<string>, rs: Replies, cutoff: Option<int>, currentYear: int, a: seq<Hit>, b: seq<Hit>)
    requires |sirens| > 0
    requires forall h :: h in a ==> Valid(h, sirens[0], cutoff, currentYear, Yielded(rs, sirens[0]))
    requires Rooted(b, sirens[1..], rs, cutoff, currentYear)
    ensures Rooted(a + b, sirens, rs, cutoff, currentYear)
  {
    forall h | h in a + b
      ensures h.siren in sirens && Valid(h, h.siren, cutoff, currentYear, Yielded(rs, h.siren))
    {
      if h in a {
        assert Valid(h, sirens[0], cutoff, currentYear, Yielded(rs, sirens[0]));
      } else {
        assert h in b;
      }
    }
  }

  lemma KeysCons(seen: set<string>, mid: set<string>, out: set<string>, a: seq<Hit>, b: seq<Hit>)
    requires FreshKeys(a, seen) && Covers(mid, seen, a)
    requires FreshKeys(b, mid) && Covers(out, mid, b)
    ensures FreshKeys(a + b, seen) && Covers(out, seen, a + b)
  {
    KeysOfAppend(a, b);
    forall x | x in KeysOf(b) ensures x !in KeysOf(a) {
      var j :| 0 <= j < |b| && KeysOf(b)[j] == x;
      assert b[j] in b;
    }
    NoDupAppend(KeysOf(a), KeysOf(b));
    forall h | h in a + b ensures Key(h) !in seen {
      if h in b {
        assert Key(h) !in mid;
      }
    }
  }

  lemma KeysOfAppend(a: seq<Hit>, b: seq<Hit>)
    ensures KeysOf(a + b) == KeysOf(a) + KeysOf(b)
  {
  }

  lemma NoDupAppend(a: seq<string>, b: seq<string>)
    requires NoDup(a) && NoDup(b) && forall x :: x in b ==> x !in a
    ensures NoDup(a + b)
  {
    var c := a + b;
    forall i, j | 0 <= i < j < |c| ensures c[i] != c[j] {
      if j < |a| {
        assert c[i] == a[i] && c[j] == a[j];
      } else if i >= |a| {
        assert c[i] == b[i - |a|] && c[j] == b[j - |a|];
      } else {
        assert c[i] == a[i] && c[j] == b[j - |a|] && b[j - |a|] in b;
      }
    }
  }

  /** The row of a hit: the company's looked-up name, SIRET and city around the director's fields. */
  function HitRow(rs: Replies, currentYear: int, h: Hit): (row: seq<Value>)
    ensures |row| == |Header| && row[1] == Str(h.siren)
    ensures row[7] == Num(h.year) && row[8] == CalcAgeFromYear(Some(h.year), currentYear)
  {
    var info := CompanyInfo(Fetch(rs.lookup, h.siren));
    [info.nom, Str(h.siren), info.siret, Nom(h.rep), Prenom(h.rep), Qualite(h.rep), RawDob(h.rep),
     Num(h.year), CalcAgeFromYear(Some(h.year), currentYear), info.ville]
  }

  function HitRows(rs: Replies, currentYear: int, hs: seq<Hit>): (rows: seq<seq<Value>>)
    ensures |rows| == |hs| && AllWidth(rows, |Header|)
    ensures forall i :: 0 <= i < |hs| ==> rows[i] == HitRow(rs, currentYear, hs[i])
  {
    seq(|hs|, i requires 0 <= i < |hs| => HitRow(rs, currentYear, hs[i]))
  }

  datatype Outcome =
    | Exited                  // no `PAPPERS_API_KEY`, or `loadSirens` finds no file at `INPUT`: exit code 1
    | Crashed                 // `path.dirname(OUTPUT)` on a bare `--out`
    | Incomplete              // some company's replies end before its loop does
    | Written(content: string)

  /**
   * A whole run. The key is checked at start-up; `loadSirens` exits when `existsSync(INPUT)`
   * is false, which a bare `--in` (`true`) always makes it; `path.dirname` then throws on a
   * bare `--out` before the output stream is opened.
   */
  function Run(env: map<string, string>, args: Args, content: string, rs: Replies, currentYear: int): (r: Outcome)
    ensures r == Exited <==> !ApiKeySet(env) || PathThrows(args, "in")
    ensures r == Crashed <==> ApiKeySet(env) && !PathThrows(args, "in") && PathThrows(args, "out")
    ensures (r.Written? <==>
      ApiKeySet(env) && !PathThrows(args, "in") && !PathThrows(args, "out") &&
      forall s :: s in SirenInput.LoadEco(content) ==> Settled(rs, s))
  {
    var sirens := SirenInput.LoadEco(content);
    if !ApiKeySet(env) || PathThrows(args, "in") then Exited
    else if PathThrows(args, "out") then Crashed
    else if exists s :: s in sirens && !Settled(rs, s) then Incomplete
    else
      var hits := Gather(sirens, rs, CutoffYear(args), currentYear, {}).1;
      Written(LinesDoc([Strs(Header)] + HitRows(rs, currentYear, hits)))
  }

  /**
   * A finished run writes at most one row per `siren|nom|prenom|annee` key, each for a
   * director of a listed company whose parsed year passed the cutoff, and every such
   * director's key is covered by some row; the file reads back as the header and those rows.
   */
  lemma RunRows(env: map<string, string>, args: Args, content: string, rs: Replies, currentYear: int)
    requires Run(env, args, content, rs, currentYear).Written?
    ensures var sirens := SirenInput.LoadEco(content);
      var hits := Gather(sirens, rs, CutoffYear(args), currentYear, {}).1;
      NoDup(KeysOf(hits)) &&
      (forall h :: h in hits ==> h.siren in sirens && Valid(h, h.siren, CutoffYear(args), currentYear, Yielded(rs, h.siren))) &&
      ReadRecords(Run(env, args, content, rs, currentYear).content) == Some([Header] + RenderRows(HitRows(rs, currentYear, hits)))
  {
    var sirens := SirenInput.LoadEco(content);
    var hits := Gather(sirens, rs, CutoffYear(args), currentYear, {}).1;
    ReadLinesSheet(Header, HitRows(rs, currentYear, hits));
  }

  /** `out` holds the key of every qualifying director of every listed company. */
  ghost predicate AllRecorded(out: set<string>, sirens: seq<string>, rs: Replies, cutoff: Option<int>, currentYear: int) {
    forall k :: 0 <= k < |sirens| ==> Recorded(out, sirens[k], cutoff, currentYear, Yielded(rs, sirens[k]))
  }

  /**
   * The `seen` keys cover every qualifying director: the final set holds the key of each
   * director any listed company yields whose year passes the cutoff.
   */
  lemma {:induction false} EveryQualifyingKeySeen(sirens: seq<string>, rs: Replies, cutoff: Option<int>, currentYear: int,
                                                  seen: set<string>)
    ensures AllRecorded(Gather(sirens, rs, cutoff, currentYear, seen).0, sirens, rs, cutoff, currentYear)
    decreases |sirens|
  {
    if |sirens| > 0 {
      var a := Visit(sirens[0], cutoff, currentYear, seen, Yielded(rs, sirens[0]));
      var b := Gather(sirens[1..], rs, cutoff, currentYear, a.0);
      assert Gather(sirens, rs, cutoff, currentYear, seen).0 == b.0;
      EveryQualifyingKeySeen(sirens[1..], rs, cutoff, currentYear, a.0);
      RecordedGrows(a.0, b.0, b.1, sirens[0], cutoff, currentYear, Yielded(rs, sirens[0]));
      RecordedCons(b.0, sirens, rs, cutoff, currentYear);
    }
  }

  lemma RecordedGrows(mid: set<string>, out: set<string>, hs: seq<Hit>, siren: string, cutoff: Option<int>, currentYear: int,
                      reps: seq<Value>)
    requires Recorded(mid, siren, cutoff, currentYear, reps) && Covers(out, mid, hs)
    ensures Recorded(out, siren, cutoff, currentYear, reps)
  {
  }

  lemma RecordedCons(out: set<string>, sirens: seq<string>, rs: Replies, cutoff: Option<int>, currentYear: int)
    requires |sirens| > 0 && Recorded(out, sirens[0], cutoff, currentYear, Yielded(rs, sirens[0]))
    requires AllRecorded(out, sirens[1..], rs, cutoff, currentYear)
    ensures AllRecorded(out, sirens, rs, cutoff, currentYear)
  {
    forall k | 0 <= k < |sirens| ensures Recorded(out, sirens[k], cutoff, currentYear, Yielded(rs, sirens[k])) {
      if k > 0 {
        assert sirens[k] == sirens[1..][k - 1];
      }
    }
  }

  /**
   * The key is built from text, so two different directors can share it: a `|` inside a
   * name moves the field boundary, and only the first of the two gets a row.
   */
  lemma KeyCollision()
    ensures var a := Hit("123456789", Obj(map["nom" := Str("A|B"), "prenom" := Str("C")]), 1950);
      var b := Hit("123456789", Obj(map["nom" := Str("A"), "prenom" := Str("B|C")]), 1950);
      a.rep != b.rep && Key(a) == Key(b)
  {
    var a := Hit("123456789", Obj(map["nom" := Str("A|B"), "prenom" := Str("C")]), 1950);
    var b := Hit("123456789", Obj(map["nom" := Str("A"), "prenom" := Str("B|C")]), 1950);
    assert Get(a.rep, "nom") == Str("A|B");
    assert Get(b.rep, "nom") == Str("A");
    assert a.rep != b.rep;
  }
}

=== FILE: estimate.dfy ===
/**
 * `estimate_idf_advanced.js`: one one-hit search per department and NAF code, whose
 * `total_results` is that query's company count; the counts are summed overall and per
 * department, the positive ones listed as `details`, the five largest picked out, summed
 * per NAF code, and the collecting command suggested.
 *
 * The time and cost estimates (floating point) and the console layout are not modelled;
 * the report holds the numbers and commands the script prints.
 */
module Estimate {
  import opened Text
  import opened Wrappers
  import opened Js
  import opened Seqs
  import opened Cli
  import opened Search
  import IdfAdvanced

  /** One department and NAF code with its company count: an entry of `details`. */
  datatype Detail = Detail(dept: string, naf: string, count: int)

  /** `DEPARTEMENTS` and `NAF_CODES`: a bare `--deps` or `--naf` throws on `split`. */
  function Lists(args: Args): (r: Result<(seq<string>, seq<string>), Fault>)
    ensures r.Err? <==> IdfAdvanced.Configure(args).Err?
    ensures r.Ok? ==> r.value.0 == IdfAdvanced.Configure(args).value.deps && r.value.1 == IdfAdvanced.Configure(args).value.nafs
  {
    match SplitOpt(Opt(args, "deps"), IdfAdvanced.IdfDeps)
    case Err(e) => Err(e)
    case Ok(deps) =>
      match SplitOpt(Opt(args, "naf"), IdfAdvanced.DefaultNafs)
      case Err(e) => Err(e)
      case Ok(nafs) => Ok((deps, nafs))
  }

  /** The reply to each department and NAF code's search; a query not in the map failed. */
  type Replies = map<(string, string), Reply>

  /**
   * `estimateVolume(dept, naf)`: `data?.total_results || 0`, and 0 after a failure. A
   * truthy total that is not a number is `None`: the script would go on to add strings.
   */
  function Volume(replies: Replies, q: (string, string)): (c: Option<int>)
    ensures q !in replies || !replies[q].Body? ==> c == Some(0)
    ensures (q in replies && replies[q].Body? ==>
      (c == Some(0) <==> !Truthy(Get(replies[q].data, "total_results"))))
    ensures c.Some? && c.value != 0 ==> q in replies && replies[q].Body? && Get(replies[q].data, "total_results") == Num(c.value)
  {
    if q !in replies || !replies[q].Body? then Some(0)
    else
      var t := Get(replies[q].data, "total_results");
      if !Truthy(t) then Some(0)
      else if t.Num? then Some(t.n)
      else None
  }

  function Count(replies: Replies, q: (string, string)): int {
    Volume(replies, q).GetOr(0)
  }

  /** Every query's total is a number or falsy. */
  predicate Numeric(replies: Replies, qs: seq<(string, string)>) {
    forall q :: q in qs ==> Volume(replies, q).Some?
  }

  /** Every query with its count, in the order the loops make them. */
  function Tally(replies: Replies, qs: seq<(string, string)>): (ds: seq<Detail>)
    ensures |ds| == |qs|
    ensures forall k :: 0 <= k < |qs| ==> ds[k].dept == qs[k].0 && ds[k].naf == qs[k].1
  {
    seq(|qs|, k requires 0 <= k < |qs| => Detail(qs[k].0, qs[k].1, Count(replies, qs[k])))
  }

  lemma TallyAppend(replies: Replies, a: seq<(string, string)>, b: seq<(string, string)>)
    ensures Tally(replies, a + b) == Tally(replies, a) + Tally(replies, b)
  {
  }

  /** `.reduce((sum, d) => sum + d.count, 0)`. */
  function SumCounts(ds: seq<Detail>): int
    decreases |ds|
  {
    if |ds| == 0 then 0 else SumCounts(ds[..|ds| - 1]) + ds[|ds| - 1].count
  }

  lemma {:induction false} SumCountsAppend(a: seq<Detail>, b: seq<Detail>)
    ensures SumCounts(a + b) == SumCounts(a) + SumCounts(b)
    decreases |b|
  {
    if |b| == 0 {
      assert a + b == a;
    } else {
      assert (a + b)[..|a + b| - 1] == a + b[..|b| - 1];
      SumCountsAppend(a, b[..|b| - 1]);
    }
  }

  /** `if (count > 0) details.push(...)`: the entries with a positive count, in order. */
  function Positive(ds: seq<Detail>): (r: seq<Detail>)
    ensures forall d :: d in r <==> d in ds && d.count > 0
    ensures |r| <= |ds|
    decreases |ds|
  {
    if |ds| == 0 then []
    else
      var init := ds[..|ds| - 1];
      var last := ds[|ds| - 1];
      assert forall d :: d in ds <==> d in init || d == last by {
        assert ds == init + [last];
      }
      if last.count > 0 then Positive(init) + [last] else Positive(init)
  }

  /** Leaving out the counts that are not positive never lowers the sum, and keeps it when none is negative. */
  lemma {:induction false} PositiveSum(ds: seq<Detail>)
    ensures SumCounts(Positive(ds)) >= SumCounts(ds)
    ensures (forall i :: 0 <= i < |ds| ==> ds[i].count >= 0) ==> SumCounts(Positive(ds)) == SumCounts(ds)
    decreases |ds|
  {
    if |ds| > 0 {
      var init := ds[..|ds| - 1];
      var last := ds[|ds| - 1];
      PositiveSum(init);
      if last.count > 0 {
        SumCountsAppend(Positive(init), [last]);
        assert SumCounts([last]) == last.count by {
          assert [last][..0] == [];
        }
      }
    }
  }

  // ---------------------------------------------------------------------------
  // Totals
  // ---------------------------------------------------------------------------

  /** `deptTotal` for department `d`: the sum of its counts over every NAF code. */
  function DeptTotal(replies: Replies, d: string, nafs: seq<string>): int {
    SumCounts(Tally(replies, IdfAdvanced.Queries([d], nafs)))
  }

  function DeptTotals(replies: Replies, deps: seq<string>, nafs: seq<string>): (r: seq<int>)
    ensures |r| == |deps| && forall i :: 0 <= i < |deps| ==> r[i] == DeptTotal(replies, deps[i], nafs)
  {
    seq(|deps|, i requires 0 <= i < |deps| => DeptTotal(replies, deps[i], nafs))
  }

  /** `grandTotal`: the sum of every query's count. */
  function GrandTotal(replies: Replies, deps: seq<string>, nafs: seq<string>): int {
    SumCounts(Tally(replies, IdfAdvanced.Queries(deps, nafs)))
  }

  /** The grand total is the sum of the department totals. */
  lemma {:induction false} GrandIsSumOfDepts(replies: Replies, deps: seq<string>, nafs: seq<string>)
    ensures GrandTotal(replies, deps, nafs) == Sum(DeptTotals(replies, deps, nafs))
    decreases |deps|
  {
    if |deps| == 0 {
      assert DeptTotals(replies, deps, nafs) == [];
    } else {
      var rest := deps[1..];
      GrandIsSumOfDepts(replies, rest, nafs);
      GrandCons(replies, deps, nafs);
      DeptTotalsCons(replies, deps, nafs);
    }
  }

  lemma GrandCons(replies: Replies, deps: seq<string>, nafs: seq<string>)
    requires |deps| >= 1
    ensures GrandTotal(replies, deps, nafs) == DeptTotal(replies, deps[0], nafs) + GrandTotal(replies, deps[1..], nafs)
  {
    var row := IdfAdvanced.Queries([deps[0]], nafs);
    var rest := IdfAdvanced.Queries(deps[1..], nafs);
    assert IdfAdvanced.Queries(deps, nafs) == row + rest by {
      assert [deps[0]][1..] == [];
      assert IdfAdvanced.Queries([deps[0]], nafs) == IdfAdvanced.Queries([deps[0]], nafs) + IdfAdvanced.Queries([], nafs);
    }
    TallyAppend(replies, row, rest);
    SumCountsAppend(Tally(replies, row), Tally(replies, rest));
  }

  lemma DeptTotalsCons(replies: Replies, deps: seq<string>, nafs: seq<string>)
    requires |deps| >= 1
    ensures Sum(DeptTotals(replies, deps, nafs)) == DeptTotal(replies, deps[0], nafs) + Sum(DeptTotals(replies, deps[1..], nafs))
  {
    var x := DeptTotal(replies, deps[0], nafs);
    assert DeptTotals(replies, deps, nafs) == [x] + DeptTotals(replies, deps[1..], nafs);
    SumAppend([x], DeptTotals(replies, deps[1..], nafs));
    assert Sum([x]) == x by {
      assert [x][..0] == [];
    }
  }

  /** The entries of department `d`, in order. */
  function InDept(ds: seq<Detail>, d: string): (r: seq<Detail>)
    ensures forall x :: x in r <==> x in ds && x.dept == d
    decreases |ds|
  {
    if |ds| == 0 then []
    else
      var init := ds[..|ds| - 1];
      var last := ds[|ds| - 1];
      assert forall x :: x in ds <==> x in init || x == last by {
        assert ds == init + [last];
      }
      if last.dept == d then InDept(init, d) + [last] else InDept(init, d)
  }

  lemma {:induction false} InDeptAppend(a: seq<Detail>, b: seq<Detail>, d: string)
    ensures InDept(a + b, d) == InDept(a, d) + InDept(b, d)
    decreases |b|
  {
    if |b| > 0 {
      assert (a + b)[..|a + b| - 1] == a + b[..|b| - 1];
      InDeptAppend(a, b[..|b| - 1], d);
    } else {
      assert a + b == a;
    }
  }

  lemma {:induction false} InDeptAll(ds: seq<Detail>, d: string)
    requires forall k :: 0 <= k < |ds| ==> ds[k].dept == d
    ensures InDept(ds, d) == ds
    decreases |ds|
  {
    if |ds| > 0 {
      InDeptAll(ds[..|ds| - 1], d);
      assert ds == ds[..|ds| - 1] + [ds[|ds| - 1]];
    }
  }

  lemma {:induction false} InDeptNone(ds: seq<Detail>, d: string)
    requires forall k :: 0 <= k < |ds| ==> ds[k].dept != d
    ensures InDept(ds, d) == []
    decreases |ds|
  {
    if |ds| > 0 {
      InDeptNone(ds[..|ds| - 1], d);
    }
  }

  /** The queries of the first department come before those of the others. */
  lemma QueriesCons(deps: seq<string>, nafs: seq<string>)
    requires |deps| >= 1
    ensures IdfAdvanced.Queries(deps, nafs) == IdfAdvanced.Queries([deps[0]], nafs) + IdfAdvanced.Queries(deps[1..], nafs)
  {
    assert [deps[0]][1..] == [];
    assert IdfAdvanced.Queries([deps[0]], nafs) == IdfAdvanced.Queries([deps[0]], nafs) + IdfAdvanced.Queries([], nafs);
  }

  /** Every entry of the tally over `deps` belongs to one of `deps`. */
  lemma TallyDepts(replies: Replies, deps: seq<string>, nafs: seq<string>)
    ensures forall k :: 0 <= k < |Tally(replies, IdfAdvanced.Queries(deps, nafs))| ==>
      Tally(replies, IdfAdvanced.Queries(deps, nafs))[k].dept in deps
  {
    var qs := IdfAdvanced.Queries(deps, nafs);
    assert forall k :: 0 <= k < |qs| ==> qs[k] in qs;
  }

  /** Splitting off the first department's queries splits each department's entries the same way. */
  lemma InDeptCons(replies: Replies, deps: seq<string>, nafs: seq<string>, d: string)
    requires |deps| >= 1
    ensures InDept(Tally(replies, IdfAdvanced.Queries(deps, nafs)), d) ==
      InDept(Tally(replies, IdfAdvanced.Queries([deps[0]], nafs)), d) + InDept(Tally(replies, IdfAdvanced.Queries(deps[1..], nafs)), d)
  {
    QueriesCons(deps, nafs);
    TallyAppend(replies, IdfAdvanced.Queries([deps[0]], nafs), IdfAdvanced.Queries(deps[1..], nafs));
    InDeptAppend(Tally(replies, IdfAdvanced.Queries([deps[0]], nafs)), Tally(replies, IdfAdvanced.Queries(deps[1..], nafs)), d);
  }

  lemma {:induction false} DeptInTally(replies: Replies, deps: seq<string>, nafs: seq<string>, i: nat)
    requires NoDup(deps) && i < |deps|
    ensures DeptTotal(replies, deps[i], nafs) == SumCounts(InDept(Tally(replies, IdfAdvanced.Queries(deps, nafs)), deps[i]))
    decreases |deps|
  {
    var d := deps[i];
    var tail := deps[1..];
    NoDupTail(deps);
    var first := Tally(replies, IdfAdvanced.Queries([deps[0]], nafs));
    var others := Tally(replies, IdfAdvanced.Queries(tail, nafs));
    InDeptCons(replies, deps, nafs, d);
    if i == 0 {
      TallyDepts(replies, [deps[0]], nafs);
      TallyDepts(replies, tail, nafs);
      InDeptAll(first, d);
      InDeptNone(others, d);
      assert first + [] == first;
    } else {
      assert tail[i - 1] == d && d != deps[0];
      TallyDepts(replies, [deps[0]], nafs);
      InDeptNone(first, d);
      DeptInTally(replies, tail, nafs, i - 1);
      assert [] + InDept(others, d) == InDept(others, d);
    }
  }

  /**
   * Over distinct departments, the `i`-th department total is the sum of the counts that
   * department has in the full tally, whatever the other departments' replies.
   */
  lemma DeptTotalFromTally(replies: Replies, deps: seq<string>, nafs: seq<string>, i: nat)
    requires NoDup(deps) && i < |deps|
    ensures DeptTotals(replies, deps, nafs)[i] == SumCounts(InDept(Tally(replies, IdfAdvanced.Queries(deps, nafs)), deps[i]))
  {
    DeptInTally(replies, deps, nafs, i);
  }

  // ---------------------------------------------------------------------------
  // Per NAF code
  // ---------------------------------------------------------------------------

  /** `details.filter(d => A has d.naf)`. */
  function Only(ds: seq<Detail>, codes: set<string>): (r: seq<Detail>)
    ensures forall d :: d in r <==> d in ds && d.naf in codes
    decreases |ds|
  {
    if |ds| == 0 then []
    else
      var init := ds[..|ds| - 1];
      var last := ds[|ds| - 1];
      assert forall d :: d in ds <==> d in init || d == last by {
        assert ds == init + [last];
      }
      if last.naf in codes then Only(init, codes) + [last] else Only(init, codes)
  }

  /** `nafTotal` for code `n`: the sum of the counts of the details with that code. */
  function NafTotal(details: seq<Detail>, n: string): int {
    SumCounts(Only(details, {n}))
  }

  function NafTotals(details: seq<Detail>, nafs: seq<string>): (r: seq<int>)
    ensures |r| == |nafs| && forall j :: 0 <= j < |nafs| ==> r[j] == NafTotal(details, nafs[j])
  {
    seq(|nafs|, j requires 0 <= j < |nafs| => NafTotal(details, nafs[j]))
  }

  /** Filtering on two disjoint sets of codes splits the sum in two. */
  lemma {:induction false} OnlySplit(ds: seq<Detail>, a: set<string>, b: set<string>)
    requires a !! b
    ensures SumCounts(Only(ds, a + b)) == SumCounts(Only(ds, a)) + SumCounts(Only(ds, b))
    decreases |ds|
  {
    if |ds| > 0 {
      var init := ds[..|ds| - 1];
      var last := ds[|ds| - 1];
      OnlySplit(init, a, b);
      if last.naf in a {
        SumCountsAppend(Only(init, a + b), [last]);
        SumCountsAppend(Only(init, a), [last]);
      } else if last.naf in b {
        SumCountsAppend(Only(init, a + b), [last]);
        SumCountsAppend(Only(init, b), [last]);
      }
    }
  }

  /** Filtering on a set holding every code changes nothing. */
  lemma {:induction false} OnlyAll(ds: seq<Detail>, codes: set<string>)
    requires forall i :: 0 <= i < |ds| ==> ds[i].naf in codes
    ensures Only(ds, codes) == ds
    decreases |ds|
  {
    if |ds| > 0 {
      OnlyAll(ds[..|ds| - 1], codes);
      assert ds == ds[..|ds| - 1] + [ds[|ds| - 1]];
    }
  }

  lemma {:induction false} NafTotalsPrefix(details: seq<Detail>, nafs: seq<string>)
    requires NoDup(nafs)
    ensures Sum(NafTotals(details, nafs)) == SumCounts(Only(details, set n | n in nafs))
    decreases |nafs|
  {
    if |nafs| == 0 {
      assert (set n | n in nafs) == {};
      OnlyNone(details);
    } else {
      var m := |nafs| - 1;
      var init := nafs[..m];
      assert NoDup(init);
      NafTotalsPrefix(details, init);
      assert NafTotals(details, nafs)[..m] == NafTotals(details, init);
      CodesSnoc(nafs);
      OnlySplit(details, set n | n in init, {nafs[m]});
    }
  }

  /** The codes of a list without repeats are those before the last one, plus that one apart. */
  lemma CodesSnoc(nafs: seq<string>)
    requires |nafs| > 0 && NoDup(nafs)
    ensures var m := |nafs| - 1;
      (set n | n in nafs) == (set n | n in nafs[..m]) + {nafs[m]} && (set n | n in nafs[..m]) !! {nafs[m]}
  {
    var m := |nafs| - 1;
    var init := nafs[..m];
    assert nafs == init + [nafs[m]];
    assert nafs[m] !in init by {
      forall i | 0 <= i < m ensures init[i] != nafs[m] {
        assert nafs[i] != nafs[m];
      }
    }
  }

  lemma {:induction false} OnlyNone(ds: seq<Detail>)
    ensures Only(ds, {}) == []
    decreases |ds|
  {
    if |ds| > 0 {
      OnlyNone(ds[..|ds| - 1]);
    }
  }

  /**
   * Over distinct NAF codes the per-code totals add up to the sum of the details, which
   * is the grand total when no count is negative.
   */
  lemma NafTotalsSum(replies: Replies, deps: seq<string>, nafs: seq<string>)
    ensures var details := Positive(Tally(replies, IdfAdvanced.Queries(deps, nafs)));
      NoDup(nafs) ==> Sum(NafTotals(details, nafs)) == SumCounts(details)
    ensures (var all := Tally(replies, IdfAdvanced.Queries(deps, nafs));
      NoDup(nafs) && (forall i :: 0 <= i < |all| ==> all[i].count >= 0) ==>
        Sum(NafTotals(Positive(all), nafs)) == GrandTotal(replies, deps, nafs))
  {
    var qs := IdfAdvanced.Queries(deps, nafs);
    var all := Tally(replies, qs);
    var details := Positive(all);
    if NoDup(nafs) {
      forall i | 0 <= i < |details| ensures details[i].naf in (set n | n in nafs) {
        assert details[i] in all;
        var k :| 0 <= k < |all| && all[k] == details[i];
        assert qs[k] in qs;
      }
      OnlyAll(details, set n | n in nafs);
      NafTotalsPrefix(details, nafs);
      PositiveSum(all);
    }
  }

  // ---------------------------------------------------------------------------
  // The five largest: `details.sort((a, b) => b.count - a.count).slice(0, 5)`
  // ---------------------------------------------------------------------------

  predicate Descending(ds: seq<Detail>) {
    forall i, j :: 0 <= i < j < |ds| ==> ds[i].count >= ds[j].count
  }

  /** Put `d` after every entry whose count is at least its own: a stable insertion. */
  function InsertDesc(s: seq<Detail>, d: Detail): (r: seq<Detail>)
    requires Descending(s)
    ensures Descending(r) && multiset(r) == multiset(s) + multiset{d}
    decreases |s|
  {
    if |s| == 0 then [d]
    else if s[0].count >= d.count then
      var t := InsertDesc(s[1..], d);
      assert s == [s[0]] + s[1..];
      DescendingCons(s[0], t, s[1..], d);
      [s[0]] + t
    else [d] + s
  }

  /** An entry counting at least as much as everything after it keeps a descending sequence descending. */
  lemma DescendingCons(a: Detail, t: seq<Detail>, u: seq<Detail>, d: Detail)
    requires Descending(t) && Descending([a] + u) && d.count <= a.count
    requires multiset(t) == multiset(u) + multiset{d}
    ensures Descending([a] + t)
  {
    forall x | x in t ensures x.count <= a.count {
      assert x in multiset(t);
      if x != d {
        assert ([a] + u)[0] == a;
        assert x in u;
        var k :| 0 <= k < |u| && u[k] == x;
        assert ([a] + u)[k + 1] == x;
      }
    }
    var r := [a] + t;
    forall i, j | 0 <= i < j < |r| ensures r[i].count >= r[j].count {
      assert r[j] == t[j - 1];
      if i > 0 {
        assert r[i] == t[i - 1];
      }
    }
  }

  /** The stable descending sort of `Array.prototype.sort` with this comparator. */
  function SortDesc(ds: seq<Detail>): (r: seq<Detail>)
    ensures Descending(r) && multiset(r) == multiset(ds)
    decreases |ds|
  {
    if |ds| == 0 then []
    else
      assert ds == ds[..|ds| - 1] + [ds[|ds| - 1]];
      InsertDesc(SortDesc(ds[..|ds| - 1]), ds[|ds| - 1])
  }

  function Top5(details: seq<Detail>): seq<Detail> {
    var s := SortDesc(details);
    s[..if |s| < 5 then |s| else 5]
  }

  /**
   * `top5` holds at most five details, as many as there are up to five, in descending
   * order of count, each one of the details; any detail left out counts no more than
   * the fifth.
   */
  lemma Top5Largest(details: seq<Detail>)
    ensures var t := Top5(details);
      |t| == (if |details| < 5 then |details| else 5) && Descending(t) &&
      forall x :: x in t ==> x in details
    ensures var t := Top5(details);
      |details| > 5 ==> forall x :: x in details && x !in t ==> x.count <= t[4].count
  {
    Top5Kept(details);
    Top5Rest(details);
  }

  lemma SortDescLength(ds: seq<Detail>)
    ensures |SortDesc(ds)| == |ds|
  {
    assert |multiset(SortDesc(ds))| == |multiset(ds)|;
  }

  lemma Top5Kept(details: seq<Detail>)
    ensures var t := Top5(details);
      |t| == (if |details| < 5 then |details| else 5) && Descending(t) &&
      forall x :: x in t ==> x in details
  {
    var s := SortDesc(details);
    var t := Top5(details);
    SortDescLength(details);
    forall x | x in t ensures x in details {
      assert x in multiset(s);
    }
  }

  lemma Top5Rest(details: seq<Detail>)
    ensures var t := Top5(details);
      |details| > 5 ==> |t| == 5 && forall x :: x in details && x !in t ==> x.count <= t[4].count
  {
    var s := SortDesc(details);
    var t := Top5(details);
    SortDescLength(details);
    if |details| > 5 {
      assert t == s[..5] && t[4] == s[4];
      forall x | x in details && x !in t ensures x.count <= t[4].count {
        assert x in multiset(s);
        var i :| 0 <= i < |s| && s[i] == x;
      }
    }
  }

  // ---------------------------------------------------------------------------
  // Recommendations and suggested commands
  // ---------------------------------------------------------------------------

  const Script: string := "node scripts/fetch_idf_advanced.js"

  /** The options of the suggested command. */
  function SuggestedArgs(deps: seq<string>, nafs: seq<string>): seq<string> {
    ["--deps=" + Join(deps, ","), "--naf=" + Join(nafs, ",")]
  }

  /** The command printed for the lists: one form for a single pair, another otherwise. */
  function Suggestion(deps: seq<string>, nafs: seq<string>): string {
    if |deps| == 1 && |nafs| == 1 then Script + " --deps=" + deps[0] + " --naf=" + nafs[0]
    else Script + " --deps=" + Join(deps, ",") + " --naf=" + Join(nafs, ",")
  }

  /** The suggestion with `--batch=1000`, printed when the total passes 1000. */
  function BatchSuggestion(deps: seq<string>, nafs: seq<string>): string {
    Script + " --deps=" + Join(deps, ",") + " --naf=" + Join(nafs, ",") + " --batch=1000"
  }

  /** The single-pair form prints the same text as the general one: the two branches agree. */
  lemma SinglePairSameCommand(deps: seq<string>, nafs: seq<string>)
    ensures Suggestion(deps, nafs) == Script + " " + Join(SuggestedArgs(deps, nafs), " ")
  {
    var a := SuggestedArgs(deps, nafs);
    assert Join(a, " ") == a[0] + " " + a[1] by {
      assert a[1..] == [a[1]];
    }
    if |deps| == 1 && |nafs| == 1 {
      assert Join(deps, ",") == deps[0] && Join(nafs, ",") == nafs[0];
    }
    CommandSpelled(Script, Join(deps, ","), Join(nafs, ","));
  }

  lemma CommandSpelled(x: string, d: string, n: string)
    ensures x + " --deps=" + d + " --naf=" + n == x + " " + (("--deps=" + d) + " " + ("--naf=" + n))
  {
    assert " --deps=" == " " + "--deps=";
    assert " --naf=" == " " + "--naf=";
  }

  /** A list entry the suggested command carries through the shell and the option parser. */
  predicate PlainEntry(e: string) {
    |e| >= 1 && ',' !in e && ' ' !in e && NoLineTerminator(e)
  }

  lemma {:induction false} JoinNoLineTerminator(parts: seq<string>, sep: string)
    requires NoLineTerminator(sep) && forall i :: 0 <= i < |parts| ==> NoLineTerminator(parts[i])
    ensures NoLineTerminator(Join(parts, sep))
    decreases |parts|
  {
    if |parts| > 1 {
      JoinNoLineTerminator(parts[1..], sep);
      var j := Join(parts, sep);
      var rest := Join(parts[1..], sep);
      assert j == parts[0] + sep + rest;
      forall i | 0 <= i < |j| ensures !IsLineTerminator(j[i]) {
        if i < |parts[0]| {
          assert j[i] == parts[0][i];
        } else if i < |parts[0]| + |sep| {
          assert j[i] == sep[i - |parts[0]|];
        } else {
          assert j[i] == rest[i - |parts[0]| - |sep|];
        }
      }
    }
  }

  /** One suggested option reads back, through `split(',')`, as the list it was built from. */
  lemma ListOptionRoundTrip(k: string, xs: seq<string>)
    requires |k| >= 1 && '=' !in k
    requires |xs| >= 1 && forall i :: 0 <= i < |xs| ==> PlainEntry(xs[i])
    ensures ParseArg("--" + k + "=" + Join(xs, ",")) == (k, Text(Join(xs, ",")))
    ensures |Join(xs, ",")| >= 1 && Split(Join(xs, ","), ',') == xs
  {
    var j := Join(xs, ",");
    assert NoLineTerminator(",");
    JoinNoLineTerminator(xs, ",");
    KeyValueRoundTrip(k, j);
    JoinEnds(xs, ",");
    assert "," == [','];
    SplitJoin(xs, ',');
  }

  /**
   * Run as suggested, the collecting script reads back the same departments and NAF
   * codes, with no limit; and the words of the command split back at spaces.
   */
  lemma SuggestionRoundTrip(deps: seq<string>, nafs: seq<string>)
    requires |deps| >= 1 && forall i :: 0 <= i < |deps| ==> PlainEntry(deps[i])
    requires |nafs| >= 1 && forall i :: 0 <= i < |nafs| ==> PlainEntry(nafs[i])
    ensures var s := IdfAdvanced.Configure(ParseArgs(SuggestedArgs(deps, nafs)));
      s.Ok? && s.value.deps == deps && s.value.nafs == nafs && s.value.batch == 0
  {
    SuggestedParses(deps, nafs);
    ConfigureTwoLists(Join(deps, ","), Join(nafs, ","), deps, nafs);
  }

  /** The two list options alone configure the collecting script with those lists and no limit. */
  lemma ConfigureTwoLists(jd: string, jn: string, deps: seq<string>, nafs: seq<string>)
    requires |jd| >= 1 && Split(jd, ',') == deps
    requires |jn| >= 1 && Split(jn, ',') == nafs
    ensures var s := IdfAdvanced.Configure(map["deps" := Text(jd), "naf" := Text(jn)]);
      s.Ok? && s.value.deps == deps && s.value.nafs == nafs && s.value.batch == 0
  {
    var args: Args := map["deps" := Text(jd), "naf" := Text(jn)];
    assert Opt(args, "deps") == Str(jd);
    assert Opt(args, "naf") == Str(jn);
    assert Opt(args, "batch") == Null;
    IdfAdvanced.ConfigureLists(args, deps, nafs);
  }

  /** `parseInt(undefined) || 0` is 0. */
  lemma MissingBatch()
    ensures IntOr(Null, 0) == 0
  {
    ParseIntNull();
  }

  /** The suggested options parse as the two joined lists and nothing else. */
  lemma SuggestedParses(deps: seq<string>, nafs: seq<string>)
    requires |deps| >= 1 && forall i :: 0 <= i < |deps| ==> PlainEntry(deps[i])
    requires |nafs| >= 1 && forall i :: 0 <= i < |nafs| ==> PlainEntry(nafs[i])
    ensures ParseArgs(SuggestedArgs(deps, nafs)) == map["deps" := Text(Join(deps, ",")), "naf" := Text(Join(nafs, ","))]
    ensures |Join(deps, ",")| >= 1 && Split(Join(deps, ","), ',') == deps
    ensures |Join(nafs, ",")| >= 1 && Split(Join(nafs, ","), ',') == nafs
  {
    var jd := Join(deps, ",");
    var jn := Join(nafs, ",");
    ListOptionRoundTrip("deps", deps);
    ListOptionRoundTrip("naf", nafs);
    OptionSpelled(jd, jn);
    TwoArgs(SuggestedArgs(deps, nafs), ("deps", Text(jd)), ("naf", Text(jn)));
    TwoEntries("deps", "naf", Text(jd), Text(jn));
  }

  lemma OptionSpelled(jd: string, jn: string)
    ensures "--" + "deps" + "=" + jd == "--deps=" + jd
    ensures "--" + "naf" + "=" + jn == "--naf=" + jn
  {
    assert "--" + "deps" + "=" == "--deps=";
    assert "--" + "naf" + "=" == "--naf=";
  }

  lemma TwoArgs(argv: seq<string>, a: (string, Arg), b: (string, Arg))
    requires |argv| == 2 && ParseArg(argv[0]) == a && ParseArg(argv[1]) == b
    ensures seq(|argv|, i requires 0 <= i < |argv| => ParseArg(argv[i])) == [a, b]
  {
  }

  lemma TwoEntries(a: string, b: string, va: Arg, vb: Arg)
    requires a != b
    ensures FromEntries([(a, va), (b, vb)]) == map[a := va, b := vb]
  {
    var es := [(a, va), (b, vb)];
    assert LastFor(es, 0) && LastFor(es, 1);
    var m := FromEntries(es);
    assert forall k :: k in m <==> k == a || k == b by {
      assert forall k :: HasKey(es, k) <==> k == a || k == b;
    }
  }

  // ---------------------------------------------------------------------------
  // A whole run
  // ---------------------------------------------------------------------------

  datatype Report = Report(
    grandTotal: int,
    deptTotals: seq<int>,
    details: seq<Detail>,
    top5: seq<Detail>,
    nafTotals: seq<int>,
    warning: bool,          // the "volume important" block
    commands: seq<string>)  // the suggested commands

  datatype Stop = Crashed | NotANumber

  /** The report for the lists `deps` and `nafs`. */
  function Summarise(replies: Replies, deps: seq<string>, nafs: seq<string>): (r: Report)
    ensures r.warning <==> r.grandTotal > 10000
    ensures |r.commands| == 2 <==> r.grandTotal > 1000
    ensures |r.commands| >= 1 && r.commands[0] == Suggestion(deps, nafs)
    ensures forall d :: d in r.details <==> d in Tally(replies, IdfAdvanced.Queries(deps, nafs)) && d.count > 0
    ensures r.grandTotal == Sum(r.deptTotals) && |r.deptTotals| == |deps|
    ensures forall i :: 0 <= i < |deps| ==> r.deptTotals[i] == DeptTotal(replies, deps[i], nafs)
    ensures |r.nafTotals| == |nafs| && forall j :: 0 <= j < |nafs| ==> r.nafTotals[j] == NafTotal(r.details, nafs[j])
    ensures NoDup(nafs) ==> Sum(r.nafTotals) == SumCounts(r.details)
    ensures |r.top5| == (if |r.details| < 5 then |r.details| else 5) && Descending(r.top5)
    ensures forall x :: x in r.top5 ==> x in r.details
    ensures |r.details| > 5 ==> forall x :: x in r.details && x !in r.top5 ==> x.count <= r.top5[4].count
  {
    GrandIsSumOfDepts(replies, deps, nafs);
    Top5Largest(Positive(Tally(replies, IdfAdvanced.Queries(deps, nafs))));
    NafTotalsSum(replies, deps, nafs);
    var all := Tally(replies, IdfAdvanced.Queries(deps, nafs));
    var grand := SumCounts(all);
    var details := Positive(all);
    Report(grand, DeptTotals(replies, deps, nafs), details, Top5(details), NafTotals(details, nafs),
           grand > 10000,
           [Suggestion(deps, nafs)] + (if grand > 1000 then [BatchSuggestion(deps, nafs)] else []))
  }

  function Run(args: Args, replies: Replies): (r: Result<Report, Stop>)
    ensures r == Err(Crashed) <==> Lists(args).Err?
    ensures r == Err(NotANumber) <==> Lists(args).Ok? && !Numeric(replies, IdfAdvanced.Queries(Lists(args).value.0, Lists(args).value.1))
    ensures r.Ok? ==> r.value == Summarise(replies, Lists(args).value.0, Lists(args).value.1)
  {
    match Lists(args)
    case Err(_) => Err(Crashed)
    case Ok((deps, nafs)) =>
      if !Numeric(replies, IdfAdvanced.Queries(deps, nafs)) then Err(NotANumber)
      else Ok(Summarise(replies, deps, nafs))
  }
}

=== FILE: filterdob.dfy ===
/**
 * `filter_dirigeants_by_dob.js`: the representatives whose birth value, read with the
 * six-format parser, falls strictly before the `--date` cutoff; ten columns ending in a
 * `comparaison` column that says whether the date was complete; rows joined by line feeds.
 */
module FilterByDob {
  import opened Text
  import opened Wrappers
  import opened Js
  import opened Csv
  import opened Dates
  import opened Records
  import opened Cli
  import SirenInput

  const Header: seq<string> := [
    "siren", "denomination", "code_naf", "libelle_code_naf", "entreprise_cessee",
    "dir_nom", "dir_prenom", "dir_qualite", "dir_date_naissance", "comparaison"
  ]

  const FullDate: string := "avant (date complète)"
  const EstimatedDate: string := "avant (année/mois estimé)"

  /** Why a run stops before reading any record. */
  datatype Fatal =
    | NoKey         // `!process.env.PAPPERS_API_KEY`, checked before the options are read
    | MissingDate   // `!args.date`
    | InvalidDate   // `parseFlexibleDate(args.date)` is null
    | Crash         // `args.date.replace(...)` for the default output name, on a bare `--date`

  /**
   * The cutoff, parsed from the untrimmed option. A bare `--date` (`true`) throws when the
   * default output name is built from it, and otherwise parses as the text `"true"`, which
   * is no date.
   */
  function Cutoff(args: Args): (r: Result<FlexDate, Fatal>)
    ensures r == Err(MissingDate) <==> !Truthy(Opt(args, "date"))
    ensures r == Err(Crash) <==> Opt(args, "date") == Bool(true) && !Truthy(Opt(args, "out"))
    ensures r.Ok? <==> ParseFlexibleDate6(Opt(args, "date")).Some? && Opt(args, "date").Str?
    ensures r.Ok? ==> ParseFlexibleDate6(Opt(args, "date")) == Some(r.value)
  {
    var v := Opt(args, "date");
    if !Truthy(v) then Err(MissingDate)
    else if !v.Str? && !Truthy(Opt(args, "out")) then Err(Crash)
    else
      TrueIsNoDate();
      match ParseFlexibleDate6(v)
      case None => Err(InvalidDate)
      case Some(c) => Ok(c)
  }

  /** `parseFlexibleDate(true)`: `String(true)` has no date in it. */
  lemma TrueIsNoDate()
    ensures ParseFlexibleDate6(Bool(true)).None?
  {
    var t := "true";
    assert ToStr(Bool(true)) == t;
    TrimIdentity(t);
    forall i: nat ensures !MatchAt(StandaloneYear, t, i) {
      if i + 4 <= |t| {
        assert !IsDigit(t[i]);
      }
    }
    assert FindFrom(StandaloneYear, t, 0).None?;
  }

  /** `r.date_de_naissance || r.date_naissance || r.informations_naissance || r.age || ''`. */
  function RawDob(rep: Value): Value {
    FirstTruthy(rep, ["date_de_naissance", "date_naissance", "informations_naissance", "age"], Str(""))
  }

  /** `pd && cmpDates(pd, cutoff) < 0`. */
  predicate Before(cutoff: FlexDate, rep: Value) {
    var pd := ParseFlexibleDate6(RawDob(rep));
    pd.Some? && CmpDates(pd.value.date, cutoff.date) < 0
  }

  /** `pd.full ? 'avant (date complète)' : 'avant (année/mois estimé)'`. */
  function Comparison(pd: Option<FlexDate>): (r: Value)
    ensures r == Str(FullDate) <==> pd.Some? && pd.value.full
    ensures r == Str(FullDate) || r == Str(EstimatedDate)
  {
    if pd.Some? && pd.value.full then Str(FullDate) else Str(EstimatedDate)
  }

  function RepRow(siren: string, ent: Value, rep: Value): (row: seq<Value>)
    ensures |row| == |Header| && row[0] == Str(siren)
    ensures row[8] == RawDob(rep) && row[9] == Comparison(ParseFlexibleDate6(RawDob(rep)))
  {
    [Str(siren), Denomination(ent), Field(ent, "code_naf"), Field(ent, "libelle_code_naf"),
     OuiNon(Get(ent, "entreprise_cessee")),
     Field(rep, "nom"), Field(rep, "prenom"), Qualite(rep), RawDob(rep),
     Comparison(ParseFlexibleDate6(RawDob(rep)))]
  }

  /**
   * The rows one company adds: nothing for a failed request, a null body or an unusable
   * `representants`; otherwise the kept representatives before the first null one.
   */
  function CompanyRows(siren: string, reply: Option<Value>, cutoff: FlexDate): (rows: seq<seq<Value>>)
    ensures AllWidth(rows, |Header|)
    ensures reply.None? || reply.value.Null? || Representants(reply.value).None? ==> rows == []
  {
    match reply
    case None => []
    case Some(ent) =>
      if ent.Null? then []
      else
        match Representants(ent)
        case None => []
        case Some(reps) =>
          var keep := (r: Value) => Before(cutoff, r);
          var row := (r: Value) => RepRow(siren, ent, r);
          EmitShape(reps, Nullish, keep, row, (x: seq<Value>) => |x| == |Header|);
          Emit(reps, Nullish, keep, row)
  }

  /**
   * A row is written exactly for a reached representative whose birth value parses and
   * sorts strictly before the cutoff, and its last column says `complète` exactly when
   * the value was one of the three full date forms.
   */
  lemma RowIffStrictlyBefore(siren: string, ent: Value, cutoff: FlexDate, reps: seq<Value>, x: seq<Value>)
    requires !ent.Null? && Representants(ent) == Some(reps)
    ensures x in CompanyRows(siren, Some(ent), cutoff) <==>
      exists i :: 0 <= i < Reached(reps, Nullish) && x == RepRow(siren, ent, reps[i]) &&
        ParseFlexibleDate6(RawDob(reps[i])).Some? &&
        Key(ParseFlexibleDate6(RawDob(reps[i])).value.date) < Key(cutoff.date)
    ensures x in CompanyRows(siren, Some(ent), cutoff) ==>
      ParseFlexibleDate6(x[8]).Some? && (x[9] == Str(FullDate) <==> ParseFlexibleDate6(x[8]).value.full)
  {
    EmitMembers(reps, Nullish, (r: Value) => Before(cutoff, r), (r: Value) => RepRow(siren, ent, r), x);
  }

  function DataRows(sirens: seq<string>, reg: Registry, cutoff: FlexDate): (rows: seq<seq<Value>>)
    ensures AllWidth(rows, |Header|)
    decreases |sirens|
  {
    if |sirens| == 0 then []
    else
      var last := sirens[|sirens| - 1];
      DataRows(sirens[..|sirens| - 1], reg, cutoff) + CompanyRows(last, Fetch(reg, last), cutoff)
  }

  /**
   * A whole run. The key and `--date` are checked first; `IN` and `OUT` are then resolved,
   * and a bare `--in` or `--out` makes `path.resolve` throw before the cutoff is parsed.
   */
  function Run(env: map<string, string>, args: Args, content: string, reg: Registry): (r: Result<string, Fatal>)
    ensures r == Err(NoKey) <==> !ApiKeySet(env)
    ensures r == Err(MissingDate) <==> ApiKeySet(env) && !Truthy(Opt(args, "date"))
    ensures (r == Err(Crash) <==>
      ApiKeySet(env) && Truthy(Opt(args, "date")) &&
      (PathThrows(args, "in") || PathThrows(args, "out") || Cutoff(args) == Err(Crash)))
    ensures (r.Ok? <==> ApiKeySet(env) && Cutoff(args).Ok? && !PathThrows(args, "in") && !PathThrows(args, "out"))
  {
    if !ApiKeySet(env) then Err(NoKey)
    else if !Truthy(Opt(args, "date")) then Err(MissingDate)
    else if PathThrows(args, "in") || PathThrows(args, "out") then Err(Crash)
    else
      match Cutoff(args)
      case Err(e) => Err(e)
      case Ok(cutoff) => Ok(JoinedDoc([Strs(Header)] + DataRows(SirenInput.ReadSirenList(content), reg, cutoff)))
  }

  /** A written file reads back as the header and ten cell texts per data row, for the parsed cutoff. */
  lemma RunReadsBack(env: map<string, string>, args: Args, content: string, reg: Registry)
    requires Run(env, args, content, reg).Ok?
    ensures ReadRecords(Run(env, args, content, reg).value) ==
      Some([Header] + RenderRows(DataRows(SirenInput.ReadSirenList(content), reg, Cutoff(args).value)))
  {
    ReadJoinedSheet(Header, DataRows(SirenInput.ReadSirenList(content), reg, Cutoff(args).value));
  }
}

=== FILE: fromcsv.dfy ===
/**
 * `enrich_pappers_from_csv.js`: the representatives whose birth date, read with the
 * six-format parser, falls strictly before the `--date` cutoff; eleven columns with the
 * age reached at the cutoff; rows joined by line feeds.
 */
module PappersFromCsv {
  import opened Text
  import opened Wrappers
  import opened Js
  import opened Csv
  import opened Dates
  import opened Records
  import opened Cli
  import SirenInput

  const Header: seq<string> := [
    "siren", "denomination", "code_naf", "libelle_code_naf", "ville_siege", "entreprise_cessee",
    "dir_nom", "dir_prenom", "dir_qualite", "dir_date_naissance", "dir_age_estime_au_cutoff"
  ]

  /** Why a run stops before reading any record. */
  datatype Fatal =
    | NoKey         // `!process.env.PAPPERS_API_KEY`, checked before the options are read
    | MissingDate   // `!args.date`
    | InvalidDate   // `parseFlexibleDate(CUT)` is null
    | Crash         // `args.date.trim()` on a bare `--date`, which is `true`

  /** `CUT = args.date.trim()` then `cutoff = parseFlexibleDate(CUT)`, with the two exits before it. */
  function Cutoff(args: Args): (r: Result<FlexDate, Fatal>)
    ensures r == Err(MissingDate) <==> !Truthy(Opt(args, "date"))
    ensures r == Err(Crash) <==> Opt(args, "date") == Bool(true)
    ensures r.Ok? ==> Opt(args, "date").Str? && ParseFlexibleDate6(Opt(args, "date")) == Some(r.value)
    ensures Opt(args, "date").Str? && Truthy(Opt(args, "date")) ==>
      (r.Ok? <==> ParseFlexibleDate6(Opt(args, "date")).Some?)
  {
    var v := Opt(args, "date");
    if !Truthy(v) then Err(MissingDate)
    else if !v.Str? then Err(Crash)
    else
      var cut := Trim(v.s);
      ParseTrimmed(v.s);
      match ParseFlexibleDate6(Str(cut))
      case None => Err(InvalidDate)
      case Some(c) => Ok(c)
  }

  /** Trimming before parsing changes nothing: the parser trims its input itself. */
  lemma ParseTrimmed(s: string)
    ensures ParseFlexibleDate6(Str(Trim(s))) == ParseFlexibleDate6(Str(s))
  {
    var t := Trim(s);
    TrimTwice(s);
    if t == "" {
      BlankText6();
    } else {
      assert s != "";
    }
    SameParse(Str(t), Str(s));
  }

  /** Two values that trim to the same text parse alike, unless only one is falsy and that text parses. */
  lemma SameParse(a: Value, b: Value)
    requires Trim(ToStr(a)) == Trim(ToStr(b))
    requires Truthy(a) != Truthy(b) ==> ParseText6(Trim(ToStr(a))).None?
    ensures ParseFlexibleDate6(a) == ParseFlexibleDate6(b)
  {
  }

  lemma TrimTwice(s: string)
    ensures Trim(Trim(s)) == Trim(s)
  {
    TrimIdentity(Trim(s));
  }

  lemma BlankParsesToNull(s: string)
    requires Trim(s) == ""
    ensures ParseFlexibleDate6(Str(s)).None?
  {
    BlankText6();
  }

  lemma BlankText6()
    ensures ParseText6("").None?
  {
    assert FindFrom(StandaloneYear, "", 0).None?;
  }

  /** `r.date_de_naissance || r.date_naissance || r.informations_naissance || ''`. */
  function RawDob(rep: Value): Value {
    FirstTruthy(rep, ["date_de_naissance", "date_naissance", "informations_naissance"], Str(""))
  }

  /** `dob && cmpDates(dob, cutoff) < 0`: no person check, and an unparseable date is never kept. */
  predicate Before(cutoff: FlexDate, rep: Value) {
    var dob := ParseFlexibleDate6(RawDob(rep));
    dob.Some? && CmpDates(dob.value.date, cutoff.date) < 0
  }

  /** The age column: `calcAgeAt(dob, cutoff)` when `dob.y` is truthy, else `''`. */
  function AgeCell(dob: Option<FlexDate>, cutoff: FlexDate): (r: Value)
    ensures dob.Some? && dob.value.date.y != 0 ==> r == Num(AgeAt(dob.value.date, cutoff.date))
    ensures dob.None? || dob.value.date.y == 0 ==> r == Str("")
  {
    if dob.Some? && dob.value.date.y != 0 then Num(AgeAt(dob.value.date, cutoff.date)) else Str("")
  }

  function RepRow(siren: string, ent: Value, cutoff: FlexDate, rep: Value): (row: seq<Value>)
    ensures |row| == |Header| && row[0] == Str(siren)
    ensures row[4] == Field(Get(ent, "siege"), "ville")
    ensures row[9] == RawDob(rep) && row[10] == AgeCell(ParseFlexibleDate6(RawDob(rep)), cutoff)
  {
    [Str(siren), Denomination(ent), Field(ent, "code_naf"), Field(ent, "libelle_code_naf"),
     Field(Get(ent, "siege"), "ville"), OuiNon(Get(ent, "entreprise_cessee")),
     Field(rep, "nom"), Field(rep, "prenom"), Qualite(rep), RawDob(rep),
     AgeCell(ParseFlexibleDate6(RawDob(rep)), cutoff)]
  }

  /**
   * The rows one company adds: nothing for a failed request, a null body or an unusable
   * `representants`; otherwise the kept representatives before the first null one.
   */
  function CompanyRows(siren: string, reply: Option<Value>, cutoff: FlexDate): (rows: seq<seq<Value>>)
    ensures AllWidth(rows, |Header|)
    ensures reply.None? || reply.value.Null? || Representants(reply.value).None? ==> rows == []
  {
    match reply
    case None => []
    case Some(ent) =>
      if ent.Null? then []
      else
        match Representants(ent)
        case None => []
        case Some(reps) =>
          var keep := (r: Value) => Before(cutoff, r);
          var row := (r: Value) => RepRow(siren, ent, cutoff, r);
          EmitShape(reps, Nullish, keep, row, (x: seq<Value>) => |x| == |Header|);
          Emit(reps, Nullish, keep, row)
  }

  /** A row is written exactly for a reached representative whose date parses and sorts strictly before the cutoff. */
  lemma RowIffStrictlyBefore(siren: string, ent: Value, cutoff: FlexDate, reps: seq<Value>, x: seq<Value>)
    requires !ent.Null? && Representants(ent) == Some(reps)
    ensures x in CompanyRows(siren, Some(ent), cutoff) <==>
      exists i :: 0 <= i < Reached(reps, Nullish) && x == RepRow(siren, ent, cutoff, reps[i]) &&
        ParseFlexibleDate6(RawDob(reps[i])).Some? &&
        Key(ParseFlexibleDate6(RawDob(reps[i])).value.date) < Key(cutoff.date)
  {
    EmitMembers(reps, Nullish, (r: Value) => Before(cutoff, r), (r: Value) => RepRow(siren, ent, cutoff, r), x);
  }

  /** On a kept row whose dates have a non-zero month and day, the age at the cutoff is not negative. */
  lemma KeptAgeNonNegative(siren: string, ent: Value, cutoff: FlexDate, rep: Value)
    requires Before(cutoff, rep)
    requires var dob := ParseFlexibleDate6(RawDob(rep)).value.date;
      dob.y != 0 && 1 <= dob.m && 1 <= dob.d && 1 <= cutoff.date.m <= 99 && 1 <= cutoff.date.d <= 99
    ensures RepRow(siren, ent, cutoff, rep)[10].Num? && RepRow(siren, ent, cutoff, rep)[10].n >= 0
  {
    var dob := ParseFlexibleDate6(RawDob(rep)).value;
    ParsedFieldsBounded(Trim(ToStr(RawDob(rep))));
    AgeNonNegative(dob.date, cutoff.date);
  }

  /** The month and day the six-format parser produces have at most two digits. */
  lemma ParsedFieldsBounded(s: string)
    requires ParseText6(s).Some?
    ensures ParseText6(s).value.date.m <= 99 && ParseText6(s).value.date.d <= 99
  {
    if IsIsoDate(s) {
      TwoDigits(s, 5);
      TwoDigits(s, 8);
    } else if IsDayFirst(s, '-') || IsDayFirst(s, '/') {
      TwoDigits(s, 3);
      TwoDigits(s, 0);
    } else if IsMonthYear(s) {
      TwoDigits(s, 0);
    }
  }

  lemma TwoDigits(s: string, i: nat)
    requires DigitsAt(s, i, 2)
    ensures NumAt(s, i, 2) <= 99
  {
    assert Pow10(2) == 100;
  }

  function DataRows(sirens: seq<string>, reg: Registry, cutoff: FlexDate): (rows: seq<seq<Value>>)
    ensures AllWidth(rows, |Header|)
    decreases |sirens|
  {
    if |sirens| == 0 then []
    else
      var last := sirens[|sirens| - 1];
      DataRows(sirens[..|sirens| - 1], reg, cutoff) + CompanyRows(last, Fetch(reg, last), cutoff)
  }

  /**
   * A whole run. The key and `--date` are checked first; `IN`, `CUT` and `OUT` are then
   * computed, and a bare `--in`, `--date` or `--out` throws there, before the cutoff is parsed.
   */
  function Run(env: map<string, string>, args: Args, content: string, reg: Registry): (r: Result<string, Fatal>)
    ensures r == Err(NoKey) <==> !ApiKeySet(env)
    ensures r == Err(MissingDate) <==> ApiKeySet(env) && !Truthy(Opt(args, "date"))
    ensures (r == Err(Crash) <==>
      ApiKeySet(env) && Truthy(Opt(args, "date")) &&
      (PathThrows(args, "in") || PathThrows(args, "out") || Cutoff(args) == Err(Crash)))
    ensures (r.Ok? <==> ApiKeySet(env) && Cutoff(args).Ok? && !PathThrows(args, "in") && !PathThrows(args, "out"))
  {
    if !ApiKeySet(env) then Err(NoKey)
    else if !Truthy(Opt(args, "date")) then Err(MissingDate)
    else if PathThrows(args, "in") || PathThrows(args, "out") then Err(Crash)
    else
      match Cutoff(args)
      case Err(e) => Err(e)
      case Ok(cutoff) => Ok(JoinedDoc([Strs(Header)] + DataRows(SirenInput.LoadFromCsv(content), reg, cutoff)))
  }

  /** A written file reads back as the header and eleven cell texts per data row, for the parsed cutoff. */
  lemma RunReadsBack(env: map<string, string>, args: Args, content: string, reg: Registry)
    requires Run(env, args, content, reg).Ok?
    ensures ReadRecords(Run(env, args, content, reg).value) ==
      Some([Header] + RenderRows(DataRows(SirenInput.LoadFromCsv(content), reg, Cutoff(args).value)))
  {
    ReadJoinedSheet(Header, DataRows(SirenInput.LoadFromCsv(content), reg, Cutoff(args).value));
  }
}

=== FILE: fromlist.dfy ===
/**
 * `enrich_from_list.js`: the representatives born in 1962 or earlier, judged by the first
 * standalone year of their birth fields, ten columns, rows joined by line feeds.
 */
module FromList {
  import opened Wrappers
  import opened Js
  import opened Csv
  import opened Dates
  import opened Records
  import SirenInput

  const Header: seq<string> := [
    "siren", "denomination", "code_naf", "libelle_code_naf", "entreprise_cessee",
    "dir_nom", "dir_prenom", "dir_qualite", "dir_date_naissance", "dir_age_estime"
  ]

  const YearMax := 1962

  /** `y && y <= YEAR_MAX` with `y = extractYear(...)`. */
  predicate BornBy(rep: Value) {
    var y := ExtractYear(YearSource(rep));
    y.Some? && y.value != 0 && y.value <= YearMax
  }

  /**
   * The rows one company adds: nothing for a failed request, a null body or an
   * unusable `representants`; otherwise the kept representatives before the first null one.
   */
  function CompanyRows(siren: string, reply: Option<Value>): (rows: seq<seq<Value>>)
    ensures AllWidth(rows, |Header|)
    ensures reply.None? || reply.value.Null? || Representants(reply.value).None? ==> rows == []
  {
    match reply
    case None => []
    case Some(ent) =>
      if ent.Null? then []
      else
        match Representants(ent)
        case None => []
        case Some(reps) =>
          var row := (r: Value) => YearRow(siren, ent, r);
          EmitShape(reps, Nullish, BornBy, row, (x: seq<Value>) => |x| == |Header|);
          Emit(reps, Nullish, BornBy, row)
  }

  /**
   * A row is written exactly for a representative, reached before any null one, whose
   * extracted year is at most 1962 (inclusive).
   */
  lemma RowIffBornBy1962(siren: string, ent: Value, reps: seq<Value>, x: seq<Value>)
    requires !ent.Null? && Representants(ent) == Some(reps)
    ensures x in CompanyRows(siren, Some(ent)) <==>
      exists i :: 0 <= i < Reached(reps, Nullish) && x == YearRow(siren, ent, reps[i]) &&
        ExtractYear(YearSource(reps[i])).Some? && ExtractYear(YearSource(reps[i])).value <= 1962
  {
    EmitMembers(reps, Nullish, BornBy, (r: Value) => YearRow(siren, ent, r), x);
  }

  function DataRows(sirens: seq<string>, reg: Registry): (rows: seq<seq<Value>>)
    ensures AllWidth(rows, |Header|)
    decreases |sirens|
  {
    if |sirens| == 0 then []
    else DataRows(sirens[..|sirens| - 1], reg) + CompanyRows(sirens[|sirens| - 1], Fetch(reg, sirens[|sirens| - 1]))
  }

  function Output(content: string, reg: Registry): string {
    JoinedDoc([Strs(Header)] + DataRows(SirenInput.ReadSirenList(content), reg))
  }

  /** The file reads back as the header and each data row's ten cell texts. */
  lemma OutputReadsBack(content: string, reg: Registry)
    ensures ReadRecords(Output(content, reg)) ==
      Some([Header] + RenderRows(DataRows(SirenInput.ReadSirenList(content), reg)))
  {
    ReadJoinedSheet(Header, DataRows(SirenInput.ReadSirenList(content), reg));
  }
}

=== FILE: idfadvanced.dfy ===
/**
 * `fetch_idf_advanced.js`: the SIRENs of the active companies of every department and
 * NAF code asked for, page after page of the public search, merged into one
 * insertion-ordered set with an optional size limit (`--batch`), and written as a
 * one-column list under a file name that describes the query.
 */
module IdfAdvanced {
  import opened Text
  import opened Wrappers
  import opened Js
  import opened Seqs
  import opened Cli
  import opened Search
  import SirenInput

  const IdfDeps: seq<string> := ["75", "77", "78", "91", "92", "93", "94", "95"]
  const DefaultNafs: seq<string> := ["78.20Z"]

  /** The module-level constants the script derives from its options. */
  datatype Settings = Settings(deps: seq<string>, nafs: seq<string>, format: Value, out: Value, batch: int, stamp: bool)

  /**
   * The settings, computed before anything else runs: a bare `--deps` or `--naf` is `true`,
   * which has no `split`, and the script dies there. `--batch` that is not a number, or
   * is zero, means no limit.
   */
  function Configure(args: Args): (r: Result<Settings, Fault>)
    ensures r.Err? <==> Opt(args, "deps") == Bool(true) || Opt(args, "naf") == Bool(true)
    ensures r.Ok? && !Truthy(Opt(args, "deps")) ==> r.value.deps == IdfDeps
    ensures r.Ok? && !Truthy(Opt(args, "naf")) ==> r.value.nafs == DefaultNafs
    ensures r.Ok? && Truthy(Opt(args, "deps")) ==> |r.value.deps| >= 1 && Join(r.value.deps, ",") == Opt(args, "deps").s
    ensures r.Ok? && Truthy(Opt(args, "naf")) ==> |r.value.nafs| >= 1 && Join(r.value.nafs, ",") == Opt(args, "naf").s
    ensures r.Ok? ==> (r.value.batch > 0 ==> ParseInt(Opt(args, "batch")) == Some(r.value.batch))
    ensures r.Ok? ==> (ParseInt(Opt(args, "batch")).None? ==> r.value.batch == 0)
    ensures r.Ok? ==> (r.value.format == Str("csv") <==> !Truthy(Opt(args, "format")) || Opt(args, "format") == Str("csv"))
    ensures r.Ok? ==> (r.value.out.Str? <==> Opt(args, "out") != Bool(true))
  {
    match SplitOpt(Opt(args, "deps"), IdfDeps)
    case Err(e) => Err(e)
    case Ok(deps) =>
      match SplitOpt(Opt(args, "naf"), DefaultNafs)
      case Err(e) => Err(e)
      case Ok(nafs) =>
        Ok(Settings(deps, nafs, Or(Opt(args, "format"), Str("csv")), Or(Opt(args, "out"), Str("output")),
                    IntOr(Opt(args, "batch"), 0), Truthy(Opt(args, "timestamp"))))
  }

  // ---------------------------------------------------------------------------
  // The descriptive file name
  // ---------------------------------------------------------------------------

  /** `n.replace(/\./g, '')`. */
  function StripDots(n: string): (r: string)
    ensures '.' !in r
    ensures forall c :: c in r <==> c in n && c != '.'
    ensures '.' !in n ==> r == n
  {
    if |n| == 0 then ""
    else
      var rest := StripDots(n[1..]);
      assert forall c :: c in n <==> c == n[0] || c in n[1..] by {
        assert n == [n[0]] + n[1..];
      }
      if n[0] == '.' then rest else [n[0]] + rest
  }

  /** `DEPARTEMENTS.length === 8 ? 'idf' : DEPARTEMENTS.join('_')`. */
  function DepPart(deps: seq<string>): string {
    if |deps| == 8 then "idf" else Join(deps, "_")
  }

  function Undotted(nafs: seq<string>): (r: seq<string>)
    ensures |r| == |nafs| && forall i :: 0 <= i < |r| ==> r[i] == StripDots(nafs[i])
  {
    seq(|nafs|, i requires 0 <= i < |nafs| => StripDots(nafs[i]))
  }

  /** `NAF_CODES.map(n => n.replace(/\./g, '')).join('_')`. */
  function NafPart(nafs: seq<string>): string {
    Join(Undotted(nafs), "_")
  }

  /**
   * The NAF part of the name has no dot, and when no code has an underscore it splits
   * at `_` back into the codes with their dots removed.
   */
  lemma NafPartSplits(nafs: seq<string>)
    requires |nafs| >= 1 && forall i :: 0 <= i < |nafs| ==> '_' !in nafs[i]
    ensures '.' !in NafPart(nafs)
    ensures Split(NafPart(nafs), '_') == Undotted(nafs)
  {
    var u := Undotted(nafs);
    JoinAvoids(u, "_", '.');
    assert "_" == ['_'];
    SplitJoin(u, '_');
  }

  /**
   * `sirens_${nafStr}_${depStr}${timestamp}.${OUTPUT_FORMAT}`; `day` is the UTC date
   * `YYYY-MM-DD` of the run, used with `--timestamp`.
   */
  function FileName(s: Settings, day: string): string {
    "sirens_" + NafPart(s.nafs) + "_" + DepPart(s.deps) + (if s.stamp then "_" + day else "") + "." + ToStr(s.format)
  }

  /** With no option at all the file is `sirens_7820Z_idf.csv`. */
  lemma DefaultFileName(day: string)
    ensures Configure(map[]).Ok?
    ensures FileName(Configure(map[]).value, day) == "sirens_7820Z_idf.csv"
  {
    DefaultSettings();
    var s := Configure(map[]).value;
    DefaultNafPart();
    assert DepPart(s.deps) == "idf";
    assert ToStr(s.format) == "csv";
    assert FileName(s, day) == "sirens_" + "7820Z" + "_" + "idf" + "" + "." + "csv";
    DefaultNameSpelled();
  }

  lemma DefaultNameSpelled()
    ensures "sirens_" + "7820Z" + "_" + "idf" + "" + "." + "csv" == "sirens_7820Z_idf.csv"
  {
    var x := "sirens_" + "7820Z" + "_" + "idf" + "" + "." + "csv";
    var y := "sirens_7820Z_idf.csv";
    assert |x| == |y| == 20;
    forall i | 0 <= i < 20 ensures x[i] == y[i] {
    }
  }

  lemma DefaultSettings()
    ensures Configure(map[]) == Ok(Settings(IdfDeps, DefaultNafs, Str("csv"), Str("output"), 0, false))
  {
    var args: Args := map[];
    assert Opt(args, "deps") == Null && Opt(args, "naf") == Null;
    assert SplitOpt(Null, IdfDeps) == Ok(IdfDeps) && SplitOpt(Null, DefaultNafs) == Ok(DefaultNafs);
    DefaultFields();
  }

  /** Two list options and no `--batch`: the lists are used as given, with no limit. */
  lemma ConfigureLists(args: Args, deps: seq<string>, nafs: seq<string>)
    requires Opt(args, "deps").Str? && Truthy(Opt(args, "deps")) && Split(Opt(args, "deps").s, ',') == deps
    requires Opt(args, "naf").Str? && Truthy(Opt(args, "naf")) && Split(Opt(args, "naf").s, ',') == nafs
    requires Opt(args, "batch") == Null
    ensures Configure(args).Ok? && Configure(args).value.deps == deps && Configure(args).value.nafs == nafs
    ensures Configure(args).value.batch == 0
  {
    ParseIntNull();
  }

  lemma DefaultFields()
    ensures var args: Args := map[];
      Or(Opt(args, "format"), Str("csv")) == Str("csv") && Or(Opt(args, "out"), Str("output")) == Str("output") &&
      IntOr(Opt(args, "batch"), 0) == 0 && !Truthy(Opt(args, "timestamp"))
  {
    var args: Args := map[];
    assert Opt(args, "format") == Null && Opt(args, "out") == Null;
    assert Opt(args, "timestamp") == Null && Opt(args, "batch") == Null;
    ParseIntNull();
  }

  lemma DefaultNafPart()
    ensures NafPart(DefaultNafs) == "7820Z"
  {
    assert StripDots("78.20Z") == "7820Z" by {
      assert "78.20Z"[1..] == "8.20Z" && "8.20Z"[1..] == ".20Z" && ".20Z"[1..] == "20Z";
      assert StripDots("20Z") == "20Z";
    }
    assert Undotted(DefaultNafs) == ["7820Z"];
  }

  // ---------------------------------------------------------------------------
  // One department and NAF code: `fetchSirens`
  // ---------------------------------------------------------------------------

  /** `BATCH_SIZE > 0 && sirens.size >= BATCH_SIZE`. */
  predicate Capped(xs: seq<string>, batch: int) {
    batch > 0 && |xs| >= batch
  }

  /** How the loop over one page's hits ended. */
  datatype Stop = Done | Full | Broke

  datatype Added = Added(sirens: seq<string>, stop: Stop)

  /**
   * The loop over one page's hits: add each valid SIREN to the set, return the set as
   * soon as it reaches the limit, and leave the page when a hit throws.
   */
  function AddHits(acc: seq<string>, hits: seq<Value>, batch: int): (a: Added)
    requires NoDup(acc) && SirenInput.AllSirens(acc) && !Capped(acc, batch)
    ensures NoDup(a.sirens) && SirenInput.AllSirens(a.sirens) && acc <= a.sirens
    ensures forall y :: y in a.sirens ==> y in acc || y in Picked(hits)
    ensures a.stop != Full ==> forall y :: y in Picked(hits) ==> y in a.sirens
    ensures a.stop == Full <==> Capped(a.sirens, batch)
    ensures batch > 0 ==> |a.sirens| <= batch
    ensures a.stop == Done ==> !PickThrows(hits)
    ensures a.stop == Broke ==> PickThrows(hits)
    decreases |hits|
  {
    if |hits| == 0 then Added(acc, Done)
    else
      var rest := hits[1..];
      assert forall i :: 1 <= i < |hits| ==> rest[i - 1] == hits[i];
      match HitSiren(hits[0])
      case Err(_) => Added(acc, Broke)
      case Ok(None) => AddHits(acc, rest, batch)
      case Ok(Some(x)) =>
        var acc' := Insert(acc, x);
        assert SirenInput.AllSirens(acc') by {
          assert forall i :: 0 <= i < |acc'| ==> acc'[i] in acc || acc'[i] == x;
        }
        if Capped(acc', batch) then Added(acc', Full)
        else AddHits(acc', rest, batch)
  }

  /** `data?.results || []`, iterated; `None` when it cannot be. */
  function Results(data: Value): Option<seq<Value>> {
    Iterate(Or(Get(data, "results"), Arr([])))
  }

  /** The hits of a reply whose results can be iterated, else none. */
  function PageHits(r: Reply): seq<Value> {
    if r.Body? && Results(r.data).Some? then Results(r.data).value else []
  }

  /**
   * `page <= totalPages` after `page++`, with `totalPages = data?.total_pages || page`:
   * a numeric comparison, false against `NaN`.
   */
  predicate MorePages(data: Value, page: int) {
    var t := ToNumber(Or(Get(data, "total_pages"), Num(page)));
    t.Some? && page + 1 <= t.value
  }

  /** A page after which the loop asks for the next one. */
  predicate Advance(r: Reply, page: int) {
    r.Body? && Results(r.data).Some? && !PickThrows(Results(r.data).value) && MorePages(r.data, page)
  }

  /** The valid SIRENs of the hits of every reply in `rs`, page after page. */
  function AllPicked(rs: seq<Reply>): seq<string>
    decreases |rs|
  {
    if |rs| == 0 then [] else Picked(PageHits(rs[0])) + AllPicked(rs[1..])
  }

  datatype Fetched = Fetched(sirens: seq<string>, asked: seq<int>, end: End)

  /** The pages asked for are `page`, `page + 1`, … in turn. */
  predicate Consecutive(asked: seq<int>, page: int) {
    forall i :: 0 <= i < |asked| ==> asked[i] == page + i
  }

  /** Every page asked for but the last led on to the next. */
  predicate LedOn(replies: seq<Reply>, asked: seq<int>, page: int) {
    |asked| <= |replies| && forall i :: 0 <= i < |asked| - 1 ==> Advance(replies[i], page + i)
  }

  /** The last page asked for was read whole and was the last of the result pages. */
  predicate LastPage(replies: seq<Reply>, asked: seq<int>, page: int) {
    1 <= |asked| <= |replies| &&
    var last := replies[|asked| - 1];
    last.Body? && Results(last.data).Some? && !MorePages(last.data, page + |asked| - 1)
  }

  /** The last page of the rest is the last page of the whole, one further on. */
  lemma LastCons(replies: seq<Reply>, page: int, asked: seq<int>, c: bool)
    requires |replies| >= 1
    requires c ==> LastPage(replies[1..], asked, page + 1)
    ensures c ==> LastPage(replies, [page] + asked, page)
  {
    if c {
      assert replies[|asked|] == replies[1..][|asked| - 1];
    }
  }

  /** Asking for `page` after a reply that led on, then for what the rest asked. */
  lemma AskedCons(rest: seq<Reply>, replies: seq<Reply>, page: int, asked: seq<int>)
    requires |replies| >= 1 && rest == replies[1..] && Advance(replies[0], page)
    requires Consecutive(asked, page + 1) && LedOn(rest, asked, page + 1)
    ensures Consecutive([page] + asked, page) && LedOn(replies, [page] + asked, page)
  {
    var a := [page] + asked;
    assert forall i :: 1 <= i < |a| ==> a[i] == asked[i - 1];
    assert forall i :: 1 <= i < |replies| ==> replies[i] == rest[i - 1];
  }

  /** What one page does to the set: it leads on to the next page, or it ends the loop. */
  datatype Step = Next(sirens: seq<string>) | Halt(sirens: seq<string>, end: End)

  /**
   * One pass of the `fetchSirens` loop body on the reply for `page`: a reply that is not
   * a body, results that cannot be iterated or a hit that throws end the loop (the error
   * is caught); reaching the limit or the last page ends it normally.
   */
  function PageStep(r: Reply, batch: int, acc: seq<string>, page: int): (s: Step)
    requires NoDup(acc) && SirenInput.AllSirens(acc) && !Capped(acc, batch)
    ensures NoDup(s.sirens) && SirenInput.AllSirens(s.sirens) && acc <= s.sirens
    ensures batch > 0 ==> |s.sirens| <= batch
    ensures s.Next? ==> Advance(r, page) && !Capped(s.sirens, batch)
    ensures s.Halt? ==> s.end != Unanswered
    ensures (s.Halt? && s.end == Finished && !Capped(s.sirens, batch) ==>
      r.Body? && Results(r.data).Some? && !MorePages(r.data, page))
  {
    match r
    case Body(data) =>
      (match Results(data)
       case None => Halt(acc, Threw)
       case Some(hits) =>
         var a := AddHits(acc, hits, batch);
         match a.stop
         case Full => Halt(a.sirens, Finished)
         case Broke => Halt(a.sirens, Threw)
         case Done => if MorePages(data, page) then Next(a.sirens) else Halt(a.sirens, Finished))
    case _ => Halt(acc, Threw)
  }

  /**
   * `fetchSirens` from `page` on, adding to `acc`: ask for the page, add its SIRENs, stop
   * at the limit, and go on while the next page is within `total_pages`. Any failure —
   * a failed request, a 429, results that cannot be iterated, a hit that throws — is
   * caught and ends the loop, keeping what was added.
   */
  function FetchPages(replies: seq<Reply>, batch: int, acc: seq<string>, page: int): (f: Fetched)
    requires NoDup(acc) && SirenInput.AllSirens(acc) && !Capped(acc, batch)
    ensures NoDup(f.sirens) && SirenInput.AllSirens(f.sirens) && acc <= f.sirens
    ensures batch > 0 ==> |f.sirens| <= batch
    ensures |f.asked| <= |replies|
    ensures Consecutive(f.asked, page) && LedOn(replies, f.asked, page)
    ensures f.end == Unanswered ==> |f.asked| == |replies|
    ensures f.end != Unanswered ==> |f.asked| >= 1
    ensures f.end == Finished && !Capped(f.sirens, batch) ==> LastPage(replies, f.asked, page)
    decreases |replies|
  {
    if |replies| == 0 then Fetched(acc, [], Unanswered)
    else
      var s := PageStep(replies[0], batch, acc, page);
      if s.Halt? then Fetched(s.sirens, [page], s.end)
      else
        var rest := replies[1..];
        var f := FetchPages(rest, batch, s.sirens, page + 1);
        AskedCons(rest, replies, page, f.asked);
        LastCons(replies, page, f.asked, f.end == Finished && !Capped(f.sirens, batch));
        Fetched(f.sirens, [page] + f.asked, f.end)
  }

  /**
   * What one department and NAF code collects: every SIREN comes from `acc` or from the
   * pages asked for; every page but the last is taken whole, and so is the last when the
   * loop ran to its end below the limit.
   */
  lemma FetchMembers(replies: seq<Reply>, batch: int, acc: seq<string>, page: int)
    requires NoDup(acc) && SirenInput.AllSirens(acc) && !Capped(acc, batch)
    ensures var f := FetchPages(replies, batch, acc, page);
      forall y :: y in f.sirens ==> y in acc || y in AllPicked(replies[..|f.asked|])
    ensures var f := FetchPages(replies, batch, acc, page);
      |f.asked| >= 1 ==> forall y :: y in AllPicked(replies[..|f.asked| - 1]) ==> y in f.sirens
    ensures var f := FetchPages(replies, batch, acc, page);
      f.end == Finished && !Capped(f.sirens, batch) ==> forall y :: y in AllPicked(replies[..|f.asked|]) ==> y in f.sirens
  {
    FetchSound(replies, batch, acc, page);
    FetchWhole(replies, batch, acc, page);
    FetchWholeEnd(replies, batch, acc, page);
  }

  /**
   * One page's step adds only that page's SIRENs, and all of them when it leads on or
   * ends the loop normally below the limit.
   */
  lemma StepPicked(r: Reply, batch: int, acc: seq<string>, page: int)
    requires NoDup(acc) && SirenInput.AllSirens(acc) && !Capped(acc, batch)
    ensures var s := PageStep(r, batch, acc, page);
      forall y :: y in s.sirens ==> y in acc || y in Picked(PageHits(r))
    ensures var s := PageStep(r, batch, acc, page);
      (s.Next? || (s.end == Finished && !Capped(s.sirens, batch))) ==> Within(Picked(PageHits(r)), s.sirens)
  {
    if r.Body? && Results(r.data).Some? {
      var a := AddHits(acc, Results(r.data).value, batch);
    } else {
      assert PageHits(r) == [];
      assert Picked([]) == [];
    }
  }

  /** The recursive step of `FetchPages`: after a page that leads on, the result is the rest's with the page in front. */
  lemma FetchStep(replies: seq<Reply>, batch: int, acc: seq<string>, page: int)
    requires NoDup(acc) && SirenInput.AllSirens(acc) && !Capped(acc, batch)
    requires |replies| >= 1 && PageStep(replies[0], batch, acc, page).Next?
    ensures var s := PageStep(replies[0], batch, acc, page);
      var g := FetchPages(replies[1..], batch, s.sirens, page + 1);
      FetchPages(replies, batch, acc, page) == Fetched(g.sirens, [page] + g.asked, g.end)
  {
  }

  /** The SIRENs of the first `k + 1` pages are the first page's, then those of the next `k`. */
  lemma PickedCons(replies: seq<Reply>, k: nat)
    requires k < |replies|
    ensures AllPicked(replies[..k + 1]) == Picked(PageHits(replies[0])) + AllPicked(replies[1..][..k])
  {
    assert replies[..k + 1][1..] == replies[1..][..k];
  }

  /** Every SIREN of `xs` is in `ys`. */
  predicate Within(xs: seq<string>, ys: seq<string>) {
    forall y :: y in xs ==> y in ys
  }

  /** What a prefix holds, the whole holds. */
  lemma PrefixIn(a: seq<string>, b: seq<string>)
    requires a <= b
    ensures Within(a, b)
  {
    forall y | y in a ensures y in b {
      var i :| 0 <= i < |a| && a[i] == y;
      assert b[i] == y;
    }
  }

  lemma WithinTrans(a: seq<string>, b: seq<string>, c: seq<string>)
    requires Within(a, b) && Within(b, c)
    ensures Within(a, c)
  {
  }

  lemma WithinConcat(a: seq<string>, b: seq<string>, c: seq<string>)
    requires Within(a, c) && Within(b, c)
    ensures Within(a + b, c)
  {
  }

  /** A page that does not lead on ends the walk with what its step added. */
  lemma FetchLast(replies: seq<Reply>, batch: int, acc: seq<string>, page: int)
    requires NoDup(acc) && SirenInput.AllSirens(acc) && !Capped(acc, batch)
    requires |replies| >= 1 && PageStep(replies[0], batch, acc, page).Halt?
    ensures var s := PageStep(replies[0], batch, acc, page);
      FetchPages(replies, batch, acc, page) == Fetched(s.sirens, [page], s.end)
    ensures AllPicked(replies[..1]) == Picked(PageHits(replies[0]))
  {
    FirstPage(replies);
  }

  lemma {:induction false} FetchSound(replies: seq<Reply>, batch: int, acc: seq<string>, page: int)
    requires NoDup(acc) && SirenInput.AllSirens(acc) && !Capped(acc, batch)
    ensures var f := FetchPages(replies, batch, acc, page);
      forall y :: y in f.sirens ==> y in acc || y in AllPicked(replies[..|f.asked|])
    decreases |replies|, 1
  {
    if |replies| > 0 {
      if PageStep(replies[0], batch, acc, page).Next? {
        FetchSoundNext(replies, batch, acc, page);
      } else {
        StepPicked(replies[0], batch, acc, page);
        FetchLast(replies, batch, acc, page);
      }
    }
  }

  lemma {:induction false} FetchSoundNext(replies: seq<Reply>, batch: int, acc: seq<string>, page: int)
    requires NoDup(acc) && SirenInput.AllSirens(acc) && !Capped(acc, batch)
    requires |replies| >= 1 && PageStep(replies[0], batch, acc, page).Next?
    ensures var f := FetchPages(replies, batch, acc, page);
      forall y :: y in f.sirens ==> y in acc || y in AllPicked(replies[..|f.asked|])
    decreases |replies|, 0
  {
    var s := PageStep(replies[0], batch, acc, page);
    var g := FetchPages(replies[1..], batch, s.sirens, page + 1);
    StepPicked(replies[0], batch, acc, page);
    FetchSound(replies[1..], batch, s.sirens, page + 1);
    FetchStep(replies, batch, acc, page);
    SoundCons(replies, acc, s.sirens, g, FetchPages(replies, batch, acc, page));
  }

  /** The step of `FetchSoundNext`, on the results alone. */
  lemma SoundCons(replies: seq<Reply>, acc: seq<string>, ss: seq<string>, g: Fetched, f: Fetched)
    requires |replies| >= 1 && |g.asked| < |replies|
    requires f.sirens == g.sirens && |f.asked| == |g.asked| + 1
    requires forall y :: y in ss ==> y in acc || y in Picked(PageHits(replies[0]))
    requires forall y :: y in g.sirens ==> y in ss || y in AllPicked(replies[1..][..|g.asked|])
    ensures forall y :: y in f.sirens ==> y in acc || y in AllPicked(replies[..|f.asked|])
  {
    PickedCons(replies, |g.asked|);
  }

  /**
   * When the first page's SIRENs are in a set that grows into `gs`, and those of the
   * next `k` pages are in `gs`, so are those of the first `k + 1` pages.
   */
  lemma PagesWithin(replies: seq<Reply>, k: nat, ss: seq<string>, gs: seq<string>)
    requires k < |replies|
    requires Within(Picked(PageHits(replies[0])), ss) && ss <= gs
    requires Within(AllPicked(replies[1..][..k]), gs)
    ensures Within(AllPicked(replies[..k + 1]), gs)
  {
    var first := Picked(PageHits(replies[0]));
    PickedCons(replies, k);
    PrefixIn(ss, gs);
    WithinTrans(first, ss, gs);
    WithinConcat(first, AllPicked(replies[1..][..k]), gs);
  }

  /** Every page but the last is taken whole. */
  lemma {:induction false} FetchWhole(replies: seq<Reply>, batch: int, acc: seq<string>, page: int)
    requires NoDup(acc) && SirenInput.AllSirens(acc) && !Capped(acc, batch)
    ensures var f := FetchPages(replies, batch, acc, page);
      |f.asked| >= 1 ==> Within(AllPicked(replies[..|f.asked| - 1]), f.sirens)
    decreases |replies|, 1
  {
    if |replies| > 0 {
      if PageStep(replies[0], batch, acc, page).Next? {
        FetchWholeNext(replies, batch, acc, page);
      } else {
        FetchLast(replies, batch, acc, page);
        assert AllPicked(replies[..0]) == [];
      }
    }
  }

  lemma {:induction false} FetchWholeNext(replies: seq<Reply>, batch: int, acc: seq<string>, page: int)
    requires NoDup(acc) && SirenInput.AllSirens(acc) && !Capped(acc, batch)
    requires |replies| >= 1 && PageStep(replies[0], batch, acc, page).Next?
    ensures var f := FetchPages(replies, batch, acc, page);
      Within(AllPicked(replies[..|f.asked| - 1]), f.sirens)
    decreases |replies|, 0
  {
    var s := PageStep(replies[0], batch, acc, page);
    var g := FetchPages(replies[1..], batch, s.sirens, page + 1);
    FetchStep(replies, batch, acc, page);
    FetchWhole(replies[1..], batch, s.sirens, page + 1);
    StepPicked(replies[0], batch, acc, page);
    WholeCons(replies, s.sirens, g, FetchPages(replies, batch, acc, page));
  }

  /** The step of `FetchWholeNext`, on the results alone. */
  lemma WholeCons(replies: seq<Reply>, ss: seq<string>, g: Fetched, f: Fetched)
    requires |replies| >= 1 && |g.asked| < |replies|
    requires f.sirens == g.sirens && |f.asked| == |g.asked| + 1
    requires Within(Picked(PageHits(replies[0])), ss) && ss <= g.sirens
    requires |g.asked| >= 1 ==> Within(AllPicked(replies[1..][..|g.asked| - 1]), g.sirens)
    ensures Within(AllPicked(replies[..|f.asked| - 1]), f.sirens)
  {
    if |g.asked| >= 1 {
      PagesWithin(replies, |g.asked| - 1, ss, g.sirens);
    } else {
      assert AllPicked(replies[..0]) == [];
    }
  }

  /** When the walk ends normally below the limit, the last page is taken whole too. */
  lemma {:induction false} FetchWholeEnd(replies: seq<Reply>, batch: int, acc: seq<string>, page: int)
    requires NoDup(acc) && SirenInput.AllSirens(acc) && !Capped(acc, batch)
    ensures var f := FetchPages(replies, batch, acc, page);
      f.end == Finished && !Capped(f.sirens, batch) ==> Within(AllPicked(replies[..|f.asked|]), f.sirens)
    decreases |replies|, 1
  {
    if |replies| > 0 {
      if PageStep(replies[0], batch, acc, page).Next? {
        FetchWholeEndNext(replies, batch, acc, page);
      } else {
        StepPicked(replies[0], batch, acc, page);
        FetchLast(replies, batch, acc, page);
      }
    }
  }

  lemma {:induction false} FetchWholeEndNext(replies: seq<Reply>, batch: int, acc: seq<string>, page: int)
    requires NoDup(acc) && SirenInput.AllSirens(acc) && !Capped(acc, batch)
    requires |replies| >= 1 && PageStep(replies[0], batch, acc, page).Next?
    ensures var f := FetchPages(replies, batch, acc, page);
      f.end == Finished && !Capped(f.sirens, batch) ==> Within(AllPicked(replies[..|f.asked|]), f.sirens)
    decreases |replies|, 0
  {
    var s := PageStep(replies[0], batch, acc, page);
    var g := FetchPages(replies[1..], batch, s.sirens, page + 1);
    FetchStep(replies, batch, acc, page);
    FetchWholeEnd(replies[1..], batch, s.sirens, page + 1);
    StepPicked(replies[0], batch, acc, page);
    EndCons(replies, batch, s.sirens, g, FetchPages(replies, batch, acc, page));
  }

  /** The step of `FetchWholeEndNext`, on the results alone. */
  lemma EndCons(replies: seq<Reply>, batch: int, ss: seq<string>, g: Fetched, f: Fetched)
    requires |replies| >= 1 && |g.asked| < |replies|
    requires f.sirens == g.sirens && |f.asked| == |g.asked| + 1 && f.end == g.end
    requires Within(Picked(PageHits(replies[0])), ss) && ss <= g.sirens
    requires g.end == Finished && !Capped(g.sirens, batch) ==> Within(AllPicked(replies[1..][..|g.asked|]), g.sirens)
    ensures f.end == Finished && !Capped(f.sirens, batch) ==> Within(AllPicked(replies[..|f.asked|]), f.sirens)
  {
    if g.end == Finished && !Capped(g.sirens, batch) {
      PagesWithin(replies, |g.asked|, ss, g.sirens);
    }
  }

  /** The SIRENs picked from the first reply alone. */
  lemma FirstPage(replies: seq<Reply>)
    requires |replies| >= 1
    ensures AllPicked(replies[..1]) == Picked(PageHits(replies[0]))
  {
    var one := replies[..1];
    assert one[1..] == [];
    assert AllPicked(one[1..]) == [];
    assert Picked(PageHits(one[0])) + [] == Picked(PageHits(replies[0]));
  }

  // ---------------------------------------------------------------------------
  // Every department and NAF code: the main loop
  // ---------------------------------------------------------------------------

  /** The replies to each query's page requests, by department and NAF code; a query not in the map gets none. */
  type Replies = map<(string, string), seq<Reply>>

  function RepliesFor(replies: Replies, q: (string, string)): seq<Reply> {
    if q in replies then replies[q] else []
  }

  /** `fetchSirens(dept, naf)`: the page loop from page 1 with an empty set. */
  function FetchSirens(replies: Replies, q: (string, string), batch: int): (f: Fetched)
    ensures NoDup(f.sirens) && SirenInput.AllSirens(f.sirens)
    ensures batch > 0 ==> |f.sirens| <= batch
    ensures forall i :: 0 <= i < |f.asked| ==> f.asked[i] == i + 1
  {
    assert NoDup<string>([]);
    FetchPages(RepliesFor(replies, q), batch, [], 1)
  }

  /** The queries of `for (const dept of DEPARTEMENTS) for (const naf of NAF_CODES)`, in order. */
  function Queries(deps: seq<string>, nafs: seq<string>): (qs: seq<(string, string)>)
    ensures forall q :: q in qs <==> q.0 in deps && q.1 in nafs
    decreases |deps|
  {
    if |deps| == 0 then []
    else
      var row := seq(|nafs|, j requires 0 <= j < |nafs| => (deps[0], nafs[j]));
      var rest := Queries(deps[1..], nafs);
      assert forall d :: d in deps <==> d == deps[0] || d in deps[1..] by {
        assert deps == [deps[0]] + deps[1..];
      }
      assert forall q :: q in row <==> q.0 == deps[0] && q.1 in nafs by {
        forall q: (string, string) | q.0 == deps[0] && q.1 in nafs ensures q in row {
          var j :| 0 <= j < |nafs| && nafs[j] == q.1;
          assert row[j] == q;
        }
      }
      row + rest
  }

  /** `for (const s of sirens) { allSirens.add(s); if (limit reached) break; }`. */
  function Merge(all: seq<string>, xs: seq<string>, batch: int): (r: seq<string>)
    requires NoDup(all) && SirenInput.AllSirens(all) && SirenInput.AllSirens(xs) && !Capped(all, batch)
    ensures NoDup(r) && SirenInput.AllSirens(r) && all <= r
    ensures forall y :: y in r ==> y in all || y in xs
    ensures !Capped(r, batch) ==> forall y :: y in xs ==> y in r
    ensures batch > 0 ==> |r| <= batch
    decreases |xs|
  {
    if |xs| == 0 then all
    else
      var all' := Insert(all, xs[0]);
      assert SirenInput.AllSirens(all') by {
        assert forall i :: 0 <= i < |all'| ==> all'[i] in all || all'[i] == xs[0];
      }
      assert forall y :: y in xs <==> y == xs[0] || y in xs[1..] by {
        assert xs == [xs[0]] + xs[1..];
      }
      if Capped(all', batch) then all'
      else Merge(all', xs[1..], batch)
  }

  /**
   * The main loop over the queries `qs`, merging into `all` and stopping once the limit
   * is reached. `None` when some query's replies run out before its page loop ends.
   */
  function Collect(replies: Replies, qs: seq<(string, string)>, batch: int, all: seq<string>): (r: Option<seq<string>>)
    requires NoDup(all) && SirenInput.AllSirens(all) && !Capped(all, batch)
    ensures r.Some? ==> NoDup(r.value) && SirenInput.AllSirens(r.value) && all <= r.value
    ensures r.Some? && batch > 0 ==> |r.value| <= batch
    ensures r.None? ==> exists k :: 0 <= k < |qs| && FetchSirens(replies, qs[k], batch).end == Unanswered
    ensures (forall k :: 0 <= k < |qs| ==> FetchSirens(replies, qs[k], batch).end != Unanswered) ==> r.Some?
    decreases |qs|
  {
    if |qs| == 0 then Some(all)
    else
      var f := FetchSirens(replies, qs[0], batch);
      if f.end == Unanswered then None
      else
        var m := Merge(all, f.sirens, batch);
        if Capped(m, batch) then Some(m)
        else
          var r := Collect(replies, qs[1..], batch, m);
          assert forall k :: 1 <= k < |qs| ==> qs[1..][k - 1] == qs[k];
          r
  }

  /**
   * Every SIREN the main loop keeps was found by some query; when the limit was not
   * reached, every SIREN any query found is kept.
   */
  lemma CollectMembers(replies: Replies, qs: seq<(string, string)>, batch: int, all: seq<string>)
    requires NoDup(all) && SirenInput.AllSirens(all) && !Capped(all, batch)
    requires Collect(replies, qs, batch, all).Some?
    ensures var r := Collect(replies, qs, batch, all).value;
      forall y :: y in r ==> y in all || exists q :: q in qs && y in FetchSirens(replies, q, batch).sirens
    ensures var r := Collect(replies, qs, batch, all).value;
      !Capped(r, batch) ==> forall q, y :: q in qs && y in FetchSirens(replies, q, batch).sirens ==> y in r
  {
    CollectSound(replies, qs, batch, all);
    CollectWhole(replies, qs, batch, all);
  }

  /** The first query, then the rest. */
  lemma QueriesCons(qs: seq<(string, string)>)
    requires |qs| >= 1
    ensures forall q :: q in qs <==> q == qs[0] || q in qs[1..]
  {
    assert qs == [qs[0]] + qs[1..];
  }

  lemma {:induction false} CollectSound(replies: Replies, qs: seq<(string, string)>, batch: int, all: seq<string>)
    requires NoDup(all) && SirenInput.AllSirens(all) && !Capped(all, batch)
    requires Collect(replies, qs, batch, all).Some?
    ensures var r := Collect(replies, qs, batch, all).value;
      forall y :: y in r ==> y in all || exists q :: q in qs && y in FetchSirens(replies, q, batch).sirens
    decreases |qs|
  {
    if |qs| > 0 {
      var f := FetchSirens(replies, qs[0], batch);
      var m := Merge(all, f.sirens, batch);
      QueriesCons(qs);
      if !Capped(m, batch) {
        CollectSound(replies, qs[1..], batch, m);
      }
    }
  }

  lemma {:induction false} CollectWhole(replies: Replies, qs: seq<(string, string)>, batch: int, all: seq<string>)
    requires NoDup(all) && SirenInput.AllSirens(all) && !Capped(all, batch)
    requires Collect(replies, qs, batch, all).Some?
    ensures var r := Collect(replies, qs, batch, all).value;
      !Capped(r, batch) ==> forall q, y :: q in qs && y in FetchSirens(replies, q, batch).sirens ==> y in r
    decreases |qs|
  {
    if |qs| > 0 {
      var f := FetchSirens(replies, qs[0], batch);
      var m := Merge(all, f.sirens, batch);
      QueriesCons(qs);
      if !Capped(m, batch) {
        CollectWhole(replies, qs[1..], batch, m);
        PrefixIn(m, Collect(replies, qs[1..], batch, m).value);
      }
    }
  }

  // ---------------------------------------------------------------------------
  // A whole run
  // ---------------------------------------------------------------------------

  /** The SIRENs the main loop collects for the settings `s`. */
  function Collected(s: Settings, replies: Replies): (r: Option<seq<string>>)
    ensures r.Some? ==> NoDup(r.value) && SirenInput.AllSirens(r.value)
    ensures r.Some? && s.batch > 0 ==> |r.value| <= s.batch
  {
    assert NoDup<string>([]);
    Collect(replies, Queries(s.deps, s.nafs), s.batch, [])
  }

  datatype Outcome =
    | Crashed                                     // a bare `--deps`, `--naf` or `--out`
    | Help                                        // `--help`: usage, exit 0
    | Incomplete                                  // some query's replies ran out
    | Written(name: string, content: string)      // the CSV list `exportCSV` writes
    | OtherFormat(name: string, sirens: seq<string>)  // `json` or `xlsx`

  /** After the checks: the main loop, then the export the format picks. */
  function Export(s: Settings, day: string, replies: Replies): (r: Outcome)
    ensures r != Crashed && r != Help
    ensures r == Incomplete <==> Collected(s, replies).None?
    ensures r.Written? || r.OtherFormat? ==> r.name == FileName(s, day)
    ensures r.OtherFormat? <==> Collected(s, replies).Some? && (s.format == Str("json") || s.format == Str("xlsx"))
    ensures r.Written? ==> Collected(s, replies) == Some(SirenInput.ReadSirenList(r.content))
  {
    match Collected(s, replies)
    case None => Incomplete
    case Some(all) =>
      SirenInput.ReadSirenListRoundTrip(all);
      if s.format == Str("json") || s.format == Str("xlsx") then OtherFormat(FileName(s, day), all)
      else Written(FileName(s, day), SirenInput.SirenFile(all))
  }

  /**
   * A run: the settings first, then `--help`, then `mkdirSync(OUTPUT_DIR)`, which throws on
   * a bare `--out` (`true` is no path), then the export.
   */
  function Run(args: Args, day: string, replies: Replies): (r: Outcome)
    ensures r == Crashed <==> Configure(args).Err? || (!Truthy(Opt(args, "help")) && Opt(args, "out") == Bool(true))
    ensures r == Help <==> Configure(args).Ok? && Truthy(Opt(args, "help"))
    ensures r != Crashed && r != Help ==> r == Export(Configure(args).value, day, replies)
  {
    match Configure(args)
    case Err(_) => Crashed
    case Ok(s) =>
      if Truthy(Opt(args, "help")) then Help
      else if !s.out.Str? then Crashed
      else Export(s, day, replies)
  }

  /**
   * The written list reads back, with any of the loaders, as the SIRENs collected, each
   * once, no more of them than the limit.
   */
  lemma RunReadsBack(args: Args, day: string, replies: Replies)
    requires Run(args, day, replies).Written?
    ensures var list := SirenInput.ReadSirenList(Run(args, day, replies).content);
      Collected(Configure(args).value, replies) == Some(list) && NoDup(list) &&
      SirenInput.LoadAdvanced(Run(args, day, replies).content) == list &&
      (Configure(args).value.batch > 0 ==> |list| <= Configure(args).value.batch)
  {
    var s := Configure(args).value;
    var all := Collected(s, replies).value;
    assert Run(args, day, replies) == Export(s, day, replies);
    assert Run(args, day, replies).content == SirenInput.SirenFile(all);
    SirenInput.ReadSirenListRoundTrip(all);
    SirenInput.LoadAdvancedRoundTrip(all);
  }

  /**
   * Without a limit the list is the union of what every department and NAF code query
   * found: a SIREN is written exactly when some query for a listed department and NAF
   * code found it.
   */
  lemma UnlimitedIsUnion(args: Args, day: string, replies: Replies, y: string)
    requires Run(args, day, replies).Written? && Configure(args).value.batch <= 0
    ensures var s := Configure(args).value;
      y in SirenInput.ReadSirenList(Run(args, day, replies).content) <==>
      exists d, n :: d in s.deps && n in s.nafs && y in FetchSirens(replies, (d, n), s.batch).sirens
  {
    RunReadsBack(args, day, replies);
    UnionOfQueries(Configure(args).value, replies, y);
  }

  lemma UnionOfQueries(s: Settings, replies: Replies, y: string)
    requires Collected(s, replies).Some? && s.batch <= 0
    ensures y in Collected(s, replies).value <==>
      exists d, n :: d in s.deps && n in s.nafs && y in FetchSirens(replies, (d, n), s.batch).sirens
  {
    var qs := Queries(s.deps, s.nafs);
    assert NoDup<string>([]);
    CollectMembers(replies, qs, s.batch, []);
    if y in Collected(s, replies).value {
      var q :| q in qs && y in FetchSirens(replies, q, s.batch).sirens;
      assert q == (q.0, q.1);
    }
  }
}

=== FILE: idfall.dfy ===
/**
 * `enrich_idf_all.js`: every representative of every listed company, unfiltered, one
 * eleven-column row each, rows joined by line feeds.
 */
module IdfAll {
  import opened Wrappers
  import opened Js
  import opened Csv
  import opened Seqs
  import opened Records
  import SirenInput

  const Header: seq<string> := [
    "siren", "denomination", "code_naf", "libelle_code_naf", "entreprise_cessee",
    "dir_nom", "dir_prenom", "dir_qualite", "dir_date_naissance", "dir_nationalite", "dir_ville_naissance"
  ]

  /** The row of one representative `rep` of company `ent`. */
  function RepRow(siren: string, ent: Value, rep: Value): (row: seq<Value>)
    ensures |row| == |Header| && row[0] == Str(siren)
    ensures row[4] == Str("oui") <==> Truthy(Get(ent, "entreprise_cessee"))
    ensures row[7] == Qualite(rep) && row[8] == BirthDate(rep)
  {
    [Str(siren), Denomination(ent), Field(ent, "code_naf"), Field(ent, "libelle_code_naf"),
     OuiNon(Get(ent, "entreprise_cessee")),
     Field(rep, "nom"), Field(rep, "prenom"), Qualite(rep), BirthDate(rep),
     Field(rep, "nationalite"), Field(rep, "ville_naissance")]
  }

  /**
   * The rows one company adds. A failed request, a null body (`ent.denomination` throws)
   * or a `representants` that cannot be iterated add nothing; a null representative
   * (`r.nom` throws) ends the company's rows.
   */
  function CompanyRows(siren: string, reply: Option<Value>): (rows: seq<seq<Value>>)
    ensures AllWidth(rows, |Header|)
    ensures reply.None? || reply.value.Null? || Representants(reply.value).None? ==> rows == []
  {
    match reply
    case None => []
    case Some(ent) =>
      if ent.Null? then []
      else
        match Representants(ent)
        case None => []
        case Some(reps) =>
          var row := (r: Value) => RepRow(siren, ent, r);
          EmitShape(reps, Nullish, _ => true, row, (x: seq<Value>) => |x| == |Header|);
          Emit(reps, Nullish, _ => true, row)
  }

  /** Exactly one row per representative before the first null one, in order, with no filter. */
  lemma OneRowPerRepresentative(siren: string, ent: Value, reps: seq<Value>)
    requires !ent.Null? && Representants(ent) == Some(reps)
    ensures |CompanyRows(siren, Some(ent))| == Reached(reps, Nullish)
    ensures forall i :: 0 <= i < Reached(reps, Nullish) ==> CompanyRows(siren, Some(ent))[i] == RepRow(siren, ent, reps[i])
  {
    EmitEvery(reps, Nullish, _ => true, (r: Value) => RepRow(siren, ent, r));
  }

  /** The data rows of a whole run, company after company in list order. */
  function DataRows(sirens: seq<string>, reg: Registry): (rows: seq<seq<Value>>)
    ensures AllWidth(rows, |Header|)
    decreases |sirens|
  {
    if |sirens| == 0 then []
    else DataRows(sirens[..|sirens| - 1], reg) + CompanyRows(sirens[|sirens| - 1], Fetch(reg, sirens[|sirens| - 1]))
  }

  /** The file written for the SIREN list `content`. */
  function Output(content: string, reg: Registry): string {
    JoinedDoc([Strs(Header)] + DataRows(SirenInput.ReadSirenList(content), reg))
  }

  /** `rows.length - 1`, the total the script reports. */
  function Total(content: string, reg: Registry): (n: nat)
    ensures n == |DataRows(SirenInput.ReadSirenList(content), reg)|
  {
    |[Strs(Header)] + DataRows(SirenInput.ReadSirenList(content), reg)| - 1
  }

  /**
   * How many representatives of a company the loop gets through: those before the first
   * null one, and none when the request failed, the body is null or `representants`
   * cannot be iterated.
   */
  function RepsReached(reply: Option<Value>): nat {
    if reply.None? || reply.value.Null? || Representants(reply.value).None? then 0
    else Reached(Representants(reply.value).value, Nullish)
  }

  /** The representatives reached over every listed company. */
  function AllRepsReached(sirens: seq<string>, reg: Registry): nat
    decreases |sirens|
  {
    if |sirens| == 0 then 0
    else AllRepsReached(sirens[..|sirens| - 1], reg) + RepsReached(Fetch(reg, sirens[|sirens| - 1]))
  }

  /** The reported total counts every representative reached, over every listed company, repeats included. */
  lemma TotalCountsRepresentatives(content: string, reg: Registry)
    ensures Total(content, reg) == AllRepsReached(SirenInput.ReadSirenList(content), reg)
  {
    RowsPerRepresentative(SirenInput.ReadSirenList(content), reg);
  }

  lemma {:induction false} RowsPerRepresentative(sirens: seq<string>, reg: Registry)
    ensures |DataRows(sirens, reg)| == AllRepsReached(sirens, reg)
    decreases |sirens|
  {
    if |sirens| > 0 {
      var last := sirens[|sirens| - 1];
      RowsPerRepresentative(sirens[..|sirens| - 1], reg);
      var reply := Fetch(reg, last);
      if !(reply.None? || reply.value.Null? || Representants(reply.value).None?) {
        OneRowPerRepresentative(last, reply.value, Representants(reply.value).value);
      }
    }
  }

  /** The file reads back as the header and, for each data row, its eleven cell texts. */
  lemma OutputReadsBack(content: string, reg: Registry)
    ensures ReadRecords(Output(content, reg)) ==
      Some([Header] + RenderRows(DataRows(SirenInput.ReadSirenList(content), reg)))
  {
    ReadJoinedSheet(Header, DataRows(SirenInput.ReadSirenList(content), reg));
  }
}

=== FILE: interim.dfy ===
/**
 * `fetch_idf_interim.js`: temporary-work agencies (NAF 78.20Z) of the configured
 * departments gathered from several cursor searches of the registry, then each candidate
 * scored on its name, trade names, company purpose and (optionally) web sites against
 * hospitality keywords, and kept when the score reaches the threshold and no excluded
 * sector word appears. The kept SIRENs are written to `input/sirens.csv`.
 *
 * The environment is a map from variable names to strings; the search replies, the
 * company lookups and the document-search answers are parameters.
 */
module Interim {
  import opened Text
  import opened Wrappers
  import opened Js
  import opened Seqs
  import opened Cli
  import opened Search
  import SirenInput

  // ---------------------------------------------------------------------------
  // `norm`: lower case, no diacritics, single spaces, trimmed
  // ---------------------------------------------------------------------------

  /**
   * Code points with the Unicode `Diacritic` property that the model knows: the spacing
   * accents of Latin-1 and the combining diacritical marks.
   */
  predicate IsDiacritic(c: char) {
    c == '^' || c == '`' || c == '\U{00A8}' || c == '\U{00AF}' || c == '\U{00B4}' || c == '\U{00B7}' ||
    c == '\U{00B8}' || '\U{0300}' <= c <= '\U{034E}' || '\U{0350}' <= c <= '\U{0357}' ||
    '\U{035D}' <= c <= '\U{0362}'
  }

  /**
   * The base letter canonical decomposition (NFD) leaves of a lower-case accented Latin-1
   * letter once its combining mark is removed; other code points are their own base.
   */
  function Fold(c: char): (r: char)
    ensures !IsUpper(c) ==> !IsUpper(r)
  {
    if '\U{00E0}' <= c <= '\U{00E5}' then 'a'
    else if c == '\U{00E7}' then 'c'
    else if '\U{00E8}' <= c <= '\U{00EB}' then 'e'
    else if '\U{00EC}' <= c <= '\U{00EF}' then 'i'
    else if c == '\U{00F1}' then 'n'
    else if '\U{00F2}' <= c <= '\U{00F6}' then 'o'
    else if '\U{00F9}' <= c <= '\U{00FC}' then 'u'
    else if c == '\U{00FD}' || c == '\U{00FF}' then 'y'
    else c
  }

  /** A code point `norm` leaves as it is. */
  predicate Settled(c: char) {
    !IsUpper(c) && !IsDiacritic(c) && Fold(c) == c
  }

  /** `.normalize('NFD').replace(/\p{Diacritic}/gu, '')`: accents dropped, base letters kept. */
  function StripMarks(s: string): (r: string)
    ensures |r| <= |s|
    ensures forall i :: 0 <= i < |r| ==> !IsDiacritic(r[i]) && Fold(r[i]) == r[i]
    ensures (forall i :: 0 <= i < |s| ==> !IsUpper(s[i])) ==> forall i :: 0 <= i < |r| ==> !IsUpper(r[i])
    ensures forall i :: 0 <= i < |r| ==> (IsSpace(r[i]) ==> r[i] in s)
    decreases |s|
  {
    if |s| == 0 then ""
    else
      var rest := StripMarks(s[1..]);
      assert forall i :: 0 <= i < |s| - 1 ==> s[1..][i] == s[i + 1];
      if IsDiacritic(s[0]) then rest
      else
        var r := [Fold(s[0])] + rest;
        assert forall i :: 1 <= i < |r| ==> r[i] == rest[i - 1];
        r
  }

  /** No two spaces in a row. */
  predicate SingleSpaced(r: string) {
    forall i, j :: 0 <= i < |r| && 0 <= j < |r| && j == i + 1 ==> !(r[i] == ' ' && r[j] == ' ')
  }

  /**
   * What collapsing `s` leaves: whitespace only as `' '`, never two spaces in a row, every
   * other code point taken from `s`, and a leading space only where `s` began with
   * whitespace.
   */
  predicate Collapsed(r: string, s: string) {
    (forall i :: 0 <= i < |r| ==> (IsSpace(r[i]) ==> r[i] == ' ')) &&
    SingleSpaced(r) &&
    (forall i :: 0 <= i < |r| ==> r[i] == ' ' || (r[i] in s && !IsSpace(r[i]))) &&
    (|r| > 0 && r[0] == ' ' ==> |s| > 0 && IsSpace(s[0]))
  }

  /** `.replace(/\s+/g, ' ')`: every run of whitespace becomes one space. */
  function Collapse(s: string): (r: string)
    ensures Collapsed(r, s)
    decreases |s|
  {
    if |s| == 0 then ""
    else if IsSpace(s[0]) then
      var t := TrimStart(s[1..]);
      var c := Collapse(t);
      SuffixIn(s, t);
      SpaceCons(s, t, c);
      " " + c
    else
      var c := Collapse(s[1..]);
      CharCons(s, c);
      [s[0]] + c
  }

  /** A run of whitespace, then what collapsing the text after it gave. */
  lemma SpaceCons(s: string, t: string, c: string)
    requires |s| > 0 && IsSpace(s[0]) && Collapsed(c, t)
    requires (forall ch :: ch in t ==> ch in s) && (|t| > 0 ==> !IsSpace(t[0]))
    ensures Collapsed(" " + c, s)
  {
    var r := " " + c;
    forall i | 1 <= i < |r| ensures (IsSpace(r[i]) ==> r[i] == ' ') && (r[i] == ' ' || (r[i] in s && !IsSpace(r[i]))) {
      assert r[i] == c[i - 1];
    }
    forall i, j | 0 <= i < |r| && 0 <= j < |r| && j == i + 1 ensures !(r[i] == ' ' && r[j] == ' ') {
      assert r[j] == c[i];
      if i > 0 {
        assert r[i] == c[i - 1];
      }
    }
  }

  /** What is left of `s[1..]` once its leading whitespace is trimmed comes from `s`. */
  lemma SuffixIn(s: string, t: string)
    requires |s| > 0 && t == TrimStart(s[1..])
    ensures forall ch :: ch in t ==> ch in s
  {
    var k := |s| - |t|;
    forall ch | ch in t ensures ch in s {
      var i :| 0 <= i < |t| && t[i] == ch;
      assert s[k + i] == ch;
    }
  }

  /** A code point that is not whitespace, then what collapsing the rest gave. */
  lemma CharCons(s: string, c: string)
    requires |s| > 0 && !IsSpace(s[0]) && Collapsed(c, s[1..])
    ensures Collapsed([s[0]] + c, s)
  {
    var r := [s[0]] + c;
    assert forall i :: 1 <= i < |r| ==> r[i] == c[i - 1];
    assert forall ch :: ch in s[1..] ==> ch in s;
  }

  /** A string `norm` maps to itself: settled code points, single inner spaces, nothing to trim. */
  predicate Normal(n: string) {
    (forall i :: 0 <= i < |n| ==> Settled(n[i]) && (IsSpace(n[i]) ==> n[i] == ' ')) &&
    SingleSpaced(n) &&
    (|n| > 0 ==> n[0] != ' ' && n[|n| - 1] != ' ')
  }

  /**
   * `norm`, on a string: `toLowerCase`, then NFD with the diacritics removed, then
   * whitespace runs collapsed to one space, then `trim`.
   */
  function Norm(s: string): (r: string)
    ensures Normal(r)
  {
    var u := StripMarks(Lower(s));
    CollapseSettles(u);
    TrimNormal(Collapse(u));
    Trim(Collapse(u))
  }

  lemma CollapseSettles(u: string)
    requires forall i :: 0 <= i < |u| ==> Settled(u[i])
    ensures forall i :: 0 <= i < |Collapse(u)| ==> Settled(Collapse(u)[i])
  {
    var c := Collapse(u);
    assert Settled(' ');
    forall i | 0 <= i < |c| ensures Settled(c[i]) {
      if c[i] != ' ' {
        SettledIn(u, c[i]);
      }
    }
  }

  lemma SettledIn(u: string, x: char)
    requires forall i :: 0 <= i < |u| ==> Settled(u[i])
    requires x in u
    ensures Settled(x)
  {
    var j :| 0 <= j < |u| && u[j] == x;
  }

  /** Trimming a collapsed string of settled code points gives a normal string. */
  lemma TrimNormal(c: string)
    requires forall i :: 0 <= i < |c| ==> Settled(c[i]) && (IsSpace(c[i]) ==> c[i] == ' ')
    requires SingleSpaced(c)
    ensures Normal(Trim(c))
  {
    var r := Trim(c);
    var k := LeadingSpaces(c);
    assert forall i :: 0 <= i < |r| ==> r[i] == c[k + i];
  }

  /** A string already in normal form is left unchanged by `norm`. */
  lemma NormFixes(n: string)
    requires Normal(n)
    ensures Norm(n) == n
  {
    LowerNoUpper(n);
    StripSettled(n);
    CollapseFixes(n);
    if |n| > 0 {
      assert !IsSpace(n[0]) && !IsSpace(n[|n| - 1]);
    }
    TrimIdentity(n);
  }

  /** `norm` is idempotent. */
  lemma NormIdempotent(s: string)
    ensures Norm(Norm(s)) == Norm(s)
  {
    NormFixes(Norm(s));
  }

  lemma {:induction false} StripSettled(n: string)
    requires forall i :: 0 <= i < |n| ==> Settled(n[i])
    ensures StripMarks(n) == n
    decreases |n|
  {
    if |n| > 0 {
      StripSettled(n[1..]);
      assert n == [n[0]] + n[1..];
    }
  }

  lemma {:induction false} CollapseFixes(n: string)
    requires forall i :: 0 <= i < |n| ==> (IsSpace(n[i]) ==> n[i] == ' ')
    requires SingleSpaced(n)
    ensures Collapse(n) == n
    decreases |n|
  {
    if |n| > 0 {
      var rest := n[1..];
      SpacedTail(n);
      CollapseFixes(rest);
      assert n == [n[0]] + rest;
      if IsSpace(n[0]) {
        TrimStartKeeps(rest);
        assert Collapse(n) == " " + Collapse(rest);
      }
    }
  }

  /** What follows the first code point of a collapsed string is collapsed too, and after a space comes no whitespace. */
  lemma SpacedTail(n: string)
    requires |n| > 0
    requires forall i :: 0 <= i < |n| ==> (IsSpace(n[i]) ==> n[i] == ' ')
    requires SingleSpaced(n)
    ensures forall i :: 0 <= i < |n[1..]| ==> (IsSpace(n[1..][i]) ==> n[1..][i] == ' ')
    ensures SingleSpaced(n[1..])
    ensures IsSpace(n[0]) && |n| > 1 ==> !IsSpace(n[1..][0])
  {
    var rest := n[1..];
    assert forall i :: 0 <= i < |rest| ==> rest[i] == n[i + 1];
    if IsSpace(n[0]) && |n| > 1 {
      assert n[0] == ' ';
    }
  }


  // ---------------------------------------------------------------------------
  // `hasAny` and `hasNone`
  // ---------------------------------------------------------------------------

  /** `list.some(k => t.includes(norm(k)))`. */
  function AnyIn(t: string, list: seq<string>): (r: bool)
    ensures r <==> exists k :: k in list && Contains(t, Norm(k))
    decreases |list|
  {
    if |list| == 0 then false
    else
      assert forall k :: k in list <==> k == list[0] || k in list[1..];
      Contains(t, Norm(list[0])) || AnyIn(t, list[1..])
  }

  /** Some word of `list`, normalised, occurs in the normalised `text`. */
  predicate Mentions(text: string, list: seq<string>) {
    exists k :: k in list && Contains(Norm(text), Norm(k))
  }

  /** `hasAny(text, list)`: some keyword, normalised, occurs in the normalised text. */
  predicate HasAny(text: string, list: seq<string>) {
    AnyIn(Norm(text), list)
  }

  /** `hasNone(text, list)`. */
  predicate HasNone(text: string, list: seq<string>) {
    !AnyIn(Norm(text), list)
  }

  /**
   * `hasAny` holds exactly when one keyword's normal form occurs in the text's, `hasNone`
   * is its negation, and an empty list matches nothing.
   */
  lemma HasAnyMeans(text: string, list: seq<string>)
    ensures HasAny(text, list) <==> Mentions(text, list)
    ensures HasNone(text, list) <==> !HasAny(text, list)
    ensures |list| == 0 ==> !HasAny(text, list)
    ensures HasAny(Norm(text), list) <==> HasAny(text, list)
  {
    NormIdempotent(text);
  }

  /** A keyword made only of whitespace and accents normalises to `""` and matches every text. */
  lemma BlankKeywordMatchesAll(text: string, k: string, list: seq<string>)
    requires k in list && Norm(k) == ""
    ensures HasAny(text, list)
  {
    ContainsEmpty(Norm(text));
  }

  // ---------------------------------------------------------------------------
  // Settings from the environment
  // ---------------------------------------------------------------------------

  /** `process.env[k] || d`: a missing or empty variable takes the default. */
  function EnvOr(env: map<string, string>, k: string, d: string): (r: string)
    ensures k in env && env[k] != "" ==> r == env[k]
    ensures !(k in env && env[k] != "") ==> r == d
  {
    if k in env && env[k] != "" then env[k] else d
  }

  /** `.filter(Boolean)` on strings: the non-empty ones, in order. */
  function NonEmpty(xs: seq<string>): (r: seq<string>)
    ensures forall x :: x in r <==> x in xs && x != ""
    decreases |xs|
  {
    if |xs| == 0 then []
    else if xs[0] == "" then NonEmpty(xs[1..])
    else [xs[0]] + NonEmpty(xs[1..])
  }

  /** `.map(s => s.trim())`. */
  function Trims(xs: seq<string>): (r: seq<string>)
    ensures |r| == |xs| && forall i :: 0 <= i < |xs| ==> r[i] == Trim(xs[i])
  {
    seq(|xs|, i requires 0 <= i < |xs| => Trim(xs[i]))
  }

  /** Trimming removes characters only. */
  lemma TrimAvoids(p: string, c: char)
    requires c !in p
    ensures c !in Trim(p)
  {
    var r := Trim(p);
    assert forall j :: 0 <= j < |r| ==> r[j] == p[LeadingSpaces(p) + j];
  }

  /** `v.split(',').map(s => s.trim()).filter(Boolean)`. */
  function EnvList(v: string): (r: seq<string>)
    ensures forall x :: x in r <==> x in Trims(Split(v, ',')) && x != ""
    ensures forall x :: x in r ==> ',' !in x
  {
    var parts := Split(v, ',');
    forall i | 0 <= i < |parts| ensures ',' !in Trims(parts)[i] {
      TrimAvoids(parts[i], ',');
    }
    NonEmpty(Trims(parts))
  }

  /** An entry a comma-separated list gives back as it is: non-empty, comma-free, trimmed. */
  predicate ListEntry(x: string) {
    x != "" && ',' !in x && !IsSpace(x[0]) && !IsSpace(x[|x| - 1])
  }

  /** Entries written back with commas are read back as the same list. */
  lemma {:induction false} EnvListRoundTrip(xs: seq<string>)
    requires |xs| >= 1
    requires forall i :: 0 <= i < |xs| ==> ListEntry(xs[i])
    ensures EnvList(Join(xs, ",")) == xs
  {
    SplitJoin(xs, ',');
    forall i | 0 <= i < |xs| ensures Trim(xs[i]) == xs[i] {
      TrimIdentity(xs[i]);
    }
    assert Trims(xs) == xs;
    NonEmptyKeeps(xs);
  }

  lemma {:induction false} NonEmptyKeeps(xs: seq<string>)
    requires forall i :: 0 <= i < |xs| ==> xs[i] != ""
    ensures NonEmpty(xs) == xs
    decreases |xs|
  {
    if |xs| > 0 {
      NonEmptyKeeps(xs[1..]);
      assert xs == [xs[0]] + xs[1..];
    }
  }

  /** `parseInt(s, 10)`: `parseInt` with no `0x` prefix; `None` is `NaN`. */
  function ParseDecimal(s: string): (r: Option<int>)
    ensures (var u := SignOf(TrimStart(s)).1;
      !(|u| >= 2 && u[0] == '0' && (u[1] == 'x' || u[1] == 'X'))) ==> r == ParseIntText(s)
  {
    var (sign, u) := SignOf(TrimStart(s));
    var d := DigitPrefix(u, false);
    if |d| == 0 then None else Some(sign * DigitsValue(d))
  }

  /** `parseInt(String(n), 10)` gives `n` back. */
  lemma DecimalRoundTrip(n: int)
    ensures ParseDecimal(IntToString(n)) == Some(n)
  {
    var s := IntToString(n);
    assert !IsSpace(s[0]) by {
      assert IsDigit(s[0]) || s[0] == '-';
    }
    assert TrimStart(s) == s;
    var u := if n < 0 then s[1..] else s;
    assert AllDigits(u) && DigitsValue(u) == if n < 0 then -n else n;
    assert SignOf(s) == (if n < 0 then -1 else 1, u);
    DigitPrefixOfDigits(u);
  }

  /** `Math.min(Math.max(n, 1), 1000)`; `NaN` stays `NaN`. */
  function Clamp(n: Option<int>): (r: Option<int>)
    ensures r.Some? <==> n.Some?
    ensures r.Some? ==> 1 <= r.value <= 1000
    ensures n.Some? && 1 <= n.value <= 1000 ==> r == n
    ensures n.Some? && n.value < 1 ==> r == Some(1)
    ensures n.Some? && n.value > 1000 ==> r == Some(1000)
  {
    match n
    case None => None
    case Some(v) => Some(if v < 1 then 1 else if v > 1000 then 1000 else v)
  }

  /** Clamping twice is clamping once. */
  lemma ClampIdempotent(n: Option<int>)
    ensures Clamp(Clamp(n)) == Clamp(n)
  {
  }

  /** The fixed hospitality keywords (`KW`): searched for and scored. */
  const Keywords: seq<string> := [
    "hôtellerie", "hotellerie", "hôtel", "hotel",
    "restauration", "restaurant", "traiteur",
    "housekeeping", "room service",
    "réception", "reception", "conciergerie",
    "banquet", "événementiel", "evenementiel",
    "bar", "barman", "barmaid", "serveur", "serveuse",
    "cuisine", "commis", "chef de partie",
    "femme de chambre", "valet de chambre", "gouvernante",
    "hospitality", "CHR", "HCR"
  ]

  /** The fixed hospitality job titles appended to `HCR_EXTRA_ROLES`. */
  const FixedRoles: seq<string> := [
    "réception", "reception", "réceptionniste", "receptionniste",
    "housekeeping", "gouvernante", "femme de chambre", "valet de chambre",
    "serveur", "serveuse", "chef de rang", "chef de partie", "commis",
    "barman", "barmaid", "banquet", "conciergerie"
  ]

  /** `KW_EXCLUDE`: sector words that veto a candidate. */
  const Excluded: seq<string> := [
    "btp", "bâtiment", "batiment", "industrie", "industriel",
    "logistique", "transport", "sécurité", "securite",
    "nettoyage industriel", "santé", "medical", "médical"
  ]

  /** The web-site words worth a point when sites are fetched. */
  const SiteWords: seq<string> := ["hotel", "hospitality", "restau", "traiteur"]

  datatype Settings = Settings(
    depts: string,             // DEPARTEMENTS, sent as is
    perCursor: Option<int>,    // PAR_CURSEUR; None is NaN
    threshold: Option<int>,    // HCR_THRESHOLD; None is NaN
    brands: seq<string>,       // HCR_BRANDS
    roles: seq<string>,        // HCR_EXTRA_ROLES then the fixed roles
    fetchSites: bool,          // FETCH_SITES
    useDocs: bool,             // USE_DOCS
    keywords: seq<string>,     // KW
    excluded: seq<string>,     // KW_EXCLUDE
    siteWords: seq<string>)    // the site words

  /** The constants the script computes from its environment at start-up. */
  function Configure(env: map<string, string>): (st: Settings)
    ensures st.perCursor.Some? ==> 1 <= st.perCursor.value <= 1000
    ensures forall x :: x in st.brands ==> x != "" && ',' !in x
    ensures |st.roles| >= |FixedRoles| && st.roles[|st.roles| - |FixedRoles|..] == FixedRoles
    ensures forall x :: x in st.roles[..|st.roles| - |FixedRoles|] ==> x != "" && ',' !in x
    ensures st.fetchSites <==> "FETCH_SITES" in env && env["FETCH_SITES"] == "1"
    ensures st.useDocs <==> "USE_DOCS" in env && env["USE_DOCS"] == "1"
    ensures st.keywords == Keywords && st.excluded == Excluded && st.siteWords == SiteWords
  {
    var extra := EnvList(EnvOr(env, "HCR_EXTRA_ROLES", ""));
    Settings(
      EnvOr(env, "DEPARTEMENTS", "75,92"),
      Clamp(ParseDecimal(EnvOr(env, "PAR_CURSEUR", "500"))),
      ParseDecimal(EnvOr(env, "HCR_THRESHOLD", "2")),
      EnvList(EnvOr(env, "HCR_BRANDS", "adaptel")),
      extra + FixedRoles,
      EnvOr(env, "FETCH_SITES", "0") == "1",
      EnvOr(env, "USE_DOCS", "0") == "1",
      Keywords, Excluded, SiteWords)
  }

  /**
   * With nothing set: departments 75 and 92, 500 hits per cursor, threshold 2, the one
   * brand `adaptel`, the fixed roles only, no sites and no document search.
   */
  lemma DefaultSettings()
    ensures var st := Configure(map[]);
      st.depts == "75,92" && st.perCursor == Some(500) && st.threshold == Some(2) &&
      st.brands == ["adaptel"] && st.roles == FixedRoles && !st.fetchSites && !st.useDocs
  {
    DefaultCounts();
    DefaultLists();
  }

  lemma DefaultCounts()
    ensures Configure(map[]).perCursor == Some(500) && Configure(map[]).threshold == Some(2)
  {
    var env: map<string, string> := map[];
    assert EnvOr(env, "PAR_CURSEUR", "500") == "500" && EnvOr(env, "HCR_THRESHOLD", "2") == "2";
    DefaultNumbers();
  }

  lemma DefaultLists()
    ensures Configure(map[]).brands == ["adaptel"] && Configure(map[]).roles == FixedRoles
  {
    var env: map<string, string> := map[];
    assert EnvOr(env, "HCR_BRANDS", "adaptel") == "adaptel" && EnvOr(env, "HCR_EXTRA_ROLES", "") == "";
    DefaultBrand();
    assert EnvList("") == [] by {
      assert Split("", ',') == [""];
    }
    assert [] + FixedRoles == FixedRoles;
  }

  lemma DefaultNumbers()
    ensures ParseDecimal("500") == Some(500) && ParseDecimal("2") == Some(2)
  {
    assert IntToString(500) == "500" by {
      assert NatToString(500) == NatToString(50) + "0";
      assert NatToString(50) == NatToString(5) + "0";
    }
    DecimalRoundTrip(500);
    assert IntToString(2) == "2";
    DecimalRoundTrip(2);
  }

  lemma DefaultBrand()
    ensures EnvList("adaptel") == ["adaptel"]
  {
    var w := "adaptel";
    assert w[0] == 'a' && w[6] == 'l';
    assert ',' !in w by {
      assert forall i :: 0 <= i < |w| ==> w[i] in {'a', 'd', 'p', 't', 'e', 'l'};
    }
    assert !IsSpace('a') && !IsSpace('l');
    EnvListRoundTrip([w]);
  }

  // ---------------------------------------------------------------------------
  // Scoring one company
  // ---------------------------------------------------------------------------

  /** A value `norm` throws on: `(s || '')` is truthy but has no `toLowerCase`. */
  predicate Unreadable(v: Value) {
    Truthy(v) && !v.Str?
  }

  /** `ent?.denomination || ent?.nom_entreprise || ''`. */
  function NameValue(ent: Value): Value {
    Or(Get(ent, "denomination"), Or(Get(ent, "nom_entreprise"), Str("")))
  }

  /** `ent?.objet_social || ''`. */
  function PurposeValue(ent: Value): Value {
    Or(Get(ent, "objet_social"), Str(""))
  }

  /** The text of a value `norm` can read. */
  function TextOf(v: Value): string {
    if v.Str? then v.s else ""
  }

  /** `[ent?.enseigne_1, ent?.enseigne_2, ent?.enseigne_3].filter(Boolean)`, as strings. */
  function TradeNames(ent: Value): (r: seq<string>)
    ensures |r| <= 3
  {
    var vs := [Get(ent, "enseigne_1"), Get(ent, "enseigne_2"), Get(ent, "enseigne_3")];
    (if Truthy(vs[0]) then [ToStr(vs[0])] else []) +
    (if Truthy(vs[1]) then [ToStr(vs[1])] else []) +
    (if Truthy(vs[2]) then [ToStr(vs[2])] else [])
  }

  /** `Array.isArray(ent?.sites_internet) ? ent.sites_internet.join(' ') : ''`. */
  function SitesText(ent: Value): string {
    var v := Get(ent, "sites_internet");
    if v.Arr? then
      Join(seq(|v.items|, i requires 0 <= i < |v.items| => if v.items[i].Null? then "" else ToStr(v.items[i])), " ")
    else ""
  }

  /** The four texts a company is scored on. */
  datatype Texts = Texts(name: string, trade: string, purpose: string, sites: string)

  /**
   * The texts of a company record, or `Err` when its name or purpose is a truthy value
   * other than a string: `norm` throws on it, the `catch` swallows the error, and the
   * company is not kept.
   */
  function Read(ent: Value): (r: Result<Texts, Fault>)
    ensures r.Err? <==> Unreadable(NameValue(ent)) || Unreadable(PurposeValue(ent))
    ensures r.Ok? ==> r.value.trade == Join(TradeNames(ent), " | ") && r.value.sites == SitesText(ent)
  {
    if Unreadable(NameValue(ent)) || Unreadable(PurposeValue(ent)) then Err(TypeError)
    else Ok(Texts(TextOf(NameValue(ent)), Join(TradeNames(ent), " | "), TextOf(PurposeValue(ent)), SitesText(ent)))
  }

  /** `hitBrand`: a whitelisted brand in the name, the trade names or the sites. */
  predicate BrandHit(st: Settings, t: Texts) {
    HasAny(t.name, st.brands) || HasAny(t.trade, st.brands) || HasAny(t.sites, st.brands)
  }

  /** `hitRoles`: a job title in the name or the trade names. */
  predicate RoleHit(st: Settings, t: Texts) {
    HasAny(t.name, st.roles) || HasAny(t.trade, st.roles)
  }

  /** `hitKWObj`: a keyword in the company purpose. */
  predicate PurposeHit(st: Settings, t: Texts) {
    HasAny(t.purpose, st.keywords)
  }

  /** A keyword in the name or the trade names. */
  predicate NameHit(st: Settings, t: Texts) {
    HasAny(t.name, st.keywords) || HasAny(t.trade, st.keywords)
  }

  /** A site word in the sites, counted only when sites are fetched. */
  predicate SiteHit(st: Settings, t: Texts) {
    st.fetchSites && HasAny(t.sites, st.siteWords)
  }

  /**
   * The document search is asked only when no brand, role or purpose hit, and answers
   * `false` unless it is enabled; `docs` is what it would report for this company.
   */
  predicate DocsHit(st: Settings, t: Texts, docs: bool) {
    !BrandHit(st, t) && !RoleHit(st, t) && !PurposeHit(st, t) && st.useDocs && docs
  }

  /** The score before the brand rule: 2 + 2 + 1 + 1 for the signals, or 2 for documents. */
  function Points(st: Settings, t: Texts, docs: bool): (p: int)
    ensures 0 <= p <= 6
    ensures p == 0 <==> !PurposeHit(st, t) && !RoleHit(st, t) && !NameHit(st, t) && !SiteHit(st, t) && !DocsHit(st, t, docs)
    ensures PurposeHit(st, t) && RoleHit(st, t) ==> p >= 4
    ensures PurposeHit(st, t) || RoleHit(st, t) || DocsHit(st, t, docs) ==> p >= 2
    ensures !PurposeHit(st, t) && !RoleHit(st, t) && !DocsHit(st, t, docs) ==> p <= 2
    ensures DocsHit(st, t, docs) ==> p >= 2 && p <= 4
  {
    var score := if PurposeHit(st, t) then 2 else 0;
    var score := score + if RoleHit(st, t) then 2 else 0;
    var score := score + if NameHit(st, t) then 1 else 0;
    var score := score + if SiteHit(st, t) then 1 else 0;
    score + if DocsHit(st, t, docs) then 2 else 0
  }

  /** `if (hitBrand) score = Math.max(score, THRESHOLD)`; `None` is `NaN`. */
  function Score(st: Settings, t: Texts, docs: bool): (s: Option<int>)
    ensures !BrandHit(st, t) ==> s == Some(Points(st, t, docs))
    ensures BrandHit(st, t) && st.threshold.None? ==> s.None?
    ensures (BrandHit(st, t) && st.threshold.Some? ==>
      s.Some? && s.value >= st.threshold.value && s.value >= Points(st, t, docs) &&
      (s.value == st.threshold.value || s.value == Points(st, t, docs)))
  {
    var p := Points(st, t, docs);
    if !BrandHit(st, t) then Some(p)
    else match st.threshold
      case None => None
      case Some(th) => Some(if p >= th then p else th)
  }

  /** `[deno, ens, obj].every(txt => hasNone(txt, KW_EXCLUDE))`: the three texts in turn. */
  predicate NoBadSignals(st: Settings, t: Texts) {
    HasNone(t.name, st.excluded) && HasNone(t.trade, st.excluded) && HasNone(t.purpose, st.excluded)
  }

  /** An excluded word occurs, normalised, in the name, the trade names or the purpose. */
  predicate Vetoed(st: Settings, t: Texts) {
    Mentions(t.name, st.excluded) || Mentions(t.trade, st.excluded) || Mentions(t.purpose, st.excluded)
  }

  /** `score >= THRESHOLD && noBadSignals`: comparisons with `NaN` are false. */
  predicate Keep(st: Settings, t: Texts, docs: bool) {
    var s := Score(st, t, docs);
    st.threshold.Some? && s.Some? && s.value >= st.threshold.value && NoBadSignals(st, t)
  }

  /**
   * A company is kept exactly when no excluded word occurs in its name, trade names or
   * purpose (the sites are never checked), and either a brand hit lifts it to the
   * threshold or its points reach the threshold. A `NaN` threshold keeps nothing.
   */
  lemma KeepMeans(st: Settings, t: Texts, docs: bool)
    ensures Keep(st, t, docs) <==>
      st.threshold.Some? && !Vetoed(st, t) && (BrandHit(st, t) || Points(st, t, docs) >= st.threshold.value)
    ensures st.threshold.None? ==> !Keep(st, t, docs)
  {
    NoBadMeans(st, t);
    ScoreReaches(st.threshold, BrandHit(st, t), Points(st, t, docs), Score(st, t, docs));
  }

  /** The brand rule on its own: the score reaches the threshold exactly when a brand hit or the points do. */
  lemma ScoreReaches(th: Option<int>, brand: bool, p: int, s: Option<int>)
    requires !brand ==> s == Some(p)
    requires brand && th.None? ==> s.None?
    requires brand && th.Some? ==> s.Some? && s.value >= th.value
    ensures (th.Some? && s.Some? && s.value >= th.value) <==> th.Some? && (brand || p >= th.value)
  {
  }

  /** No excluded word in any of the three texts is the same as no veto. */
  lemma NoBadMeans(st: Settings, t: Texts)
    ensures NoBadSignals(st, t) <==> !Vetoed(st, t)
  {
    HasAnyMeans(t.name, st.excluded);
    HasAnyMeans(t.trade, st.excluded);
    HasAnyMeans(t.purpose, st.excluded);
  }

  /** A whitelisted brand with no excluded word is kept whatever its other signals. */
  lemma BrandIsKept(st: Settings, t: Texts, docs: bool)
    requires st.threshold.Some? && BrandHit(st, t) && !Vetoed(st, t)
    ensures Keep(st, t, docs)
  {
    KeepMeans(st, t, docs);
  }

  /** An excluded word in the name vetoes even a whitelisted brand. */
  lemma ExclusionBeatsBrand(st: Settings, t: Texts, docs: bool, k: string)
    requires k in st.excluded && Contains(Norm(t.name), Norm(k))
    ensures !Keep(st, t, docs)
  {
    KeepMeans(st, t, docs);
  }

  /**
   * Under the default threshold of 2, a hospitality keyword in the purpose alone keeps a
   * company that has no excluded word.
   */
  lemma PurposeAloneSuffices(st: Settings, t: Texts, docs: bool)
    requires st.threshold == Some(2) && PurposeHit(st, t) && !Vetoed(st, t)
    ensures Keep(st, t, docs)
  {
    KeepMeans(st, t, docs);
  }

  /**
   * `getEntreprise` then the scoring, inside the `try`: a failed lookup or a record whose
   * name or purpose `norm` cannot read means the company is not kept. `data || {}` is the
   * record.
   */
  function Classify(st: Settings, reply: Reply, docs: bool): (keep: bool)
    ensures keep ==> reply.Body? && Read(Or(reply.data, Obj(map[]))).Ok?
    ensures (reply.Body? && Read(Or(reply.data, Obj(map[]))).Ok? ==>
      (keep <==> Keep(st, Read(Or(reply.data, Obj(map[]))).value, docs)))
  {
    match reply
    case Body(data) =>
      (match Read(Or(data, Obj(map[])))
       case Ok(t) => Keep(st, t, docs)
       case Err(_) => false)
    case _ => false
  }

  // ---------------------------------------------------------------------------
  // Candidates: `searchOnce` and the union of the searches
  // ---------------------------------------------------------------------------

  /**
   * The values the hits contribute, in order: `it?.siren || it?.siren_formate?.replace(...)`,
   * kept when truthy and nine digits once converted to a string, but stored as the value
   * itself (a number stays a number). `Err` when some hit throws.
   */
  function PickValues(hits: seq<Value>): (r: Result<seq<Value>, Fault>)
    ensures r.Err? <==> exists i :: 0 <= i < |hits| && PickSiren(hits[i]).Err?
    ensures r.Ok? ==> forall v :: v in r.value ==> ValidSiren(v)
    ensures (r.Ok? ==> forall v :: v in r.value <==>
      exists i :: 0 <= i < |hits| && PickSiren(hits[i]) == Ok(v) && ValidSiren(v))
    decreases |hits|
  {
    if |hits| == 0 then Ok([])
    else
      var rest := hits[1..];
      assert forall i :: 1 <= i < |hits| ==> rest[i - 1] == hits[i];
      match PickSiren(hits[0])
      case Err(e) => Err(e)
      case Ok(v) =>
        match PickValues(rest)
        case Err(e) =>
          assert exists i :: 0 <= i < |hits| && PickSiren(hits[i]).Err? by {
            var j :| 0 <= j < |rest| && PickSiren(rest[j]).Err?;
            assert PickSiren(hits[j + 1]).Err?;
          }
          Err(e)
        case Ok(vs) =>
          var r := if ValidSiren(v) then [v] + vs else vs;
          assert forall v' :: v' in r <==> (ValidSiren(v) && v' == v) || v' in vs;
          PickValuesHelper(hits, v, vs);
          Ok(r)
  }

  lemma PickValuesHelper(hits: seq<Value>, v: Value, vs: seq<Value>)
    requires |hits| >= 1 && PickSiren(hits[0]) == Ok(v)
    requires forall x :: x in vs <==> exists i :: 0 <= i < |hits| - 1 && PickSiren(hits[1..][i]) == Ok(x) && ValidSiren(x)
    ensures (forall x :: (ValidSiren(v) && x == v) || x in vs <==>
      exists i :: 0 <= i < |hits| && PickSiren(hits[i]) == Ok(x) && ValidSiren(x))
  {
    forall x | exists i :: 0 <= i < |hits| && PickSiren(hits[i]) == Ok(x) && ValidSiren(x)
      ensures (ValidSiren(v) && x == v) || x in vs
    {
      var i :| 0 <= i < |hits| && PickSiren(hits[i]) == Ok(x) && ValidSiren(x);
      if i > 0 {
        assert hits[1..][i - 1] == hits[i];
      }
    }
    forall x | x in vs
      ensures exists i :: 0 <= i < |hits| && PickSiren(hits[i]) == Ok(x) && ValidSiren(x)
    {
      var i :| 0 <= i < |hits| - 1 && PickSiren(hits[1..][i]) == Ok(x) && ValidSiren(x);
      assert hits[1..][i] == hits[i + 1];
    }
  }

  /** How a search, or the whole candidate gathering, ended. */
  datatype Searched = Found(values: seq<Value>) | Broke | Unfinished

  /**
   * `searchOnce`: the unguarded cursor walk from `'*'`, every hit's value added to a set.
   * Nothing catches inside: a failed request or a hit that throws ends the whole run.
   */
  function SearchOnce(replies: seq<Reply>): (r: Searched)
    ensures (r.Found? ==> var w := UnguardedWalk(replies, Str("*"));
      w.end == Finished && NoDup(r.values) &&
      forall v :: v in r.values <==> exists i :: 0 <= i < |w.items| && PickSiren(w.items[i]) == Ok(v) && ValidSiren(v))
    ensures r.Found? ==> forall v :: v in r.values ==> ValidSiren(v)
    ensures UnguardedWalk(replies, Str("*")).end == Threw ==> r.Broke?
  {
    var w := UnguardedWalk(replies, Str("*"));
    match PickValues(w.items)
    case Err(_) => Broke
    case Ok(vs) =>
      match w.end
      case Threw => Broke
      case Unanswered => Unfinished
      case Finished => Found(Dedupe(vs))
  }

  /** The three families of searches, each with its own cursor walk. */
  datatype Query =
    | Brand(q: string)       // q = brand, precision standard
    | Purpose(kw: string)    // objet_social = keyword
    | Free(kw: string)       // q = keyword, precision standard

  /** The searches in the order they run: every brand, then every keyword as purpose, then as free text. */
  function Queries(st: Settings): (qs: seq<Query>)
    ensures |qs| == |st.brands| + 2 * |st.keywords|
    ensures forall q: Query :: q in qs <==> (q.Brand? && q.q in st.brands) || (!q.Brand? && q.kw in st.keywords)
  {
    var bs := seq(|st.brands|, i requires 0 <= i < |st.brands| => Brand(st.brands[i]));
    var ps := seq(|st.keywords|, i requires 0 <= i < |st.keywords| => Purpose(st.keywords[i]));
    var fs := seq(|st.keywords|, i requires 0 <= i < |st.keywords| => Free(st.keywords[i]));
    forall q: Query | (q.Brand? && q.q in st.brands) || (!q.Brand? && q.kw in st.keywords)
      ensures q in bs + ps + fs
    {
      if q.Brand? {
        var i :| 0 <= i < |st.brands| && st.brands[i] == q.q;
        assert bs[i] == q;
      } else {
        var i :| 0 <= i < |st.keywords| && st.keywords[i] == q.kw;
        if q.Purpose? {
          assert ps[i] == q;
        } else {
          assert fs[i] == q;
        }
      }
    }
    bs + ps + fs
  }

  type Searches = map<Query, seq<Reply>>

  /** The replies one search receives; none when the map does not say. */
  function RepliesOf(searches: Searches, q: Query): seq<Reply> {
    if q in searches then searches[q] else []
  }

  /** `v` is among the values a search found. */
  predicate Yields(searches: Searches, q: Query, v: Value) {
    var r := SearchOnce(RepliesOf(searches, q));
    r.Found? && v in r.values
  }

  /** Every search of `qs` ran to its end. */
  predicate AllFound(searches: Searches, qs: seq<Query>) {
    forall q :: q in qs ==> SearchOnce(RepliesOf(searches, q)).Found?
  }

  /** Some search of `qs` found `v`. */
  predicate SomeYields(searches: Searches, qs: seq<Query>, v: Value) {
    exists q :: q in qs && Yields(searches, q, v)
  }

  /** Both predicates split into the first search and the rest. */
  lemma QueriesCons(searches: Searches, qs: seq<Query>)
    requires |qs| >= 1
    ensures AllFound(searches, qs) <==> SearchOnce(RepliesOf(searches, qs[0])).Found? && AllFound(searches, qs[1..])
    ensures forall v :: SomeYields(searches, qs, v) <==> Yields(searches, qs[0], v) || SomeYields(searches, qs[1..], v)
  {
    assert forall q :: q in qs <==> q == qs[0] || q in qs[1..];
  }

  /** The searches of `qs` in order, each found value added to the candidate set `acc`. */
  function Gather(searches: Searches, qs: seq<Query>, acc: seq<Value>): (r: Searched)
    requires NoDup(acc)
    ensures r.Found? <==> AllFound(searches, qs)
    ensures r.Found? ==> NoDup(r.values) && acc <= r.values
    ensures r.Found? ==> forall v :: v in r.values <==> v in acc || SomeYields(searches, qs, v)
    decreases |qs|
  {
    if |qs| == 0 then Found(acc)
    else
      QueriesCons(searches, qs);
      match SearchOnce(RepliesOf(searches, qs[0]))
      case Found(vs) => Gather(searches, qs[1..], InsertAll(acc, vs))
      case Broke => Broke
      case Unfinished => Unfinished
  }

  /**
   * Every candidate was found by some brand, purpose or free-text search, and every value
   * any of them found is a candidate.
   */
  lemma CandidatesAreUnion(st: Settings, searches: Searches, v: Value)
    requires Gather(searches, Queries(st), []).Found?
    ensures (v in Gather(searches, Queries(st), []).values <==>
      (exists b :: b in st.brands && Yields(searches, Brand(b), v)) ||
      (exists k :: k in st.keywords && (Yields(searches, Purpose(k), v) || Yields(searches, Free(k), v))))
  {
    assert NoDup<Value>([]);
    assert v in Gather(searches, Queries(st), []).values <==> SomeYields(searches, Queries(st), v);
    YieldsByFamily(st, searches, v);
  }

  /** Some search yields `v` exactly when a brand search or a purpose or free-text keyword search does. */
  lemma YieldsByFamily(st: Settings, searches: Searches, v: Value)
    ensures (SomeYields(searches, Queries(st), v) <==>
      (exists b :: b in st.brands && Yields(searches, Brand(b), v)) ||
      (exists k :: k in st.keywords && (Yields(searches, Purpose(k), v) || Yields(searches, Free(k), v))))
  {
    var qs := Queries(st);
    if SomeYields(searches, qs, v) {
      var q :| q in qs && Yields(searches, q, v);
      match q
      case Brand(b) =>
      case Purpose(k) =>
      case Free(k) =>
    } else {
      forall b | b in st.brands ensures !Yields(searches, Brand(b), v) {
        assert Brand(b) in qs;
      }
      forall k | k in st.keywords ensures !Yields(searches, Purpose(k), v) && !Yields(searches, Free(k), v) {
        assert Purpose(k) in qs && Free(k) in qs;
      }
    }
  }

  // ---------------------------------------------------------------------------
  // Validation and the run
  // ---------------------------------------------------------------------------

  type Lookups = map<Value, Reply>

  /** The lookup of one candidate; a candidate the map does not cover failed. */
  function LookupOf(lookups: Lookups, v: Value): Reply {
    if v in lookups then lookups[v] else Failed
  }

  /** The loop over the candidates, each kept one added to the set `acc`. */
  function Validate(st: Settings, cands: seq<Value>, lookups: Lookups, docs: set<Value>, acc: seq<Value>): (kept: seq<Value>)
    requires NoDup(acc)
    ensures NoDup(kept) && acc <= kept
    ensures forall v :: v in kept <==> v in acc || (v in cands && Classify(st, LookupOf(lookups, v), v in docs))
    decreases |cands|
  {
    if |cands| == 0 then acc
    else
      var v := cands[0];
      assert forall x :: x in cands <==> x == v || x in cands[1..];
      var acc' := if Classify(st, LookupOf(lookups, v), v in docs) then Insert(acc, v) else acc;
      Validate(st, cands[1..], lookups, docs, acc')
  }

  /** `OUT`: `path.join('input', 'sirens.csv')`. */
  const Out: string := "input/sirens.csv"

  datatype Outcome =
    | Exited                                  // no PAPPERS_API_KEY: exit code 1
    | Crashed                                 // a search threw: nothing is written
    | Incomplete                              // some search's replies ran out before its walk ended
    | Written(name: string, content: string)

  /** `String(v)` of every kept value. */
  function Lines(kept: seq<Value>): (r: seq<string>)
    ensures |r| == |kept| && forall i :: 0 <= i < |kept| ==> r[i] == ToStr(kept[i])
  {
    seq(|kept|, i requires 0 <= i < |kept| => ToStr(kept[i]))
  }

  /** What the candidate stage and the validation loop produce under settings `st`. */
  function Kept(st: Settings, searches: Searches, lookups: Lookups, docs: set<Value>): (r: Searched)
    ensures r.Found? <==> Gather(searches, Queries(st), []).Found?
  {
    assert NoDup<Value>([]);
    match Gather(searches, Queries(st), [])
    case Found(cands) => Found(Validate(st, cands, lookups, docs, []))
    case Broke => Broke
    case Unfinished => Unfinished
  }

  /**
   * The kept values, each once: exactly those some search found whose company passed the
   * classifier. Each is a SIREN once converted to a string.
   */
  lemma KeptMembers(st: Settings, searches: Searches, lookups: Lookups, docs: set<Value>)
    requires Kept(st, searches, lookups, docs).Found?
    ensures var kept := Kept(st, searches, lookups, docs).values;
      NoDup(kept) && forall v :: v in kept ==> ValidSiren(v)
    ensures (forall v :: v in Kept(st, searches, lookups, docs).values <==>
      (exists q :: q in Queries(st) && Yields(searches, q, v)) && Classify(st, LookupOf(lookups, v), v in docs))
  {
    assert NoDup<Value>([]);
    var cands := Gather(searches, Queries(st), []).values;
    var kept := Kept(st, searches, lookups, docs).values;
    assert kept == Validate(st, cands, lookups, docs, []);
    forall v | v in cands ensures ValidSiren(v) {
      var q :| q in Queries(st) && Yields(searches, q, v);
    }
  }

  /**
   * The whole run: the key check, the searches, the validation of every candidate, then
   * `['siren', ...Array.from(kept)].join('\n')` written to `input/sirens.csv`.
   */
  function Run(env: map<string, string>, searches: Searches, lookups: Lookups, docs: set<Value>): (r: Outcome)
    ensures r == Exited <==> !ApiKeySet(env)
    ensures r.Written? ==> r.name == Out && Kept(Configure(env), searches, lookups, docs).Found?
    ensures (r.Written? ==>
      r.content == SirenInput.SirenFile(Lines(Kept(Configure(env), searches, lookups, docs).values)))
    ensures (r == Crashed <==>
      ApiKeySet(env) && Kept(Configure(env), searches, lookups, docs).Broke?)
  {
    if !ApiKeySet(env) then Exited
    else match Kept(Configure(env), searches, lookups, docs)
      case Found(kept) => Written(Out, SirenInput.SirenFile(Lines(kept)))
      case Broke => Crashed
      case Unfinished => Incomplete
  }

  /**
   * The written file reads back, line by line, as the kept values in the order they were
   * kept, each converted to a string.
   */
  lemma RunReadsBack(env: map<string, string>, searches: Searches, lookups: Lookups, docs: set<Value>)
    requires Run(env, searches, lookups, docs).Written?
    ensures (SirenInput.ReadSirenList(Run(env, searches, lookups, docs).content) ==
      Lines(Kept(Configure(env), searches, lookups, docs).values))
  {
    var st := Configure(env);
    var kept := Kept(st, searches, lookups, docs).values;
    KeptMembers(st, searches, lookups, docs);
    LinesAreSirens(kept);
    SirenInput.ReadSirenListRoundTrip(Lines(kept));
  }

  lemma LinesAreSirens(kept: seq<Value>)
    requires forall v :: v in kept ==> ValidSiren(v)
    ensures SirenInput.AllSirens(Lines(kept))
  {
    forall i | 0 <= i < |kept| ensures IsSiren(Lines(kept)[i]) {
      assert kept[i] in kept;
    }
  }

  /**
   * The set compares values, not their text: the same SIREN found once as a number and
   * once as a string is kept twice and written on two lines.
   */
  lemma NumberAndTextBothKept(n: nat)
    requires 100000000 <= n <= 999999999
    ensures var kept := Insert(Insert([], Num(n)), Str(IntToString(n)));
      |kept| == 2 && ToStr(kept[0]) == ToStr(kept[1])
  {
  }
}

=== FILE: js.dfy ===
/**
 * The JSON documents the registry APIs return, with the handful of JavaScript semantics
 * the scripts rely on: truthiness, `a || b` fallbacks, property reads that yield
 * `undefined`, `String(v)` and `for ... of` iteration.
 *
 * `undefined` (a missing key) and `null` are both `Null`: every place where the scripts
 * could tell them apart (`String(v)`) is guarded by `v == null` or a truthiness test.
 * Numbers are integers.
 */
module Js {
  import opened Text
  import opened Wrappers

  datatype Value =
    | Null
    | Bool(b: bool)
    | Num(n: int)
    | Str(s: string)
    | Arr(items: seq<Value>)
    | Obj(fields: map<string, Value>)

  /**
   * An exception the scripts do not anticipate: a method called on a value that lacks it
   * (`true.split`, `(5).toLowerCase`, `dateStr.match` on a number) or a property read on `null`.
   */
  datatype Fault = TypeError

  /** JavaScript truthiness: `null`, `false`, `0` and `""` are falsy; arrays and objects are truthy. */
  predicate Truthy(v: Value) {
    match v
    case Null => false
    case Bool(b) => b
    case Num(n) => n != 0
    case Str(s) => s != ""
    case Arr(_) => true
    case Obj(_) => true
  }

  /** `v?.k`: the field of an object, `undefined` for anything else or a missing key. */
  function Get(v: Value, k: string): (r: Value)
    ensures v.Obj? && k in v.fields ==> r == v.fields[k]
    ensures !(v.Obj? && k in v.fields) ==> r == Null
  {
    if v.Obj? && k in v.fields then v.fields[k] else Null
  }

  /** `v?.[0]`: first element of an array, first character of a string, key `"0"` of an object. */
  function First(v: Value): Value {
    match v
    case Arr(items) => if |items| > 0 then items[0] else Null
    case Str(s) => if |s| > 0 then Str([s[0]]) else Null
    case Obj(_) => Get(v, "0")
    case _ => Null
  }

  /** `a || b`. */
  function Or(a: Value, b: Value): Value {
    if Truthy(a) then a else b
  }

  /** `v.k1 || v.k2 || ... || dflt`: the first truthy field, else the default. */
  function FirstTruthy(v: Value, keys: seq<string>, dflt: Value): Value {
    if |keys| == 0 then dflt
    else if Truthy(Get(v, keys[0])) then Get(v, keys[0])
    else FirstTruthy(v, keys[1..], dflt)
  }

  /**
   * `FirstTruthy` yields the field of the first key whose field is truthy, all earlier
   * ones being falsy, and the default when no field is truthy.
   */
  lemma {:induction false} FirstTruthyPicks(v: Value, keys: seq<string>, dflt: Value)
    ensures (exists i :: 0 <= i < |keys| && Truthy(Get(v, keys[i]))) ==>
      exists k :: 0 <= k < |keys| && Truthy(Get(v, keys[k])) && FirstTruthy(v, keys, dflt) == Get(v, keys[k]) &&
        forall j :: 0 <= j < k ==> !Truthy(Get(v, keys[j]))
    ensures (forall i :: 0 <= i < |keys| ==> !Truthy(Get(v, keys[i]))) ==> FirstTruthy(v, keys, dflt) == dflt
  {
    if |keys| > 0 && !Truthy(Get(v, keys[0])) {
      FirstTruthyPicks(v, keys[1..], dflt);
      var r := FirstTruthy(v, keys[1..], dflt);
      assert forall i :: 1 <= i < |keys| ==> keys[i] == keys[1..][i - 1];
      if exists i :: 0 <= i < |keys| && Truthy(Get(v, keys[i])) {
        var i :| 0 <= i < |keys| && Truthy(Get(v, keys[i]));
        assert keys[1..][i - 1] == keys[i];
        var k :| 0 <= k < |keys| - 1 && Truthy(Get(v, keys[1..][k])) && r == Get(v, keys[1..][k]) &&
          forall j :: 0 <= j < k ==> !Truthy(Get(v, keys[1..][j]));
        assert keys[k + 1] == keys[1..][k];
        assert forall j :: 0 <= j < k + 1 ==> !Truthy(Get(v, keys[j])) by {
          forall j | 0 <= j < k + 1 ensures !Truthy(Get(v, keys[j])) {
            if j > 0 {
              assert keys[j] == keys[1..][j - 1];
            }
          }
        }
      }
    }
  }

  /** `String(v)`. Arrays join their elements with `,`, writing `null` elements as empty. */
  function ToStr(v: Value): string
    decreases v
  {
    match v
    case Null => "null"
    case Bool(b) => if b then "true" else "false"
    case Num(n) => IntToString(n)
    case Str(s) => s
    case Obj(_) => "[object Object]"
    case Arr(items) =>
      Join(seq(|items|, i requires 0 <= i < |items| => if items[i].Null? then "" else ToStr(items[i])), ",")
  }

  /** `String(n)` of a number never needs CSV quoting: it has only digits and a sign. */
  lemma NumStrIsPlain(n: int)
    ensures ';' !in ToStr(Num(n)) && '"' !in ToStr(Num(n)) && '\n' !in ToStr(Num(n))
  {
    var r := IntToString(n);
    assert forall i :: 0 <= i < |r| ==> IsDigit(r[i]) || r[i] == '-';
  }

  /** The text a field contributes: `v || ''` then `String(...)`; falsy values give `""`. */
  function TextOr(v: Value): string {
    if Truthy(v) then ToStr(v) else ""
  }

  /** `for (const x of v)`: arrays yield their elements, strings their characters, anything else throws. */
  function Iterate(v: Value): Option<seq<Value>> {
    match v
    case Arr(items) => Some(items)
    case Str(s) => Some(seq(|s|, i requires 0 <= i < |s| => Str([s[i]])))
    case _ => None
  }

  /** `v.k` on a representative: throws exactly when `v` is `null`. */
  predicate Nullish(v: Value) {
    v.Null?
  }
}

=== FILE: records.dfy ===
/**
 * What the enrichment scripts share once a company record is in hand: the registry's
 * answers, the common field fallbacks, the walk over a company's representatives that
 * a null representative cuts short, and the read-back of the sheets they write.
 */
module Records {
  import opened Text
  import opened Wrappers
  import opened Js
  import opened Csv

  /**
   * The registry's answers to `GET /entreprise?siren=…` during one run: the response body
   * for each SIREN it answered; a SIREN without an entry is a request that failed.
   */
  type Registry = map<string, Value>

  function Fetch(reg: Registry, siren: string): (r: Option<Value>)
    ensures r.Some? <==> siren in reg
  {
    if siren in reg then Some(reg[siren]) else None
  }

  /** A header row: the column names as string cells. */
  function Strs(names: seq<string>): (r: seq<Value>)
    ensures |r| == |names|
    ensures forall i :: 0 <= i < |names| ==> r[i] == Str(names[i])
  {
    seq(|names|, i requires 0 <= i < |names| => Str(names[i]))
  }

  /** `v || ''`. */
  function OrEmpty(v: Value): Value {
    Or(v, Str(""))
  }

  /** `x.k || ''`. */
  function Field(x: Value, k: string): Value {
    OrEmpty(Get(x, k))
  }

  /** `v ? 'oui' : 'non'`. */
  function OuiNon(v: Value): (r: Value)
    ensures r == Str("oui") || r == Str("non")
    ensures r == Str("oui") <==> Truthy(v)
  {
    if Truthy(v) then Str("oui") else Str("non")
  }

  /** `ent.denomination || ent.nom_entreprise || ''`. */
  function Denomination(ent: Value): Value {
    FirstTruthy(ent, ["denomination", "nom_entreprise"], Str(""))
  }

  /** `r.qualite || r.fonction || ''`. */
  function Qualite(rep: Value): Value {
    FirstTruthy(rep, ["qualite", "fonction"], Str(""))
  }

  /** `r.date_de_naissance || r.date_naissance || ''`. */
  function BirthDate(rep: Value): Value {
    FirstTruthy(rep, ["date_de_naissance", "date_naissance"], Str(""))
  }

  /**
   * The value `extractYear` reads a representative's birth year from:
   * `r.date_de_naissance || r.date_naissance || r.age || r.informations_naissance`.
   */
  function YearSource(rep: Value): Value {
    FirstTruthy(rep, ["date_de_naissance", "date_naissance", "age"], Get(rep, "informations_naissance"))
  }

  /**
   * The ten-column row `build_pappers.js` and `enrich_from_list.js` both write for a kept
   * representative: the birth-date column never falls back to `age`, which has its own column.
   */
  function YearRow(siren: string, ent: Value, rep: Value): (row: seq<Value>)
    ensures |row| == 10 && row[0] == Str(siren)
    ensures row[8] == BirthDate(rep) && row[9] == Field(rep, "age")
  {
    [Str(siren), Denomination(ent), Field(ent, "code_naf"), Field(ent, "libelle_code_naf"),
     OuiNon(Get(ent, "entreprise_cessee")),
     Field(rep, "nom"), Field(rep, "prenom"), Qualite(rep), BirthDate(rep), Field(rep, "age")]
  }

  /** `for (const r of (ent.representants || []))`: `None` when that loop throws at once. */
  function Representants(ent: Value): Option<seq<Value>> {
    Iterate(Or(Get(ent, "representants"), Arr([])))
  }

  // ---------------------------------------------------------------------------
  // The walk over representatives
  // ---------------------------------------------------------------------------

  /** How many representatives the loop gets through before the first one on which it throws. */
  function Reached(reps: seq<Value>, stop: Value -> bool): (n: nat)
    ensures n <= |reps|
    ensures forall j :: 0 <= j < n ==> !stop(reps[j])
    ensures n < |reps| ==> stop(reps[n])
  {
    if |reps| == 0 || stop(reps[0]) then 0
    else
      var n := 1 + Reached(reps[1..], stop);
      assert forall j :: 1 <= j < n ==> reps[j] == reps[1..][j - 1];
      n
  }

  /**
   * The rows one company contributes: a `row` for each representative that `keep` accepts,
   * in order, until the loop reaches one on which it throws (`stop`). Rows pushed before
   * the throw stay in the output.
   */
  function Emit<R>(reps: seq<Value>, stop: Value -> bool, keep: Value -> bool, row: Value -> R): (r: seq<R>)
    ensures |r| <= Reached(reps, stop)
    decreases |reps|
  {
    if |reps| == 0 || stop(reps[0]) then []
    else (if keep(reps[0]) then [row(reps[0])] else []) + Emit(reps[1..], stop, keep, row)
  }

  /** A row is emitted exactly when it comes from an accepted representative the loop reached. */
  lemma {:induction false} EmitMembers<R>(reps: seq<Value>, stop: Value -> bool, keep: Value -> bool, row: Value -> R, x: R)
    ensures x in Emit(reps, stop, keep, row) <==>
      exists i :: 0 <= i < Reached(reps, stop) && keep(reps[i]) && x == row(reps[i])
    decreases |reps|
  {
    if |reps| > 0 && !stop(reps[0]) {
      EmitMembers(reps[1..], stop, keep, row, x);
      var n := Reached(reps, stop);
      assert n == 1 + Reached(reps[1..], stop);
      if exists i :: 0 <= i < n && keep(reps[i]) && x == row(reps[i]) {
        var i :| 0 <= i < n && keep(reps[i]) && x == row(reps[i]);
        if i > 0 {
          assert reps[1..][i - 1] == reps[i];
        }
      }
      if exists i :: 0 <= i < n - 1 && keep(reps[1..][i]) && x == row(reps[1..][i]) {
        var i :| 0 <= i < n - 1 && keep(reps[1..][i]) && x == row(reps[1..][i]);
        assert reps[i + 1] == reps[1..][i];
      }
    }
  }

  /** Without a filter, the company contributes one row per representative reached, in order. */
  lemma {:induction false} EmitEvery<R>(reps: seq<Value>, stop: Value -> bool, keep: Value -> bool, row: Value -> R)
    requires forall v :: keep(v)
    ensures |Emit(reps, stop, keep, row)| == Reached(reps, stop)
    ensures forall i :: 0 <= i < Reached(reps, stop) ==> Emit(reps, stop, keep, row)[i] == row(reps[i])
    decreases |reps|
  {
    if |reps| > 0 && !stop(reps[0]) {
      EmitEvery(reps[1..], stop, keep, row);
      forall i | 1 <= i < Reached(reps, stop)
        ensures Emit(reps, stop, keep, row)[i] == row(reps[i])
      {
        assert reps[1..][i - 1] == reps[i];
      }
    }
  }

  /** Every row of `Emit` satisfies what all of `row`'s results satisfy. */
  lemma {:induction false} EmitShape<R>(reps: seq<Value>, stop: Value -> bool, keep: Value -> bool, row: Value -> R, ok: R -> bool)
    requires forall v :: ok(row(v))
    ensures forall k :: 0 <= k < |Emit(reps, stop, keep, row)| ==> ok(Emit(reps, stop, keep, row)[k])
    decreases |reps|
  {
    if |reps| > 0 && !stop(reps[0]) {
      EmitShape(reps[1..], stop, keep, row, ok);
    }
  }

  // ---------------------------------------------------------------------------
  // Sheets
  // ---------------------------------------------------------------------------

  predicate AllWidth(rows: seq<seq<Value>>, n: nat) {
    forall i :: 0 <= i < |rows| ==> |rows[i]| == n
  }

  lemma RenderHeader(header: seq<string>)
    ensures RenderAll(Strs(header)) == header
  {
  }

  /**
   * A sheet written as `[header, ...rows].join('\n')` with rows as wide as the header reads
   * back as the header's names followed by each row's cell texts.
   */
  lemma ReadJoinedSheet(header: seq<string>, rows: seq<seq<Value>>)
    requires |header| >= 2 && AllWidth(rows, |header|)
    ensures ReadRecords(JoinedDoc([Strs(header)] + rows)) == Some([header] + RenderRows(rows))
  {
    var all := [Strs(header)] + rows;
    assert forall i :: 0 <= i < |all| ==> |all[i]| == |header|;
    EncodeRowNonEmpty(all[|all| - 1]);
    ReadJoinedDoc(all);
    RenderHeader(header);
    assert RenderRows(all) == [header] + RenderRows(rows);
  }

  /** The same for a sheet whose lines each end in `\n`. */
  lemma ReadLinesSheet(header: seq<string>, rows: seq<seq<Value>>)
    requires |header| >= 1 && AllWidth(rows, |header|)
    ensures ReadRecords(LinesDoc([Strs(header)] + rows)) == Some([header] + RenderRows(rows))
  {
    var all := [Strs(header)] + rows;
    assert forall i :: 0 <= i < |all| ==> |all[i]| == |header|;
    ReadLinesDoc(all);
    RenderHeader(header);
    assert RenderRows(all) == [header] + RenderRows(rows);
  }
}

=== FILE: search.dfy ===
/**
 * The search endpoints the fetch scripts page through: the replies a run receives, the
 * cursor walks over the registry's `/recherche`, and how a search hit yields a SIREN.
 *
 * A run's replies are a finite sequence, one per request in the order the requests are
 * made. When the sequence runs out before the loop ends, the walk is `Unanswered`: the
 * model does not say what the remaining requests would have returned.
 */
module Search {
  import opened Text
  import opened Wrappers
  import opened Js

  /** The outcome of one request: a response body, a `429 Too Many Requests`, or any other failure. */
  datatype Reply = Body(data: Value) | TooMany | Failed

  /** How a walk ended: its own stop condition, an exception, or the end of the modelled replies. */
  datatype End = Finished | Threw | Unanswered

  /** What a walk produced: the hits it yielded in order, the cursors or pages it asked for, how it ended. */
  datatype Walk = Walk(items: seq<Value>, asked: seq<Value>, end: End)

  /** `for (const it of (data?.resultats || []))`: `None` when that loop throws. */
  function Resultats(data: Value): Option<seq<Value>> {
    Iterate(Or(Get(data, "resultats"), Arr([])))
  }

  /** `data?.curseurSuivant`. */
  function NextCursor(data: Value): Value {
    Get(data, "curseurSuivant")
  }

  /** A reply that lets a cursor walk go on: a body whose hits can be iterated. */
  predicate Usable(r: Reply) {
    r.Body? && Resultats(r.data).Some?
  }

  /**
   * `iteratePappersRecherche` (build_pappers.js): ask for `cursor`, yield the page's hits,
   * stop when the next cursor is missing or equal to the one just used, else ask for it.
   * Any failed request (a 429 included) throws out of the walk.
   */
  function GuardedWalk(replies: seq<Reply>, cursor: Value): (w: Walk)
    ensures |w.asked| <= |replies|
    ensures |replies| > 0 ==> |w.asked| >= 1 && w.asked[0] == cursor
    ensures forall i :: 0 <= i < |w.asked| - 1 ==>
      Usable(replies[i]) && w.asked[i + 1] == NextCursor(replies[i].data)
    ensures forall i :: 1 <= i < |w.asked| ==> Truthy(w.asked[i]) && w.asked[i] != w.asked[i - 1]
    decreases |replies|
  {
    if |replies| == 0 then Walk([], [], Unanswered)
    else
      match replies[0]
      case Body(data) =>
        (match Resultats(data)
         case None => Walk([], [cursor], Threw)
         case Some(hits) =>
           var next := NextCursor(data);
           if !Truthy(next) || next == cursor then Walk(hits, [cursor], Finished)
           else
             var w := GuardedWalk(replies[1..], next);
             assert forall i :: 1 <= i < |replies| ==> replies[1..][i - 1] == replies[i];
             assert forall i :: 1 <= i < |w.asked| + 1 ==> ([cursor] + w.asked)[i] == w.asked[i - 1];
             Walk(hits + w.items, [cursor] + w.asked, w.end))
      case _ => Walk([], [cursor], Threw)
  }

  /**
   * `searchOnce`'s loop (fetch_idf_interim.js): ask for `cursor`, then go on with
   * `data?.curseurSuivant || null` for as long as it is truthy, with no comparison to the
   * cursor just used. Any failed request throws out of the walk.
   */
  function UnguardedWalk(replies: seq<Reply>, cursor: Value): (w: Walk)
    ensures |w.asked| <= |replies|
    ensures |replies| > 0 ==> |w.asked| >= 1 && w.asked[0] == cursor
    ensures forall i :: 0 <= i < |w.asked| - 1 ==>
      Usable(replies[i]) && w.asked[i + 1] == NextCursor(replies[i].data) && Truthy(w.asked[i + 1])
    decreases |replies|
  {
    if |replies| == 0 then Walk([], [], Unanswered)
    else
      match replies[0]
      case Body(data) =>
        (match Resultats(data)
         case None => Walk([], [cursor], Threw)
         case Some(hits) =>
           var next := Or(NextCursor(data), Null);
           if !Truthy(next) then Walk(hits, [cursor], Finished)
           else
             var w := UnguardedWalk(replies[1..], next);
             assert forall i :: 1 <= i < |replies| ==> replies[1..][i - 1] == replies[i];
             Walk(hits + w.items, [cursor] + w.asked, w.end))
      case _ => Walk([], [cursor], Threw)
  }

  /**
   * A server that hands back the cursor it was given ends the guarded walk after one
   * request, while the unguarded walk asks for the same cursor again.
   */
  lemma EchoedCursor(replies: seq<Reply>, cursor: Value)
    requires |replies| >= 2 && Usable(replies[0]) && NextCursor(replies[0].data) == cursor && Truthy(cursor)
    ensures GuardedWalk(replies, cursor).end == Finished && |GuardedWalk(replies, cursor).asked| == 1
    ensures |UnguardedWalk(replies, cursor).asked| >= 2 && UnguardedWalk(replies, cursor).asked[1] == cursor
  {
    assert UnguardedWalk(replies, cursor).asked == [cursor] + UnguardedWalk(replies[1..], cursor).asked;
  }

  // ---------------------------------------------------------------------------
  // SIRENs from search hits
  // ---------------------------------------------------------------------------

  /**
   * `it?.siren || it?.siren_formate?.replace(/\D/g, '')`: a `siren_formate` that is neither
   * missing nor a string has no `replace`, and the expression throws.
   */
  function PickSiren(it: Value): (r: Result<Value, Fault>)
    ensures Truthy(Get(it, "siren")) ==> r == Ok(Get(it, "siren"))
    ensures r.Err? <==> !Truthy(Get(it, "siren")) && !Get(it, "siren_formate").Null? && !Get(it, "siren_formate").Str?
    ensures r.Ok? && !Truthy(Get(it, "siren")) && Get(it, "siren_formate").Str? ==>
      r.value == Str(StripNonDigits(Get(it, "siren_formate").s))
  {
    var s := Get(it, "siren");
    if Truthy(s) then Ok(s)
    else
      var f := Get(it, "siren_formate");
      if f.Null? then Ok(Null)
      else if f.Str? then Ok(Str(StripNonDigits(f.s)))
      else Err(TypeError)
  }

  /** The same with the further fallback `|| it?.unite_legale?.siren` (the public search API's shape). */
  function PickSirenOrUnit(it: Value): (r: Result<Value, Fault>)
    ensures r.Err? <==> PickSiren(it).Err?
    ensures r.Ok? && !Truthy(PickSiren(it).value) ==> r.value == Get(Get(it, "unite_legale"), "siren")
  {
    match PickSiren(it)
    case Err(e) => Err(e)
    case Ok(v) => Ok(Or(v, Get(Get(it, "unite_legale"), "siren")))
  }

  /** `siren && /^\d{9}$/.test(String(siren))`. */
  predicate ValidSiren(v: Value) {
    Truthy(v) && IsSiren(ToStr(v))
  }

  /**
   * The SIREN a hit contributes: `siren || siren_formate without non-digits ||
   * unite_legale.siren`, kept when it is nine digits once converted to a string. `Err`
   * when reading `siren_formate` throws.
   */
  function HitSiren(it: Value): (r: Result<Option<string>, Fault>)
    ensures r.Err? <==> PickSirenOrUnit(it).Err?
    ensures r.Ok? ==> (r.value.Some? <==> ValidSiren(PickSirenOrUnit(it).value))
    ensures r.Ok? && r.value.Some? ==> IsSiren(r.value.value) && r.value.value == ToStr(PickSirenOrUnit(it).value)
  {
    match PickSirenOrUnit(it)
    case Err(e) => Err(e)
    case Ok(v) => if ValidSiren(v) then Ok(Some(ToStr(v))) else Ok(None)
  }

  /** Some hit's SIREN cannot be read: a loop over these hits throws there. */
  predicate PickThrows(hits: seq<Value>) {
    exists i :: 0 <= i < |hits| && HitSiren(hits[i]).Err?
  }

  /** The valid SIRENs of the hits before the first one that throws, in order. */
  function Picked(hits: seq<Value>): (r: seq<string>)
    ensures forall i :: 0 <= i < |r| ==> IsSiren(r[i])
    decreases |hits|
  {
    if |hits| == 0 then []
    else
      match HitSiren(hits[0])
      case Err(_) => []
      case Ok(None) => Picked(hits[1..])
      case Ok(Some(x)) => [x] + Picked(hits[1..])
  }

  /** Hits that never throw yield exactly their valid SIRENs. */
  lemma {:induction false} PickedMembers(hits: seq<Value>)
    requires !PickThrows(hits)
    ensures forall x :: x in Picked(hits) <==> exists i :: 0 <= i < |hits| && HitSiren(hits[i]) == Ok(Some(x))
    decreases |hits|
  {
    if |hits| > 0 {
      var rest := hits[1..];
      assert forall i :: 1 <= i < |hits| ==> rest[i - 1] == hits[i];
      assert !PickThrows(rest);
      PickedMembers(rest);
      assert HitSiren(hits[0]).Ok?;
      forall x | exists i :: 0 <= i < |hits| && HitSiren(hits[i]) == Ok(Some(x))
        ensures x in Picked(hits)
      {
        var i :| 0 <= i < |hits| && HitSiren(hits[i]) == Ok(Some(x));
        if i > 0 {
          assert HitSiren(rest[i - 1]) == Ok(Some(x));
        }
      }
    }
  }
}

=== FILE: seniorssimple.dfy ===
/**
 * `enrich_seniors_simple.js`: every company of the SIREN list fetched in turn, and one
 * twelve-column row per natural-person representative whose birth year, read with
 * `parseYear`, is before 1962; rows each end in `\n`.
 *
 * `formatMontant` (rounding and French digit grouping) is a parameter `fmt`: the model
 * only says which value each amount column is formatted from.
 */
module SeniorsSimple {
  import opened Text
  import opened Wrappers
  import opened Js
  import opened Csv
  import opened Dates
  import opened Records
  import SirenInput

  const Header: seq<string> := [
    "Société", "SIREN", "Chiffre d'affaires", "Résultat", "Nom dirigeant", "Prénom dirigeant",
    "Fonction", "Année naissance", "Âge actuel", "Ville siège", "Code NAF", "Effectif"
  ]

  const CutoffYear := 1962

  /** `dirigeant.siren || dirigeant.denomination`: a legal person, skipped before its date is read. */
  predicate Legal(rep: Value) {
    Truthy(Get(rep, "siren")) || Truthy(Get(rep, "denomination"))
  }

  /** `d.date_de_naissance || d.date_naissance || d.informations_naissance || ''`. */
  function RawDob(rep: Value): Value {
    FirstTruthy(rep, ["date_de_naissance", "date_naissance", "informations_naissance"], Str(""))
  }

  /**
   * The representative on which the loop throws: a null one (`dirigeant.siren`), or a
   * natural person whose birth value is truthy but not a string (`dateStr.match`).
   */
  predicate Throws(rep: Value) {
    rep.Null? || (!Legal(rep) && ParseYear(RawDob(rep)).Err?)
  }

  /** `anneeNaissance && anneeNaissance < CUTOFF_YEAR` for a natural person. */
  predicate Senior(rep: Value) {
    !Legal(rep) && ParseYear(RawDob(rep)).Ok? && ParseYear(RawDob(rep)).value.Some? &&
    ParseYear(RawDob(rep)).value.value < CutoffYear
  }

  /** `calculateAge(birthYear)`. */
  function CalculateAge(birthYear: int, currentYear: int): (age: int)
    ensures age + birthYear == currentYear
  {
    currentYear - birthYear
  }

  /** `a || b || 0` over `ent.k` and `ent.finances?.[0]?.k`: the company figure, else the first year's. */
  function Amount(ent: Value, k: string): Value {
    Or(Get(ent, k), Or(Get(First(Get(ent, "finances")), k), Num(0)))
  }

  /** The row of a kept representative born in `year`. */
  function SeniorRow(siren: string, ent: Value, fmt: Value -> Value, currentYear: int, year: int, rep: Value): (row: seq<Value>)
    ensures |row| == |Header| && row[1] == Str(siren)
  {
    [Denomination(ent), Str(siren), fmt(Amount(ent, "chiffre_affaires")), fmt(Amount(ent, "resultat")),
     Field(rep, "nom"), Field(rep, "prenom"), Qualite(rep), Num(year), Num(CalculateAge(year, currentYear)),
     Field(Get(ent, "siege"), "ville"), Field(ent, "code_naf"),
     FirstTruthy(ent, ["effectif", "tranche_effectif"], Str(""))]
  }

  /** The amounts are formatted, and the year and the age sit under their own headers. */
  lemma SeniorRowCells(siren: string, ent: Value, fmt: Value -> Value, currentYear: int, year: int, rep: Value)
    ensures var row := SeniorRow(siren, ent, fmt, currentYear, year, rep);
      Header[2] == "Chiffre d'affaires" && row[2] == fmt(Amount(ent, "chiffre_affaires")) &&
      Header[3] == "Résultat" && row[3] == fmt(Amount(ent, "resultat")) &&
      Header[7] == "Année naissance" && row[7] == Num(year) &&
      Header[8] == "Âge actuel" && row[8] == Num(currentYear - year)
  {
  }

  /** The row a representative would get: its parsed year, or 0 when there is none. */
  function RepRow(siren: string, ent: Value, fmt: Value -> Value, currentYear: int, rep: Value): (row: seq<Value>)
    ensures |row| == |Header|
  {
    var y := ParseYear(RawDob(rep));
    SeniorRow(siren, ent, fmt, currentYear, if y.Ok? && y.value.Some? then y.value.value else 0, rep)
  }

  /**
   * The rows one company adds. A failed request, a null body (`entreprise.denomination`
   * throws) or a `representants` that cannot be iterated adds nothing; a representative
   * that throws ends the company, keeping the rows already written.
   */
  function CompanyRows(siren: string, reply: Option<Value>, fmt: Value -> Value, currentYear: int): (rows: seq<seq<Value>>)
    ensures AllWidth(rows, |Header|)
    ensures reply.None? || reply.value.Null? || Representants(reply.value).None? ==> rows == []
  {
    match reply
    case None => []
    case Some(ent) =>
      if ent.Null? then []
      else
        match Representants(ent)
        case None => []
        case Some(reps) =>
          var row := (r: Value) => RepRow(siren, ent, fmt, currentYear, r);
          EmitShape(reps, Throws, Senior, row, (x: seq<Value>) => |x| == |Header|);
          Emit(reps, Throws, Senior, row)
  }

  /**
   * A row is written exactly for a representative reached before the loop throws, that is
   * no legal person, and whose parsed year is before 1962; the row carries that year and
   * the current year minus it.
   */
  lemma RowIffSenior(siren: string, ent: Value, fmt: Value -> Value, currentYear: int, reps: seq<Value>, x: seq<Value>)
    requires !ent.Null? && Representants(ent) == Some(reps)
    ensures x in CompanyRows(siren, Some(ent), fmt, currentYear) <==>
      exists i :: 0 <= i < Reached(reps, Throws) && !Legal(reps[i]) &&
        ParseYear(RawDob(reps[i])).Ok? && ParseYear(RawDob(reps[i])).value.Some? &&
        ParseYear(RawDob(reps[i])).value.value < 1962 &&
        x == SeniorRow(siren, ent, fmt, currentYear, ParseYear(RawDob(reps[i])).value.value, reps[i])
  {
    var row := (r: Value) => RepRow(siren, ent, fmt, currentYear, r);
    EmitMembers(reps, Throws, Senior, row, x);
  }

  /** Every row written carries a parsed year from 1900 to 1961 and the current year minus it. */
  lemma RowYearAndAge(siren: string, ent: Value, fmt: Value -> Value, currentYear: int, reps: seq<Value>, x: seq<Value>)
    requires !ent.Null? && Representants(ent) == Some(reps)
    requires x in CompanyRows(siren, Some(ent), fmt, currentYear)
    ensures x[7].Num? && 1900 <= x[7].n < 1962 && x[8] == Num(currentYear - x[7].n)
  {
    RowIffSenior(siren, ent, fmt, currentYear, reps, x);
    var i :| 0 <= i < Reached(reps, Throws) && !Legal(reps[i]) &&
      ParseYear(RawDob(reps[i])).Ok? && ParseYear(RawDob(reps[i])).value.Some? &&
      ParseYear(RawDob(reps[i])).value.value < 1962 &&
      x == SeniorRow(siren, ent, fmt, currentYear, ParseYear(RawDob(reps[i])).value.value, reps[i]);
    CellsOfYear(x, siren, ent, fmt, currentYear, ParseYear(RawDob(reps[i])).value.value, reps[i]);
  }

  lemma CellsOfYear(x: seq<Value>, siren: string, ent: Value, fmt: Value -> Value, currentYear: int, year: int, rep: Value)
    requires x == SeniorRow(siren, ent, fmt, currentYear, year, rep) && 1900 <= year < 1962
    ensures x[7].Num? && 1900 <= x[7].n < 1962 && x[8] == Num(currentYear - x[7].n)
  {
    SeniorRowCells(siren, ent, fmt, currentYear, year, rep);
  }

  /**
   * `parseYear` goes on to the next pattern when a match's year is out of range: in
   * `Sample` the full date gives 1850, and the standalone year 1950 is returned.
   */
  lemma OutOfRangeFallsThrough()
    ensures ParseYear(Str(Sample)) == Ok(Some(1950))
  {
    SampleIsoYear();
    SampleNoDayFirst();
    SampleStandaloneYear();
    assert ParseYearText(Sample) == Some(1950);
    assert Truthy(Str(Sample)) by {
      assert |Sample| == 16;
    }
  }

  const Sample: string := "1850-01-01, 1950"

  lemma SampleIsoYear()
    ensures YearInRange(IsoInside, Sample).None?
  {
    var s := Sample;
    assert MatchAt(IsoInside, s, 0);
    assert YearOf(IsoInside, s, 0) == 1850 by {
      assert s[0..4] == "1850";
      assert "1850"[..3] == "185" && "185"[..2] == "18" && "18"[..1] == "1";
    }
  }

  lemma SampleNoDayFirst()
    ensures YearInRange(DayFirstInside, Sample).None?
  {
    var s := Sample;
    assert |s| == 16 && s[2] == '5' && s[3] == '0' && s[4] == '-' && s[7] == '-' && s[10] == ',';
    NoDayFirstIn(s);
  }

  /** The characters of the sample that rule out a `DD-MM-YYYY` group at every position. */
  lemma NoDayFirstIn(s: string)
    requires |s| == 16 && s[2] == '5' && s[3] == '0' && s[4] == '-' && s[7] == '-' && s[10] == ','
    ensures forall i: nat :: !MatchAt(DayFirstInside, s, i)
  {
    forall i: nat ensures !MatchAt(DayFirstInside, s, i) {
      if i == 0 {
        assert !(s[2] == '-' || s[2] == '/');
      } else if i == 1 {
        assert !(s[3] == '-' || s[3] == '/');
      } else if i == 2 || i == 5 {
        assert !IsDigit(s[10]) && !(s[10] == '-' || s[10] == '/');
      } else if i == 3 || i == 4 || i == 6 {
        assert !IsDigit(s[4]) && !IsDigit(s[7]);
      }
    }
  }

  lemma SampleStandaloneYear()
    ensures YearInRange(StandaloneYear, Sample) == Some(1950)
  {
    var s := Sample;
    assert forall j :: 0 <= j < 12 ==> !MatchAt(StandaloneYear, s, j);
    assert MatchAt(StandaloneYear, s, 12);
    assert YearOf(StandaloneYear, s, 12) == 1950 by {
      assert s[12..16] == "1950";
      assert "1950"[..3] == "195" && "195"[..2] == "19" && "19"[..1] == "1";
    }
  }

  function DataRows(sirens: seq<string>, reg: Registry, fmt: Value -> Value, currentYear: int): (rows: seq<seq<Value>>)
    ensures AllWidth(rows, |Header|)
    decreases |sirens|
  {
    if |sirens| == 0 then []
    else
      var last := sirens[|sirens| - 1];
      DataRows(sirens[..|sirens| - 1], reg, fmt, currentYear) + CompanyRows(last, Fetch(reg, last), fmt, currentYear)
  }

  /** The output file: the header row, then every data row, each ending in `\n`. */
  function Output(content: string, reg: Registry, fmt: Value -> Value, currentYear: int): string {
    LinesDoc([Strs(Header)] + DataRows(SirenInput.LoadSimple(content), reg, fmt, currentYear))
  }

  /** The file reads back as the twelve header names, then twelve cell texts per data row. */
  lemma OutputReadsBack(content: string, reg: Registry, fmt: Value -> Value, currentYear: int)
    ensures ReadRecords(Output(content, reg, fmt, currentYear)) ==
      Some([Header] + RenderRows(DataRows(SirenInput.LoadSimple(content), reg, fmt, currentYear)))
  {
    ReadLinesSheet(Header, DataRows(SirenInput.LoadSimple(content), reg, fmt, currentYear));
  }
}

=== FILE: seqs.dfy ===
/**
 * Sequence helpers: JavaScript's insertion-ordered `Set` (as used by `new Set(xs)`,
 * `set.add(x)` and `Array.from(set)`), flattening and sums.
 */
module Seqs {

  predicate NoDup<T(==)>(xs: seq<T>) {
    forall i, j :: 0 <= i < j < |xs| ==> xs[i] != xs[j]
  }

  /** Position of the first occurrence of `x`. */
  function FirstIndex<T(==)>(xs: seq<T>, x: T): (k: nat)
    requires x in xs
    ensures k < |xs| && xs[k] == x && x !in xs[..k]
  {
    if xs[0] == x then 0
    else
      var k := 1 + FirstIndex(xs[1..], x);
      assert xs[..k] == [xs[0]] + xs[1..][..k - 1];
      k
  }

  /** The first occurrence of an element of a prefix lies in that prefix. */
  lemma FirstIndexPrefix<T>(xs: seq<T>, p: seq<T>, y: T)
    requires p <= xs && y in p
    ensures FirstIndex(xs, y) == FirstIndex(p, y)
  {
    var k1 := FirstIndex(p, y);
    var k2 := FirstIndex(xs, y);
    assert xs[k1] == y;
    assert forall j :: 0 <= j < k2 ==> xs[..k2][j] == xs[j];
    assert forall j :: 0 <= j < k1 ==> p[..k1][j] == xs[j];
  }

  /** `set.add(x)`: append `x` unless it is already present. */
  function Insert<T(==, !new)>(acc: seq<T>, x: T): (r: seq<T>)
    ensures NoDup(acc) ==> NoDup(r)
    ensures acc <= r && x in r
    ensures forall y :: y in r <==> y in acc || y == x
    ensures |r| <= |acc| + 1
  {
    if x in acc then acc else acc + [x]
  }

  /** `for (const x of xs) set.add(x)`. */
  function InsertAll<T(==, !new)>(acc: seq<T>, xs: seq<T>): (r: seq<T>)
    ensures NoDup(acc) ==> NoDup(r)
    ensures acc <= r
    ensures forall y :: y in r <==> y in acc || y in xs
    decreases |xs|
  {
    if |xs| == 0 then acc
    else
      var r := Insert(InsertAll(acc, xs[..|xs| - 1]), xs[|xs| - 1]);
      assert forall y :: y in xs <==> y in xs[..|xs| - 1] || y == xs[|xs| - 1] by {
        assert xs == xs[..|xs| - 1] + [xs[|xs| - 1]];
      }
      r
  }

  /**
   * `Array.from(new Set(xs))`: every element once, no duplicates, in the order of first
   * occurrence in `xs`.
   */
  function Dedupe<T(==, !new)>(xs: seq<T>): (r: seq<T>)
    ensures NoDup(r)
    ensures forall y :: y in r <==> y in xs
  {
    assert NoDup<T>([]);
    InsertAll([], xs)
  }

  /** `Dedupe` lists the elements in the order of their first occurrence. */
  lemma DedupeOrder<T(!new)>(xs: seq<T>)
    ensures forall i, j :: 0 <= i < j < |Dedupe(xs)| ==> FirstIndex(xs, Dedupe(xs)[i]) < FirstIndex(xs, Dedupe(xs)[j])
  {
    DedupeFirstSeen(xs);
  }

  /** The elements of `r`, all from `xs`, come in the order of their first occurrence in `xs`. */
  ghost predicate FirstSeenOrder<T>(xs: seq<T>, r: seq<T>) {
    (forall y :: y in r ==> y in xs) &&
    forall i, j :: 0 <= i < j < |r| ==> r[i] in xs && r[j] in xs && FirstIndex(xs, r[i]) < FirstIndex(xs, r[j])
  }

  lemma {:induction false} DedupeFirstSeen<T(!new)>(xs: seq<T>)
    ensures forall i, j :: 0 <= i < j < |InsertAll([], xs)| ==>
      FirstIndex(xs, InsertAll([], xs)[i]) < FirstIndex(xs, InsertAll([], xs)[j])
  {
    InsertAllFirstSeen(xs);
  }

  lemma {:induction false} InsertAllFirstSeen<T(!new)>(xs: seq<T>)
    ensures FirstSeenOrder(xs, InsertAll([], xs))
    decreases |xs|
  {
    if |xs| > 0 {
      var n := |xs| - 1;
      var p := xs[..n];
      InsertAllFirstSeen(p);
      var q := InsertAll([], p);
      assert InsertAll([], xs) == Insert(q, xs[n]);
      forall y | y in p
        ensures y in xs && FirstIndex(xs, y) == FirstIndex(p, y) && FirstIndex(p, y) < n
      {
        FirstIndexPrefix(xs, p, y);
      }
      if xs[n] !in q {
        FirstSeenNew(xs, p, q);
      } else {
        FirstSeenOld(xs, q);
      }
    }
  }

  lemma FirstSeenNew<T(!new)>(xs: seq<T>, p: seq<T>, q: seq<T>)
    requires |xs| > 0 && p == xs[..|xs| - 1] && FirstSeenOrder(p, q) && xs[|xs| - 1] !in q
    requires forall y :: y in q <==> y in p
    requires forall y :: y in p ==> y in xs && FirstIndex(xs, y) == FirstIndex(p, y) < |xs| - 1
    ensures FirstSeenOrder(xs, q + [xs[|xs| - 1]])
  {
    FirstSeenOld(xs, q);
    FirstIndexLast(xs, p);
    FirstSeenSnoc(xs, q, xs[|xs| - 1]);
  }

  /** An element first seen after all of `q` can follow it. */
  lemma FirstSeenSnoc<T>(xs: seq<T>, q: seq<T>, x: T)
    requires FirstSeenOrder(xs, q) && x in xs
    requires forall y :: y in q ==> FirstIndex(xs, y) < FirstIndex(xs, x)
    ensures FirstSeenOrder(xs, q + [x])
  {
    var r := q + [x];
    forall i, j | 0 <= i < j < |r|
      ensures r[i] in xs && r[j] in xs && FirstIndex(xs, r[i]) < FirstIndex(xs, r[j])
    {
      assert r[i] == q[i] && q[i] in q;
      if j < |q| {
        assert r[j] == q[j];
      }
    }
  }

  lemma FirstIndexLast<T>(xs: seq<T>, p: seq<T>)
    requires |xs| > 0 && p == xs[..|xs| - 1] && xs[|xs| - 1] !in p
    ensures FirstIndex(xs, xs[|xs| - 1]) == |xs| - 1
  {
  }

  lemma FirstSeenOld<T(!new)>(xs: seq<T>, q: seq<T>)
    requires |xs| > 0 && FirstSeenOrder(xs[..|xs| - 1], q)
    requires forall y :: y in q <==> y in xs[..|xs| - 1]
    requires forall y :: y in xs[..|xs| - 1] ==> y in xs && FirstIndex(xs, y) == FirstIndex(xs[..|xs| - 1], y) < |xs| - 1
    ensures FirstSeenOrder(xs, q)
  {
    var p := xs[..|xs| - 1];
    forall i, j | 0 <= i < j < |q|
      ensures q[i] in xs && q[j] in xs && FirstIndex(xs, q[i]) < FirstIndex(xs, q[j])
    {
      assert q[i] in p && q[j] in p;
    }
  }

  /** De-duplicating a sequence that has no duplicates changes nothing. */
  lemma {:induction false} DedupeOfNoDup<T(!new)>(xs: seq<T>)
    requires NoDup(xs)
    ensures Dedupe(xs) == xs
  {
    InsertAllOfNoDup(xs);
  }

  lemma {:induction false} InsertAllOfNoDup<T(!new)>(xs: seq<T>)
    requires NoDup(xs)
    ensures InsertAll([], xs) == xs
    decreases |xs|
  {
    if |xs| > 0 {
      var n := |xs| - 1;
      assert NoDup(xs[..n]);
      InsertAllOfNoDup(xs[..n]);
      assert xs[n] !in xs[..n];
      assert xs == xs[..n] + [xs[n]];
    }
  }

  /** Adding `a` and then `b` to a set is adding `a + b`. */
  lemma {:induction false} InsertAllAppend<T(!new)>(acc: seq<T>, a: seq<T>, b: seq<T>)
    ensures InsertAll(InsertAll(acc, a), b) == InsertAll(acc, a + b)
    decreases |b|
  {
    if |b| == 0 {
      assert a + b == a;
    } else {
      var n := |b| - 1;
      InsertAllAppend(acc, a, b[..n]);
      assert (a + b)[..|a + b| - 1] == a + b[..n] && (a + b)[|a + b| - 1] == b[n];
      assert InsertAll(acc, a + b) == Insert(InsertAll(acc, a + b[..n]), b[n]);
    }
  }

  /** A repeated element is kept once. */
  lemma DedupeRepeat<T(!new)>(x: T)
    ensures Dedupe([x, x]) == [x]
  {
    assert [x, x][..1] == [x];
    assert [x][..0] == [];
    assert InsertAll([], [x]) == [x];
  }

  /** Concatenation of a sequence of sequences, in order. */
  function Flatten<T>(xss: seq<seq<T>>): seq<T> {
    if |xss| == 0 then [] else Flatten(xss[..|xss| - 1]) + xss[|xss| - 1]
  }

  lemma {:induction false} FlattenAppend<T>(a: seq<seq<T>>, b: seq<seq<T>>)
    ensures Flatten(a + b) == Flatten(a) + Flatten(b)
    decreases |b|
  {
    if |b| == 0 {
      assert a + b == a;
    } else {
      assert (a + b)[..|a + b| - 1] == a + b[..|b| - 1];
      FlattenAppend(a, b[..|b| - 1]);
    }
  }

  /** Dropping the head keeps the rest distinct, and the head is not among them. */
  lemma NoDupTail<T>(xs: seq<T>)
    requires NoDup(xs) && |xs| >= 1
    ensures NoDup(xs[1..]) && xs[0] !in xs[1..]
  {
    forall k | 0 <= k < |xs[1..]| ensures xs[1..][k] != xs[0] {
      assert xs[1..][k] == xs[k + 1];
    }
  }

  /** `f` applied to each element in turn, the results joined in order. */
  function FlatMap<T, U>(f: T -> seq<U>, xs: seq<T>): seq<U> {
    if |xs| == 0 then [] else FlatMap(f, xs[..|xs| - 1]) + f(xs[|xs| - 1])
  }

  lemma {:induction false} FlatMapAppend<T, U>(f: T -> seq<U>, a: seq<T>, b: seq<T>)
    ensures FlatMap(f, a + b) == FlatMap(f, a) + FlatMap(f, b)
    decreases |b|
  {
    if |b| == 0 {
      assert a + b == a;
    } else {
      assert (a + b)[..|a + b| - 1] == a + b[..|b| - 1];
      FlatMapAppend(f, a, b[..|b| - 1]);
    }
  }

  /**
   * `for (let i = 0; i < xs.length; i += k) xs.slice(i, i + k)`: consecutive slices of `k`
   * elements, the last one possibly shorter.
   */
  function Chunks<T>(xs: seq<T>, k: nat): (r: seq<seq<T>>)
    requires k > 0
    ensures forall i :: 0 <= i < |r| ==> 0 < |r[i]| <= k
    decreases |xs|
  {
    if |xs| == 0 then []
    else if |xs| <= k then [xs]
    else [xs[..k]] + Chunks(xs[k..], k)
  }

  /** The slices put back together give the sequence back: nothing lost, repeated or reordered. */
  lemma {:induction false} FlattenChunks<T>(xs: seq<T>, k: nat)
    requires k > 0
    ensures Flatten(Chunks(xs, k)) == xs
    decreases |xs|
  {
    if |xs| > k {
      FlattenChunks(xs[k..], k);
      FlattenAppend([xs[..k]], Chunks(xs[k..], k));
      assert Flatten([xs[..k]]) == xs[..k] by {
        assert [xs[..k]][..0] == [];
      }
      assert xs == xs[..k] + xs[k..];
    } else if |xs| > 0 {
      assert [xs][..0] == [];
    }
  }

  function Sum(xs: seq<int>): int {
    if |xs| == 0 then 0 else Sum(xs[..|xs| - 1]) + xs[|xs| - 1]
  }

  lemma {:induction false} SumAppend(a: seq<int>, b: seq<int>)
    ensures Sum(a + b) == Sum(a) + Sum(b)
    decreases |b|
  {
    if |b| == 0 {
      assert a + b == a;
    } else {
      assert (a + b)[..|a + b| - 1] == a + b[..|b| - 1];
      SumAppend(a, b[..|b| - 1]);
    }
  }
}

=== FILE: sireninput.dfy ===
/**
 * Reading the SIREN lists the fetch scripts write and the enrichment scripts read.
 *
 * The list format is one header line followed by one identifier per line (`siren`
 * then nine-digit numbers, joined with line feeds). Each enrichment script reads it
 * with its own variant: they all trim the file, split it at `\r?\n`, skip the first
 * line and keep the lines' candidates that pass `/^\d{9}$/`, but they differ in how a
 * line's candidate is found and whether duplicates are dropped.
 */
module SirenInput {
  import opened Text
  import opened Seqs

  /** The list file the fetch scripts write: `['siren', ...xs].join('\n')`. */
  function SirenFile(xs: seq<string>): (r: string)
    ensures |r| >= 5 && r[..5] == "siren"
    ensures |xs| == 0 <==> r == "siren"
    ensures |xs| > 0 ==> |r| >= 6 && r[5] == '\n'
  {
    Join(["siren"] + xs, "\n")
  }

  predicate AllSirens(xs: seq<string>) {
    forall i :: 0 <= i < |xs| ==> IsSiren(xs[i])
  }

  /** A file's lines: `readFileSync(path).trim().split(/\r?\n/)`. Never empty. */
  function Lines(content: string): (r: seq<string>)
    ensures |r| >= 1
    ensures forall i :: 0 <= i < |r| ==> '\n' !in r[i]
  {
    SplitLines(Trim(content))
  }

  /** The SIRENs among `cands`, in order, duplicates kept: `filter(s => /^\d{9}$/.test(s))`. */
  function KeepSirens(cands: seq<string>): (r: seq<string>)
    ensures |r| <= |cands|
    ensures AllSirens(r)
    ensures forall s :: s in r <==> s in cands && IsSiren(s)
    ensures AllSirens(cands) ==> r == cands
  {
    if |cands| == 0 then []
    else
      var init := KeepSirens(cands[..|cands| - 1]);
      var last := cands[|cands| - 1];
      assert cands == cands[..|cands| - 1] + [last];
      if IsSiren(last) then init + [last] else init
  }

  /** How a script finds a data line's candidate identifier. */
  datatype Reader =
    | Advanced(sep: char, column: nat)   // enrich_pappers_advanced: column of a sniffed separator
    | FromCsv(delim: Delim)               // enrich_pappers_from_csv: first column
    | Eco                                 // enrich_seniors_eco: first field of `/[;,\t]/`
    | Simple                              // enrich_seniors_simple: every digit of the line
    | Plain                               // the other enrichment scripts: the trimmed line itself

  /** A one-character separator, or the regular expression `/\s+/`. */
  datatype Delim = Char(c: char) | Blanks

  const EcoSeps: set<char> := {';', ',', '\t'}

  /** `cols[idx] || ''`. */
  function Column(cols: seq<string>, idx: nat): string {
    if idx < |cols| then cols[idx] else ""
  }

  /**
   * The candidate of one data line:
   *   Advanced: `(line.split(sep)[idx] || '').replace(/\D/g, '')`;
   *   FromCsv: `line.split(c)[0]`, or for whitespace `line.trim().split(/\s+/)[0]` (the trimmed
   *     line up to its first whitespace character), without its non-digits;
   *   Eco: `line.split(/[;,\t]/)[0].replace(/\D/g, '')`;
   *   Simple: `line.trim().replace(/\D/g, '')`;
   *   Plain: `line.trim()`.
   */
  function Candidate(rd: Reader, line: string): string {
    match rd
    case Advanced(sep, column) => StripNonDigits(Column(Split(line, sep), column))
    case FromCsv(Char(c)) => StripNonDigits(Split(line, c)[0])
    case FromCsv(Blanks) => StripNonDigits(SplitAny(Trim(line), Spaces)[0])
    case Eco => StripNonDigits(SplitAny(line, EcoSeps)[0])
    case Simple => StripNonDigits(Trim(line))
    case Plain => Trim(line)
  }

  /** The candidates of the data lines (every line after the header), in order. */
  function Candidates(lines: seq<string>, rd: Reader): (r: seq<string>)
    requires |lines| >= 1
    ensures |r| == |lines| - 1
    ensures forall i :: 1 <= i < |lines| ==> r[i - 1] == Candidate(rd, lines[i])
  {
    seq(|lines| - 1, i requires 0 <= i < |lines| - 1 => Candidate(rd, lines[i + 1]))
  }

  /** The SIRENs among the data lines' candidates, in order, duplicates kept. */
  function Collect(lines: seq<string>, rd: Reader): (r: seq<string>)
    requires |lines| >= 1
    ensures AllSirens(r)
    ensures |r| < |lines|
    ensures forall s :: s in r <==> IsSiren(s) && s in Candidates(lines, rd)
  {
    KeepSirens(Candidates(lines, rd))
  }

  // ---------------------------------------------------------------------------
  // enrich_pappers_advanced: sniffed separator, `siren` column located in the header
  // ---------------------------------------------------------------------------

  /** The separator, chosen by what the header holds: `;`, else `,`, else a tab, else `;`. */
  function SniffSep(header: string): (c: char)
    ensures c == ';' || c == ',' || c == '\t'
    ensures c == ',' <==> ';' !in header && ',' in header
    ensures c == '\t' <==> ';' !in header && ',' !in header && '\t' in header
  {
    if ';' in header then ';' else if ',' in header then ',' else if '\t' in header then '\t' else ';'
  }

  /** The header cells, trimmed and lower-cased. */
  function HeaderNames(cells: seq<string>): (r: seq<string>)
    ensures |r| == |cells|
    ensures forall i :: 0 <= i < |cells| ==> r[i] == Lower(Trim(cells[i]))
  {
    seq(|cells|, i requires 0 <= i < |cells| => Lower(Trim(cells[i])))
  }

  /** `header.indexOf('siren')`, falling back to the first column. */
  function SirenColumn(names: seq<string>): (r: nat)
    ensures "siren" in names ==> r < |names| && names[r] == "siren" && "siren" !in names[..r]
    ensures "siren" !in names ==> r == 0
  {
    if "siren" in names then FirstIndex(names, "siren") else 0
  }

  /** The reader a header line selects. */
  function AdvancedReader(header: string): Reader {
    var sep := SniffSep(header);
    Advanced(sep, SirenColumn(HeaderNames(Split(header, sep))))
  }

  /**
   * `loadSirens` of the advanced enrichment: the digits of the identifier column of each
   * data line, kept when there are exactly nine, each once, in order of first appearance.
   */
  function LoadAdvanced(content: string): (r: seq<string>)
    ensures NoDup(r) && AllSirens(r)
    ensures var lines := Lines(content);
      forall s :: s in r <==> IsSiren(s) && s in Candidates(lines, AdvancedReader(lines[0]))
  {
    var lines := Lines(content);
    Dedupe(Collect(lines, AdvancedReader(lines[0])))
  }

  // ---------------------------------------------------------------------------
  // enrich_pappers_from_csv: `;`, `,` or whitespace runs, first column
  // ---------------------------------------------------------------------------

  predicate HasSpace(s: string) {
    exists i :: 0 <= i < |s| && IsSpace(s[i])
  }

  function SniffDelim(header: string): (d: Delim)
    ensures d == Char(';') || d == Char(',') || d == Blanks
    ensures d == Char(',') <==> ';' !in header && ',' in header
    ensures d == Blanks <==> ';' !in header && ',' !in header && HasSpace(header)
  {
    if ';' in header then Char(';')
    else if ',' in header then Char(',')
    else if HasSpace(header) then Blanks
    else Char(';')
  }

  function LoadFromCsv(content: string): (r: seq<string>)
    ensures NoDup(r) && AllSirens(r)
    ensures var lines := Lines(content);
      forall s :: s in r <==> IsSiren(s) && s in Candidates(lines, FromCsv(SniffDelim(lines[0])))
  {
    var lines := Lines(content);
    Dedupe(Collect(lines, FromCsv(SniffDelim(lines[0]))))
  }

  // ---------------------------------------------------------------------------
  // enrich_seniors_eco and enrich_seniors_simple
  // ---------------------------------------------------------------------------

  function LoadEco(content: string): (r: seq<string>)
    ensures NoDup(r) && AllSirens(r)
    ensures forall s :: s in r <==> IsSiren(s) && s in Candidates(Lines(content), Eco)
  {
    Dedupe(Collect(Lines(content), Eco))
  }

  function LoadSimple(content: string): (r: seq<string>)
    ensures NoDup(r) && AllSirens(r)
    ensures forall s :: s in r <==> IsSiren(s) && s in Candidates(Lines(content), Simple)
  {
    Dedupe(Collect(Lines(content), Simple))
  }

  // ---------------------------------------------------------------------------
  // filter_dirigeants_by_dob, enrich_from_list, enrich_companies_only, enrich_idf_all
  // ---------------------------------------------------------------------------

  /** `txt.shift(); txt.map(s => s.trim()).filter(s => /^\d{9}$/.test(s))`: no de-duplication. */
  function ReadSirenList(content: string): (r: seq<string>)
    ensures AllSirens(r)
    ensures |r| < |Lines(content)|
    ensures forall s :: s in r <==> IsSiren(s) && s in Candidates(Lines(content), Plain)
  {
    Collect(Lines(content), Plain)
  }

  // ---------------------------------------------------------------------------
  // Every reader gives back the list a fetch script wrote
  // ---------------------------------------------------------------------------

  /** A list file has no surrounding whitespace and splits back into its header and identifiers. */
  lemma {:induction false} SirenFileLines(xs: seq<string>)
    requires AllSirens(xs)
    ensures Lines(SirenFile(xs)) == ["siren"] + xs
  {
    var parts := ["siren"] + xs;
    var f := SirenFile(xs);
    assert forall i :: 1 <= i < |parts| ==> parts[i] == xs[i - 1];
    var last := parts[|parts| - 1];
    assert |last| >= 1 && (IsDigit(last[|last| - 1]) || last[|last| - 1] == 'n');
    JoinEnds(parts, "\n");
    TrimIdentity(f);
    forall i | 0 <= i < |parts| ensures '\n' !in parts[i] && !EndsWithCr(parts[i]) {
      if i > 0 {
        assert IsSiren(parts[i]);
        assert forall j :: 0 <= j < |parts[i]| ==> IsDigit(parts[i][j]);
      }
    }
    SplitLinesJoin(parts);
  }

  /** When each identifier is its own candidate, the data lines of a list file give back the list. */
  lemma {:induction false} CollectSirenFile(xs: seq<string>, rd: Reader)
    requires AllSirens(xs)
    requires forall i :: 0 <= i < |xs| ==> Candidate(rd, xs[i]) == xs[i]
    ensures Collect(["siren"] + xs, rd) == xs
  {
    var lines := ["siren"] + xs;
    var cs := Candidates(lines, rd);
    assert forall i :: 0 <= i < |xs| ==> lines[i + 1] == xs[i];
    assert cs == xs;
  }

  lemma HeaderIsSiren()
    ensures Lower(Trim("siren")) == "siren"
  {
    TrimIdentity("siren");
    LowerNoUpper("siren");
  }

  /** An identifier is one piece for any separator that is not a digit. */
  lemma SirenHasNoSeparator(x: string, seps: set<char>)
    requires IsSiren(x)
    requires forall c :: c in seps ==> !IsDigit(c)
    ensures SplitAny(x, seps)[0] == x
  {
    assert forall k :: 0 <= k < |x| ==> x[k] !in seps;
  }

  lemma SirenTrims(x: string)
    requires IsSiren(x)
    ensures Trim(x) == x
  {
    assert IsDigit(x[0]) && IsDigit(x[|x| - 1]);
    TrimIdentity(x);
  }

  lemma SirenSplitsWhole(x: string, c: char)
    requires IsSiren(x) && !IsDigit(c)
    ensures Split(x, c)[0] == x
  {
    SirenHasNoSeparator(x, {c});
  }

  lemma {:induction false} LoadAdvancedRoundTrip(xs: seq<string>)
    requires AllSirens(xs)
    ensures LoadAdvanced(SirenFile(xs)) == Dedupe(xs)
    ensures NoDup(xs) ==> LoadAdvanced(SirenFile(xs)) == xs
  {
    SirenFileLines(xs);
    ListHeaderReader();
    SplitKeepsSirens(xs, Advanced(';', 0));
    CollectSirenFile(xs, Advanced(';', 0));
    if NoDup(xs) {
      DedupeOfNoDup(xs);
    }
  }

  /** The list header selects the first column, split at `;`. */
  lemma ListHeaderReader()
    ensures AdvancedReader("siren") == Advanced(';', 0)
  {
    assert SniffSep("siren") == ';';
    SplitNoSep("siren", ';');
    HeaderIsSiren();
    assert HeaderNames(["siren"]) == ["siren"];
  }

  /** An identifier is its own candidate for the readers that take the first field at `;`. */
  lemma SplitKeepsSirens(xs: seq<string>, rd: Reader)
    requires AllSirens(xs)
    requires rd == Advanced(';', 0) || rd == FromCsv(Char(';'))
    ensures forall i :: 0 <= i < |xs| ==> Candidate(rd, xs[i]) == xs[i]
  {
    forall i | 0 <= i < |xs| ensures Candidate(rd, xs[i]) == xs[i] {
      SirenSplitsWhole(xs[i], ';');
    }
  }

  lemma {:induction false} LoadFromCsvRoundTrip(xs: seq<string>)
    requires AllSirens(xs)
    ensures LoadFromCsv(SirenFile(xs)) == Dedupe(xs)
    ensures NoDup(xs) ==> LoadFromCsv(SirenFile(xs)) == xs
  {
    SirenFileLines(xs);
    ListHeaderDelim();
    SplitKeepsSirens(xs, FromCsv(Char(';')));
    CollectSirenFile(xs, FromCsv(Char(';')));
    if NoDup(xs) {
      DedupeOfNoDup(xs);
    }
  }

  lemma ListHeaderDelim()
    ensures SniffDelim("siren") == Char(';')
  {
    assert !HasSpace("siren") by {
      assert forall i :: 0 <= i < 5 ==> !IsSpace("siren"[i]);
    }
  }

  lemma {:induction false} LoadEcoRoundTrip(xs: seq<string>)
    requires AllSirens(xs)
    ensures LoadEco(SirenFile(xs)) == Dedupe(xs)
    ensures NoDup(xs) ==> LoadEco(SirenFile(xs)) == xs
  {
    SirenFileLines(xs);
    EcoKeepsSirens(xs);
    CollectSirenFile(xs, Eco);
    if NoDup(xs) {
      DedupeOfNoDup(xs);
    }
  }

  lemma EcoKeepsSirens(xs: seq<string>)
    requires AllSirens(xs)
    ensures forall i :: 0 <= i < |xs| ==> Candidate(Eco, xs[i]) == xs[i]
  {
    forall i | 0 <= i < |xs| ensures Candidate(Eco, xs[i]) == xs[i] {
      SirenHasNoSeparator(xs[i], EcoSeps);
    }
  }

  lemma {:induction false} LoadSimpleRoundTrip(xs: seq<string>)
    requires AllSirens(xs)
    ensures LoadSimple(SirenFile(xs)) == Dedupe(xs)
    ensures NoDup(xs) ==> LoadSimple(SirenFile(xs)) == xs
  {
    SirenFileLines(xs);
    forall i | 0 <= i < |xs| ensures Candidate(Simple, xs[i]) == xs[i] {
      SirenTrims(xs[i]);
    }
    CollectSirenFile(xs, Simple);
    if NoDup(xs) {
      DedupeOfNoDup(xs);
    }
  }

  /** The plain reader gives back the list even when it repeats an identifier. */
  lemma {:induction false} ReadSirenListRoundTrip(xs: seq<string>)
    requires AllSirens(xs)
    ensures ReadSirenList(SirenFile(xs)) == xs
  {
    SirenFileLines(xs);
    forall i | 0 <= i < |xs| ensures Candidate(Plain, xs[i]) == xs[i] {
      SirenTrims(xs[i]);
    }
    CollectSirenFile(xs, Plain);
  }

  /** The de-duplicating readers drop a repeated identifier; the plain reader keeps it. */
  lemma {:induction false} RepeatedIdentifier(x: string)
    requires IsSiren(x)
    ensures LoadSimple(SirenFile([x, x])) == [x]
    ensures ReadSirenList(SirenFile([x, x])) == [x, x]
  {
    var xs := [x, x];
    assert AllSirens(xs) by {
      assert forall i :: 0 <= i < |xs| ==> xs[i] == x;
    }
    LoadSimpleRoundTrip(xs);
    ReadSirenListRoundTrip(xs);
    DedupeRepeat(x);
  }

  /**
   * The advanced reader follows the `siren` column wherever the header puts it: with the
   * header `name;siren`, a line `other;x` yields the digits of `x`.
   */
  lemma {:induction false} SirenColumnFollowsHeader(name: string, other: string, x: string)
    requires ';' !in name && ';' !in other && ';' !in x
    requires Lower(Trim(name)) != "siren"
    ensures Candidate(AdvancedReader(name + ";siren"), other + ";" + x) == StripNonDigits(x)
  {
    SecondColumnHeader(name);
    TwoFields(other, x);
  }

  lemma {:induction false} TwoFields(a: string, b: string)
    requires ';' !in a && ';' !in b
    ensures Split(a + ";" + b, ';') == [a, b]
  {
    SplitPrefix(a, b, ';');
    SplitNoSep(b, ';');
    assert a + [';'] + b == a + ";" + b;
  }

  lemma {:induction false} SecondColumnHeader(name: string)
    requires ';' !in name
    requires Lower(Trim(name)) != "siren"
    ensures AdvancedReader(name + ";siren") == Advanced(';', 1)
  {
    var header := name + ";siren";
    assert SniffSep(header) == ';' by {
      assert header[|name|] == ';';
    }
    assert Split(header, ';') == [name, "siren"] by {
      assert ';' !in "siren";
      TwoFields(name, "siren");
      SirenAfterSemicolon(name);
    }
    ReaderOfCells(header, [name, "siren"]);
    SecondName(name);
  }

  lemma SirenAfterSemicolon(name: string)
    ensures name + ";" + "siren" == name + ";siren"
  {
    assert ";" + "siren" == ";siren";
    assert name + ";" + "siren" == name + (";" + "siren");
  }

  lemma ReaderOfCells(header: string, cells: seq<string>)
    requires SniffSep(header) == ';' && Split(header, ';') == cells
    ensures AdvancedReader(header) == Advanced(';', SirenColumn(HeaderNames(cells)))
  {
  }

  lemma SecondName(name: string)
    requires Lower(Trim(name)) != "siren"
    ensures SirenColumn(HeaderNames([name, "siren"])) == 1
  {
    HeaderIsSiren();
    var names := HeaderNames([name, "siren"]);
    assert names[0] == Lower(Trim(name)) && names[1] == Lower(Trim("siren"));
    ColumnTwo(names);
  }

  lemma ColumnTwo(names: seq<string>)
    requires |names| == 2 && names[0] != "siren" && names[1] == "siren"
    ensures SirenColumn(names) == 1
  {
    assert names[..1] == [names[0]];
  }
}

=== FILE: sirensgouv.dfy ===
/**
 * `fetch_sirens_gouv.js`: every page of one fixed search of the public registry (NAF
 * 78.20Z, representatives born before 1963, active companies), its SIRENs gathered into
 * an insertion-ordered set and written to `input/sirens.csv` as a one-column list.
 *
 * The script catches nothing: a failed request, results that cannot be iterated or a hit
 * whose SIREN cannot be read end the run before the file is written.
 */
module SirensGouv {
  import opened Text
  import opened Wrappers
  import opened Js
  import opened Seqs
  import opened Cli
  import opened Search
  import SirenInput

  const Out: string := "input/sirens.csv"

  /** `data?.results || data?.resultats || []`, iterated; `None` when that loop throws. */
  function Hits(data: Value): Option<seq<Value>> {
    Iterate(Or(Get(data, "results"), Or(Get(data, "resultats"), Arr([]))))
  }

  /** `data?.total_pages || data?.totalPages || page`. */
  function TotalPages(data: Value, page: int): (t: Value)
    ensures Truthy(Get(data, "total_pages")) ==> t == Get(data, "total_pages")
    ensures !Truthy(Get(data, "total_pages")) && Truthy(Get(data, "totalPages")) ==> t == Get(data, "totalPages")
    ensures !Truthy(Get(data, "total_pages")) && !Truthy(Get(data, "totalPages")) ==> t == Num(page)
  {
    Or(Get(data, "total_pages"), Or(Get(data, "totalPages"), Num(page)))
  }

  /** `page <= totalPages` once `page` is incremented: numeric, and false against `NaN`. */
  predicate GoesOn(data: Value, page: int) {
    var t := ToNumber(TotalPages(data, page));
    t.Some? && page + 1 <= t.value
  }

  /** A reply the loop gets through: a body whose hits iterate without throwing. */
  predicate Clean(r: Reply) {
    r.Body? && Hits(r.data).Some? && !PickThrows(Hits(r.data).value)
  }

  /** The hits of a reply, none for a reply that is not a body or whose hits cannot be iterated. */
  function PageHits(r: Reply): seq<Value> {
    if r.Body? && Hits(r.data).Some? then Hits(r.data).value else []
  }

  /** The valid SIRENs of every reply in `rs`, page after page. */
  function AllPicked(rs: seq<Reply>): seq<string>
    decreases |rs|
  {
    if |rs| == 0 then [] else Picked(PageHits(rs[0])) + AllPicked(rs[1..])
  }

  datatype Gathered = Gathered(sirens: seq<string>, asked: seq<int>, end: End)

  /**
   * The `do … while (page <= totalPages)` loop from `page`, adding to `acc`: ask for the
   * page, add its SIRENs, go on while the next page is within the total. A failure throws
   * out of the loop.
   */
  function PageLoop(replies: seq<Reply>, acc: seq<string>, page: int): (g: Gathered)
    requires NoDup(acc)
    ensures NoDup(g.sirens) && acc <= g.sirens
    ensures |g.asked| <= |replies|
    ensures forall i :: 0 <= i < |g.asked| ==> g.asked[i] == page + i
    ensures forall i :: 0 <= i < |g.asked| - 1 ==> Clean(replies[i]) && GoesOn(replies[i].data, page + i)
    ensures g.end == Unanswered ==> |g.asked| == |replies|
    ensures (g.end == Finished ==>
      |g.asked| >= 1 && Clean(replies[|g.asked| - 1]) && !GoesOn(replies[|g.asked| - 1].data, page + |g.asked| - 1))
    ensures g.end == Threw ==> |g.asked| >= 1 && !Clean(replies[|g.asked| - 1])
    decreases |replies|
  {
    if |replies| == 0 then Gathered(acc, [], Unanswered)
    else
      var rest := replies[1..];
      assert forall i :: 1 <= i < |replies| ==> rest[i - 1] == replies[i];
      if !Clean(replies[0]) then Gathered(acc, [page], Threw)
      else
        var data := replies[0].data;
        var acc' := InsertAll(acc, Picked(Hits(data).value));
        if GoesOn(data, page) then
          var g := PageLoop(rest, acc', page + 1);
          Gathered(g.sirens, [page] + g.asked, g.end)
        else Gathered(acc', [page], Finished)
  }

  /**
   * A loop that finishes holds the SIRENs of every page it asked for, each once, in the
   * order they were first seen after those of `acc`.
   */
  lemma {:induction false} PageLoopGathers(replies: seq<Reply>, acc: seq<string>, page: int)
    requires NoDup(acc)
    ensures var g := PageLoop(replies, acc, page);
      g.end == Finished ==> g.sirens == InsertAll(acc, AllPicked(replies[..|g.asked|]))
    decreases |replies|
  {
    var g := PageLoop(replies, acc, page);
    if |replies| > 0 && Clean(replies[0]) && g.end == Finished {
      var rest := replies[1..];
      var hits := Picked(Hits(replies[0].data).value);
      var acc' := InsertAll(acc, hits);
      assert PageHits(replies[0]) == Hits(replies[0].data).value;
      var k := |g.asked| - 1;
      assert replies[..k + 1][1..] == rest[..k];
      assert AllPicked(replies[..k + 1]) == hits + AllPicked(rest[..k]);
      if GoesOn(replies[0].data, page) {
        var g' := PageLoop(rest, acc', page + 1);
        assert g.sirens == g'.sirens && g'.end == Finished && |g'.asked| == k;
        PageLoopGathers(rest, acc', page + 1);
        InsertAllAppend(acc, hits, AllPicked(rest[..k]));
      } else {
        assert AllPicked(rest[..0]) == [];
        assert hits + [] == hits;
      }
    }
  }

  datatype Outcome =
    | Crashed                               // an exception: nothing is written
    | Incomplete                            // the replies ran out before the loop ended
    | Written(name: string, content: string)

  /** The whole run: the loop from page 1 with an empty set, then `['siren', ...sirens].join('\n')`. */
  function Run(replies: seq<Reply>): (r: Outcome)
    ensures r == Crashed <==> PageLoop(replies, [], 1).end == Threw
    ensures r == Incomplete <==> PageLoop(replies, [], 1).end == Unanswered
    ensures r.Written? ==> r.name == Out && r.content == SirenInput.SirenFile(PageLoop(replies, [], 1).sirens)
  {
    assert NoDup<string>([]);
    var g := PageLoop(replies, [], 1);
    match g.end
    case Threw => Crashed
    case Unanswered => Incomplete
    case Finished => Written(Out, SirenInput.SirenFile(g.sirens))
  }

  /**
   * The written file reads back as every valid SIREN of the pages asked for, each once,
   * in the order of first appearance; pages were asked for from 1 up to the last
   * page's total.
   */
  lemma RunReadsBack(replies: seq<Reply>)
    requires Run(replies).Written?
    ensures var g := PageLoop(replies, [], 1);
      SirenInput.ReadSirenList(Run(replies).content) == Dedupe(AllPicked(replies[..|g.asked|])) &&
      SirenInput.LoadAdvanced(Run(replies).content) == Dedupe(AllPicked(replies[..|g.asked|]))
  {
    assert NoDup<string>([]);
    var g := PageLoop(replies, [], 1);
    PageLoopGathers(replies, [], 1);
    assert SirenInput.AllSirens(g.sirens) by {
      AllPickedSirens(replies[..|g.asked|]);
    }
    SirenInput.ReadSirenListRoundTrip(g.sirens);
    SirenInput.LoadAdvancedRoundTrip(g.sirens);
    DedupeOfNoDup(g.sirens);
  }

  lemma {:induction false} AllPickedSirens(rs: seq<Reply>)
    ensures forall x :: x in AllPicked(rs) ==> IsSiren(x)
    decreases |rs|
  {
    if |rs| > 0 {
      AllPickedSirens(rs[1..]);
    }
  }

  /**
   * A SIREN is gathered from a clean page exactly when one of its hits has it as
   * `siren`, as the digits of `siren_formate`, or as `unite_legale.siren`.
   */
  lemma PageSirens(r: Reply, x: string)
    requires Clean(r)
    ensures x in Picked(PageHits(r)) <==> exists i :: 0 <= i < |PageHits(r)| && HitSiren(PageHits(r)[i]) == Ok(Some(x))
  {
    PickedMembers(PageHits(r));
  }
}

=== FILE: text.dfy ===
/**
 * Characters and strings as the scripts see them: JavaScript strings are modelled as
 * `seq<char>` of Unicode scalar values, regular-expression character classes as predicates.
 */
module Text {

  // ---------------------------------------------------------------------------
  // Digits, `\d` and `/^\d{9}$/`
  // ---------------------------------------------------------------------------

  /** `\d` in a regular expression without the `u` flag: ASCII digits only. */
  predicate IsDigit(c: char) {
    '0' <= c <= '9'
  }

  /** `\w`, the characters a `\b` word boundary separates from the rest: `[A-Za-z0-9_]`. */
  predicate IsWordChar(c: char) {
    'a' <= c <= 'z' || 'A' <= c <= 'Z' || IsDigit(c) || c == '_'
  }

  predicate AllDigits(s: string) {
    forall i :: 0 <= i < |s| ==> IsDigit(s[i])
  }

  /** The identifier test `/^\d{9}$/` shared by every script. */
  predicate IsSiren(s: string) {
    |s| == 9 && AllDigits(s)
  }

  /** A character beyond U+FFFF, which UTF-16 writes as a surrogate pair. */
  predicate IsAstral(c: char) {
    c as int > 0xFFFF
  }

  /**
   * `s.length`: JavaScript counts UTF-16 code units, so a character beyond U+FFFF counts
   * twice. It is the number of characters exactly when there is no such character.
   */
  function Utf16Length(s: string): (n: nat)
    ensures |s| <= n <= 2 * |s|
    ensures n == |s| <==> forall i :: 0 <= i < |s| ==> !IsAstral(s[i])
    decreases |s|
  {
    if |s| == 0 then 0
    else
      var init := s[..|s| - 1];
      assert forall i :: 0 <= i < |init| ==> init[i] == s[i];
      Utf16Length(init) + (if IsAstral(s[|s| - 1]) then 2 else 1)
  }

  function DigitValue(c: char): nat
    requires IsDigit(c)
  {
    c as int - '0' as int
  }

  function DigitChar(d: nat): char
    requires d < 10
  {
    ('0' as int + d) as char
  }

  /** The number a run of decimal digits denotes (`+m[1]` or `parseInt(m[1], 10)` on a `\d+` group). */
  function DigitsValue(s: string): nat
    requires AllDigits(s)
  {
    if |s| == 0 then 0 else DigitsValue(s[..|s| - 1]) * 10 + DigitValue(s[|s| - 1])
  }

  /** `String(n)` for a non-negative integer: shortest decimal form. */
  function NatToString(n: nat): (r: string)
    ensures |r| >= 1 && AllDigits(r)
    ensures r[0] == '0' ==> n == 0 && |r| == 1
    ensures DigitsValue(r) == n
    decreases n
  {
    if n < 10 then [DigitChar(n)]
    else
      var hi := NatToString(n / 10);
      assert (hi + [DigitChar(n % 10)])[..|hi|] == hi;
      hi + [DigitChar(n % 10)]
  }

  /** `String(n)` for an integer. */
  function IntToString(n: int): (r: string)
    ensures |r| >= 1
    ensures forall i :: 0 <= i < |r| ==> IsDigit(r[i]) || r[i] == '-'
    ensures n >= 0 ==> AllDigits(r) && DigitsValue(r) == n
    ensures n < 0 ==> r[0] == '-' && AllDigits(r[1..]) && DigitsValue(r[1..]) == -n
  {
    if n < 0 then "-" + NatToString(-n) else NatToString(n)
  }

  /** Decimal digit strings of a fixed width denote distinct numbers exactly when they differ. */
  lemma {:induction false} DigitsValueInjective(a: string, b: string)
    requires AllDigits(a) && AllDigits(b) && |a| == |b|
    requires DigitsValue(a) == DigitsValue(b)
    ensures a == b
    decreases |a|
  {
    if |a| > 0 {
      var n := |a| - 1;
      LastDigit(a);
      LastDigit(b);
      DigitsValueInjective(a[..n], b[..n]);
      assert a == a[..n] + [a[n]] && b == b[..n] + [b[n]];
    }
  }

  /** The last digit is the value modulo ten, and the rest is the value divided by ten. */
  lemma LastDigit(s: string)
    requires AllDigits(s) && |s| > 0
    ensures DigitValue(s[|s| - 1]) == DigitsValue(s) % 10
    ensures DigitsValue(s[..|s| - 1]) == DigitsValue(s) / 10
  {
  }

  /** Every digit string of length `k` denotes a number below `10^k`. */
  function Pow10(k: nat): nat {
    if k == 0 then 1 else 10 * Pow10(k - 1)
  }

  lemma {:induction false} DigitsValueBound(s: string)
    requires AllDigits(s)
    ensures DigitsValue(s) < Pow10(|s|)
    decreases |s|
  {
    if |s| > 0 {
      DigitsValueBound(s[..|s| - 1]);
    }
  }

  /** `s.replace(/\D/g, '')`: keep the ASCII digits, in order. */
  function StripNonDigits(s: string): (r: string)
    ensures AllDigits(r)
    ensures |r| <= |s|
    ensures AllDigits(s) ==> r == s
  {
    if |s| == 0 then ""
    else if IsDigit(s[0]) then
      assert AllDigits(s) ==> AllDigits(s[1..]);
      [s[0]] + StripNonDigits(s[1..])
    else StripNonDigits(s[1..])
  }

  lemma {:induction false} StripNonDigitsAppend(a: string, b: string)
    ensures StripNonDigits(a + b) == StripNonDigits(a) + StripNonDigits(b)
    decreases |a|
  {
    if |a| > 0 {
      assert (a + b)[0] == a[0] && (a + b)[1..] == a[1..] + b;
      StripNonDigitsAppend(a[1..], b);
    } else {
      assert a + b == b;
    }
  }

  // ---------------------------------------------------------------------------
  // Whitespace, `trim()` and `\s`
  // ---------------------------------------------------------------------------

  /** ECMAScript WhiteSpace and LineTerminator code points: what `trim()` removes and `\s` matches. */
  const Spaces: set<char> := {
    '\t', '\n', '\U{000B}', '\U{000C}', '\r', ' ', '\U{00A0}', '\U{1680}',
    '\U{2000}', '\U{2001}', '\U{2002}', '\U{2003}', '\U{2004}', '\U{2005}', '\U{2006}',
    '\U{2007}', '\U{2008}', '\U{2009}', '\U{200A}',
    '\U{2028}', '\U{2029}', '\U{202F}', '\U{205F}', '\U{3000}', '\U{FEFF}'
  }

  /** Membership in `Spaces`, written as ranges of code points. */
  predicate IsSpace(c: char) {
    '\t' <= c <= '\r' || c == ' ' || c == '\U{00A0}' || c == '\U{1680}' || '\U{2000}' <= c <= '\U{200A}' ||
    c == '\U{2028}' || c == '\U{2029}' || c == '\U{202F}' || c == '\U{205F}' || c == '\U{3000}' || c == '\U{FEFF}'
  }

  lemma SpacesAreSpace(c: char)
    ensures c in Spaces <==> IsSpace(c)
  {
  }

  /** Line terminators: what `.` in a regular expression does not match. */
  predicate IsLineTerminator(c: char) {
    c == '\n' || c == '\r' || c == '\U{2028}' || c == '\U{2029}'
  }

  function TrimStart(s: string): (r: string)
    ensures |r| <= |s| && r == s[|s| - |r|..]
    ensures |r| > 0 ==> !IsSpace(r[0])
    ensures forall i :: 0 <= i < |s| - |r| ==> IsSpace(s[i])
  {
    if |s| > 0 && IsSpace(s[0]) then TrimStart(s[1..]) else s
  }

  function TrimEnd(s: string): (r: string)
    ensures |r| <= |s| && r == s[..|r|]
    ensures |r| > 0 ==> !IsSpace(r[|r| - 1])
    ensures forall i :: |r| <= i < |s| ==> IsSpace(s[i])
  {
    if |s| > 0 && IsSpace(s[|s| - 1]) then TrimEnd(s[..|s| - 1]) else s
  }

  /** `String.prototype.trim`: the slice of `s` left after removing leading and trailing whitespace. */
  function Trim(s: string): (r: string)
    ensures LeadingSpaces(s) + |r| <= |s| && r == s[LeadingSpaces(s)..LeadingSpaces(s) + |r|]
    ensures forall i :: 0 <= i < LeadingSpaces(s) ==> IsSpace(s[i])
    ensures forall i :: LeadingSpaces(s) + |r| <= i < |s| ==> IsSpace(s[i])
    ensures |r| > 0 ==> !IsSpace(r[0]) && !IsSpace(r[|r| - 1])
  {
    var t := TrimStart(s);
    var r := TrimEnd(t);
    TrimSlice(s, t, r);
    r
  }

  /** A prefix `r` of a suffix `t` of `s` is a slice of `s`, and what `t` has after `r` ends `s`. */
  lemma TrimSlice(s: string, t: string, r: string)
    requires |t| <= |s| && t == s[|s| - |t|..]
    requires |r| <= |t| && r == t[..|r|]
    requires forall i :: |r| <= i < |t| ==> IsSpace(t[i])
    ensures r == s[|s| - |t|..|s| - |t| + |r|]
    ensures forall i :: |s| - |t| + |r| <= i < |s| ==> IsSpace(s[i])
  {
    var n := |s| - |t|;
    forall i | n + |r| <= i < |s|
      ensures IsSpace(s[i])
    {
      assert s[i] == t[i - n];
    }
  }

  /** How many code points `trim()` removes from the front. */
  function LeadingSpaces(s: string): nat
    ensures LeadingSpaces(s) <= |s|
  {
    |s| - |TrimStart(s)|
  }

  /** A string that does not start with whitespace is left as it is by `trimStart`. */
  lemma TrimStartKeeps(s: string)
    requires |s| > 0 ==> !IsSpace(s[0])
    ensures TrimStart(s) == s
  {
  }

  /** A string that neither starts nor ends with whitespace is its own trim. */
  lemma TrimIdentity(s: string)
    requires |s| > 0 ==> !IsSpace(s[0]) && !IsSpace(s[|s| - 1])
    ensures Trim(s) == s
  {
  }

  // ---------------------------------------------------------------------------
  // Case
  // ---------------------------------------------------------------------------

  /** `toLowerCase` on ASCII and Latin-1 capitals; other code points are left unchanged. */
  function LowerChar(c: char): char {
    if 'A' <= c <= 'Z' || ('\U{00C0}' <= c <= '\U{00DE}' && c != '\U{00D7}') then
      (c as int + 32) as char
    else c
  }

  predicate IsUpper(c: char) {
    'A' <= c <= 'Z' || ('\U{00C0}' <= c <= '\U{00DE}' && c != '\U{00D7}')
  }

  function Lower(s: string): (r: string)
    ensures |r| == |s|
    ensures forall i :: 0 <= i < |r| ==> !IsUpper(r[i])
    ensures forall i :: 0 <= i < |r| ==> (r[i] == s[i] <==> !IsUpper(s[i]))
  {
    if |s| == 0 then "" else [LowerChar(s[0])] + Lower(s[1..])
  }

  lemma {:induction false} LowerIdempotent(s: string)
    ensures Lower(Lower(s)) == Lower(s)
  {
    var t := Lower(s);
    assert Lower(t) == t by {
      LowerNoUpper(t);
    }
  }

  lemma {:induction false} LowerNoUpper(t: string)
    requires forall i :: 0 <= i < |t| ==> !IsUpper(t[i])
    ensures Lower(t) == t
    decreases |t|
  {
    if |t| > 0 {
      LowerNoUpper(t[1..]);
    }
  }

  // ---------------------------------------------------------------------------
  // Splitting and joining
  // ---------------------------------------------------------------------------

  /**
   * `s.split(sep)` where `sep` is a one-character string or a one-character class such as
   * `/[;,\t]/`: the maximal separator-free pieces, in order. `"".split(x)` is `[""]`.
   */
  function SplitAny(s: string, seps: set<char>): (r: seq<string>)
    ensures |r| >= 1
    ensures forall i, j :: 0 <= i < |r| && 0 <= j < |r[i]| ==> r[i][j] !in seps
    ensures r[0] <= s && (|r[0]| == |s| || s[|r[0]|] in seps)
    decreases |s|
  {
    if |s| == 0 then [""]
    else
      var rest := SplitAny(s[1..], seps);
      if s[0] in seps then [""] + rest
      else [[s[0]] + rest[0]] + rest[1..]
  }

  function Split(s: string, sep: char): (r: seq<string>)
    ensures |r| >= 1
    ensures forall i :: 0 <= i < |r| ==> sep !in r[i]
  {
    var r := SplitAny(s, {sep});
    assert forall i :: 0 <= i < |r| ==> sep !in r[i] by {
      forall i | 0 <= i < |r| ensures sep !in r[i] {
        assert forall j :: 0 <= j < |r[i]| ==> r[i][j] != sep;
      }
    }
    r
  }

  /** `parts.join(sep)`. */
  function Join(parts: seq<string>, sep: string): string {
    if |parts| == 0 then ""
    else if |parts| == 1 then parts[0]
    else parts[0] + sep + Join(parts[1..], sep)
  }

  /** A character in no part and not in the separator is not in the join. */
  lemma {:induction false} JoinAvoids(parts: seq<string>, sep: string, c: char)
    requires c !in sep
    requires forall i :: 0 <= i < |parts| ==> c !in parts[i]
    ensures c !in Join(parts, sep)
    decreases |parts|
  {
    if |parts| > 1 {
      JoinAvoids(parts[1..], sep, c);
    }
  }

  /** A join starts with the first part's first character and ends with the last part's last. */
  lemma {:induction false} JoinEnds(parts: seq<string>, sep: string)
    requires |parts| >= 1 && |parts[0]| >= 1 && |parts[|parts| - 1]| >= 1
    ensures var j := Join(parts, sep);
      |j| >= 1 && j[0] == parts[0][0] && j[|j| - 1] == parts[|parts| - 1][|parts[|parts| - 1]| - 1]
    decreases |parts|
  {
    if |parts| > 1 {
      var rest := parts[1..];
      assert rest[|rest| - 1] == parts[|parts| - 1];
      if |rest[0]| >= 1 {
        JoinEnds(rest, sep);
      } else {
        JoinLast(rest, sep);
      }
    }
  }

  lemma {:induction false} JoinLast(parts: seq<string>, sep: string)
    requires |parts| >= 1 && |parts[|parts| - 1]| >= 1
    ensures var j := Join(parts, sep);
      |j| >= 1 && j[|j| - 1] == parts[|parts| - 1][|parts[|parts| - 1]| - 1]
    decreases |parts|
  {
    if |parts| > 1 {
      var rest := parts[1..];
      assert rest[|rest| - 1] == parts[|parts| - 1];
      JoinLast(rest, sep);
    }
  }

  /** Joining the pieces of a split with the separator gives back the original string. */
  lemma {:induction false} JoinSplit(s: string, sep: char)
    ensures Join(Split(s, sep), [sep]) == s
    decreases |s|
  {
    if |s| > 0 {
      JoinSplit(s[1..], sep);
      var rest := SplitAny(s[1..], {sep});
      if s[0] != sep {
        if |rest| > 1 {
          assert Join(rest, [sep]) == rest[0] + [sep] + Join(rest[1..], [sep]);
        }
        assert s == [s[0]] + s[1..];
      }
    }
  }

  /** Splitting a join of separator-free parts gives back the parts. */
  lemma {:induction false} SplitJoin(parts: seq<string>, sep: char)
    requires |parts| >= 1
    requires forall i :: 0 <= i < |parts| ==> sep !in parts[i]
    ensures Split(Join(parts, [sep]), sep) == parts
    decreases |parts|
  {
    if |parts| == 1 {
      SplitNoSep(parts[0], sep);
    } else {
      SplitJoin(parts[1..], sep);
      SplitPrefix(parts[0], Join(parts[1..], [sep]), sep);
      assert Join(parts, [sep]) == parts[0] + ([sep] + Join(parts[1..], [sep]));
    }
  }

  lemma {:induction false} SplitNoSep(p: string, sep: char)
    requires sep !in p
    ensures Split(p, sep) == [p]
    decreases |p|
  {
    if |p| > 0 {
      SplitNoSep(p[1..], sep);
      assert p == [p[0]] + p[1..];
    }
  }

  lemma {:induction false} SplitPrefix(p: string, rest: string, sep: char)
    requires sep !in p
    ensures Split(p + [sep] + rest, sep) == [p] + Split(rest, sep)
    decreases |p|
  {
    if |p| == 0 {
      assert p + [sep] + rest == [sep] + rest;
      assert ([sep] + rest)[1..] == rest;
    } else {
      assert (p + [sep] + rest)[1..] == p[1..] + [sep] + rest;
      SplitPrefix(p[1..], rest, sep);
      assert p == [p[0]] + p[1..];
    }
  }

  /** A string ends with a carriage return. */
  predicate EndsWithCr(s: string) {
    |s| > 0 && s[|s| - 1] == '\r'
  }

  function DropCr(s: string): string {
    if EndsWithCr(s) then s[..|s| - 1] else s
  }

  /**
   * `s.split(/\r?\n/)`: split at line feeds; a carriage return just before a line feed
   * belongs to the separator, so it is dropped from every piece except the last.
   */
  function SplitLines(s: string): (r: seq<string>)
    ensures |r| == |Split(s, '\n')|
    ensures forall i :: 0 <= i < |r| ==> '\n' !in r[i]
    ensures forall i :: 0 <= i < |r| - 1 ==> r[i] == DropCr(Split(s, '\n')[i])
    ensures r[|r| - 1] == Split(s, '\n')[|r| - 1]
  {
    var pieces := Split(s, '\n');
    seq(|pieces|, i requires 0 <= i < |pieces| => if i < |pieces| - 1 then DropCr(pieces[i]) else pieces[i])
  }

  /** Lines free of line feeds, none but the last ending in a carriage return, survive a join and split. */
  lemma SplitLinesJoin(lines: seq<string>)
    requires |lines| >= 1
    requires forall i :: 0 <= i < |lines| ==> '\n' !in lines[i]
    requires forall i :: 0 <= i < |lines| - 1 ==> !EndsWithCr(lines[i])
    ensures SplitLines(Join(lines, "\n")) == lines
  {
    SplitJoin(lines, '\n');
  }

  // ---------------------------------------------------------------------------
  // Substrings
  // ---------------------------------------------------------------------------

  /** `hay.includes(needle)`. */
  predicate Contains(hay: string, needle: string) {
    exists i | 0 <= i <= |hay| - |needle| :: ContainsAt(hay, needle, i)
  }

  predicate ContainsAt(hay: string, needle: string, i: int) {
    0 <= i <= |hay| - |needle| && hay[i..i + |needle|] == needle
  }

  /** The empty string is contained in every string. */
  lemma ContainsEmpty(hay: string)
    ensures Contains(hay, "")
  {
    assert ContainsAt(hay, "", 0);
  }
}

=== FILE: wrappers.dfy ===
/** Failure-carrying wrappers shared by every module of the model. */
module Wrappers {

  /** A value that may be absent: JavaScript's `null` result of a parser or lookup. */
  datatype Option<+T> = None | Some(value: T) {
    function GetOr(default: T): T {
      match this
      case Some(v) => v
      case None => default
    }
  }

  /** The outcome of a step that can abort: the scripts' thrown exceptions and fatal exits. */
  datatype Result<+T, +E> = Ok(value: T) | Err(error: E)
}
